=== FILE: README.md ===
# gym-gridverse kernel in Dafny

A functional model of the kernel of gym-gridverse, a library of grid-world
environments for reinforcement learning. A state is a grid of objects plus an
agent: a position, an orientation and the object it holds. The model covers
these parts:

- the geometry of positions, orientations and areas;
- the grid and its cut-out, rotated views;
- the agent and the object catalogue;
- the visibility functions and the observations built on them;
- the state, action and observation spaces and their builders;
- the transition, reward and terminating functions, with their factories;
- the reset functions that build the stock environments, with their factory;
- `GridWorld`, which checks every state and observation against its spaces;
- `InnerEnv`, which keeps the current state and caches the observation;
- the keyword-argument helpers and the function registry.

Every Python exception becomes a `Failure` of `Wrappers.Result`, named by its
exception class. In-place mutation becomes a function from the old value to
the new one.

A NumPy random generator becomes `Rng.Rng`: a finite stream of raw draws that
each random operation consumes. Each reset and each stochastic transition
takes a generator and hands back what is left of it, so a proof about "any
outcome of the draw" is a proof for every stream.

Rewards are `real`. Object identity is value equality. The sections below say
what that changes.

Each module is one file:

| file | module |
|---|---|
| wrappers.dfy | `Wrappers` |
| seqs.dfy | `Seqs` |
| actions.dfy | `Actions` |
| geometry.dfy | `Geometry` |
| grid_objects.dfy | `GridObjects` |
| grid.dfy | `Grids` |
| agents.dfy | `Agents` |
| env_utils.dfy | `EnvUtils` |
| design.dfy | `Design` |
| rng.dfy | `Rng` |
| kwargs.dfy | `Kwargs` |
| registry.dfy | `Registry` |
| spaces.dfy | `Spaces` |
| space_builders.dfy | `SpaceBuilders` |
| visibility.dfy | `Visibility` |
| observation_functions.dfy | `ObservationFunctions` |
| transitions.dfy | `Transitions` |
| shortest_path.dfy | `ShortestPaths` (the `dijkstra` of the reward functions) |
| rewards.dfy | `Rewards` |
| reward_properties.dfy | `RewardProperties` |
| terminating.dfy | `Terminating` |
| terminating_properties.dfy | `TerminatingProperties` |
| resets.dfy | `Resets` (empty, dynamic obstacles, keydoor, teleport, memory) |
| reset_rooms.dfy | `RoomResets` (rooms, memory rooms) |
| reset_crossing.dfy | `CrossingResets` |
| reset_properties.dfy | `ResetProperties` |
| reset_factory.dfy | `ResetFactory` |
| gridworld.dfy | `GridWorlds` |
| inner_env.dfy | `InnerEnvs` |

## Model

| member | source | states |
|---|---|---|
| Actions.Value | gym_gridverse/action.py:6-29 | the actions are numbered 0..7 in declaration order, each value distinct |
| Actions.FromValue | gym_gridverse/action.py:6-29 | an integer names an action exactly when it is 0..7, and then names the action with that value |
| Actions.ValueRoundTrip | gym_gridverse/action.py:6-29 | value and action convert into each other both ways |
| Actions.Classification | gym_gridverse/action.py:32-41 | the translation actions are exactly the four moves; the rotation actions are exactly the two turns; actuate and pick-and-drop are neither |
| Geometry.Add | gym_gridverse/geometry.py:42-44 | the sum is the translation of the position by the delta: subtracting the delta gives the position back |
| Geometry.RotateLeft | gym_gridverse/geometry.py:83-91 | a counter-clockwise quarter turn is undone by a clockwise one |
| Geometry.RotateRight | gym_gridverse/geometry.py:93-101 | a clockwise quarter turn always changes the orientation |
| Geometry.RotateBack | gym_gridverse/envs/state_dynamics.py:49 | the reversed orientation is two quarter turns away, differing from the start and from both single turns |
| Geometry.Isometries | gym_gridverse/geometry.py:65-81 | `as_delta_position(dist)` has Manhattan length `dist`, and rotating a delta keeps its length |
| Geometry.RotateDeltaInverse | tests/test_geometry.py:261-311 | rotating a delta into an orientation and then back by the inverse rotation gives the delta back |
| Geometry.RelativeDirections | gym_gridverse/info.py:260-266 | the delta `dist` cells ahead in an orientation is the north delta `dist` cells ahead, rotated into that orientation |
| Geometry.RelativeTurns | tests/test_geometry.py:261-294 | the unit step after a right turn, left turn or reversal is the east, west or south unit step rotated into the agent's orientation |
| Geometry.RotationCycles | gym_gridverse/geometry.py:83-101 | four quarter turns either way give the orientation back, and a left turn undoes a right turn |
| Geometry.Translate | tests/test_geometry.py:76-85 | translating an area keeps its size, and a position is inside it exactly when the translated position is inside the result |
| Geometry.Rotate | tests/test_geometry.py:87-98 | rotating an area gives a normalised area of the same size, with height and width swapped for E and W |
| Geometry.Positions | gym_gridverse/grid.py:95-97 | the positions of an area are exactly the positions it contains, in row-major order, without repeats |
| Geometry.RotateContains | gym_gridverse/info.py:268-276 | a position lies in an area exactly when its rotation lies in the rotated area |
| Geometry.ManhattanBoundary | gym_gridverse/geometry.py:104-141 | the boundary holds only cells at exactly the given Manhattan distance, with no repeats, and has 4·distance cells |
| Geometry.BoundaryComplete | gym_gridverse/geometry.py:104-141 | the four diagonal runs of `d` cells around a position cover every cell at distance `d` |
| Geometry.UnitBoundary | tests/test_geometry.py:142-161 | at distance one the boundary is up, right, down, left, in that order |
| Agents.MakeAgent | gym_gridverse/info.py:224-240 | a new agent has the given pose and holds a NoneGridObject unless given an object |
| Agents.AgentEquality | gym_gridverse/info.py:250-258 | two agents are equal exactly when position, orientation and held object are |
| Agents.PositionRelative | gym_gridverse/info.py:260-262 | the absolute position of a relative delta is as far from the agent as the delta is from the origin |
| Agents.PositionInFront | gym_gridverse/info.py:264-266 | the cell in front is the neighbour one step in the facing direction |
| Agents.PovArea | gym_gridverse/info.py:268-276 | the absolute area is normalised, and a relative delta lies in the relative area exactly when its absolute position lies in the result |
| Grids.AxisIndex | gym_gridverse/envs/visibility_functions.py:120-121 | NumPy indexing along one axis accepts exactly `[-n, n)`, and a negative index counts from the end |
| Grids.GridPositions | gym_gridverse/grid.py:95-97 | the grid positions are exactly the cells, in row-major order, without repeats |
| Grids.NewGrid | gym_gridverse/grid.py:20-31 | a new grid has the given shape and Floor in every cell |
| Grids.Get | gym_gridverse/grid.py:118-124 | reading a cell succeeds exactly inside the grid and gives its object; outside it raises IndexError |
| Grids.Update | gym_gridverse/grid.py:126-136 | writing a cell changes that cell and no other, and keeps the shape |
| Grids.Set | gym_gridverse/grid.py:126-136 | a write succeeds exactly inside the grid, with `Update`'s effect; outside it raises IndexError |
| Grids.Swap | gym_gridverse/grid.py:138-146 | a swap exchanges the two cells and changes nothing else; a position outside raises ValueError |
| Grids.SwapObjects | gym_gridverse/grid.py:138-146 | a swap keeps the multiset of objects in the grid |
| Grids.UpdateObjects | gym_gridverse/grid.py:126-136 | a write takes the old object out of the multiset and puts the new one in |
| Grids.FromObjects | gym_gridverse/grid.py:41-57 | a rectangular matrix with at least one row builds a grid holding it cell for cell; no rows raise TypeError; ragged rows raise ValueError |
| Grids.ToObjects | gym_gridverse/grid.py:59-60 | the matrix has one row per grid row, holding the grid's cells |
| Grids.ObjectsRoundTrip | gym_gridverse/grid.py:41-60 | converting a grid to objects and back gives the grid back |
| Grids.Equality | gym_gridverse/grid.py:62-73 | grids are equal exactly when shapes and all cells are |
| Grids.GetPosition | gym_gridverse/grid.py:107-112 | the result holds the object and no earlier cell in row-major order does; ValueError exactly when no cell holds it |
| Grids.ObjectKinds | gym_gridverse/grid.py:114-116 | a class is present exactly when some cell holds an object of it |
| Grids.Subgrid | gym_gridverse/grid.py:148-176 | the cut-out has the area's shape; a cell shows the grid cell it stands for, or Hidden where that cell is outside the grid |
| Grids.Rotated | gym_gridverse/grid.py:178-204 | the rotated grid has the shape turned for E and W, and every cell moves to its rotated position |
| Grids.ChangeOrientation | gym_gridverse/grid.py:178-204 | a grid with no rows raises ValueError for every orientation, since its array is one-dimensional and `rot90` refuses it; otherwise the grid rotated for the viewer, or TypeError when the rotation has no row (no columns, turned E or W) |
| Grids.RotatedCells | gym_gridverse/grid.py:178-204 | each cell of the rotated grid is the original cell at the inversely rotated position |
| Grids.RotationInverses | gym_gridverse/grid.py:178-204 | facing N leaves the grid unchanged, and rotating back by the inverse rotation restores it |
| Grids.RotatedPositionInverse | gym_gridverse/grid.py:178-204 | the position rotation is undone by the inverse rotation |
| GridObjects.AsArray | gym_gridverse/grid_object.py:60-62 | the encoding is a triple; `AsArrayInjective` shows it tells any two non-box objects apart |
| GridObjects.Capabilities | tests/test_grid_objects.py:40-284 | each class has the transparency, blocking and pick-up flags its tests fix, and a door's flags follow its status |
| GridObjects.IndicesWellFormed | tests/test_grid_objects.py:40-150 | distinct classes have distinct type indices, and a state index is below the class's number of states |
| GridObjects.AsArrayInjective | gym_gridverse/grid_object.py:60-62 | two objects that are not boxes with the same encoding are equal |
| GridObjects.ColorValueInjective | gym_gridverse/grid_object.py:9-16 | distinct colours have distinct values |
| EnvUtils.UpdatedAgentPositionIfUnobstructed | gym_gridverse/envs/utils.py:5-32 | a move action lands on a neighbouring cell; any other action leaves the position unchanged |
| EnvUtils.MoveDirectionStep | gym_gridverse/envs/utils.py:24-32 | a move's absolute step is its agent-frame step rotated into the agent's orientation |
| EnvUtils.MoveDirections | gym_gridverse/envs/utils.py:24-32 | a move lands at the agent's position plus the move's agent-frame step rotated into the agent's orientation |
| Design.BorderPositions | gym_gridverse/grid.py:99-101 | the border positions are exactly the area cells on its first or last row or column, without repeats |
| Design.DrawAll | gym_gridverse/design.py:19-21 | drawing succeeds exactly when every position is in the grid; then each drawn cell holds the object and every other cell is unchanged; otherwise IndexError |
| Design.DrawArea | gym_gridverse/design.py:15-23 | the returned positions are distinct and are exactly the area (filled) or its border; they hold the object, the rest is unchanged; an off-grid one raises IndexError |
| Design.DrawRoom | gym_gridverse/design.py:8-12 | a room is the area's border drawn, with `DrawArea`'s guarantees |
| Design.RowRun | gym_gridverse/design.py:31 | the run has `hi - lo + 1` cells, or none when `lo > hi`; they are exactly the cells of row `y` from `lo` to `hi`, without repeats |
| Design.ColumnRun | gym_gridverse/design.py:43 | the column analogue of `RowRun` |
| Design.DrawLineHorizontal | gym_gridverse/design.py:26-35 | the line covers row `y` from min(xs) to max(xs), without repeats; cells off it are unchanged; empty `xs` raises ValueError, an off-grid cell IndexError |
| Design.DrawLineVertical | gym_gridverse/design.py:38-47 | the column analogue of `DrawLineHorizontal` |
| Design.DrawWallBoundary | gym_gridverse/envs/reset_functions.py:62-63 | every border cell becomes a wall and every interior cell is unchanged |
| Design.DrawTwice | gym_gridverse/design.py:15-23 | drawing the same positions twice equals drawing them once |
| Design.ThinAreaIsAllBorder | gym_gridverse/design.py:15-23 | for an area at most two cells high or wide, drawing it filled and as a room give the same result |
| Design.HorizontalLineIsArea | gym_gridverse/design.py:26-35 | a horizontal line is the one-row area between min(xs) and max(xs), drawn filled |
| Design.VerticalLineIsArea | gym_gridverse/design.py:38-47 | a vertical line is the one-column area between min(ys) and max(ys), drawn filled |
| Rng.Choice | gym_gridverse/envs/transition_functions.py:225-230 | a choice is one of the candidates; an empty candidate list raises ValueError |
| Rng.ChoiceReachable | gym_gridverse/envs/transition_functions.py:219-230 | every candidate is the outcome of some generator, so no candidate is excluded |
| Rng.Integers | gym_gridverse/envs/reset_functions.py:141 | the result lies in `[low, high)`; an empty range raises ValueError |
| Rng.IntegersInclusive | gym_gridverse/envs/reset_functions.py:66-67 | with `endpoint=True` the result lies in `[low, high]`; an empty range raises ValueError |
| Rng.Sample | gym_gridverse/envs/reset_functions.py:151-159 | `k` elements drawn without replacement: each a candidate, none taken more often than it occurs among the candidates; a negative `k` or too few candidates raise ValueError |
| Rng.SampleDistinct | gym_gridverse/envs/reset_functions.py:151-159 | drawing without replacement from distinct candidates gives distinct elements |
| Seqs.Filter | gym_gridverse/grid.py:95-97 | the filtered list keeps exactly the elements satisfying the test, each no more often than in the input |
| Seqs.FilterDistinct | gym_gridverse/grid.py:95-97 | filtering a list without repeats gives a list without repeats |
| Seqs.FilterAll | gym_gridverse/grid.py:95-97 | a filter every element passes returns the list unchanged |
| Seqs.FilterFirst | gym_gridverse/grid.py:107-112 | the first kept element is the earliest element satisfying the test |
| Seqs.Range | gym_gridverse/design.py:31 | `range(lo, hi)` holds exactly the integers from `lo` up to but excluding `hi`, in order |
| Seqs.SeqMin | gym_gridverse/design.py:30 | `min` of a non-empty list is an element and bounds all elements from below |
| Seqs.SeqMax | gym_gridverse/design.py:30 | `max` of a non-empty list is an element and bounds all elements from above |
| Wrappers.Collect | gym_gridverse/envs/reward_functions.py:56-59 | collecting succeeds exactly when every result does, and then gives the values one for one, in order |
| Wrappers.CollectFailure | gym_gridverse/envs/reward_functions.py:56-59 | a failed collection raises the error of a failing result all of whose predecessors succeed |
| Wrappers.CollectFails | gym_gridverse/envs/reward_functions.py:56-59 | when every result before position `k` succeeds and result `k` fails, collecting raises result `k`'s error |
| Wrappers.CollectSucceeds | gym_gridverse/envs/reward_functions.py:56-59 | results that all succeed are collected as their values, in order |
| Wrappers.CollectAppend | gym_gridverse/envs/reward_functions.py:56-59 | collecting two lists one after the other: the first error of the first list, then of the second, else the concatenated values |
| Kwargs.CheckraiseKwargs | gym_gridverse/utils/functions.py:5-8 | ValueError exactly when a required key is absent; only presence counts |
| Kwargs.SelectKwargs | gym_gridverse/utils/functions.py:11-12 | the selection keeps exactly the listed keys that are present, with their values |
| Kwargs.SelectIdempotent | gym_gridverse/utils/functions.py:11-12 | selecting twice with the same keys is selecting once |
| Kwargs.CheckAfterSelect | gym_gridverse/envs/reward_functions.py:504-509 | the required-key check passes on the keywords selected for the required and optional keys exactly when it passes on all the keywords |
| Kwargs.Split | gym_gridverse/utils/functions.py:20 | `str.split` gives at least one piece, and no piece contains the separator |
| Kwargs.SplitCount | gym_gridverse/utils/functions.py:20 | a split has one piece more than the string has separators |
| Kwargs.JoinSplit | gym_gridverse/utils/functions.py:20 | joining the pieces with the separator gives the string back |
| Kwargs.SplitJoin | gym_gridverse/utils/functions.py:20 | splitting a join of separator-free pieces gives the pieces back |
| Kwargs.CustomFunctionName | gym_gridverse/utils/functions.py:19-29 | `module:function` unpacks exactly when the name has one colon, into the two colon-free parts; otherwise ValueError |
| Kwargs.CustomFunctionNameRoundTrip | gym_gridverse/utils/functions.py:19-29 | every pair of colon-free names is recovered from its joined form |
| Registry.Register | gym_gridverse/utils/registry.py:30-44 | a non-callable raises TypeError; then a rejected signature raises its error; then a taken name raises ValueError; otherwise the name maps to the function and nothing else changes |
| Registry.RegisterOnce | gym_gridverse/utils/registry.py:39-41 | registering a name a second time fails with ValueError and keeps the first function |
| Registry.RegisterCommutes | gym_gridverse/utils/registry.py:30-44 | registrations under different names commute |
| Spaces.MaxKey | gym_gridverse/spaces.py:11-44 | `max` over a non-empty list is attained by an element and bounds all; an empty list raises ValueError |
| Spaces.MaximaExamples | gym_gridverse/spaces.py:11-44 | the largest type index, status count and colour value of sample class and colour lists |
| Spaces.StateContainsCells | gym_gridverse/spaces.py:60-69 | a state is in the space exactly when the shapes agree, every cell's class is declared, the agent is on the grid, and it holds a declared class or nothing |
| Spaces.SetKeepsState | gym_gridverse/spaces.py:60-69 | writing an object of a declared class into a cell keeps a state in the space |
| Spaces.MaxAgentObjectType | gym_gridverse/spaces.py:102-105 | the agent's largest type index bounds every declared class and NoneGridObject |
| Spaces.MaxAgentObjectStatus | gym_gridverse/spaces.py:107-110 | the agent's largest status count is non-negative and bounds every declared class |
| Spaces.AgentStateSize | gym_gridverse/spaces.py:71-79 | height, width, the agent's maxima and a colour bound; a space without colours raises ValueError |
| Spaces.IntToAction | gym_gridverse/spaces.py:121-122 | list indexing: defined exactly on `[-n, n)`, a negative index counting from the end; otherwise IndexError |
| Spaces.ActionToInt | gym_gridverse/spaces.py:124-125 | the first index holding the action; ValueError exactly when the action is absent |
| Spaces.IndexRoundTrip | gym_gridverse/spaces.py:121-125 | with distinct actions, index → action → index gives the index, counted from the front |
| Spaces.ActionRoundTrip | gym_gridverse/spaces.py:121-125 | action → index → action gives the action |
| Spaces.ObservationArea | tests/test_spaces.py:126-137 | the observed area is normalised, has the observation's shape, and ends at the agent's row |
| Spaces.AgentAtOrigin | tests/test_spaces.py:140-153 | the agent's observation cell is the origin of the relative area, and it lies inside it |
| Spaces.ObservationAreaCentred | tests/test_spaces.py:126-153 | for an odd width the observed area spans rows 1-h..0 and columns -(w/2)..w/2, and the agent sits at (h-1, w/2) of the observation |
| Spaces.ObservationContainsAsWrittenNothing | gym_gridverse/spaces.py:146-157 | as written, the observation space contains no observation whose agent has a position and an orientation, which every observed agent has |
| Spaces.ObservationContainsCells | gym_gridverse/spaces.py:146-157 | corrected check: shapes agree, every cell is of a declared class or Hidden, the agent stands on the grid facing N, and it holds a declared class or nothing |
| SpaceBuilders.Settings | gym_gridverse/utils/space_builders.py:24-41 | succeeds exactly when grid shape, object types and colours are all set, and then gives them; otherwise RuntimeError |
| SpaceBuilders.BuildStateSpace | gym_gridverse/utils/space_builders.py:24-41 | builds the state space of exactly the set values; RuntimeError when one is missing |
| SpaceBuilders.BuildObservationSpace | gym_gridverse/utils/space_builders.py:59-76 | builds the observation space of exactly the set values; RuntimeError when one is missing |
| SpaceBuilders.BuildRoundTrip | gym_gridverse/utils/space_builders.py:9-76 | setting shape, object types and colours, in any of several orders, builds the space holding exactly those values |
| SpaceBuilders.MissingSetting | gym_gridverse/utils/space_builders.py:24-76 | a fresh builder missing any one setting raises RuntimeError |
| Visibility.MaskOf | gym_gridverse/envs/visibility_functions.py:51 | the mask has the given shape and shows exactly the cells the predicate accepts |
| Visibility.Seen | gym_gridverse/envs/visibility_functions.py:51 | a mask's visible set is exactly its true in-range cells |
| Visibility.FullMask | gym_gridverse/envs/visibility_functions.py:29-36 | the mask has the grid's shape and every cell is visible |
| Visibility.PartialMask | gym_gridverse/envs/visibility_functions.py:39-105 | NotImplementedError off the bottom row; IndexError off the grid; otherwise the agent's cell is visible, and a cell is visible by the front, right, left and diagonal rules |
| Visibility.PartialColumn | gym_gridverse/envs/visibility_functions.py:54-57 | a cell in the agent's column is visible exactly when every cell below it down to the agent's is transparent |
| Visibility.PartialRow | gym_gridverse/envs/visibility_functions.py:59-67 | a cell in the agent's row is visible exactly when every cell between it and the agent, and the agent's, is transparent |
| Visibility.PartialAllTransparent | gym_gridverse/envs/visibility_functions.py:39-105 | when no cell blocks the view, every cell is visible |
| Visibility.Light | gym_gridverse/envs/visibility_functions.py:125-136 | one lighting step adds only the lit cell's neighbour in the sweep direction and the two above them, and only when it is lit |
| Visibility.SweepRight | gym_gridverse/envs/visibility_functions.py:124-129 | the left-to-right pass only adds cells of its row and the row above |
| Visibility.SweepLeft | gym_gridverse/envs/visibility_functions.py:131-136 | the right-to-left pass only adds cells of its row and the row above |
| Visibility.SweepRow | gym_gridverse/envs/visibility_functions.py:123-136 | both passes over a row add only cells of that row and the row above |
| Visibility.SweepRows | gym_gridverse/envs/visibility_functions.py:123-136 | the row loop from the bottom up adds only cells at or above its start |
| Visibility.MinigridMask | gym_gridverse/envs/visibility_functions.py:108-138 | NotImplementedError off the bottom row; IndexError when the column is out of NumPy range; otherwise a mask of the grid's shape |
| Visibility.MinigridSound | gym_gridverse/envs/visibility_functions.py:120-136 | the agent's cell is visible, and every other visible cell is lit from a visible transparent cell beside it or below it |
| Visibility.MinigridClosed | gym_gridverse/envs/visibility_functions.py:123-136 | on a grid two or more wide, each in-grid cell beside a visible transparent cell, or above it straight or diagonally, is visible |
| Visibility.MinigridNarrow | gym_gridverse/envs/visibility_functions.py:123-136 | on a one-column grid only the agent's cell is visible |
| Visibility.Apply | gym_gridverse/envs/visibility_functions.py:29-138 | full, partial and minigrid compute their masks; the raytracing pair is an outside parameter |
| Visibility.Factory | gym_gridverse/envs/visibility_functions.py:203-220 | a built function has the requested name; any other name raises ValueError |
| Visibility.FactoryRoundTrip | gym_gridverse/envs/visibility_functions.py:203-220 | every visibility function is built back from its name |
| Visibility.FactoryRejects | gym_gridverse/envs/visibility_functions.py:220 | a name that is no function's raises ValueError |
| ObservationFunctions.HideUnseen | gym_gridverse/envs/observation_functions.py:55-57 | a cell keeps its object where the mask shows it and becomes Hidden elsewhere; the shape is kept |
| ObservationFunctions.ViewArea | gym_gridverse/envs/observation_functions.py:41 | the absolute area observed is the agent's point-of-view area; its size is the observation's, turned for E and W |
| ObservationFunctions.View | gym_gridverse/envs/observation_functions.py:41-44 | the rotated cut-out has the observation shape |
| ObservationFunctions.ViewCells | gym_gridverse/envs/observation_functions.py:41-44 | cell `t` shows the state cell at the position `t` stands for relative to the agent, or Hidden off the grid |
| ObservationFunctions.FromVisibility | gym_gridverse/envs/observation_functions.py:34-62 | full, partial and minigrid never fail; a failing visibility function's error passes through, and a mask of the wrong shape raises ValueError; otherwise the grid has the observation shape, each cell shows the view where the mask is set and Hidden where it is not; the agent sits at the observation's agent position facing N holding what it holds; under full visibility the grid is the view |
| ObservationFunctions.FullObservationShowsAgentCell | gym_gridverse/envs/observation_functions.py:34-62 | under full visibility the agent's observation cell shows what the agent stands on |
| ObservationFunctions.ViewShowsAgentCell | gym_gridverse/envs/observation_functions.py:41-44 | the view contains the agent's observation position and shows there the agent's own cell |
| ObservationFunctions.ObservationInSpace | gym_gridverse/envs/observation_functions.py:34-62 | an observation of a state in a state space with the same classes lies in the corrected observation space (agent on the grid, facing N) |
| ObservationFunctions.ObservedCellsDeclared | gym_gridverse/envs/observation_functions.py:55-57 | a grid of view cells or Hidden holds only declared classes and Hidden |
| ObservationFunctions.ParseObservationName | gym_gridverse/envs/observation_functions.py:65-87 | a parsed name is the name of that observation function; an unparsed name is no function's name |
| ObservationFunctions.Factory | gym_gridverse/envs/observation_functions.py:90-169 | `from_visibility` needs space and visibility; a named function needs the space; otherwise ValueError; the result binds what was given |
| ObservationFunctions.NamedIsFromVisibility | gym_gridverse/envs/observation_functions.py:65-87 | each named function is `from_visibility` with its visibility function, whatever visibility argument comes along |
| Transitions.MoveAgent | gym_gridverse/envs/transition_functions.py:62-87 | the agent moves exactly when the action is a move and the intended cell is in the grid and not blocking, and then onto that neighbouring cell; orientation and held object never change |
| Transitions.RotateAgent | gym_gridverse/envs/transition_functions.py:90-110 | a turn changes only the orientation, by a quarter turn; other actions change nothing |
| Transitions.UpdateAgent | gym_gridverse/envs/transition_functions.py:113-139 | the grid and held object are never touched; turns rotate, moves move, other actions change nothing |
| Transitions.UpdateAgentKeepsAgentOnFloorplan | gym_gridverse/envs/transition_functions.py:62-139 | an agent on an enterable cell stays on one after any update |
| Transitions.PickupMechanics | gym_gridverse/envs/transition_functions.py:142-190 | only pick-and-drop acts; a key in front is picked up, swapping with the held object; a held object is dropped onto Floor; nothing else changes; an off-grid front raises IndexError |
| Transitions.PickupConservesItems | gym_gridverse/envs/transition_functions.py:142-190 | pick-and-drop only moves objects between grid and hand: for every object other than Floor and NoneGridObject, its count over the grid cells and the hand is unchanged |
| Transitions.PickNDropHand | gym_gridverse/envs/transition_functions.py:174-190 | afterwards the hand holds the key that was in front, or nothing after putting down onto Floor, or what it held |
| Transitions.PickupHoldsOnlyKeys | gym_gridverse/envs/transition_functions.py:174-190 | an agent holding nothing or a key still does afterwards |
| Transitions.ActuateDoor | gym_gridverse/envs/transition_functions.py:258-299 | an unlocked door opens; a locked one opens only with a key of its colour; an open one stays open; nothing else changes; an off-grid front is ignored |
| Transitions.ActuateDoorIdempotent | gym_gridverse/envs/transition_functions.py:258-299 | actuating twice equals actuating once |
| Transitions.ActuateBox | gym_gridverse/envs/transition_functions.py:302-332 | a box in front is replaced by its content; nothing else changes |
| Transitions.ActuateBoxObjects | gym_gridverse/envs/transition_functions.py:302-332 | opening a box trades one box for one of its content in the multiset of cells |
| Transitions.TelepodTargets | gym_gridverse/envs/transition_functions.py:348-354 | the targets are exactly the other cells holding a telepod of that colour |
| Transitions.StepTelepod | gym_gridverse/envs/transition_functions.py:335-355 | an agent off the grid raises IndexError; on a telepod with no partner of its colour, ValueError; on a telepod the agent lands on another telepod of the same colour, keeping orientation and held object; off a telepod nothing changes |
| Transitions.FloorNeighbours | gym_gridverse/envs/transition_functions.py:219-223 | the candidates are exactly the in-grid Floor cells next to the obstacle |
| Transitions.StepMovingObstacle | gym_gridverse/envs/transition_functions.py:211-230 | the obstacle swaps with a Floor neighbour, or stays when it has none; the multiset of cells is kept |
| Transitions.StayStep | gym_gridverse/envs/transition_functions.py:219-230 | an obstacle with no Floor neighbour stays where it is and the grid is unchanged |
| Transitions.SwapStep | gym_gridverse/envs/transition_functions.py:225-230 | an obstacle swapped with a Floor neighbour stands there, Floor takes its old cell, and nothing else changes |
| Transitions.StepObstaclesAlong | gym_gridverse/envs/transition_functions.py:193-208 | every obstacle met along the walk is stepped once, and the trace records each step on the grid it was made on |
| Transitions.WalkSources | gym_gridverse/envs/transition_functions.py:193-208 | the walk steps exactly the cells that held an obstacle at the start, in row-major order |
| Transitions.StepMovingObstacles | gym_gridverse/envs/transition_functions.py:233-255 | only obstacles move; the multiset of cells is kept |
| Transitions.EachObstacleStepsOnce | gym_gridverse/envs/transition_functions.py:193-255 | each starting obstacle moves once, in row-major order, at most one cell; each move is a step on the grid the earlier moves left |
| Transitions.Apply | gym_gridverse/envs/transition_functions.py:37-56 | running a transition function (a primitive or a chain) fails only with IndexError or ValueError, keeps the grid's shape, and hands back the generator untouched when no member draws from it |
| Transitions.ApplyPrimitive | gym_gridverse/envs/transition_functions.py:142-356 | a primitive fails exactly when `pickup_mechanics` reads the cell in front of an agent facing off the grid, or `step_telepod` fails; otherwise it keeps the grid's shape, and one that never draws leaves the generator untouched |
| Transitions.ApplyFrom | gym_gridverse/envs/transition_functions.py:37-56 | the tail of a chain from member i: nothing past the end changes the state or generator, errors are IndexError or ValueError, the grid keeps its shape, and a tail of non-drawing members leaves the generator untouched |
| Transitions.ChainConcatenation | gym_gridverse/envs/transition_functions.py:37-56 | a chain of `fs + gs` runs the chain of `fs`, then the chain of `gs` |
| Transitions.ChainUnits | gym_gridverse/envs/transition_functions.py:37-56 | the empty chain changes nothing, and a one-element chain is its element |
| Transitions.Factory | gym_gridverse/envs/transition_functions.py:358-387 | a known name builds the function of that name; `chain` needs its list; other names raise ValueError |
| Transitions.FactoryRoundTrip | gym_gridverse/envs/transition_functions.py:358-387 | every transition function is rebuilt from its name, a chain from its list |
| ShortestPaths.NeighboursAdjacent | gym_gridverse/envs/reward_functions.py:286-288 | the four expansion offsets give exactly the adjacent cells, and adjacency is symmetric |
| ShortestPaths.Dijkstra | gym_gridverse/envs/reward_functions.py:272-300 | the distances have the layout's shape and the source's cell at 0; from a source in the layout every other reached cell is passable with a neighbour one closer; a coordinate in [-n, 0) wraps: the wrapped cell is at 0 and, with no passable in-range neighbour of the raw source, no other cell is reached, else the entry neighbour is at 1 and every other reached cell is passable next to a cell one closer other than the wrapped one; a coordinate outside [-n, n) raises IndexError |
| ShortestPaths.Home | gym_gridverse/envs/reward_functions.py:277-280 | the cell NumPy marks visited and at 0 for the source: each coordinate in [-n, 0) wrapped, the source itself when it is in the layout, none outside [-n, n) |
| ShortestPaths.Entry | gym_gridverse/envs/reward_functions.py:283-298 | the one neighbour of a wrapped source the first expansion enqueues: in the layout, passable and not the wrapped cell; when there is none, no neighbour qualifies |
| ShortestPaths.Blocked | gym_gridverse/envs/reward_functions.py:277-278 | the wrapped cell, visited from the start, is never entered; every other cell is as passable as before |
| ShortestPaths.FromWrapped | gym_gridverse/envs/reward_functions.py:277-298 | the search from a wrapped source: the wrapped cell at 0, the entry at 1, every other reached cell passable next to a cell one closer other than the wrapped one; nothing else reached without an entry |
| ShortestPaths.ShiftedSound | gym_gridverse/envs/reward_functions.py:283-298 | a search from the entry with the wrapped cell walled off, one further everywhere, meets the wrapped-source invariant |
| ShortestPaths.ShiftedStep | gym_gridverse/envs/reward_functions.py:290-298 | in that search, a reached cell other than the entry and the wrapped cell has a neighbour one closer that is not the wrapped cell |
| ShortestPaths.WrappedShifted | gym_gridverse/envs/reward_functions.py:277-298 | from a wrapped source, every cell other than the wrapped one is one further than the search from the entry with the wrapped cell walled off, or unreached without an entry |
| ShortestPaths.WrappedShortestPaths | gym_gridverse/envs/reward_functions.py:272-300 | from a wrapped source, a cell other than the wrapped one is reached exactly when a walk from the entry reaches it avoiding the wrapped cell, at one more than the shortest such walk |
| ShortestPaths.ShiftedPaths | gym_gridverse/envs/reward_functions.py:272-300 | a distance one further than the search from a cell is infinite exactly when no walk reaches the target, and otherwise one more than the shortest walk |
| ShortestPaths.EnqueuedOnce | gym_gridverse/envs/reward_functions.py:277-298 | each cell joins the queue at most once, and exactly the reached cells do |
| ShortestPaths.Search | gym_gridverse/envs/reward_functions.py:277-298 | the search's final distances and queue order satisfy the breadth-first invariant with the whole queue processed |
| ShortestPaths.StepPreservesInv | gym_gridverse/envs/reward_functions.py:290-298 | expanding the head of the queue keeps the breadth-first invariant, and the unreached cells plus queue length are conserved |
| ShortestPaths.BfsLoopInv | gym_gridverse/envs/reward_functions.py:284-298 | the loop run to an empty queue ends with the invariant holding for the whole queue |
| ShortestPaths.DijkstraOptimal | gym_gridverse/envs/reward_functions.py:272-300 | no walk over passable cells from the source is shorter than the computed distance |
| ShortestPaths.DijkstraWitness | gym_gridverse/envs/reward_functions.py:272-300 | every finite distance is the length of some walk from the source |
| ShortestPaths.DijkstraShortestPaths | gym_gridverse/envs/reward_functions.py:272-300 | a finite distance is the length of a shortest walk, and it is infinite exactly when no walk reaches the cell |
| Rewards.KindPositions | gym_gridverse/envs/reward_functions.py:217-221 | exactly the cells holding an object of the class, without repeats |
| Rewards.UniquePosition | gym_gridverse/envs/reward_functions.py:217-221 | `mitt.one`: the one cell holding the class; ValueError when there is none or several |
| Rewards.ArrayAt | gym_gridverse/envs/reward_functions.py:338 | NumPy reading of the distance array: a negative index counts from the end; out of range raises IndexError |
| Rewards.OverlapReward | gym_gridverse/envs/reward_functions.py:90-116 | `on` exactly when the agent's next cell holds the class, else `off`; an off-grid agent raises IndexError |
| Rewards.ProportionalReward | gym_gridverse/envs/reward_functions.py:194-223 | the rate times the distance to the unique object of the next state; no unique object raises ValueError |
| Rewards.Progress | gym_gridverse/envs/reward_functions.py:262-268 | `closer` exactly on a strict decrease, `further` exactly on a strict increase, 0 otherwise |
| Rewards.CloserReward | gym_gridverse/envs/reward_functions.py:226-268 | compares the distances before and after, raising the first error in that order |
| Rewards.LayoutOf | gym_gridverse/envs/reward_functions.py:333-336 | a cell is passable exactly when its object does not block |
| Rewards.PathDistance | gym_gridverse/envs/reward_functions.py:326-338 | the BFS distance from the unique object to the agent; ValueError without a unique object |
| Rewards.ShortestPathReward | gym_gridverse/envs/reward_functions.py:303-349 | the progress reward on navigation distances, infinity not closer than infinity |
| Rewards.WallReward | gym_gridverse/envs/reward_functions.py:352-380 | the reward exactly when the intended cell is in the grid and a wall, else 0 |
| Rewards.DoorReward | gym_gridverse/envs/reward_functions.py:383-424 | 0 unless actuating with a door in front in both states; then `open` exactly on not-open→open and `close` exactly on open→not-open |
| Rewards.PickReward | gym_gridverse/envs/reward_functions.py:427-457 | `pick` exactly when the hand starts holding the class, `drop` exactly when it stops, else 0 |
| Rewards.BeaconColor | gym_gridverse/envs/reward_functions.py:483-490 | the colour of the first beacon in row-major order; StopIteration when there is none |
| Rewards.MemoryReward | gym_gridverse/envs/reward_functions.py:460-496 | on an exit, `good` exactly when its colour is the beacon colour, else `bad`; 0 off exits; IndexError before StopIteration |
| Rewards.Results | gym_gridverse/envs/reward_functions.py:56-59 | the member rewards of a reduction, in order, one per member |
| Rewards.GeneratorError | gym_gridverse/envs/reward_functions.py:55-58 | an error raised inside the generator leaves it unchanged, except StopIteration, which leaves as RuntimeError, so StopIteration never leaves |
| Rewards.Generated | gym_gridverse/envs/reward_functions.py:55-58 | the member rewards as the reduction reads them: the same values, or the first error as it leaves the generator |
| Rewards.Eval | gym_gridverse/envs/reward_functions.py:34-87 | a `reduce` or `reduce_sum` fails exactly when collecting its member rewards fails, with that error as it leaves the generator, never StopIteration |
| Rewards.ParseBuiltin | gym_gridverse/envs/reward_functions.py:504-597 | a parsed name is exactly a built-in's name |
| Rewards.Bind | gym_gridverse/envs/reward_functions.py:504-597 | binding complete, well-typed keywords gives a function of that name |
| Rewards.BuildBuiltin | gym_gridverse/envs/reward_functions.py:504-597 | ValueError exactly when a required keyword is missing; with all present, TypeError when one has the wrong kind; otherwise a function of that name |
| Rewards.BuildCustom | gym_gridverse/envs/reward_functions.py:597-598 | a `module:function` name with one colon builds the custom function with every keyword; otherwise ValueError |
| Rewards.Factory | gym_gridverse/envs/reward_functions.py:499-599 | built-in names build built-ins, other names go to the custom path, and a result has the requested name |
| Rewards.SelectedKwargs | gym_gridverse/envs/reward_functions.py:504-509 | the required-key check passes exactly when the binding is complete, before or after selection |
| RewardProperties.SumAppend | gym_gridverse/envs/reward_functions.py:62-87 | summing a concatenation sums the parts |
| RewardProperties.ResultsAt | gym_gridverse/envs/reward_functions.py:56-59 | entry `k` of the results is what member `k` pays |
| RewardProperties.ResultsAppend | gym_gridverse/envs/reward_functions.py:56-59 | the results of a concatenated member list are the two lists' results |
| RewardProperties.ReduceSumIsReduce | gym_gridverse/envs/reward_functions.py:62-87 | `reduce_sum` is `reduce` with `sum` |
| RewardProperties.ReduceSumConcat | gym_gridverse/envs/reward_functions.py:62-87 | summing two member lists: the first error of the first list, then of the second, else the sum of the sums |
| RewardProperties.SumOfCollected | gym_gridverse/envs/reward_functions.py:62-87 | `reduce_sum` sums the collected member rewards, or raises the first error, a StopIteration becoming RuntimeError as it leaves the generator |
| RewardProperties.StopIterationInsideReduction | gym_gridverse/envs/reward_functions.py:55-58 | with the agent on a grid holding no beacon, the memory reward alone raises StopIteration, and `reduce_sum` over it raises RuntimeError |
| RewardProperties.MissingBeaconInsideReduction | gym_gridverse/envs/reward_functions.py:480-490 | on a one-cell Floor grid with the agent at (0, 0), `reduce_sum([reach_exit_memory])` raises RuntimeError |
| RewardProperties.GettingCloserReversed | gym_gridverse/envs/reward_functions.py:226-268 | reversing a transition swaps the two rewards |
| RewardProperties.ShortestPathReversed | gym_gridverse/envs/reward_functions.py:303-349 | the same on navigation distances, infinity included, when both can be read |
| RewardProperties.ShortestPathValue | gym_gridverse/envs/reward_functions.py:340-349 | the navigation reward is the progress reward of the two distances |
| RewardProperties.NoChangeNoReward | gym_gridverse/envs/reward_functions.py:226-457 | a transition that changes nothing earns 0 from getting-closer, shortest-path, door and pick rewards, unless they raise |
| RewardProperties.ProportionalZeroOnTarget | gym_gridverse/envs/reward_functions.py:194-223 | with Manhattan distance and a non-zero rate, the reward is 0 exactly when the agent is on the object |
| RewardProperties.ManhattanZero | gym_gridverse/envs/reward_functions.py:194-199 | the Manhattan distance used as the default distance function is 0 exactly between equal positions |
| RewardProperties.DoorRewardUnderActuation | gym_gridverse/envs/reward_functions.py:383-424 | under the door dynamics, actuating pays `open` exactly when the door was closed and can be opened, else 0 |
| RewardProperties.DoorDynamicsNeverClose | gym_gridverse/envs/transition_functions.py:288-299 | the door dynamics never close a door, so `close` is never paid |
| RewardProperties.WallBumpBlocksMove | gym_gridverse/envs/reward_functions.py:371-380 | a move the wall reward punishes is one the movement dynamics refuse |
| RewardProperties.PickKeyReward | gym_gridverse/envs/reward_functions.py:427-457 | picking a key up with an empty hand pays `pick` |
| RewardProperties.DropKeyReward | gym_gridverse/envs/reward_functions.py:427-457 | putting a held key down onto Floor pays `drop` |
| RewardProperties.SwapKeyNoReward | gym_gridverse/envs/reward_functions.py:448-457 | swapping the held key for another pays 0 |
| RewardProperties.ParseBuiltinName | gym_gridverse/envs/reward_functions.py:504-597 | every built-in name parses back to its function |
| RewardProperties.BuiltinNamesHaveNoColon | gym_gridverse/envs/reward_functions.py:504-597 | no built-in name has a colon, so no `module:function` name shadows one |
| RewardProperties.FactoryRoundTrip | gym_gridverse/envs/reward_functions.py:499-599 | the factory rebuilds every reward function from its name and keywords |
| RewardProperties.CustomRoundTrip | gym_gridverse/envs/reward_functions.py:597-598 | a custom function with a one-colon name is rebuilt from its name and keywords |
| RewardProperties.BindRoundTrip | gym_gridverse/envs/reward_functions.py:504-597 | binding a built-in's spelled-out keywords gives it back |
| RewardProperties.BoundArgs | gym_gridverse/envs/reward_functions.py:504-597 | the keywords a built-in was bound with are complete and well typed, and bind to it again |
| RewardProperties.FactoryIgnoresExtraKeys | gym_gridverse/envs/reward_functions.py:504-597 | a built-in factory ignores keywords it does not know |
| Terminating.Eval | gym_gridverse/envs/terminating_functions.py:23-181 | an `overlap` reads the agent's cell before it tests the keyword, so an off-grid agent raises IndexError and, on the grid, a keyword that is not a class raises TypeError; otherwise true exactly when the cell's class is the keyword's; `reach_exit` and `bump_moving_obstacle` are overlaps; a `reduce` with a keyword of the wrong kind raises TypeError, and with the right kinds fails exactly when some member fails |
| Terminating.OverlapHolds | gym_gridverse/envs/terminating_functions.py:106-124 | true exactly when the agent's next cell holds the class; an off-grid agent raises IndexError |
| Terminating.AnyOf | gym_gridverse/envs/terminating_functions.py:50-75 | `any` is true exactly when some element is |
| Terminating.AllOf | gym_gridverse/envs/terminating_functions.py:78-103 | `all` is true exactly when every element is |
| Terminating.Results | gym_gridverse/envs/terminating_functions.py:44-47 | the member results of a reduction, in order, one per member: entry k is the result of member i + k |
| Terminating.AnyFrom | gym_gridverse/envs/terminating_functions.py:44-75 | `any` over the generator stops at the first true result; an error before it propagates |
| Terminating.AllFrom | gym_gridverse/envs/terminating_functions.py:44-47 | `all` over the generator stops at the first false result; an error before it propagates |
| Terminating.BuildReduceAsWritten | gym_gridverse/envs/terminating_functions.py:189-194 | as written: both required keywords are checked, then bound to `reduce_any` |
| Terminating.BuildReduce | gym_gridverse/envs/terminating_functions.py:189-194 | as intended: both keywords bound to the general reduction |
| Terminating.RequiredArg | gym_gridverse/envs/terminating_functions.py:196-215 | ValueError exactly when the required keyword is missing, else its value |
| Terminating.Factory | gym_gridverse/envs/terminating_functions.py:184-230 | known names build their function with required keywords checked; `module:function` builds the custom one; else ValueError |
| Terminating.FactoryAsWritten | gym_gridverse/envs/terminating_functions.py:184-230 | the factory as written: the corrected factory on every name but `reduce`, failing (ValueError) exactly when it does; a `reduce` it builds differs from the corrected one and raises TypeError on every call |
| TerminatingProperties.ResultsAt | gym_gridverse/envs/terminating_functions.py:44-47 | entry `k` of the results is what member `k` gives |
| TerminatingProperties.ReduceAnyIsOr | gym_gridverse/envs/terminating_functions.py:50-75 | `reduce_any` over succeeding members is their OR |
| TerminatingProperties.AnyFromOfSuccesses | gym_gridverse/envs/terminating_functions.py:44-75 | `any` over results that all succeed is the OR of their values |
| TerminatingProperties.AllFromOfSuccesses | gym_gridverse/envs/terminating_functions.py:78-103 | `all` over results that all succeed is the AND of their values |
| TerminatingProperties.ReduceAllIsAnd | gym_gridverse/envs/terminating_functions.py:78-103 | `reduce_all` over succeeding members is their AND |
| TerminatingProperties.ReduceAnyShortCircuits | gym_gridverse/envs/terminating_functions.py:44-75 | `reduce_any` stops at the first terminating member, so a later error never surfaces |
| TerminatingProperties.ReduceAllShortCircuits | gym_gridverse/envs/terminating_functions.py:78-103 | `reduce_all` stops at the first non-terminating member |
| TerminatingProperties.ReduceApplies | gym_gridverse/envs/terminating_functions.py:23-47 | `reduce` applies the reduction to the member values in order |
| TerminatingProperties.ReduceAgreesWithAny | gym_gridverse/envs/terminating_functions.py:23-75 | `reduce` with `any` agrees with `reduce_any` on succeeding members |
| TerminatingProperties.OverlapAgreesWithReward | gym_gridverse/envs/terminating_functions.py:106-124 | `overlap` terminates exactly where the overlap reward pays `on`, and raises where it raises |
| TerminatingProperties.OverlapReadsCellFirst | gym_gridverse/envs/terminating_functions.py:106-124 | `overlap` built with a keyword that is not a class raises IndexError when the agent is off the grid and TypeError when it is on it: the grid is indexed before `isinstance` checks the class |
| TerminatingProperties.NamedOverlaps | gym_gridverse/envs/terminating_functions.py:127-155 | `reach_exit` and `bump_moving_obstacle` are `overlap` with the exit and moving-obstacle classes |
| TerminatingProperties.WallAgreesWithReward | gym_gridverse/envs/terminating_functions.py:158-181 | `bump_into_wall` terminates exactly when the wall reward punishes |
| TerminatingProperties.ReduceAsWrittenAlwaysRaises | gym_gridverse/envs/terminating_functions.py:189-194 | as written, `reduce` builds, and every call of it raises TypeError |
| TerminatingProperties.ReduceFactoryReduces | gym_gridverse/envs/terminating_functions.py:23-47 | the corrected `reduce` applies the bound reduction to the bound members |
| TerminatingProperties.FactoryRoundTrip | gym_gridverse/envs/terminating_functions.py:184-230 | every built-in terminating function is rebuilt from its name and keywords |
| TerminatingProperties.CustomRoundTrip | gym_gridverse/envs/terminating_functions.py:226-228 | a one-colon `module:function` name builds the custom function with every keyword |
| Resets.Vacant | gym_gridverse/envs/reset_functions.py:191-196 | exactly the Floor cells outside `taken`, in row-major order, without repeats |
| Resets.WalledGrid | gym_gridverse/envs/reset_functions.py:62-63 | a grid of the shape with walls on the border and Floor inside |
| Resets.ExitPosition | gym_gridverse/envs/reset_functions.py:65-70 | the exit lies in the interior; without randomness it is at (h-2, w-2) and draws nothing |
| Resets.EmptyGrid | gym_gridverse/envs/reset_functions.py:62-72 | walls on the border, the exit at its cell, Floor elsewhere |
| Resets.ResetEmpty | gym_gridverse/envs/reset_functions.py:42-88 | ValueError below 4×4; otherwise the empty layout, the agent holding nothing, at (1,1) facing E or on a random Floor cell |
| Resets.EmptySpare | gym_gridverse/envs/reset_functions.py:74-85 | the empty layout always leaves a Floor cell for the agent |
| Resets.RandomAgent | gym_gridverse/envs/reset_functions.py:74-82 | an agent holding nothing on a Floor cell |
| Resets.ResetEmptyFixed | gym_gridverse/envs/reset_functions.py:65-88 | without randomness nothing is drawn, and the state is fixed: exit at (h-2, w-2), agent at (1,1) facing E |
| Resets.PlaceOnVacant | gym_gridverse/envs/reset_functions.py:191-210 | `n` distinct vacant cells get the object; every other cell is unchanged; too few cells raise ValueError |
| Resets.PlacedCount | gym_gridverse/envs/reset_functions.py:208-210 | writing over `n` distinct cells of a grid without the object leaves exactly `n` cells holding it |
| Resets.ResetDynamicObstacles | gym_gridverse/envs/reset_functions.py:167-212 | below 4×4, ValueError; then ValueError exactly when `n` is negative or exceeds the Floor cells other than the agent's; otherwise the `reset_empty` start with exactly `n` moving obstacles on such cells and every other cell unchanged |
| Resets.ResetKeydoor | gym_gridverse/envs/reset_functions.py:215-273 | ValueError exactly when the height is below 4 or the width below 5, from the shape check or from `reset_empty`; otherwise the outer walls, the exit at (h-2, w-2), a wall column at 2..w-3 holding exactly one locked yellow door, exactly one yellow key, every other interior cell off the column Floor, and the agent strictly left of the column holding nothing |
| Resets.WallColumn | gym_gridverse/envs/reset_functions.py:250-254 | the wall column covers rows 1..h-2 of its column and leaves every other cell unchanged |
| Resets.KeydoorLayoutHolds | gym_gridverse/envs/reset_functions.py:250-271 | the door sits in the wall column; key and agent sit strictly left of it; the interior cells other than the column, the key and the exit are Floor |
| Resets.KeydoorWitness | gym_gridverse/envs/reset_functions.py:250-271 | the grids the keydoor reset passes through: walls outside, the exit, exactly one door in the wall column, exactly one key, and Floor on every other interior cell off the column |
| Resets.ResetTeleport | gym_gridverse/envs/reset_functions.py:390-422 | ValueError below 4×4; otherwise the `reset_empty` grid with exactly two red telepods on Floor cells other than (1,1), every other cell unchanged, and the agent at (1,1) facing E or S, holding nothing |
| Resets.Telepods | gym_gridverse/envs/reset_functions.py:403-416 | the two telepods land on distinct Floor cells other than (1,1) |
| Resets.TwoVacant | gym_gridverse/envs/reset_functions.py:405-414 | the empty layout leaves two Floor cells besides (1,1), so the draw never fails |
| Resets.ColorList | gym_gridverse/envs/reset_functions.py:466 | `list(colors)` holds exactly the set's colours, once each |
| Resets.MemoryCorridors | gym_gridverse/envs/reset_functions.py:460-464 | a wall block with Floor along rows 1 and h-2 (columns 2..w-3) and down the middle column |
| Resets.CorridorCells | gym_gridverse/envs/reset_functions.py:460-464 | cell by cell: Floor on the three lines, Wall elsewhere |
| Resets.WallBlock | gym_gridverse/envs/reset_functions.py:460-461 | every cell of the shape is a wall |
| Resets.FloorRow | gym_gridverse/envs/reset_functions.py:462-463 | Floor along the row over the range; every other cell unchanged |
| Resets.FloorColumn | gym_gridverse/envs/reset_functions.py:464 | Floor down the column over the range; every other cell unchanged |
| Resets.ResetMemory | gym_gridverse/envs/reset_functions.py:425-477 | ValueError exactly when the height or width is below 5, the width is even, NONE is among the colours or there are fewer than two; otherwise the corridors, a good and a bad exit of distinct colours from the set at the top-corridor ends, two beacons of one exit's colour at the bottom ends, and the agent at the centre facing N holding nothing |
| Resets.MemoryDraws | gym_gridverse/envs/reset_functions.py:466-467 | two distinct colours from the set, and the two top-corridor ends in random order |
| Resets.ColorPair | gym_gridverse/envs/reset_functions.py:466 | the good and bad colours are two distinct colours of the set |
| Resets.EndPair | gym_gridverse/envs/reset_functions.py:467 | the good and bad exit columns are the two top-corridor ends, 1 and w-2, distinct |
| Resets.TwoOf | gym_gridverse/envs/reset_functions.py:466-467 | two distinct candidates drawn without replacement |
| Resets.ExitsAndBeacons | gym_gridverse/envs/reset_functions.py:468-471 | exits at the top ends in their colours, beacons of the first colour at both bottom ends, nothing else changed |
| Resets.MemoryLayoutHolds | gym_gridverse/envs/reset_functions.py:460-477 | the layout facts of a memory start, from its draws |
| RoomResets.Splits | gym_gridverse/envs/reset_functions.py:105-110 | `linspace(0, stop, num, dtype=int)`: ValueError exactly when `num` is negative; otherwise `num` points, the first 0, the last `stop`, and for `stop >= 0` non-decreasing within [0, stop] |
| RoomResets.SplitsEnds | gym_gridverse/envs/reset_functions.py:105-110 | the first point is 0 and the last is `stop` |
| RoomResets.SplitsOrdered | gym_gridverse/envs/reset_functions.py:105-110 | for `stop >= 0` the points never decrease and stay within [0, stop] |
| RoomResets.SplitsDistinct | gym_gridverse/envs/reset_functions.py:112-133 | the points are distinct exactly when there are at most `stop + 1` of them |
| RoomResets.Pairs | gym_gridverse/envs/reset_functions.py:140 | `pairwise` gives each element with its successor |
| RoomResets.Inner | gym_gridverse/envs/reset_functions.py:139 | `xs[1:-1]` drops the first and the last element |
| RoomResets.RoomPassages | gym_gridverse/envs/reset_functions.py:138-148 | one passage per inner wall and room it borders, rows first, then columns |
| RoomResets.Knock | gym_gridverse/envs/reset_functions.py:138-148 | each passage becomes Floor at a random cell strictly between its ends; an empty range raises ValueError |
| RoomResets.RoomLayout | gym_gridverse/envs/reset_functions.py:99-148 | ValueError when the row splits fail or repeat, then when the column splits fail or repeat; otherwise the drawn room grid with every passage knocked through |
| RoomResets.Floors | gym_gridverse/envs/reset_functions.py:151-156 | exactly the Floor cells, in row-major order, without repeats |
| RoomResets.ResetRooms | gym_gridverse/envs/reset_functions.py:91-164 | the layout's error is passed on; otherwise ValueError exactly when the layout has fewer than two Floor cells; a start puts the agent and the exit on two distinct Floor cells of the layout, the agent holding nothing |
| RoomResets.ResetMemoryRooms | gym_gridverse/envs/reset_functions.py:480-591 | ValueError when a colour is NONE, there are fewer than two colours, `nb < 1` or `ne < 2`; then the layout's error; then ValueError exactly when there are fewer than `1 + nb + ne` Floor cells or `ne` exceeds the colours; otherwise agent, beacons and exits on distinct Floor cells, exits in distinct colours, beacons in the first |
| RoomResets.MemoryRoomsState | gym_gridverse/envs/reset_functions.py:576-591 | the state built from the draws: agent at the first cell, beacons at the next `nb`, exits after |
| RoomResets.PlaceBeacons | gym_gridverse/envs/reset_functions.py:583-585 | beacons of the colour on the chosen cells; every other cell unchanged |
| RoomResets.PlaceExits | gym_gridverse/envs/reset_functions.py:587-589 | exit `k` in colour `k` on cell `k`, as `zip` pairs them; every other cell unchanged |
| RoomResets.MemoryRoomsCells | gym_gridverse/envs/reset_functions.py:576-591 | cell by cell: beacons, exits and layout cells of a memory-rooms start |
| CrossingResets.EveryOther | gym_gridverse/envs/reset_functions.py:340-341 | `range(lo, hi, 2)`: exactly the integers from `lo` below `hi` with the same parity, increasing |
| CrossingResets.Candidates | gym_gridverse/envs/reset_functions.py:338-343 | the even interior rows from 2 to h-3, then the even interior columns from 2 to w-3, distinct |
| CrossingResets.Split | gym_gridverse/envs/reset_functions.py:350-355 | the rows and the columns of the chosen rivers, in order |
| CrossingResets.Sort | gym_gridverse/envs/reset_functions.py:350 | `sorted`: the same elements in non-decreasing order |
| CrossingResets.SortDistinct | gym_gridverse/envs/reset_functions.py:350-355 | sorting distinct values gives a strictly increasing list |
| CrossingResets.Shuffled | gym_gridverse/envs/reset_functions.py:346-347 | the shuffle cut to the first `n`: `min(n, total)` distinct candidates |
| CrossingResets.ChooseRivers | gym_gridverse/envs/reset_functions.py:346-355 | the chosen row and column rivers, each strictly increasing, on even interior lines |
| CrossingResets.SortedRivers | gym_gridverse/envs/reset_functions.py:350-355 | sorted distinct candidates are even, from 2 up, strictly increasing |
| CrossingResets.RiverLimits | gym_gridverse/envs/reset_functions.py:364-365 | the boundaries `[0] + rivers + [size - 1]` strictly increase with gaps of at least two |
| CrossingResets.CrossingPath | gym_gridverse/envs/reset_functions.py:360-361 | the path has one rightward step per column river and one downward step per row river |
| CrossingResets.Walk | gym_gridverse/envs/reset_functions.py:364-381 | each step opens the next boundary at a random cell strictly inside the current band, and the rooms form a staircase to the last room |
| CrossingResets.Opening | gym_gridverse/envs/reset_functions.py:367-379 | a rightward step opens the next column boundary inside the current row band; a downward step likewise |
| CrossingResets.DrawRows | gym_gridverse/envs/reset_functions.py:351-352 | each row river covers its row from column 1 to w-2; other cells unchanged |
| CrossingResets.DrawColumns | gym_gridverse/envs/reset_functions.py:356-357 | each column river covers its column from row 1 to h-2; other cells unchanged |
| CrossingResets.DrawRivers | gym_gridverse/envs/reset_functions.py:349-357 | rows first, then columns, over the empty layout |
| CrossingResets.ResetCrossing | gym_gridverse/envs/reset_functions.py:276-387 | ValueError exactly when the height or width is below 5 or even, or `n` is negative; otherwise `min(n, candidates)` rivers with a crossing through every river, and the agent at (1,1) facing E holding nothing |
| CrossingResets.RoomsAreOpen | gym_gridverse/envs/reset_functions.py:286-298 | a cell strictly inside a room is neither a river nor an opening, so it keeps its layout object |
| CrossingResets.ColumnOpened | gym_gridverse/envs/reset_functions.py:367-381 | every column river has a Floor opening on no row river |
| CrossingResets.RowOpened | gym_gridverse/envs/reset_functions.py:373-381 | every row river has a Floor opening on no column river |
| CrossingResets.OpeningInside | gym_gridverse/envs/reset_functions.py:363-381 | every opening is an interior Floor cell |
| ResetProperties.MemoryBeaconColor | gym_gridverse/envs/reward_functions.py:483-490 | in the memory layout the first beacon found has the good colour |
| ResetProperties.MemoryBeacons | gym_gridverse/envs/reset_functions.py:470-471 | the memory layout's beacons are exactly the two at the bottom ends, in one colour |
| ResetProperties.MemoryExitsPay | gym_gridverse/envs/reward_functions.py:460-496 | a memory start pays 0 where the agent stands, and exactly one of its two exits pays `good` |
| ResetProperties.ExitPays | gym_gridverse/envs/reward_functions.py:492-496 | standing on an exit pays `good` exactly when its colour is the beacons' |
| ResetProperties.MemoryRoomsExitsPay | gym_gridverse/envs/reset_functions.py:580-589 | over a beacon-free layout, the exit of the first colour pays `good`, any other exit `bad`, and the start 0 |
| ResetProperties.BeaconsOfPlacement | gym_gridverse/envs/reset_functions.py:583-585 | over a beacon-free layout the only beacons are the placed ones |
| ResetFactory.Factory | gym_gridverse/envs/reset_functions.py:594-731 | a known name builds its reset exactly when its parameters are given, ignoring others; else ValueError; every matching reset is the one built |
| ResetFactory.Run | gym_gridverse/envs/reset_functions.py:42-591 | every start puts the agent on the grid holding nothing |
| ResetFactory.PlacedAgentReady | gym_gridverse/envs/reset_functions.py:576-578 | the memory-rooms agent stands on one of the drawn cells holding nothing |
| ResetFactory.EmptyStart | gym_gridverse/envs/reset_functions.py:74-88 | a `reset_empty` start has the agent on the grid holding nothing |
| ResetFactory.RoomsStart | gym_gridverse/envs/reset_functions.py:150-164 | a `reset_rooms` start has the agent on the grid holding nothing |
| ResetFactory.DynamicObstaclesStart | gym_gridverse/envs/reset_functions.py:167-212 | a `reset_dynamic_obstacles` start has the agent on the grid holding nothing |
| ResetFactory.KeydoorStart | gym_gridverse/envs/reset_functions.py:268-273 | a `reset_keydoor` start has the agent on the grid holding nothing |
| ResetFactory.CrossingStart | gym_gridverse/envs/reset_functions.py:384-387 | a `reset_crossing` start has the agent on the grid holding nothing |
| ResetFactory.TeleportStart | gym_gridverse/envs/reset_functions.py:390-422 | a `reset_teleport` start has the agent on the grid holding nothing |
| ResetFactory.MemoryStart | gym_gridverse/envs/reset_functions.py:473-477 | a `reset_memory` start has the agent on the grid holding nothing |
| ResetFactory.MemoryRoomsStart | gym_gridverse/envs/reset_functions.py:566-591 | a `reset_memory_rooms` start has the agent on the grid holding nothing |
| GridWorlds.FunctionalReset | gym_gridverse/envs/gridworld.py:51-59 | the reset's state, ValueError when checks are on and it is outside the state space |
| GridWorlds.FunctionalStep | gym_gridverse/envs/gridworld.py:61-89 | with checks on, a state or action outside its space raises ValueError, in that order; a success is the dynamics' next state, with it in the state space when checking, and the reward and termination of (state, action, next state); any other failure comes from the dynamics, the next-state check, the reward or the termination |
| GridWorlds.FunctionalObservation | gym_gridverse/envs/gridworld.py:91-99 | the observation, ValueError when checks are on and it is outside the corrected observation space, which also requires the agent to face N |
| GridWorlds.FunctionalObservationAsWritten | gym_gridverse/envs/gridworld.py:91-99 | the same check against `ObservationSpace.contains` as written |
| GridWorlds.ChecksOnlyRaise | gym_gridverse/envs/gridworld.py:51-99 | what succeeds with checks on gives the same result with checks off |
| GridWorlds.Observer | gym_gridverse/envs/observation_functions.py:34-62 | a bound observation function fails or succeeds as `from_visibility` does, and hands the generator back unchanged |
| GridWorlds.FromVisibilityObservationChecks | gym_gridverse/envs/gridworld.py:91-99 | on a valid state, checking against the as-written space always fails and the corrected check passes |
| InnerEnvs.Reset | gym_gridverse/envs/inner_env.py:45-47 | keeps the fresh state and drops the observation |
| InnerEnvs.GetState | gym_gridverse/envs/inner_env.py:67-86 | the current state; RuntimeError before the first reset |
| InnerEnvs.Step | gym_gridverse/envs/inner_env.py:49-65 | RuntimeError before a reset; else the state moves to the functional step's next state, the observation is dropped, and reward and terminal flag are reported |
| InnerEnvs.Observe | gym_gridverse/envs/inner_env.py:88-105 | a kept observation is returned unchanged; otherwise one is generated from the state and kept; with checks on it is checked against the corrected observation space |
| InnerEnvs.ConsistentPreserved | gym_gridverse/envs/inner_env.py:45-105 | with checks on, reset, step and observe keep the state in its space and the observation in the corrected observation space |
| InnerEnvs.ObserveTwice | gym_gridverse/envs/inner_env.py:101-105 | a second observation request returns the first's observation and environment |
| InnerEnvs.Run | gym_gridverse/envs/inner_env.py:49-65 | an episode reports one reward and flag per action and ends without a cached observation |
| InnerEnvs.RunConsistent | gym_gridverse/envs/inner_env.py:45-105 | with checks on, an environment whose state lies in the state space and whose observation lies in the corrected observation space stays so over an episode, and holds a state once it has taken a step |

## Left out

- Rewards.Manhattan, RewardProperties.SumAppend, RewardProperties.ReduceSumConcat: rewards are exact `real`s, not IEEE doubles. The sum laws hold for reals but not for floats, e.g. `(1e16 + 1.0) + -1e16` differs from `1e16 + (1.0 + -1e16)`.
- Rewards.BuildBuiltin: a keyword bound to a value of the wrong kind (a number where a class is expected, say) raises TypeError at build time. The source's `partial` accepts any value and fails only when the function runs, or returns a wrong-kind result.
- Grids.GetPosition: Python's `self[position] is x` finds the identical object; the model finds the first equal one. They differ only when equal but distinct objects share a grid.
- Transitions.StepObstaclesAlong: `_unique_object_type_positions` skips an obstacle already yielded by identity (`obj is x`). The model skips cells where an already-stepped obstacle may stand. This is the same as long as no single obstacle object is stored in two cells. When one object is aliased in two cells, the source steps it once and the model steps it twice.
- Rewards.Eval, Terminating.Eval, Rewards.Results, Terminating.Results, Wrappers.Collect: `reduce` passes `reduction` a lazy generator (reward_functions.py:56-59, terminating_functions.py:44-47); the model collects every member result first. A reduction that stops reading early (returns without consuming the rest) succeeds in the source where the model may raise a later member's error. The terminating reductions `any` and `all` are modelled lazily (Terminating.AnyFrom, Terminating.AllFrom).
- Rng.Choice, Rng.Integers, Rng.IntegersInclusive, Rng.Sample: NumPy's generator is modelled as a stream of raw draws, reduced by `draw % n`, with 0 once the stream is exhausted. The distribution of outcomes is not modelled, only which outcomes are possible.
- Resets.ColorList: `list(colors)` of a Python set has no defined order; the model lists colours by value.
- CrossingResets.Shuffled: `rng.shuffle` then `[:n]` is modelled as drawing `min(n, total)` candidates without replacement, which yields the same possible prefixes.
- RoomResets.Splits: `np.linspace(..., dtype=int)` is computed in exact arithmetic, truncating toward zero. Floating-point rounding of the evenly spaced points is not modelled.
- ResetFactory.Run: a negative height or width for `rooms` and `memory_rooms` is reported as ValueError. In the source, `Grid(h, w)` with a negative size succeeds and is empty (`range` of a negative number is empty), and `draw_room_grid`, which is not part of this model, runs on it first. After that the first failing call is `rng.integers` on an empty range (ValueError), an assignment of a passage cell outside the empty grid (IndexError), or `rng.choice` on the empty list of Floor cells (ValueError), depending on the layout. The model does not distinguish these.
- ResetFactory.Factory: the crossing reset takes its river object as a value, not as a class to instantiate.
- RoomResets.RoomLayout: `draw_room_grid` is not part of this model; it is the parameter `roomGrid`, and the proofs hold for any such function. Likewise `draw_wall_boundary` is taken as walls on the border (Design.DrawWallBoundary).
- Visibility.Apply: `raytracing_visibility` and `stochastic_raytracing_visibility` (ray casting with floating-point geometry and random sampling) are an outside parameter `raytraced`. Only the name dispatch is modelled for them.
- Visibility.PartialMask: the diagonal passes walk `diagonal_strides`, which is not part of this model. The model states the fixed point those passes compute: every neighbour toward the agent is final when it is read.
- ObservationFunctions.FromVisibility: an observation space with no rows or no columns is excluded by requires. `spaces.py` does not define the observed area or the agent position, and their tests fix them only for positive shapes; with no columns the agent position would lie outside the observation grid, and a grid with no rows cannot be rotated (Grids.ChangeOrientation).
- GridWorlds.FunctionalStep: the random generator a failed step consumed is not handed back; it matters only after an exception, which ends the call.
- InnerEnvs.Step: the environment after an error is not returned. In the source, inner_env.py:62 assigns the state only after `functional_step` returns, so on an exception the state and observation keep their old values and only the shared generator has advanced; the model reports only the error, and neither the unchanged environment nor the advanced generator.
- Kwargs.CustomFunctionName: importing the module and looking the function up (`importlib`) is foreign code; a well-formed name is taken to name a function.
- The `checkraise` debug switch is modelled as the `debug` flag of GridWorlds; every other `checkraise` always raises.
- GridObjects.AsArray: the object classes' type indices are fixed by the tests for Floor 0, Wall 1, Exit 2 (the retired Goal slot), Door 3, Key 4, MovingObstacle 5. NoneGridObject, Hidden, Box, Telepod and Beacon take 6 to 10, since their registration is not part of this model.
- GridObjects.Capabilities: `grid_object.py` ends after Floor. The other classes' flags come from their tests, and an Exit's default colour is NONE.
- Geometry.Rotate, Geometry.Translate: `Area.rotate`, `Area.translate`, `Area.contains`, `positions`, `positions_border` and `DeltaPosition.rotate` are not defined in `geometry.py`. They are modelled from their uses and their tests.
- Spaces.ObservationArea, Spaces.ObservationAgentPosition: `spaces.py` defines neither, though `observation_functions.py:41-60` uses both. They are rebuilt from their tests (`tests/test_spaces.py:126-153`), which fix them for odd widths only; for an even width the model centres the agent at column `w / 2`, a choice.
- Spaces.ObservationContains: the corrected check does not test the colour of the observed agent's held object, which `tests/test_spaces.py:196-216` exercise; held objects are checked by class only.
- InnerEnvs.Observe, InnerEnvs.ConsistentPreserved, InnerEnvs.RunConsistent: they run on the corrected observation check. With checks on, the check as written raises ValueError on every observation (GridWorlds.FromVisibilityObservationChecks), so the source promises none of these.
- Design.DrawAll: on an out-of-grid position the model returns only the IndexError; the source has already drawn the earlier positions of the sequence in place when it raises.
- Rendering, recording, the Gym wrappers, the YAML factory and representations are not modelled. They are I/O around the kernel.

## Findings

| source | as written | input that shows it | evidently intended | confidence | as-written member | corrected member |
|---|---|---|---|---|---|---|
| gym_gridverse/spaces.py:154-155 | `ObservationSpace.contains` requires the observation agent's position and orientation to be `None` | any observation from `from_visibility`, which sets position `agent_position` and orientation N (observation_functions.py:59-61); `functional_observation` with checks on then always raises ValueError | the agent stands on the observation grid facing N | not executed | Spaces.ObservationContainsAsWrittenNothing, GridWorlds.FromVisibilityObservationChecks | Spaces.ObservationContainsCells, ObservationFunctions.ObservationInSpace, GridWorlds.FunctionalObservation |
| gym_gridverse/envs/terminating_functions.py:189-194 | `factory('reduce', ...)` checks for `terminating_functions` and `reduction`, then returns `partial(reduce_any, **kwargs)` | `factory('reduce', terminating_functions=[], reduction=any)` builds; any call passes `reduction` to `reduce_any`, which has no such parameter, and raises TypeError | `partial(reduce, **kwargs)`, applying the given reduction | not executed | TerminatingProperties.ReduceAsWrittenAlwaysRaises, Terminating.FactoryAsWritten | TerminatingProperties.ReduceFactoryReduces, Terminating.Factory |

=== FILE: actions.dfy ===
/** The eight agent actions and their classification into translations and rotations. */
module Actions {
  import opened Wrappers

  datatype Action =
    | MoveForward
    | MoveBackward
    | MoveLeft
    | MoveRight
    | TurnLeft
    | TurnRight
    | Actuate
    | PickNDrop

  /** The integer each action is assigned, in declaration order. */
  function Value(a: Action): (v: nat)
    ensures v < 8
    ensures FromValue(v) == Some(a)
  {
    match a
    case MoveForward => 0
    case MoveBackward => 1
    case MoveLeft => 2
    case MoveRight => 3
    case TurnLeft => 4
    case TurnRight => 5
    case Actuate => 6
    case PickNDrop => 7
  }

  /** The action with a given integer value, if there is one. */
  function FromValue(v: int): (r: Option<Action>)
    ensures r.None? <==> !(0 <= v < 8)
  {
    if v == 0 then Some(MoveForward)
    else if v == 1 then Some(MoveBackward)
    else if v == 2 then Some(MoveLeft)
    else if v == 3 then Some(MoveRight)
    else if v == 4 then Some(TurnLeft)
    else if v == 5 then Some(TurnRight)
    else if v == 6 then Some(Actuate)
    else if v == 7 then Some(PickNDrop)
    else None
  }

  lemma ValueRoundTrip(v: int)
    requires 0 <= v < 8
    ensures FromValue(v).Some? && Value(FromValue(v).value) == v
  {
  }

  const TranslationActions: seq<Action> := [MoveForward, MoveBackward, MoveLeft, MoveRight]
  const RotationActions: seq<Action> := [TurnLeft, TurnRight]

  /** Whether an action moves the agent. */
  predicate IsMove(a: Action) {
    a in TranslationActions
  }

  predicate IsRotation(a: Action) {
    a in RotationActions
  }

  /** The translations are exactly the four moves, the rotations exactly the two turns, and
      actuate and pick-and-drop are neither. */
  lemma Classification(a: Action)
    ensures IsMove(a) <==> a.MoveForward? || a.MoveBackward? || a.MoveLeft? || a.MoveRight?
    ensures IsRotation(a) <==> a.TurnLeft? || a.TurnRight?
    ensures !(IsMove(a) && IsRotation(a))
    ensures a.Actuate? || a.PickNDrop? <==> !IsMove(a) && !IsRotation(a)
  {
  }
}

=== FILE: agents.dfy ===
/** The agent's pose and held object, the full simulator state and an observation. */
module Agents {
  import opened Wrappers
  import opened Geometry
  import opened GridObjects
  import opened Grids

  datatype Agent = Agent(position: Position, orientation: Orientation, obj: GridObject)

  /** The state the dynamics act on: the board plus the agent. */
  datatype State = State(grid: Grid, agent: Agent)

  /** What the agent perceives: a grid in its own frame and an agent in that frame. */
  datatype Observation = Observation(grid: Grid, agent: Agent)

  /** Creates an agent; holding nothing is represented by a NoneGridObject. */
  function MakeAgent(position: Position, orientation: Orientation, obj: Option<GridObject>): (a: Agent)
    ensures a.position == position && a.orientation == orientation
    ensures obj.None? ==> a.obj == NoneGridObject
    ensures obj.Some? ==> a.obj == obj.value
  {
    Agent(position, orientation, if obj.None? then NoneGridObject else obj.value)
  }

  /** Agents are equal exactly when pose and held object are. */
  lemma AgentEquality(a: Agent, b: Agent)
    ensures a == b <==> a.position == b.position && a.orientation == b.orientation && a.obj == b.obj
  {
  }

  /** The absolute position of a delta expressed in the agent's frame. */
  function PositionRelative(a: Agent, d: Position): (p: Position)
    ensures ManhattanDistance(p, a.position) == ManhattanDistance(d, Origin)
  {
    Isometries(a.orientation, 0, d);
    Add(a.position, RotateDelta(d, a.orientation))
  }

  /** The cell the agent faces. */
  function PositionInFront(a: Agent): (p: Position)
    ensures p == Add(a.position, AsPosition(a.orientation))
    ensures Adjacent(p, a.position)
  {
    RelativeDirections(a.orientation, 1);
    Isometries(a.orientation, 1, Position(-1, 0));
    PositionRelative(a, AsPosition(N))
  }

  /** The absolute area an agent-relative area covers. */
  function PovArea(a: Agent, relative: Area): (r: Area)
    requires relative.Normalised()
    ensures r.Normalised()
    ensures forall d :: relative.Contains(d) <==> r.Contains(PositionRelative(a, d))
  {
    var rotated := relative.Rotate(a.orientation);
    forall d ensures relative.Contains(d) <==> rotated.Contains(RotateDelta(d, a.orientation)) {
      RotateContains(relative, a.orientation, d);
    }
    rotated.Translate(a.position)
  }
}

=== FILE: design.dfy ===
/** Drawing helpers: each writes one object over a list of positions (a filled area, the
    border of a room, a horizontal or vertical line) and returns that list. Every written
    object is a fresh instance from the same factory, so the model writes one value. */
module Design {
  import opened Wrappers
  import opened Geometry
  import opened GridObjects
  import opened Grids
  import opened Seqs

  /** Positions in strictly increasing row-major order are distinct. */
  lemma RowMajorDistinct(ps: seq<Position>)
    requires RowMajor(ps)
    ensures Distinct(ps)
  {
  }

  /** Whether `p` lies on the border of area `a`. */
  predicate OnBorder(a: Area, p: Position) {
    a.Contains(p) && (p.y == a.y0 || p.y == a.y1 || p.x == a.x0 || p.x == a.x1)
  }

  /** The border positions of an area, in row-major order. */
  function BorderPositions(a: Area): (r: seq<Position>)
    ensures forall p :: p in r <==> OnBorder(a, p)
    ensures Distinct(r)
  {
    RowMajorDistinct(Positions(a));
    FilterDistinct(Positions(a), p => OnBorder(a, p));
    Filter(Positions(a), p => OnBorder(a, p))
  }

  /** Writes `o` at every position of `ps` in order. A position outside the grid raises
      IndexError. */
  function DrawAll(g: Grid, ps: seq<Position>, o: GridObject): (r: Result<Grid>)
    ensures r.Success? <==> forall p | p in ps :: g.Contains(p)
    ensures r.Failure? ==> r.error == IndexError
    ensures r.Success? ==> r.value.Shape() == g.Shape()
    ensures r.Success? ==> forall p | p in ps :: r.value.At(p) == o
    ensures r.Success? ==> forall q | g.Contains(q) && q !in ps :: r.value.At(q) == g.At(q)
    decreases |ps|
  {
    if |ps| == 0 then Success(g)
    else
      assert forall p | p in ps :: p == ps[0] || p in ps[1..];
      if !g.Contains(ps[0]) then Failure(IndexError)
      else
        var g' := Update(g, ps[0], o);
        assert forall p :: g'.Contains(p) <==> g.Contains(p);
        DrawAll(g', ps[1..], o)
  }

  /** `draw_area`: writes `o` over the whole area when `fill` holds and over its border
      otherwise, and returns the positions written. */
  function DrawArea(g: Grid, area: Area, o: GridObject, fill: bool): (r: Result<(Grid, seq<Position>)>)
    ensures r.Success? <==> forall p | area.Contains(p) && (fill || OnBorder(area, p)) :: g.Contains(p)
    ensures r.Failure? ==> r.error == IndexError
    ensures r.Success? ==> Distinct(r.value.1)
    ensures r.Success? ==> forall p :: p in r.value.1 <==> area.Contains(p) && (fill || OnBorder(area, p))
    ensures r.Success? ==> r.value.0.Shape() == g.Shape()
    ensures r.Success? ==> forall p | p in r.value.1 :: r.value.0.At(p) == o
    ensures r.Success? ==> forall q | g.Contains(q) && q !in r.value.1 :: r.value.0.At(q) == g.At(q)
  {
    var ps := if fill then Positions(area) else BorderPositions(area);
    RowMajorDistinct(Positions(area));
    var g' :- DrawAll(g, ps, o);
    Success((g', ps))
  }

  /** `draw_room`: the border of the area. */
  function DrawRoom(g: Grid, area: Area, o: GridObject): (r: Result<(Grid, seq<Position>)>)
    ensures r.Success? <==> forall p | OnBorder(area, p) :: g.Contains(p)
    ensures r.Failure? ==> r.error == IndexError
    ensures r.Success? ==> Distinct(r.value.1)
    ensures r.Success? ==> forall p :: p in r.value.1 <==> OnBorder(area, p)
    ensures r.Success? ==> r.value.0.Shape() == g.Shape()
    ensures r.Success? ==> forall p | p in r.value.1 :: r.value.0.At(p) == o
    ensures r.Success? ==> forall q | g.Contains(q) && !OnBorder(area, q) :: r.value.0.At(q) == g.At(q)
  {
    DrawArea(g, area, o, false)
  }

  /** The cells of row `y` from `lo` to `hi`, left to right. */
  function RowRun(y: int, lo: int, hi: int): (r: seq<Position>)
    ensures |r| == if lo <= hi then hi - lo + 1 else 0
    ensures forall p :: p in r <==> p.y == y && lo <= p.x <= hi
    ensures Distinct(r)
  {
    var r := seq(if lo <= hi then hi - lo + 1 else 0, i => Position(y, lo + i));
    assert forall p: Position | p.y == y && lo <= p.x <= hi :: r[p.x - lo] == p;
    r
  }

  /** The cells of column `x` from `lo` to `hi`, top to bottom. */
  function ColumnRun(x: int, lo: int, hi: int): (r: seq<Position>)
    ensures |r| == if lo <= hi then hi - lo + 1 else 0
    ensures forall p :: p in r <==> p.x == x && lo <= p.y <= hi
    ensures Distinct(r)
  {
    var r := seq(if lo <= hi then hi - lo + 1 else 0, i => Position(lo + i, x));
    assert forall p: Position | p.x == x && lo <= p.y <= hi :: r[p.y - lo] == p;
    r
  }

  /** `draw_line_horizontal`: row `y` from the least to the greatest of `xs`, whatever
      their order. The minimum of no values raises ValueError; a cell outside the grid
      raises IndexError. */
  function DrawLineHorizontal(g: Grid, y: int, xs: seq<int>, o: GridObject): (r: Result<(Grid, seq<Position>)>)
    ensures |xs| == 0 ==> r == Failure(ValueError)
    ensures |xs| > 0 ==> (r.Success? <==> forall x | SeqMin(xs) <= x <= SeqMax(xs) :: g.Contains(Position(y, x)))
    ensures |xs| > 0 && r.Failure? ==> r.error == IndexError
    ensures r.Success? ==> Distinct(r.value.1) && |r.value.1| == SeqMax(xs) - SeqMin(xs) + 1
    ensures r.Success? ==> forall p :: p in r.value.1 <==> p.y == y && SeqMin(xs) <= p.x <= SeqMax(xs)
    ensures r.Success? ==> r.value.0.Shape() == g.Shape()
    ensures r.Success? ==> forall p | p in r.value.1 :: r.value.0.At(p) == o
    ensures r.Success? ==> forall q | g.Contains(q) && q !in r.value.1 :: r.value.0.At(q) == g.At(q)
  {
    if |xs| == 0 then Failure(ValueError)
    else
      var ps := RowRun(y, SeqMin(xs), SeqMax(xs));
      var g' :- DrawAll(g, ps, o);
      Success((g', ps))
  }

  /** `draw_line_vertical`: the column analogue of `draw_line_horizontal`. */
  function DrawLineVertical(g: Grid, ys: seq<int>, x: int, o: GridObject): (r: Result<(Grid, seq<Position>)>)
    ensures |ys| == 0 ==> r == Failure(ValueError)
    ensures |ys| > 0 ==> (r.Success? <==> forall y | SeqMin(ys) <= y <= SeqMax(ys) :: g.Contains(Position(y, x)))
    ensures |ys| > 0 && r.Failure? ==> r.error == IndexError
    ensures r.Success? ==> Distinct(r.value.1) && |r.value.1| == SeqMax(ys) - SeqMin(ys) + 1
    ensures r.Success? ==> forall p :: p in r.value.1 <==> p.x == x && SeqMin(ys) <= p.y <= SeqMax(ys)
    ensures r.Success? ==> r.value.0.Shape() == g.Shape()
    ensures r.Success? ==> forall p | p in r.value.1 :: r.value.0.At(p) == o
    ensures r.Success? ==> forall q | g.Contains(q) && q !in r.value.1 :: r.value.0.At(q) == g.At(q)
  {
    if |ys| == 0 then Failure(ValueError)
    else
      var ps := ColumnRun(x, SeqMin(ys), SeqMax(ys));
      var g' :- DrawAll(g, ps, o);
      Success((g', ps))
  }

  /** Walls around the edge of the grid, everything inside unchanged. */
  function DrawWallBoundary(g: Grid): (r: Grid)
    ensures r.Shape() == g.Shape()
    ensures forall p | OnBorder(GridArea(g), p) :: r.At(p) == Wall
    ensures forall q | g.Contains(q) && !OnBorder(GridArea(g), q) :: r.At(q) == g.At(q)
  {
    DrawRoom(g, GridArea(g), Wall).value.0
  }

  // ---------------------------------------------------------------------------------
  // Properties
  // ---------------------------------------------------------------------------------

  /** Drawing the same positions twice leaves the grid as drawing them once. */
  lemma DrawTwice(g: Grid, ps: seq<Position>, o: GridObject)
    requires DrawAll(g, ps, o).Success?
    ensures DrawAll(DrawAll(g, ps, o).value, ps, o) == DrawAll(g, ps, o)
  {
    var g1 := DrawAll(g, ps, o).value;
    assert DrawAll(g1, ps, o).Success?;
    var g2 := DrawAll(g1, ps, o).value;
    assert forall p | g1.Contains(p) :: g1.At(p) == g2.At(p) by {
      forall p | g1.Contains(p) ensures g1.At(p) == g2.At(p) {
        if p !in ps {
          assert g2.At(p) == g1.At(p);
        }
      }
    }
    Equality(g1, g2);
  }

  /** An area at most two cells high or wide is all border, so drawing it filled and
      drawing it as a room write the same positions. */
  lemma ThinAreaIsAllBorder(g: Grid, area: Area, o: GridObject)
    requires area.Height() <= 2 || area.Width() <= 2
    ensures DrawArea(g, area, o, true) == DrawArea(g, area, o, false)
  {
    FilterAll(Positions(area), p => OnBorder(area, p));
  }

  /** A horizontal line is the one-row area between its end points, drawn filled. */
  lemma HorizontalLineIsArea(g: Grid, y: int, xs: seq<int>, o: GridObject)
    requires |xs| > 0
    ensures DrawLineHorizontal(g, y, xs, o) == DrawArea(g, Area(y, SeqMin(xs), y, SeqMax(xs)), o, true)
  {
    var a := Area(y, SeqMin(xs), y, SeqMax(xs));
    RowPositions(a);
    assert Positions(a) == RowRun(y, SeqMin(xs), SeqMax(xs));
  }

  /** The positions of a one-row area are that row's cells. */
  lemma RowPositions(a: Area)
    requires a.y0 == a.y1
    ensures Positions(a) == RowRun(a.y0, a.x0, a.x1)
  {
    assert PositionsFrom(a, a.y0 + 1) == [];
    assert PositionsFrom(a, a.y0) == RowRun(a.y0, a.x0, a.x1) + [];
  }

  /** A vertical line is the one-column area between its end points, drawn filled. */
  lemma VerticalLineIsArea(g: Grid, ys: seq<int>, x: int, o: GridObject)
    requires |ys| > 0
    ensures DrawLineVertical(g, ys, x, o) == DrawArea(g, Area(SeqMin(ys), x, SeqMax(ys), x), o, true)
  {
    var a := Area(SeqMin(ys), x, SeqMax(ys), x);
    ColumnPositions(a, a.y0);
    assert Positions(a) == ColumnRun(x, a.y0, a.y1);
  }

  /** The positions of a one-column area from row `y` on are that column's cells. */
  lemma {:induction false} ColumnPositions(a: Area, y: int)
    requires a.x0 == a.x1 && a.y0 <= y
    ensures PositionsFrom(a, y) == ColumnRun(a.x0, y, a.y1)
    decreases a.y1 - y
  {
    if y <= a.y1 {
      ColumnPositions(a, y + 1);
      var rest := ColumnRun(a.x0, y + 1, a.y1);
      assert PositionsFrom(a, y) == [Position(y, a.x0)] + rest;
      assert ColumnRun(a.x0, y, a.y1) == [Position(y, a.x0)] + rest;
    }
  }
}

=== FILE: env_utils.dfy ===
/** Where a move action would take the agent if nothing were in the way. */
module EnvUtils {
  import opened Geometry
  import opened Actions

  /** The direction, relative to the agent's orientation, that a move heads in. */
  function MoveDirection(o: Orientation, action: Action): Orientation
    requires IsMove(action)
  {
    match action
    case MoveForward => o
    case MoveLeft => RotateLeft(o)
    case MoveRight => RotateRight(o)
    case MoveBackward => RotateBack(o)
  }

  /** The intended next position: unchanged for anything but a move, otherwise one step in
      the move's direction. There is no bounds check. */
  function UpdatedAgentPositionIfUnobstructed(pos: Position, o: Orientation, action: Action): (r: Position)
    ensures !IsMove(action) ==> r == pos
    ensures IsMove(action) ==> Adjacent(r, pos)
  {
    if !IsMove(action) then pos
    else
      var d := MoveDirection(o, action);
      Isometries(d, 1, Origin);
      Add(pos, AsPosition(d))
  }

  /** The step a move takes in the agent's own frame, where forward is north. */
  function RelativeStep(action: Action): Position
    requires IsMove(action)
  {
    match action
    case MoveForward => Position(-1, 0)
    case MoveLeft => Position(0, -1)
    case MoveRight => Position(0, 1)
    case MoveBackward => Position(1, 0)
  }

  /** The absolute direction of a move is its agent-frame step rotated into the agent's
      orientation. */
  lemma MoveDirectionStep(o: Orientation, action: Action)
    requires IsMove(action)
    ensures AsPosition(MoveDirection(o, action)) == RotateDelta(RelativeStep(action), o)
  {
    match o
    case N =>
    case S =>
    case E =>
    case W =>
  }

  /** Each move goes one step forward, left, right or back in the agent's own frame. */
  lemma MoveDirections(pos: Position, o: Orientation, action: Action)
    requires IsMove(action)
    ensures UpdatedAgentPositionIfUnobstructed(pos, o, action) == Add(pos, RotateDelta(RelativeStep(action), o))
  {
    MoveDirectionStep(o, action);
  }
}

=== FILE: geometry.dfy ===
/** Positions, orientations, areas and Manhattan neighbourhoods on the integer grid.
    Coordinates follow matrix notation: `y` indexes rows top to bottom, `x` columns
    left to right. */
module Geometry {

  /** A 2D shape in matrix notation: number of rows, then number of columns. */
  datatype Shape = Shape(height: int, width: int)

  /** Absolute positions and relative (delta) positions share one representation. */
  datatype Position = Position(y: int, x: int)

  const Origin := Position(0, 0)

  function Add(p: Position, q: Position): (r: Position)
    ensures r.y - q.y == p.y && r.x - q.x == p.x
  {
    Position(p.y + q.y, p.x + q.x)
  }

  function Abs(n: int): nat {
    if n < 0 then -n else n
  }

  function ManhattanDistance(p: Position, q: Position): nat {
    Abs(p.y - q.y) + Abs(p.x - q.x)
  }

  /** The four 4-connected neighbours of a position. */
  predicate Adjacent(p: Position, q: Position) {
    ManhattanDistance(p, q) == 1
  }

  datatype Orientation = N | S | E | W

  /** The displacement of `dist` steps in direction `o`. */
  function AsDeltaPosition(o: Orientation, dist: int): Position {
    match o
    case N => Position(-dist, 0)
    case S => Position(dist, 0)
    case E => Position(0, dist)
    case W => Position(0, -dist)
  }

  /** The unit step in direction `o`. */
  function AsPosition(o: Orientation): Position {
    AsDeltaPosition(o, 1)
  }

  /** A quarter turn counter-clockwise: N -> W -> S -> E -> N. */
  function RotateLeft(o: Orientation): (r: Orientation)
    ensures RotateRight(r) == o
  {
    match o
    case N => W
    case W => S
    case S => E
    case E => N
  }

  /** A quarter turn clockwise: N -> E -> S -> W -> N. */
  function RotateRight(o: Orientation): (r: Orientation)
    ensures r != o
  {
    match o
    case N => E
    case E => S
    case S => W
    case W => N
  }

  /** A half turn: two quarter turns in the same direction. */
  function RotateBack(o: Orientation): (r: Orientation)
    ensures r == RotateLeft(RotateLeft(o))
    ensures r != o && RotateRight(r) != o && RotateLeft(r) != o
  {
    RotateRight(RotateRight(o))
  }

  /** Expresses a delta given in the agent's frame (facing N) in the absolute frame of an
      agent facing `o`. */
  function RotateDelta(d: Position, o: Orientation): Position {
    match o
    case N => d
    case S => Position(-d.y, -d.x)
    case E => Position(d.x, -d.y)
    case W => Position(-d.x, d.y)
  }

  /** The orientation whose rotation undoes a rotation by `o`. */
  function Inverse(o: Orientation): Orientation {
    match o
    case N => N
    case S => S
    case E => W
    case W => E
  }

  /** Steps in any direction have the length asked for, and rotating a delta keeps its
      length. */
  lemma Isometries(o: Orientation, dist: int, d: Position)
    ensures ManhattanDistance(AsDeltaPosition(o, dist), Origin) == Abs(dist)
    ensures ManhattanDistance(RotateDelta(d, o), Origin) == ManhattanDistance(d, Origin)
  {
  }

  lemma RotateDeltaInverse(d: Position, o: Orientation)
    ensures RotateDelta(RotateDelta(d, o), Inverse(o)) == d
    ensures RotateDelta(RotateDelta(d, Inverse(o)), o) == d
  {
  }

  /** The unit step of each relative direction is the agent-frame step (forward is N,
      right is E, back is S, left is W) expressed in the frame of an agent facing `o`. */
  lemma RelativeDirections(o: Orientation, dist: int)
    ensures AsDeltaPosition(o, dist) == RotateDelta(Position(-dist, 0), o)
  {
  }

  lemma RelativeTurns(o: Orientation)
    ensures AsPosition(RotateRight(o)) == RotateDelta(Position(0, 1), o)
    ensures AsPosition(RotateLeft(o)) == RotateDelta(Position(0, -1), o)
    ensures AsPosition(RotateBack(o)) == RotateDelta(Position(1, 0), o)
  {
    match o
    case N =>
    case S =>
    case E =>
    case W =>
  }

  lemma RotationCycles(o: Orientation)
    ensures RotateLeft(RotateLeft(RotateLeft(RotateLeft(o)))) == o
    ensures RotateRight(RotateRight(RotateRight(RotateRight(o)))) == o
    ensures RotateLeft(RotateRight(o)) == o
  {
  }

  /** A rectangle of positions, bounds inclusive. */
  datatype Area = Area(y0: int, x0: int, y1: int, x1: int) {
    function Height(): int { y1 - y0 + 1 }
    function Width(): int { x1 - x0 + 1 }

    /** Lower bounds do not exceed upper bounds. */
    predicate Normalised() { y0 <= y1 && x0 <= x1 }

    function TopLeft(): Position { Position(y0, x0) }

    predicate Contains(p: Position) {
      y0 <= p.y <= y1 && x0 <= p.x <= x1
    }

    function Translate(d: Position): (r: Area)
      ensures r.Height() == Height() && r.Width() == Width()
      ensures forall p :: r.Contains(Add(p, d)) <==> Contains(p)
    {
      Area(y0 + d.y, x0 + d.x, y1 + d.y, x1 + d.x)
    }

    /** Rotates both corners and normalises them again. */
    function Rotate(o: Orientation): (r: Area)
      requires Normalised()
      ensures r.Normalised()
      ensures o == N || o == S ==> r.Height() == Height() && r.Width() == Width()
      ensures o == E || o == W ==> r.Height() == Width() && r.Width() == Height()
    {
      var p0 := RotateDelta(Position(y0, x0), o);
      var p1 := RotateDelta(Position(y1, x1), o);
      Area(Min(p0.y, p1.y), Min(p0.x, p1.x), Max(p0.y, p1.y), Max(p0.x, p1.x))
    }
  }

  /** Row-major order on positions. */
  predicate Before(p: Position, q: Position) {
    p.y < q.y || (p.y == q.y && p.x < q.x)
  }

  /** The positions are listed in strictly increasing row-major order (hence distinct). */
  predicate RowMajor(ps: seq<Position>) {
    forall i, j | 0 <= i < j < |ps| :: Before(ps[i], ps[j])
  }

  lemma RowMajorTail(ps: seq<Position>)
    requires RowMajor(ps) && |ps| > 0
    ensures RowMajor(ps[1..])
    ensures forall p | p in ps[1..] :: Before(ps[0], p)
  {
    forall p | p in ps[1..] ensures Before(ps[0], p) {
      var i :| 0 <= i < |ps[1..]| && ps[1..][i] == p;
      assert ps[i + 1] == p;
    }
  }

  /** The positions of an area in row-major order. */
  function Positions(a: Area): (r: seq<Position>)
    ensures forall p :: p in r <==> a.Contains(p)
    ensures RowMajor(r)
  {
    PositionsFrom(a, a.y0)
  }

  function PositionsFrom(a: Area, y: int): (r: seq<Position>)
    requires a.y0 <= y
    ensures forall p :: p in r <==> y <= p.y && a.Contains(p)
    ensures RowMajor(r)
    ensures forall p | p in r :: y <= p.y
    decreases a.y1 - y
  {
    if y > a.y1 then []
    else
      var row := seq(if a.x0 <= a.x1 then a.x1 - a.x0 + 1 else 0, i => Position(y, a.x0 + i));
      var rest := PositionsFrom(a, y + 1);
      assert forall p: Position :: p in row <==> p.y == y && a.x0 <= p.x <= a.x1 by {
        forall p: Position | p.y == y && a.x0 <= p.x <= a.x1 ensures p in row {
          assert row[p.x - a.x0] == p;
        }
      }
      assert forall p: Position :: p in row + rest <==> p in row || p in rest;
      assert RowMajor(row + rest) by {
        forall i, j | 0 <= i < j < |row + rest| ensures Before((row + rest)[i], (row + rest)[j]) {
          if j >= |row| && i < |row| {
            assert (row + rest)[j] in rest;
          }
        }
      }
      row + rest
  }

  /** Rotation maps the area onto its rotated area: a position lies in the area exactly
      when its rotation lies in the rotated area. */
  lemma RotateContains(a: Area, o: Orientation, p: Position)
    requires a.Normalised()
    ensures a.Contains(p) <==> a.Rotate(o).Contains(RotateDelta(p, o))
  {
  }

  function Min(a: int, b: int): int { if a <= b then a else b }
  function Max(a: int, b: int): int { if a <= b then b else a }

  /** The cells at Manhattan distance exactly `distance` from `pos`, starting from the
      cell straight above and going clockwise in four straight runs. */
  function ManhattanBoundary(pos: Position, distance: int): (r: seq<Position>)
    requires distance > 0
    ensures |r| == 4 * distance
    ensures forall i | 0 <= i < |r| :: ManhattanDistance(r[i], pos) == distance
    ensures forall q :: ManhattanDistance(q, pos) == distance ==> q in r
    ensures forall i, j | 0 <= i < j < |r| :: r[i] != r[j]
  {
    var d := distance;
    var r := seq(d, i => Position(pos.y - d + i, pos.x + i))
      + seq(d, i => Position(pos.y + i, pos.x + d - i))
      + seq(d, i => Position(pos.y + d - i, pos.x - i))
      + seq(d, i => Position(pos.y - i, pos.x - d + i));
    BoundaryQuadrants(pos, d, r);
    BoundaryComplete(pos, d, r);
    r
  }

  /** Which of the four runs of the boundary a delta belongs to. */
  function Quadrant(dy: int, dx: int): int {
    if dy < 0 && dx >= 0 then 0
    else if dy >= 0 && dx > 0 then 1
    else if dy > 0 && dx <= 0 then 2
    else 3
  }

  lemma BoundaryQuadrants(pos: Position, d: int, r: seq<Position>)
    requires d > 0
    requires r == seq(d, i => Position(pos.y - d + i, pos.x + i))
      + seq(d, i => Position(pos.y + i, pos.x + d - i))
      + seq(d, i => Position(pos.y + d - i, pos.x - i))
      + seq(d, i => Position(pos.y - i, pos.x - d + i))
    ensures |r| == 4 * d
    ensures forall i | 0 <= i < |r| ::
      Quadrant(r[i].y - pos.y, r[i].x - pos.x) == Run(d, i)
      && ManhattanDistance(r[i], pos) == d
      && r[i] == BoundaryAt(pos, d, i)
    ensures forall i, j | 0 <= i < j < |r| :: r[i] != r[j]
  {
    forall i | 0 <= i < |r|
      ensures Quadrant(r[i].y - pos.y, r[i].x - pos.x) == Run(d, i)
      ensures ManhattanDistance(r[i], pos) == d
      ensures r[i] == BoundaryAt(pos, d, i)
    {
    }
    forall i, j | 0 <= i < j < |r|
      ensures r[i] != r[j]
    {
      assert r[i] == BoundaryAt(pos, d, i) && r[j] == BoundaryAt(pos, d, j);
    }
  }

  /** The run (0 to 3) holding the `i`-th boundary cell. */
  function Run(d: int, i: int): int {
    if i < d then 0 else if i < 2 * d then 1 else if i < 3 * d then 2 else 3
  }

  /** The `i`-th boundary cell, written with its run and its offset within the run. */
  function BoundaryAt(pos: Position, d: int, i: int): Position
    requires d > 0 && 0 <= i < 4 * d
  {
    var k := i - Run(d, i) * d;
    if Run(d, i) == 0 then Position(pos.y - d + k, pos.x + k)
    else if Run(d, i) == 1 then Position(pos.y + k, pos.x + d - k)
    else if Run(d, i) == 2 then Position(pos.y + d - k, pos.x - k)
    else Position(pos.y - k, pos.x - d + k)
  }

  lemma BoundaryComplete(pos: Position, d: int, r: seq<Position>)
    requires d > 0
    requires r == seq(d, i => Position(pos.y - d + i, pos.x + i))
      + seq(d, i => Position(pos.y + i, pos.x + d - i))
      + seq(d, i => Position(pos.y + d - i, pos.x - i))
      + seq(d, i => Position(pos.y - i, pos.x - d + i))
    ensures forall q :: ManhattanDistance(q, pos) == d ==> q in r
  {
    forall q | ManhattanDistance(q, pos) == d
      ensures q in r
    {
      var dy, dx := q.y - pos.y, q.x - pos.x;
      if dy < 0 && dx >= 0 {
        assert r[dx] == q;
      } else if dy >= 0 && dx > 0 {
        assert r[d + dy] == q;
      } else if dy > 0 && dx <= 0 {
        assert r[2 * d - dx] == q;
      } else {
        assert r[3 * d - dy] == q;
      }
    }
  }

  /** At distance one the boundary is: up, right, down, left. */
  lemma UnitBoundary(pos: Position)
    ensures ManhattanBoundary(pos, 1) == [
      Position(pos.y - 1, pos.x), Position(pos.y, pos.x + 1),
      Position(pos.y + 1, pos.x), Position(pos.y, pos.x - 1)]
  {
  }
}

=== FILE: grid.dfy ===
/** The grid: a rectangular board of grid objects with bounds-checked access. */
module Grids {
  import opened Wrappers
  import opened Geometry
  import opened GridObjects

  /** A `height` x `width` matrix stored row by row. */
  datatype Matrix<T> = Matrix(height: nat, width: nat, cells: seq<seq<T>>) {
    /** The rows have the declared number and length. */
    ghost predicate Valid() {
      |cells| == height && forall y | 0 <= y < height :: |cells[y]| == width
    }

    predicate Contains(p: Position) {
      0 <= p.y < height && 0 <= p.x < width
    }

    function Shape(): Geometry.Shape {
      Geometry.Shape(height, width)
    }

    function At(p: Position): T
      requires Valid() && Contains(p)
    {
      cells[p.y][p.x]
    }
  }

  type Grid = g: Matrix<GridObject> | g.Valid() witness Matrix(0, 0, [])

  /** NumPy indexing along an axis of length `n`: a negative index counts from the end,
      and an index outside `[-n, n)` is out of range. */
  function AxisIndex(i: int, n: nat): (r: Option<nat>)
    ensures r.Some? <==> -(n as int) <= i < n
    ensures r.Some? ==> r.value < n && (r.value == i || r.value == i + n)
  {
    if 0 <= i < n then Some(i) else if -(n as int) <= i < 0 then Some(i + n) else None
  }

  /** The area covering the whole grid. */
  function GridArea<T>(g: Matrix<T>): Area {
    Area(0, 0, g.height - 1, g.width - 1)
  }

  /** The grid positions in row-major order. */
  function GridPositions<T>(g: Matrix<T>): (r: seq<Position>)
    ensures forall p :: p in r <==> g.Contains(p)
    ensures RowMajor(r)
  {
    Positions(GridArea(g))
  }

  /** A `height` x `width` grid of Floor. */
  function NewGrid(height: nat, width: nat): (g: Grid)
    ensures g.Shape() == Shape(height, width)
    ensures forall p | g.Contains(p) :: g.At(p) == Floor
  {
    Matrix(height, width, seq(height, _ => seq(width, _ => Floor)))
  }

  /** Reads a cell; out-of-bounds positions raise IndexError. */
  function Get(g: Grid, p: Position): (r: Result<GridObject>)
    ensures r.Success? <==> g.Contains(p)
    ensures r.Failure? ==> r.error == IndexError
    ensures r.Success? ==> r.value == g.cells[p.y][p.x]
  {
    if g.Contains(p) then Success(g.At(p)) else Failure(IndexError)
  }

  /** The cells with position `p` replaced by `o`. */
  function Update<T>(g: Matrix<T>, p: Position, o: T): (r: Matrix<T>)
    requires g.Valid() && g.Contains(p)
    ensures r.Valid() && r.Shape() == g.Shape()
    ensures r.At(p) == o
    ensures forall q | g.Contains(q) && q != p :: r.At(q) == g.At(q)
  {
    Matrix(g.height, g.width, g.cells[p.y := g.cells[p.y][p.x := o]])
  }

  /** Writes a cell; out-of-bounds positions raise IndexError. */
  function Set(g: Grid, p: Position, o: GridObject): (r: Result<Grid>)
    ensures r.Success? <==> g.Contains(p)
    ensures r.Failure? ==> r.error == IndexError
    ensures r.Success? ==> r.value.Shape() == g.Shape() && r.value.At(p) == o
    ensures r.Success? ==> forall q | g.Contains(q) && q != p :: r.value.At(q) == g.At(q)
  {
    if g.Contains(p) then Success(Update(g, p, o)) else Failure(IndexError)
  }

  /** Exchanges two cells; a position outside the grid raises ValueError. */
  function Swap(g: Grid, p: Position, q: Position): (r: Result<Grid>)
    ensures r.Success? <==> g.Contains(p) && g.Contains(q)
    ensures r.Failure? ==> r.error == ValueError
    ensures r.Success? ==> (r.value.Shape() == g.Shape()
      && r.value.At(p) == g.At(q) && r.value.At(q) == g.At(p)
      && (forall c | g.Contains(c) && c != p && c != q :: r.value.At(c) == g.At(c))
      && Objects(r.value) == Objects(g))
  {
    if !g.Contains(p) || !g.Contains(q) then Failure(ValueError)
    else
      var a, b := g.At(p), g.At(q);
      SwapObjects(g, p, q);
      Success(Update(Update(g, p, b), q, a))
  }

  /** Exchanging two cells keeps the multiset of objects. */
  lemma SwapObjects<T>(g: Matrix<T>, p: Position, q: Position)
    requires g.Valid() && g.Contains(p) && g.Contains(q)
    ensures Objects(Update(Update(g, p, g.At(q)), q, g.At(p))) == Objects(g)
  {
    var a, b := g.At(p), g.At(q);
    var g1 := Update(g, p, b);
    var g2 := Update(g1, q, a);
    UpdateObjects(g, p, b);
    UpdateObjects(g1, q, a);
    assert g1.At(q) == b;
    SwapBack(Objects(g), a, b);
  }

  /** Taking `a` out for `b` and then `b` out for `a` restores the multiset. */
  lemma SwapBack<T>(m: multiset<T>, a: T, b: T)
    requires a in m
    ensures (m - multiset{a} + multiset{b}) - multiset{b} + multiset{a} == m
  {
    var m2 := (m - multiset{a} + multiset{b}) - multiset{b} + multiset{a};
    forall x ensures m2[x] == m[x] {
      var ca, cb := if x == a then 1 else 0, if x == b then 1 else 0;
      assert multiset{a}[x] == ca && multiset{b}[x] == cb;
    }
  }

  /** The multiset of all objects in the grid. */
  function Objects<T>(g: Matrix<T>): multiset<T> {
    RowsObjects(g.cells)
  }

  function RowsObjects<T>(rows: seq<seq<T>>): multiset<T> {
    if |rows| == 0 then multiset{} else multiset(rows[0]) + RowsObjects(rows[1..])
  }

  /** Writing a cell removes its old object from the multiset and adds the new one. */
  lemma {:induction false} UpdateObjects<T>(g: Matrix<T>, p: Position, o: T)
    requires g.Valid() && g.Contains(p)
    ensures g.At(p) in Objects(g)
    ensures Objects(Update(g, p, o)) == Objects(g) - multiset{g.At(p)} + multiset{o}
  {
    RowsUpdate(g.cells, p.y, p.x, o);
  }

  lemma {:induction false} RowsUpdate<T>(rows: seq<seq<T>>, y: nat, x: nat, o: T)
    requires y < |rows| && x < |rows[y]|
    ensures rows[y][x] in RowsObjects(rows)
    ensures RowsObjects(rows[y := rows[y][x := o]])
      == RowsObjects(rows) - multiset{rows[y][x]} + multiset{o}
  {
    var rows' := rows[y := rows[y][x := o]];
    var a := rows[y][x];
    assert a in multiset(rows[y]);
    assert RowsObjects(rows) == multiset(rows[0]) + RowsObjects(rows[1..]);
    assert RowsObjects(rows') == multiset(rows'[0]) + RowsObjects(rows'[1..]);
    if y == 0 {
      assert rows'[1..] == rows[1..];
      assert multiset(rows'[0]) == multiset(rows[0]) - multiset{a} + multiset{o};
      ShiftLeft(multiset(rows[0]), RowsObjects(rows[1..]), a, o);
    } else {
      assert rows'[1..] == rows[1..][y - 1 := rows[y][x := o]];
      RowsUpdate(rows[1..], y - 1, x, o);
      ShiftRight(multiset(rows[0]), RowsObjects(rows[1..]), a, o);
    }
  }

  lemma ShiftLeft<T>(m: multiset<T>, n: multiset<T>, a: T, o: T)
    requires a in m
    ensures a in m + n && (m - multiset{a} + multiset{o}) + n == (m + n) - multiset{a} + multiset{o}
  {
  }

  lemma ShiftRight<T>(m: multiset<T>, n: multiset<T>, a: T, o: T)
    requires a in n
    ensures a in m + n && m + (n - multiset{a} + multiset{o}) == (m + n) - multiset{a} + multiset{o}
  {
  }

  /** Builds a grid from a matrix of objects; ragged input raises ValueError and an empty
      list of rows raises TypeError (the array it makes has only one dimension). */
  function FromObjects(rows: seq<seq<GridObject>>): (r: Result<Grid>)
    ensures r.Success? <==> |rows| > 0 && forall y | 0 <= y < |rows| :: |rows[y]| == |rows[0]|
    ensures |rows| == 0 ==> r == Failure(TypeError)
    ensures |rows| > 0 && r.Failure? ==> r.error == ValueError
    ensures r.Success? ==> (r.value.height == |rows| && r.value.width == |rows[0]|
      && forall p | r.value.Contains(p) :: r.value.At(p) == rows[p.y][p.x])
  {
    if |rows| == 0 then Failure(TypeError)
    else if exists y | 0 <= y < |rows| :: |rows[y]| != |rows[0]| then Failure(ValueError)
    else Success(Matrix(|rows|, |rows[0]|, rows))
  }

  function ToObjects(g: Grid): (rows: seq<seq<GridObject>>)
    ensures |rows| == g.height && forall y | 0 <= y < |rows| :: |rows[y]| == g.width
    ensures forall p | g.Contains(p) :: rows[p.y][p.x] == g.At(p)
  {
    g.cells
  }

  /** Converting to objects and back returns the same grid, as long as it has a row. */
  lemma ObjectsRoundTrip(g: Grid, rows: seq<seq<GridObject>>)
    ensures g.height > 0 ==> FromObjects(ToObjects(g)) == Success(g)
    ensures FromObjects(rows).Success? ==> ToObjects(FromObjects(rows).value) == rows
  {
    if g.height > 0 {
      assert forall y | 0 <= y < g.height :: |g.cells[y]| == |g.cells[0]|;
    }
  }

  /** Grids are equal exactly when they have the same shape and the same object in every
      cell. */
  lemma Equality(g1: Grid, g2: Grid)
    ensures g1 == g2 <==> (g1.Shape() == g2.Shape()
      && forall p | g1.Contains(p) :: g1.At(p) == g2.At(p))
  {
    if g1.Shape() == g2.Shape() && forall p | g1.Contains(p) :: g1.At(p) == g2.At(p) {
      forall y | 0 <= y < g1.height
        ensures g1.cells[y] == g2.cells[y]
      {
        forall x | 0 <= x < g1.width
          ensures g1.cells[y][x] == g2.cells[y][x]
        {
          assert g1.At(Position(y, x)) == g2.At(Position(y, x));
        }
      }
    }
  }

  /** The position of the first cell (in row-major order) holding `o`; ValueError if there
      is none. */
  function GetPosition(g: Grid, o: GridObject): (r: Result<Position>)
    ensures r.Failure? <==> forall p | g.Contains(p) :: g.At(p) != o
    ensures r.Failure? ==> r.error == ValueError
    ensures r.Success? ==> (g.Contains(r.value) && g.At(r.value) == o
      && forall p | g.Contains(p) && Before(p, r.value) :: g.At(p) != o)
  {
    FindFirst(g, GridPositions(g), o)
  }

  function FindFirst(g: Grid, ps: seq<Position>, o: GridObject): (r: Result<Position>)
    requires forall p | p in ps :: g.Contains(p)
    requires RowMajor(ps)
    requires forall p | g.Contains(p) && !(p in ps) && (|ps| == 0 || Before(p, ps[0])) :: g.At(p) != o
    requires forall p | g.Contains(p) && |ps| > 0 && !Before(p, ps[0]) :: p in ps
    ensures r.Failure? <==> forall p | g.Contains(p) :: g.At(p) != o
    ensures r.Failure? ==> r.error == ValueError
    ensures r.Success? ==> (r.value in ps && g.At(r.value) == o
      && forall p | g.Contains(p) && Before(p, r.value) :: g.At(p) != o)
    decreases |ps|
  {
    if |ps| == 0 then Failure(ValueError)
    else if g.At(ps[0]) == o then Success(ps[0])
    else
      RowMajorTail(ps);
      var tail := ps[1..];
      assert forall p | p in ps :: p == ps[0] || p in tail;
      assert forall p | g.Contains(p) && !(p in tail) && (|tail| == 0 || Before(p, tail[0])) :: g.At(p) != o by {
        forall p | g.Contains(p) && !(p in tail) && (|tail| == 0 || Before(p, tail[0]))
          ensures g.At(p) != o
        {
          assert !Before(p, ps[0]) ==> p in ps;
        }
      }
      assert forall p | g.Contains(p) && |tail| > 0 && !Before(p, tail[0]) :: p in tail by {
        forall p | g.Contains(p) && |tail| > 0 && !Before(p, tail[0])
          ensures p in tail
        {
          assert Before(ps[0], tail[0]);
          assert !Before(p, ps[0]);
          assert p in ps;
          assert p != ps[0];
        }
      }
      FindFirst(g, tail, o)
  }

  /** The set of object classes present in the grid. */
  function ObjectKinds(g: Grid): (r: set<Kind>)
    ensures forall p | g.Contains(p) :: KindOf(g.At(p)) in r
    ensures forall k | k in r :: exists p | g.Contains(p) :: KindOf(g.At(p)) == k
  {
    set p | p in GridPositions(g) :: KindOf(g.At(p))
  }

  /** The `area` cut out of the grid; cells of the area outside the grid are Hidden. */
  function Subgrid(g: Grid, area: Area): (r: Grid)
    requires area.Height() >= 0 && area.Width() >= 0
    ensures r.height == area.Height() && r.width == area.Width()
    ensures forall t | r.Contains(t) ::
      r.At(t) == (if g.Contains(Add(t, area.TopLeft())) then g.At(Add(t, area.TopLeft())) else Hidden)
  {
    var h: nat, w: nat := area.Height(), area.Width();
    var cells := seq(h, i => seq(w, j =>
      var src := Position(i + area.y0, j + area.x0);
      if g.Contains(src) then g.At(src) else Hidden));
    assert forall i | 0 <= i < h :: |cells[i]| == w;
    Matrix(h, w, cells)
  }

  /** The grid rotated counter-clockwise `o`-many quarter turns (N none, E one, S two,
      W three), i.e. as seen by a viewer facing `o`. */
  function Rotated(g: Grid, o: Orientation): (r: Grid)
    ensures o == N || o == S ==> r.height == g.height && r.width == g.width
    ensures o == E || o == W ==> r.height == g.width && r.width == g.height
  {
    var h, w := g.height, g.width;
    match o
    case N => g
    case S =>
      var cells := seq(h, i requires 0 <= i < h => seq(w, j requires 0 <= j < w => g.At(Position(h - 1 - i, w - 1 - j))));
      assert forall i | 0 <= i < h :: |cells[i]| == w;
      Matrix(h, w, cells)
    case E =>
      var cells := seq(w, i requires 0 <= i < w => seq(h, j requires 0 <= j < h => g.At(Position(j, w - 1 - i))));
      assert forall i | 0 <= i < w :: |cells[i]| == h;
      Matrix(w, h, cells)
    case W =>
      var cells := seq(w, i requires 0 <= i < w => seq(h, j requires 0 <= j < h => g.At(Position(h - 1 - j, i))));
      assert forall i | 0 <= i < w :: |cells[i]| == h;
      Matrix(w, h, cells)
  }

  /** The grid as seen by a viewer facing `o`. A grid with no rows is stored as a
      one-dimensional empty array, which `rot90` refuses with ValueError whatever the
      turn; otherwise rebuilding the grid from a rotation with no row raises TypeError. */
  function ChangeOrientation(g: Grid, o: Orientation): (r: Result<Grid>)
    ensures g.height == 0 ==> r == Failure(ValueError)
    ensures g.height > 0 ==> (r.Success? <==> Rotated(g, o).height > 0)
    ensures g.height > 0 && r.Failure? ==> r.error == TypeError
    ensures r.Success? ==> r.value == Rotated(g, o)
  {
    var rot := Rotated(g, o);
    if g.height == 0 then Failure(ValueError)
    else if rot.height == 0 then Failure(TypeError)
    else Success(rot)
  }

  /** Where a cell of the grid lands after rotating it for a viewer facing `o`. */
  function RotatedPosition(g: Grid, o: Orientation, p: Position): Position {
    match o
    case N => p
    case S => Position(g.height - 1 - p.y, g.width - 1 - p.x)
    case E => Position(g.width - 1 - p.x, p.y)
    case W => Position(p.x, g.height - 1 - p.y)
  }

  /** Rotation moves every cell to its rotated position and nowhere else. */
  lemma RotatedCells(g: Grid, o: Orientation, p: Position)
    requires g.Contains(p)
    ensures Rotated(g, o).Contains(RotatedPosition(g, o, p))
    ensures Rotated(g, o).At(RotatedPosition(g, o, p)) == g.At(p)
  {
  }

  /** A viewer facing N sees the grid unchanged, and turning back by the inverse
      rotation restores the grid. */
  lemma RotationInverses(g: Grid, o: Orientation)
    ensures Rotated(g, N) == g
    ensures Rotated(Rotated(g, o), Inverse(o)) == g
  {
    var r1 := Rotated(g, o);
    var r2 := Rotated(r1, Inverse(o));
    forall p | g.Contains(p) ensures r2.At(p) == g.At(p) {
      var q := RotatedPosition(g, o, p);
      RotatedCells(g, o, p);
      RotatedCells(r1, Inverse(o), q);
      RotatedPositionInverse(g, o, p);
    }
    Equality(r2, g);
  }

  /** Rotated positions are undone by the inverse rotation. */
  lemma RotatedPositionInverse(g: Grid, o: Orientation, p: Position)
    ensures RotatedPosition(Rotated(g, o), Inverse(o), RotatedPosition(g, o, p)) == p
  {
    match o
    case N =>
    case S =>
    case E =>
    case W =>
  }

}

=== FILE: grid_objects.dfy ===
/** The objects that occupy grid cells and the capability table the dynamics consult:
    whether an object blocks the agent, lets light through, or can be picked up. */
module GridObjects {

  datatype Color = ColorNone | Red | Green | Blue | Yellow

  /** The integer value of each colour, in declaration order. */
  function ColorValue(c: Color): nat {
    match c
    case ColorNone => 0
    case Red => 1
    case Green => 2
    case Blue => 3
    case Yellow => 4
  }

  datatype DoorStatus = Open | Closed | Locked

  function StatusValue(s: DoorStatus): nat {
    match s
    case Open => 0
    case Closed => 1
    case Locked => 2
  }

  datatype GridObject =
    | NoneGridObject               // what an empty-handed agent holds
    | Hidden                       // a cell the observer cannot see
    | Floor
    | Wall
    | Exit(color: Color)
    | Door(status: DoorStatus, color: Color)
    | Key(color: Color)
    | MovingObstacle
    | Box(content: GridObject)
    | Telepod(color: Color)
    | Beacon(color: Color)

  /** The class of a grid object; the factories take these as `object_type`. */
  datatype Kind =
    | NoneGridObjectKind
    | HiddenKind
    | FloorKind
    | WallKind
    | ExitKind
    | DoorKind
    | KeyKind
    | MovingObstacleKind
    | BoxKind
    | TelepodKind
    | BeaconKind

  function KindOf(o: GridObject): Kind {
    match o
    case NoneGridObject => NoneGridObjectKind
    case Hidden => HiddenKind
    case Floor => FloorKind
    case Wall => WallKind
    case Exit(_) => ExitKind
    case Door(_, _) => DoorKind
    case Key(_) => KeyKind
    case MovingObstacle => MovingObstacleKind
    case Box(_) => BoxKind
    case Telepod(_) => TelepodKind
    case Beacon(_) => BeaconKind
  }

  /** The registration index of each class. Floor 0, Wall 1, Exit 2 (the slot of the
      retired Goal), Door 3, Key 4 and MovingObstacle 5 are fixed; the remaining classes
      take 6 to 10. */
  function TypeIndex(k: Kind): nat {
    match k
    case FloorKind => 0
    case WallKind => 1
    case ExitKind => 2
    case DoorKind => 3
    case KeyKind => 4
    case MovingObstacleKind => 5
    case NoneGridObjectKind => 6
    case HiddenKind => 7
    case BoxKind => 8
    case TelepodKind => 9
    case BeaconKind => 10
  }

  /** Number of distinct states of a class: three for doors, none for the others. */
  function NumStates(k: Kind): nat {
    if k == DoorKind then 3 else 0
  }

  function StateIndex(o: GridObject): nat {
    if o.Door? then StatusValue(o.status) else 0
  }

  function ColorOf(o: GridObject): Color {
    match o
    case Exit(c) => c
    case Door(_, c) => c
    case Key(c) => c
    case Telepod(c) => c
    case Beacon(c) => c
    case _ => ColorNone
  }

  /** Whether the agent can see through the object. */
  predicate Transparent(o: GridObject) {
    match o
    case NoneGridObject => false
    case Hidden => false
    case Wall => false
    case Door(s, _) => s == Open
    case _ => true
  }

  /** Whether the object stops the agent from entering its cell. */
  predicate Blocks(o: GridObject) {
    match o
    case Wall => true
    case Door(s, _) => s != Open
    case Box(_) => true
    case _ => false
  }

  predicate CanBePickedUp(o: GridObject) {
    o.Key?
  }

  predicate IsOpen(o: GridObject)
    requires o.Door?
  {
    o.status == Open
  }

  predicate IsLocked(o: GridObject)
    requires o.Door?
  {
    o.status == Locked
  }

  /** The (3,) array encoding: type index, state index, colour value. */
  function AsArray(o: GridObject): (a: seq<nat>)
    ensures |a| == 3
  {
    [TypeIndex(KindOf(o)), StateIndex(o), ColorValue(ColorOf(o))]
  }

  /** The capability table of the fixed classes. */
  lemma Capabilities(c: Color, s: DoorStatus)
    ensures !Blocks(Floor) && Transparent(Floor) && !CanBePickedUp(Floor)
    ensures AsArray(Floor) == [0, 0, 0]
    ensures Blocks(Wall) && !Transparent(Wall) && !CanBePickedUp(Wall)
    ensures AsArray(Wall) == [1, 0, 0]
    ensures CanBePickedUp(Key(c)) && !Blocks(Key(c)) && Transparent(Key(c))
    ensures AsArray(Key(c)) == [4, 0, ColorValue(c)]
    ensures !Blocks(MovingObstacle) && Transparent(MovingObstacle) && !CanBePickedUp(MovingObstacle)
    ensures AsArray(MovingObstacle) == [5, 0, 0]
    ensures Blocks(Door(s, c)) <==> !IsOpen(Door(s, c))
    ensures Transparent(Door(s, c)) <==> IsOpen(Door(s, c))
    ensures IsLocked(Door(s, c)) ==> !IsOpen(Door(s, c))
    ensures !CanBePickedUp(Door(s, c))
    ensures AsArray(Door(s, c)) == [3, StatusValue(s), ColorValue(c)]
  {
  }

  /** Distinct classes have distinct indices, and the state index is below the number of
      states whenever a class has states. */
  lemma IndicesWellFormed(k1: Kind, k2: Kind, o: GridObject)
    ensures TypeIndex(k1) == TypeIndex(k2) ==> k1 == k2
    ensures NumStates(KindOf(o)) == 0 ==> StateIndex(o) == 0
    ensures NumStates(KindOf(o)) > 0 ==> StateIndex(o) < NumStates(KindOf(o))
  {
  }

  /** The array encoding loses nothing except a box's content: two objects that are not
      boxes have the same encoding only if they are equal. */
  lemma AsArrayInjective(o1: GridObject, o2: GridObject)
    requires !o1.Box? && !o2.Box?
    requires AsArray(o1) == AsArray(o2)
    ensures o1 == o2
  {
    assert AsArray(o1)[0] == AsArray(o2)[0];
    assert AsArray(o1)[1] == AsArray(o2)[1];
    assert AsArray(o1)[2] == AsArray(o2)[2];
    ColorValueInjective(ColorOf(o1), ColorOf(o2));
  }

  lemma ColorValueInjective(c1: Color, c2: Color)
    ensures ColorValue(c1) == ColorValue(c2) ==> c1 == c2
  {
  }
}

=== FILE: gridworld.dfy ===
/** The grid-world environment: a reset, a transition, an observation, a reward and a
    terminating function over the domain's state, action and observation spaces. The
    space checks run only while debugging is enabled, and each raises ValueError. The
    generator is threaded through every call that may draw from it. */
module GridWorlds {
  import opened Wrappers
  import opened Actions
  import opened Agents
  import opened Spaces
  import opened Rng
  import opened Visibility
  import opened ObservationFunctions

  type ResetFn = Rng -> Result<(State, Rng)>
  type StepFn = (State, Action, Rng) -> Result<(State, Rng)>
  type ObserveFn = (State, Rng) -> Result<(Observation, Rng)>
  type RewardFn = (State, Action, State) -> Result<real>
  type TerminatingFn = (State, Action, State) -> Result<bool>

  datatype DomainSpace = DomainSpace(states: StateSpace, actions: ActionSpace, observations: ObservationSpace)

  datatype GridWorld = GridWorld(
    domain: DomainSpace,
    reset: ResetFn,
    step: StepFn,
    observe: ObserveFn,
    reward: RewardFn,
    terminating: TerminatingFn)

  /** What a step reports: the next state, its reward and whether it ends the episode. */
  datatype Outcome = Outcome(next: State, reward: real, terminal: bool)

  /** `functional_reset`: a fresh state, checked against the state space. */
  function FunctionalReset(w: GridWorld, debug: bool, rng: Rng): (r: Result<(State, Rng)>)
    ensures r.Success? <==>
      w.reset(rng).Success? && (debug ==> StateContains(w.domain.states, w.reset(rng).value.0))
    ensures w.reset(rng).Success? && r.Failure? ==> r.error == ValueError
    ensures r.Success? ==> r.value == w.reset(rng).value
  {
    var (s, rng') :- w.reset(rng);
    if debug && !StateContains(w.domain.states, s) then Failure(ValueError)
    else Success((s, rng'))
  }

  /** `functional_step`: checks the state, then the action, applies the transition to a
      copy of the state, checks the next state, then evaluates the reward and the
      terminating function on the transition. The given state is never changed. */
  function FunctionalStep(w: GridWorld, debug: bool, s: State, a: Action, rng: Rng): (r: Result<(Outcome, Rng)>)
    ensures debug && !StateContains(w.domain.states, s) ==> r == Failure(ValueError)
    ensures debug && StateContains(w.domain.states, s) && !ActionContains(w.domain.actions, a) ==>
      r == Failure(ValueError)
    ensures r.Success? ==> w.step(s, a, rng) == Success((r.value.0.next, r.value.1))
    ensures r.Success? && debug ==> StateContains(w.domain.states, r.value.0.next)
    ensures r.Success? ==> w.reward(s, a, r.value.0.next) == Success(r.value.0.reward)
    ensures r.Success? ==> w.terminating(s, a, r.value.0.next) == Success(r.value.0.terminal)
    ensures r.Failure? && (!debug || (StateContains(w.domain.states, s) && ActionContains(w.domain.actions, a))) ==>
      w.step(s, a, rng).Failure? ||
      (debug && !StateContains(w.domain.states, w.step(s, a, rng).value.0)) ||
      w.reward(s, a, w.step(s, a, rng).value.0).Failure? ||
      w.terminating(s, a, w.step(s, a, rng).value.0).Failure?
  {
    if debug && !StateContains(w.domain.states, s) then Failure(ValueError)
    else if debug && !ActionContains(w.domain.actions, a) then Failure(ValueError)
    else
      var (t, rng') :- w.step(s, a, rng);
      if debug && !StateContains(w.domain.states, t) then Failure(ValueError)
      else
        var reward :- w.reward(s, a, t);
        var terminal :- w.terminating(s, a, t);
        Success((Outcome(t, reward, terminal), rng'))
  }

  /** `functional_observation`, with the observation-space check as corrected. */
  function FunctionalObservation(w: GridWorld, debug: bool, s: State, rng: Rng): (r: Result<(Observation, Rng)>)
    ensures r.Success? <==>
      w.observe(s, rng).Success? &&
      (debug ==> ObservationContains(w.domain.observations, w.observe(s, rng).value.0))
    ensures w.observe(s, rng).Success? && r.Failure? ==> r.error == ValueError
    ensures r.Success? ==> r.value == w.observe(s, rng).value
  {
    var (o, rng') :- w.observe(s, rng);
    if debug && !ObservationContains(w.domain.observations, o) then Failure(ValueError)
    else Success((o, rng'))
  }

  /** `functional_observation` as written, checking against `ObservationSpace.contains`
      as written. */
  function FunctionalObservationAsWritten(w: GridWorld, debug: bool, s: State, rng: Rng)
    : (r: Result<(Observation, Rng)>)
    ensures r.Success? <==>
      w.observe(s, rng).Success? &&
      (debug ==> ObservationContainsAsWritten(w.domain.observations, w.observe(s, rng).value.0))
    ensures r.Success? ==> r.value == w.observe(s, rng).value
  {
    var (o, rng') :- w.observe(s, rng);
    if debug && !ObservationContainsAsWritten(w.domain.observations, o) then Failure(ValueError)
    else Success((o, rng'))
  }

  // ---------------------------------------------------------------------------------
  // Properties
  // ---------------------------------------------------------------------------------

  /** The space checks only ever raise: whatever succeeds with debugging on gives the
      same result with debugging off. */
  lemma ChecksOnlyRaise(w: GridWorld, s: State, a: Action, rng: Rng)
    ensures FunctionalReset(w, true, rng).Success? ==> FunctionalReset(w, false, rng) == FunctionalReset(w, true, rng)
    ensures FunctionalStep(w, true, s, a, rng).Success? ==>
      FunctionalStep(w, false, s, a, rng) == FunctionalStep(w, true, s, a, rng)
    ensures FunctionalObservation(w, true, s, rng).Success? ==>
      FunctionalObservation(w, false, s, rng) == FunctionalObservation(w, true, s, rng)
  {
  }

  /** An observation paired with the generator it leaves, or the error raised. */
  function WithRng(r: Result<Observation>, rng: Rng): Result<(Observation, Rng)> {
    if r.Success? then Success((r.value, rng)) else Failure(r.error)
  }

  /** The observation function `from_visibility` with its space and visibility bound,
      leaving the generator untouched. */
  function Observer(f: ObservationFunction, raytraced: Raytraced): (r: ObserveFn)
    requires Positive(f.space)
    ensures forall s, rng :: r(s, rng).Success? <==> ObservationFunctions.Apply(f, s, raytraced).Success?
    ensures forall s, rng | r(s, rng).Success? ::
      r(s, rng).value == (ObservationFunctions.Apply(f, s, raytraced).value, rng)
  {
    (s: State, rng: Rng) => WithRng(ObservationFunctions.Apply(f, s, raytraced), rng)
  }

  /** With debugging on, a world observing through `from_visibility` fails every
      observation as written, while with the corrected check a state of the state space
      yields its observation when both spaces declare the same classes. */
  lemma FromVisibilityObservationChecks(w: GridWorld, f: ObservationFunction, raytraced: Raytraced, s: State, rng: Rng)
    requires Positive(f.space) && w.observe == Observer(f, raytraced) && w.domain.observations == f.space
    requires f.visibility.Full? || f.visibility.Partial? || f.visibility.Minigrid?
    requires StateContains(w.domain.states, s) && w.domain.states.objectTypes == f.space.objectTypes
    ensures FunctionalObservationAsWritten(w, true, s, rng).Failure?
    ensures FunctionalObservation(w, true, s, rng).Success?
  {
    var o := FromVisibility(s, f.space, f.visibility, raytraced);
    assert o.Success?;
    assert w.observe(s, rng) == Success((o.value, rng));
    ObservationContainsAsWrittenNothing(f.space, o.value);
    ObservationInSpace(s, w.domain.states, f.space, f.visibility, raytraced);
  }
}

=== FILE: inner_env.dfy ===
/** The stateful environment interface over a grid world: it keeps the current state and
    the last observation, steps the state forward and generates an observation on
    request, keeping it until the state changes. */
module InnerEnvs {
  import opened Wrappers
  import opened Actions
  import opened Agents
  import opened Spaces
  import opened Rng
  import opened GridWorlds

  /** The environment: its world, whether space checks are enabled, its generator, and
      the current state and observation, both unset until a reset. */
  datatype Env = Env(world: GridWorld, debug: bool, rng: Rng, state: Option<State>, observation: Option<Observation>)

  /** A freshly built environment. */
  function NewEnv(world: GridWorld, debug: bool, rng: Rng): Env {
    Env(world, debug, rng, None, None)
  }

  /** `reset`: a fresh state from the world; the observation is dropped. */
  function Reset(e: Env): (r: Result<Env>)
    ensures r.Success? <==> FunctionalReset(e.world, e.debug, e.rng).Success?
    ensures r.Success? ==> r.value.state == Some(FunctionalReset(e.world, e.debug, e.rng).value.0)
    ensures r.Success? ==> r.value.observation.None?
    ensures r.Success? ==> r.value.world == e.world && r.value.debug == e.debug
  {
    var (s, rng') :- FunctionalReset(e.world, e.debug, e.rng);
    Success(e.(rng := rng', state := Some(s), observation := None))
  }

  /** The `state` property: RuntimeError before the first reset. */
  function GetState(e: Env): (r: Result<State>)
    ensures r.Success? <==> e.state.Some?
    ensures r.Failure? ==> r.error == RuntimeError
    ensures r.Success? ==> r.value == e.state.value
  {
    if e.state.None? then Failure(RuntimeError) else Success(e.state.value)
  }

  /** `step`: the current state moves to the world's next state, the observation is
      dropped, and the reward and terminal flag are reported. */
  function Step(e: Env, a: Action): (r: Result<(Env, real, bool)>)
    ensures e.state.None? ==> r == Failure(RuntimeError)
    ensures r.Success? ==> (e.state.Some? &&
      var out := FunctionalStep(e.world, e.debug, e.state.value, a, e.rng);
      out.Success? &&
      r.value.0.state == Some(out.value.0.next) &&
      r.value.1 == out.value.0.reward && r.value.2 == out.value.0.terminal)
    ensures r.Success? ==> r.value.0.observation.None?
    ensures r.Success? ==> r.value.0.world == e.world && r.value.0.debug == e.debug
  {
    var s :- GetState(e);
    var (out, rng') :- FunctionalStep(e.world, e.debug, s, a, e.rng);
    Success((e.(rng := rng', state := Some(out.next), observation := None), out.reward, out.terminal))
  }

  /** The `observation` property: generated from the current state on the first request
      after the state changes, and returned unchanged until then. */
  function Observe(e: Env): (r: Result<(Env, Observation)>)
    ensures e.observation.Some? ==> r == Success((e, e.observation.value))
    ensures e.observation.None? && e.state.None? ==> r == Failure(RuntimeError)
    ensures r.Success? ==> r.value.0.observation == Some(r.value.1)
    ensures r.Success? ==> r.value.0.state == e.state && r.value.0.world == e.world && r.value.0.debug == e.debug
    ensures r.Success? && e.observation.None? ==>
      FunctionalObservation(e.world, e.debug, e.state.value, e.rng) == Success((r.value.1, r.value.0.rng))
  {
    if e.observation.Some? then Success((e, e.observation.value))
    else
      var s :- GetState(e);
      var (o, rng') :- FunctionalObservation(e.world, e.debug, s, e.rng);
      Success((e.(rng := rng', observation := Some(o)), o))
  }

  // ---------------------------------------------------------------------------------
  // Properties
  // ---------------------------------------------------------------------------------

  /** The environment's invariant while checks are enabled: a kept state lies in the
      state space, a kept observation lies in the observation space, and there is no
      observation without a state. */
  predicate Consistent(e: Env) {
    (e.state.Some? ==> StateContains(e.world.domain.states, e.state.value)) &&
    (e.observation.Some? ==> e.state.Some? && ObservationContains(e.world.domain.observations, e.observation.value))
  }

  /** With checks enabled, reset, step and observation requests all keep the invariant,
      starting from a freshly built environment. */
  lemma ConsistentPreserved(e: Env, a: Action)
    requires e.debug && Consistent(e)
    ensures Consistent(NewEnv(e.world, e.debug, e.rng))
    ensures Reset(e).Success? ==> Consistent(Reset(e).value)
    ensures Step(e, a).Success? ==> Consistent(Step(e, a).value.0)
    ensures Observe(e).Success? ==> Consistent(Observe(e).value.0)
  {
  }

  /** Observation requests are memoised: a second request returns the same observation
      and leaves the environment as the first one left it. */
  lemma ObserveTwice(e: Env)
    requires Observe(e).Success?
    ensures Observe(Observe(e).value.0) == Observe(e)
  {
  }

  /** The steps of an episode taking `actions` in order and stopping at the first error:
      the environment left, and the rewards and terminal flags reported, in order. */
  function Run(e: Env, actions: seq<Action>): (r: Result<(Env, seq<(real, bool)>)>)
    ensures r.Success? ==> |r.value.1| == |actions|
    ensures r.Success? ==> r.value.0.world == e.world && r.value.0.debug == e.debug
    ensures r.Success? && |actions| > 0 ==> r.value.0.observation.None?
    decreases |actions|
  {
    if |actions| == 0 then Success((e, []))
    else
      var (e', reward, done) :- Step(e, actions[0]);
      var (e'', rest) :- Run(e', actions[1..]);
      Success((e'', [(reward, done)] + rest))
  }

  /** With checks enabled, an episode that starts consistent ends consistent, holding a
      state of the state space once it has taken a step. */
  lemma {:induction false} RunConsistent(e: Env, actions: seq<Action>)
    requires e.debug && Consistent(e) && Run(e, actions).Success?
    ensures Consistent(Run(e, actions).value.0)
    ensures |actions| > 0 ==> Run(e, actions).value.0.state.Some?
    decreases |actions|
  {
    if |actions| > 0 {
      var e' := Step(e, actions[0]).value.0;
      ConsistentPreserved(e, actions[0]);
      RunConsistent(e', actions[1..]);
    }
  }
}

=== FILE: kwargs.dfy ===
/** Keyword-argument handling shared by the function factories, and the
    `module:function` naming of user-supplied functions. */
module Kwargs {
  import opened Wrappers

  /** ValueError unless every required key is present. Only presence counts: a key bound
      to any value, including None, passes. */
  function CheckraiseKwargs<V>(kwargs: map<string, V>, required: seq<string>): (r: Result<()>)
    ensures r.Success? <==> forall k | k in required :: k in kwargs
    ensures r.Failure? ==> r.error == ValueError
  {
    if |required| == 0 then Success(())
    else if required[0] !in kwargs then Failure(ValueError)
    else
      var rest := CheckraiseKwargs(kwargs, required[1..]);
      assert forall k | k in required :: k == required[0] || k in required[1..];
      rest
  }

  /** The entries of `kwargs` whose key is listed in `keys`, with their values. */
  function SelectKwargs<V>(kwargs: map<string, V>, keys: seq<string>): (r: map<string, V>)
    ensures forall k :: k in r <==> k in kwargs && k in keys
    ensures forall k | k in r :: r[k] == kwargs[k]
  {
    map k | k in kwargs && k in keys :: kwargs[k]
  }

  /** Selecting twice with the same keys is selecting once. */
  lemma SelectIdempotent<V>(kwargs: map<string, V>, keys: seq<string>)
    ensures SelectKwargs(SelectKwargs(kwargs, keys), keys) == SelectKwargs(kwargs, keys)
  {
    var once := SelectKwargs(kwargs, keys);
    var twice := SelectKwargs(once, keys);
    assert twice.Keys == once.Keys;
  }

  /** Selection keeps every required key the factories listed, so checking before or
      after selecting gives the same verdict. */
  lemma CheckAfterSelect<V>(kwargs: map<string, V>, required: seq<string>, optional: seq<string>)
    ensures CheckraiseKwargs(SelectKwargs(kwargs, required + optional), required).Success?
      <==> CheckraiseKwargs(kwargs, required).Success?
  {
    var selected := SelectKwargs(kwargs, required + optional);
    assert forall k | k in required :: k in required + optional;
    if CheckraiseKwargs(kwargs, required).Success? {
      assert forall k | k in required :: k in selected;
    } else {
      var k :| k in required && k !in kwargs;
      assert k !in selected;
    }
  }

  /** A name denotes a user-supplied function exactly when it contains a colon. */
  predicate IsCustomFunction(name: string) {
    ':' in name
  }

  /** `s.split(sep)`: the maximal pieces of `s` between separators, in order. There is
      always at least one piece. */
  function Split(s: string, sep: char): (r: seq<string>)
    ensures |r| >= 1
    ensures forall i | 0 <= i < |r| :: sep !in r[i]
  {
    if |s| == 0 then [""]
    else
      var rest := Split(s[1..], sep);
      assert s == [s[0]] + s[1..];
      if s[0] == sep then [""] + rest
      else [[s[0]] + rest[0]] + rest[1..]
  }

  /** A split has one piece more than the string has separators. */
  lemma {:induction false} SplitCount(s: string, sep: char)
    ensures |Split(s, sep)| == multiset(s)[sep] + 1
  {
    if |s| > 0 {
      SplitCount(s[1..], sep);
      assert s == [s[0]] + s[1..];
      assert multiset(s) == multiset{s[0]} + multiset(s[1..]);
    }
  }

  /** `sep.join(parts)`. */
  function Join(parts: seq<string>, sep: char): string
    requires |parts| >= 1
  {
    if |parts| == 1 then parts[0] else parts[0] + [sep] + Join(parts[1..], sep)
  }

  /** Joining the pieces of a split gives back the string. */
  lemma {:induction false} JoinSplit(s: string, sep: char)
    ensures Join(Split(s, sep), sep) == s
  {
    if |s| > 0 {
      JoinSplit(s[1..], sep);
      var rest := Split(s[1..], sep);
      if s[0] == sep {
        assert Split(s, sep)[1..] == rest;
      } else {
        var r := Split(s, sep);
        if |rest| == 1 {
          assert r == [[s[0]] + rest[0]];
        } else {
          assert r[1..] == rest[1..];
        }
      }
    }
  }

  /** Splitting a join of separator-free pieces gives back the pieces. */
  lemma {:induction false} SplitJoin(parts: seq<string>, sep: char)
    requires |parts| >= 1 && forall i | 0 <= i < |parts| :: sep !in parts[i]
    ensures Split(Join(parts, sep), sep) == parts
    decreases |parts|, |parts[0]|
  {
    if |parts| == 1 {
      SplitPiece(parts[0], sep);
    } else {
      var tail := parts[1..];
      SplitJoin(tail, sep);
      SplitPrefix(parts[0], sep, Join(tail, sep));
      assert parts == [parts[0]] + tail;
    }
  }

  /** A separator-free string splits into itself. */
  lemma {:induction false} SplitPiece(s: string, sep: char)
    requires sep !in s
    ensures Split(s, sep) == [s]
  {
    if |s| > 0 {
      assert sep !in s[1..];
      SplitPiece(s[1..], sep);
      assert [s[0]] + s[1..] == s;
    }
  }

  /** A separator-free prefix followed by a separator becomes the first piece. */
  lemma {:induction false} SplitPrefix(p: string, sep: char, t: string)
    requires sep !in p
    ensures Split(p + [sep] + t, sep) == [p] + Split(t, sep)
  {
    if |p| == 0 {
      assert p + [sep] + t == [sep] + t;
      assert ([sep] + t)[1..] == t;
    } else {
      assert sep !in p[1..];
      SplitPrefix(p[1..], sep, t);
      assert (p + [sep] + t)[1..] == p[1..] + [sep] + t;
      assert [p[0]] + p[1..] == p;
    }
  }

  /** The module and function names of `module:function`; any number of colons other than
      one makes the two-way unpacking raise ValueError. Importing the module is not part
      of this model. */
  function CustomFunctionName(name: string): (r: Result<(string, string)>)
    ensures r.Success? <==> multiset(name)[':'] == 1
    ensures r.Failure? ==> r.error == ValueError
    ensures r.Success? ==> name == r.value.0 + ":" + r.value.1 && ':' !in r.value.0 && ':' !in r.value.1
  {
    var parts := Split(name, ':');
    SplitCount(name, ':');
    if |parts| != 2 then Failure(ValueError)
    else
      JoinSplit(name, ':');
      Success((parts[0], parts[1]))
  }

  /** Every module and function name pair without colons is recovered from its joined
      form. */
  lemma CustomFunctionNameRoundTrip(m: string, f: string)
    requires ':' !in m && ':' !in f
    ensures CustomFunctionName(m + ":" + f) == Success((m, f))
    ensures IsCustomFunction(m + ":" + f)
  {
    SplitJoin([m, f], ':');
    assert Join([m, f], ':') == m + ":" + f;
    assert (m + ":" + f)[|m|] == ':';
  }
}

=== FILE: observation_functions.dfy ===
/** Observation functions: the agent's point-of-view area cut out of the state's grid,
    turned to the agent's orientation and masked by a visibility function. */
module ObservationFunctions {
  import opened Wrappers
  import opened Geometry
  import opened GridObjects
  import opened Grids
  import opened Agents
  import opened Spaces
  import opened Visibility

  /** The grid with every cell the mask hides replaced by Hidden. */
  function HideUnseen(g: Grid, m: Mask): (r: Grid)
    requires m.Shape() == g.Shape()
    ensures r.Shape() == g.Shape()
    ensures forall p | r.Contains(p) :: r.At(p) == if m.At(p) then g.At(p) else Hidden
  {
    var cells := seq(g.height, y requires 0 <= y < g.height =>
      seq(g.width, x requires 0 <= x < g.width =>
        if m.At(Position(y, x)) then g.At(Position(y, x)) else Hidden));
    assert forall y | 0 <= y < g.height :: |cells[y]| == g.width;
    Matrix(g.height, g.width, cells)
  }

  /** The absolute area the agent observes. */
  function ViewArea(s: State, space: ObservationSpace): (r: Area)
    requires Positive(space)
    ensures r == PovArea(s.agent, ObservationArea(space))
    ensures r.Normalised()
    ensures s.agent.orientation in {N, S} ==>
      r.Height() == space.gridShape.height && r.Width() == space.gridShape.width
    ensures s.agent.orientation in {E, W} ==>
      r.Height() == space.gridShape.width && r.Width() == space.gridShape.height
  {
    ObservationArea(space).Rotate(s.agent.orientation).Translate(s.agent.position)
  }

  /** The unmasked observation grid: the observed area cut out of the grid, Hidden beyond
      its edges, seen by a viewer facing the agent's orientation. The area has at least
      one row, so turning it never fails. */
  function View(s: State, space: ObservationSpace): (r: Grid)
    requires Positive(space)
    ensures r.Shape() == space.gridShape
  {
    var sub := Subgrid(s.grid, ViewArea(s, space));
    ChangeOrientation(sub, s.agent.orientation).value
  }

  /** `from_visibility`. The visibility function is asked about the observation grid and
      the agent's cell in it; a mask of another shape raises ValueError; the cells it
      hides become Hidden; the observed agent sits at its observation position facing N
      and holds what the agent holds. */
  function FromVisibility(s: State, space: ObservationSpace, f: VisibilityFunction, raytraced: Raytraced)
    : (r: Result<Observation>)
    requires Positive(space)
    ensures (f.Full? || f.Partial? || f.Minigrid?) ==> r.Success?
    ensures r.Success? ==> r.value.grid.Shape() == space.gridShape
    ensures r.Success? ==> r.value.agent == Agent(ObservationAgentPosition(space), N, s.agent.obj)
    ensures r.Success? ==> forall t | r.value.grid.Contains(t) ::
      r.value.grid.At(t) == View(s, space).At(t) || r.value.grid.At(t) == Hidden
    ensures r.Success? && f.Full? ==> r.value.grid == View(s, space)
    ensures var m := Visibility.Apply(f, View(s, space), ObservationAgentPosition(space), raytraced);
      (m.Failure? ==> r == Failure(m.error)) &&
      (m.Success? ==> (r.Failure? <==> m.value.Shape() != space.gridShape)) &&
      (m.Success? && r.Failure? ==> r.error == ValueError)
    ensures r.Success? ==>
      var m := Visibility.Apply(f, View(s, space), ObservationAgentPosition(space), raytraced);
      m.Success? && m.value.Shape() == space.gridShape &&
      forall t | r.value.grid.Contains(t) ::
        r.value.grid.At(t) == if m.value.At(t) then View(s, space).At(t) else Hidden
  {
    var view := View(s, space);
    var ap := ObservationAgentPosition(space);
    assert view.Contains(ap);
    var mask :- Visibility.Apply(f, view, ap, raytraced);
    if mask.Shape() != space.gridShape then Failure(ValueError)
    else
      var og := HideUnseen(view, mask);
      assert f.Full? ==> og == view by {
        if f.Full? {
          Equality(og, view);
        }
      }
      Success(Observation(og, Agent(ap, N, s.agent.obj)))
  }

  // ---------------------------------------------------------------------------------
  // What the observation shows
  // ---------------------------------------------------------------------------------

  /** Cell `t` of the unmasked observation shows the state's cell at the position `t`
      stands for relative to the agent, or Hidden where that position is off the grid. */
  lemma ViewCells(s: State, space: ObservationSpace, t: Position)
    requires Positive(space) && View(s, space).Contains(t)
    ensures var q := PositionRelative(s.agent, Add(t, ObservationArea(space).TopLeft()));
      View(s, space).At(t) == if s.grid.Contains(q) then s.grid.At(q) else Hidden
  {
    var o := s.agent.orientation;
    var sub := Subgrid(s.grid, ViewArea(s, space));
    var h, w := space.gridShape.height, space.gridShape.width;
    var p := match o
      case N => t
      case S => Position(h - 1 - t.y, w - 1 - t.x)
      case E => Position(t.x, h - 1 - t.y)
      case W => Position(w - 1 - t.x, t.y);
    assert sub.Contains(p) && RotatedPosition(sub, o, p) == t;
    RotatedCells(sub, o, p);
    ViewSource(s, space, t, p);
  }

  /** The arithmetic behind `ViewCells`: the source cell of `t` in the cut-out area lies
      at the position `t` stands for. */
  lemma ViewSource(s: State, space: ObservationSpace, t: Position, p: Position)
    requires Positive(space)
    requires var h, w := space.gridShape.height, space.gridShape.width;
      p == match s.agent.orientation
        case N => t
        case S => Position(h - 1 - t.y, w - 1 - t.x)
        case E => Position(t.x, h - 1 - t.y)
        case W => Position(w - 1 - t.x, t.y)
    ensures Add(p, ViewArea(s, space).TopLeft()) ==
      PositionRelative(s.agent, Add(t, ObservationArea(space).TopLeft()))
  {
  }

  /** Under full visibility the agent's cell of the observation shows what the agent
      stands on. */
  lemma FullObservationShowsAgentCell(s: State, space: ObservationSpace, raytraced: Raytraced)
    requires Positive(space) && s.grid.Contains(s.agent.position)
    ensures var o := FromVisibility(s, space, Full, raytraced).value;
      o.grid.At(o.agent.position) == s.grid.At(s.agent.position)
  {
    var o := FromVisibility(s, space, Full, raytraced).value;
    assert o.grid == View(s, space) && o.agent.position == ObservationAgentPosition(space);
    ViewShowsAgentCell(s, space);
  }

  /** The view shows the agent's own cell at the agent's observation position. */
  lemma ViewShowsAgentCell(s: State, space: ObservationSpace)
    requires Positive(space) && s.grid.Contains(s.agent.position)
    ensures View(s, space).Contains(ObservationAgentPosition(space))
    ensures View(s, space).At(ObservationAgentPosition(space)) == s.grid.At(s.agent.position)
  {
    var ap := ObservationAgentPosition(space);
    AgentAtOrigin(space);
    assert View(s, space).Contains(ap);
    ViewCells(s, space, ap);
    RelativeOrigin(s.agent);
  }

  /** The agent's own cell is the origin of its relative frame. */
  lemma RelativeOrigin(a: Agent)
    ensures PositionRelative(a, Origin) == a.position
  {
    assert RotateDelta(Origin, a.orientation) == Origin;
  }

  /** An observation of a state of the state space lies in the observation space (as
      corrected) when both spaces declare the same classes: every cell shows a declared
      object or Hidden, the agent's observation position is in the grid, and the held
      object carries over. */
  lemma ObservationInSpace(s: State, states: StateSpace, space: ObservationSpace, f: VisibilityFunction, raytraced: Raytraced)
    requires Positive(space) && StateContains(states, s) && states.objectTypes == space.objectTypes
    requires FromVisibility(s, space, f, raytraced).Success?
    ensures ObservationContains(space, FromVisibility(s, space, f, raytraced).value)
  {
    var o := FromVisibility(s, space, f, raytraced).value;
    StateContainsCells(states, s);
    ObservedCellsDeclared(s, space, o.grid);
    AgentAtOrigin(space);
    assert View(s, space).Contains(o.agent.position);
    ObservationContainsCells(space, o);
  }

  /** A grid showing cells of the view or Hidden shows objects of the classes the state's
      cells declare, or Hidden. */
  lemma ObservedCellsDeclared(s: State, space: ObservationSpace, og: Grid)
    requires Positive(space) && og.Shape() == space.gridShape
    requires forall p | s.grid.Contains(p) :: KindOf(s.grid.At(p)) in space.objectTypes
    requires forall t | og.Contains(t) :: og.At(t) == View(s, space).At(t) || og.At(t) == Hidden
    ensures forall t | og.Contains(t) :: KindOf(og.At(t)) in space.objectTypes || KindOf(og.At(t)) == HiddenKind
  {
    forall t | og.Contains(t) ensures KindOf(og.At(t)) in space.objectTypes || KindOf(og.At(t)) == HiddenKind {
      if og.At(t) != Hidden {
        ViewCells(s, space, t);
      }
    }
  }

  // ---------------------------------------------------------------------------------
  // The factory
  // ---------------------------------------------------------------------------------

  /** `from_visibility` with its observation space and visibility function bound. */
  datatype ObservationFunction = FromVisibilityFunction(space: ObservationSpace, visibility: VisibilityFunction)

  function Apply(f: ObservationFunction, s: State, raytraced: Raytraced): (r: Result<Observation>)
    requires Positive(f.space)
  {
    FromVisibility(s, f.space, f.visibility, raytraced)
  }

  /** The named observation function built on each visibility function. */
  function ObservationName(v: VisibilityFunction): string {
    match v
    case Full => "full_observation"
    case Partial => "partial_observation"
    case Minigrid => "minigrid_observation"
    case Raytracing => "raytracing_observation"
    case StochasticRaytracing => "stochastic_raytracing_observation"
  }

  /** The visibility function a named observation function is built on. */
  function ParseObservationName(name: string): (r: Option<VisibilityFunction>)
    ensures r.Some? ==> ObservationName(r.value) == name
    ensures r.None? ==> forall v: VisibilityFunction :: ObservationName(v) != name
  {
    if name == "full_observation" then Some(Full)
    else if name == "partial_observation" then Some(Partial)
    else if name == "minigrid_observation" then Some(Minigrid)
    else if name == "raytracing_observation" then Some(Raytracing)
    else if name == "stochastic_raytracing_observation" then Some(StochasticRaytracing)
    else None
  }

  /** `factory`: `from_visibility` needs an observation space and a visibility function,
      the named observation functions need an observation space, and any other name
      raises ValueError. */
  function Factory(name: string, space: Option<ObservationSpace>, visibility: Option<VisibilityFunction>)
    : (r: Result<ObservationFunction>)
    ensures name == "from_visibility" ==> (r.Success? <==> space.Some? && visibility.Some?)
    ensures name != "from_visibility" ==>
      (r.Success? <==> (space.Some? && exists v: VisibilityFunction :: ObservationName(v) == name))
    ensures r.Failure? ==> r.error == ValueError
    ensures r.Success? ==> r.value.space == space.value
    ensures r.Success? && name == "from_visibility" ==> r.value.visibility == visibility.value
    ensures r.Success? && name != "from_visibility" ==> ObservationName(r.value.visibility) == name
  {
    if name == "from_visibility" then
      if space.None? || visibility.None? then Failure(ValueError)
      else Success(FromVisibilityFunction(space.value, visibility.value))
    else
      match ParseObservationName(name)
      case None => Failure(ValueError)
      case Some(v) => if space.None? then Failure(ValueError) else Success(FromVisibilityFunction(space.value, v))
  }

  /** Each named observation function is `from_visibility` with its visibility function,
      whatever visibility argument comes along. */
  lemma NamedIsFromVisibility(v: VisibilityFunction, space: ObservationSpace, other: Option<VisibilityFunction>)
    ensures Factory(ObservationName(v), Some(space), other) == Factory("from_visibility", Some(space), Some(v))
  {
  }
}

=== FILE: registry.dfy ===
/** The name-keyed function registry. A registry maps names to functions; registering
    adds a function under its own name. */
module Registry {
  import opened Wrappers

  /** A value offered for registration: something that is not callable, or a callable
      with its `__name__`. */
  datatype Candidate<F> = NotCallable | Callable(name: string, fn: F)

  /** Registers a callable under its name and hands it back. A non-callable raises
      TypeError; a callable whose signature the registry rejects raises what the
      signature check raises; a name already present raises ValueError. The signature
      check is specific to each registry and is passed in as its outcome. */
  function Register<F>(registry: map<string, F>, value: Candidate<F>, signature: Result<()>)
    : (r: Result<(map<string, F>, F)>)
    ensures value.NotCallable? ==> r == Failure(TypeError)
    ensures value.Callable? && signature.Failure? ==> r == Failure(signature.error)
    ensures value.Callable? && signature.Success? && value.name in registry ==> r == Failure(ValueError)
    ensures r.Success? <==> value.Callable? && signature.Success? && value.name !in registry
    ensures r.Success? ==> var (registry', fn) := r.value;
      fn == value.fn && value.name in registry' && registry'[value.name] == value.fn
      && registry'.Keys == registry.Keys + {value.name}
      && forall k | k in registry && k != value.name :: registry'[k] == registry[k]
  {
    if value.NotCallable? then Failure(TypeError)
    else if signature.Failure? then Failure(signature.error)
    else if value.name in registry then Failure(ValueError)
    else Success((registry[value.name := value.fn], value.fn))
  }

  /** A name can be registered once: registering the same name again fails and leaves
      the first function in place. */
  lemma RegisterOnce<F>(registry: map<string, F>, name: string, f: F, g: F)
    requires Register(registry, Callable(name, f), Success(())).Success?
    ensures var registry' := Register(registry, Callable(name, f), Success(())).value.0;
      Register(registry', Callable(name, g), Success(())) == Failure(ValueError)
      && registry'[name] == f
  {
  }

  /** Registrations under different names commute. */
  lemma RegisterCommutes<F>(registry: map<string, F>, m: string, f: F, n: string, g: F)
    requires m != n && m !in registry && n !in registry
    ensures var r1 := Register(Register(registry, Callable(m, f), Success(())).value.0, Callable(n, g), Success(()));
      var r2 := Register(Register(registry, Callable(n, g), Success(())).value.0, Callable(m, f), Success(()));
      r1.Success? && r2.Success? && r1.value.0 == r2.value.0
  {
    var a := Register(Register(registry, Callable(m, f), Success(())).value.0, Callable(n, g), Success(())).value.0;
    var b := Register(Register(registry, Callable(n, g), Success(())).value.0, Callable(m, f), Success(())).value.0;
    assert a.Keys == b.Keys;
  }
}

=== FILE: reset_crossing.dfy ===
/** `reset_crossing`: the empty layout crossed by randomly chosen rivers, whole interior
    rows and columns of one object, each pierced by a single Floor opening so that a
    staircase of rooms leads from the agent in the top-left room to the exit in the
    bottom-right one. */
module CrossingResets {
  import opened Wrappers
  import opened Geometry
  import opened GridObjects
  import opened Grids
  import opened Agents
  import opened Rng
  import opened Seqs
  import opened Design
  import opened Resets
  import opened RoomResets

  /** A river: an interior row (`Across`) or an interior column (`Down`). */
  datatype River = Across(y: int) | Down(x: int)

  /** Python's `range(lo, hi, 2)`. */
  function EveryOther(lo: int, hi: int): (r: seq<int>)
    ensures |r| == if lo < hi then (hi - lo + 1) / 2 else 0
    ensures forall i | 0 <= i < |r| :: r[i] == lo + 2 * i
    ensures forall x :: x in r <==> lo <= x < hi && (x - lo) % 2 == 0
  {
    var n := if lo < hi then (hi - lo + 1) / 2 else 0;
    var r := seq(n, i => lo + 2 * i);
    forall x | lo <= x < hi && (x - lo) % 2 == 0
      ensures x in r
    {
      var i := (x - lo) / 2;
      assert x - lo == 2 * i;
      assert r[i] == x;
    }
    forall i | 0 <= i < n
      ensures r[i] < hi
    {
      assert 2 * i + 2 <= hi - lo + 1;
    }
    r
  }

  /** The row rivers at `ys`, in order. */
  function AcrossAll(ys: seq<int>): (r: seq<River>)
    ensures |r| == |ys| && forall i | 0 <= i < |r| :: r[i] == Across(ys[i])
  {
    seq(|ys|, i requires 0 <= i < |ys| => Across(ys[i]))
  }

  /** The column rivers at `xs`, in order. */
  function DownAll(xs: seq<int>): (r: seq<River>)
    ensures |r| == |xs| && forall i | 0 <= i < |r| :: r[i] == Down(xs[i])
  {
    seq(|xs|, i requires 0 <= i < |xs| => Down(xs[i]))
  }

  /** Every river a grid of odd size `h` by `w` can hold: the even interior rows, then
      the even interior columns, away from the rows and columns next to the border. */
  function Candidates(h: int, w: int): (r: seq<River>)
    ensures |r| == |EveryOther(2, h - 2)| + |EveryOther(2, w - 2)|
    ensures forall y :: Across(y) in r <==> y in EveryOther(2, h - 2)
    ensures forall x :: Down(x) in r <==> x in EveryOther(2, w - 2)
    ensures Distinct(r)
  {
    var ys := EveryOther(2, h - 2);
    var xs := EveryOther(2, w - 2);
    var across := AcrossAll(ys);
    var down := DownAll(xs);
    CandidatesFacts(ys, xs, across, down);
    across + down
  }

  lemma CandidatesFacts(ys: seq<int>, xs: seq<int>, across: seq<River>, down: seq<River>)
    requires Distinct(ys) && Distinct(xs)
    requires |across| == |ys| && forall i | 0 <= i < |across| :: across[i] == Across(ys[i])
    requires |down| == |xs| && forall i | 0 <= i < |down| :: down[i] == Down(xs[i])
    ensures forall y :: Across(y) in across + down <==> y in ys
    ensures forall x :: Down(x) in across + down <==> x in xs
    ensures Distinct(across + down)
  {
    var r := across + down;
    forall y | y in ys ensures Across(y) in r {
      var i :| 0 <= i < |ys| && ys[i] == y;
      assert r[i] == Across(y);
    }
    forall x | x in xs ensures Down(x) in r {
      var i :| 0 <= i < |xs| && xs[i] == x;
      assert r[|ys| + i] == Down(x);
    }
    forall i, j | 0 <= i < j < |r| ensures r[i] != r[j] {
      if j < |ys| {
        assert r[i] == Across(ys[i]) && r[j] == Across(ys[j]);
      } else if i >= |ys| {
        assert r[i] == Down(xs[i - |ys|]) && r[j] == Down(xs[j - |ys|]);
      }
    }
  }

  /** The positions of the row rivers and of the column rivers among `rs`, in order. */
  function Split(rs: seq<River>): (r: (seq<int>, seq<int>))
    ensures |r.0| + |r.1| == |rs|
    ensures forall y :: y in r.0 <==> Across(y) in rs
    ensures forall x :: x in r.1 <==> Down(x) in rs
    ensures Distinct(rs) ==> Distinct(r.0) && Distinct(r.1)
  {
    if |rs| == 0 then ([], [])
    else
      var (ys, xs) := Split(rs[1..]);
      assert forall v :: v in rs <==> v == rs[0] || v in rs[1..];
      assert Distinct(rs) ==> Distinct(rs[1..]) && rs[0] !in rs[1..];
      match rs[0]
      case Across(y) =>
        assert Distinct(rs) ==> Distinct([y] + ys) by {
          if Distinct(rs) {
            DistinctCons(y, ys);
          }
        }
        ([y] + ys, xs)
      case Down(x) =>
        assert Distinct(rs) ==> Distinct([x] + xs) by {
          if Distinct(rs) {
            DistinctCons(x, xs);
          }
        }
        (ys, [x] + xs)
  }

  // ---------------------------------------------------------------------------------
  // sorted()
  // ---------------------------------------------------------------------------------

  predicate Sorted(xs: seq<int>) {
    forall i, j | 0 <= i < j < |xs| :: xs[i] <= xs[j]
  }

  /** Strictly increasing. */
  predicate Ascending(xs: seq<int>) {
    forall i, j | 0 <= i < j < |xs| :: xs[i] < xs[j]
  }

  function Insert(x: int, xs: seq<int>): (r: seq<int>)
    requires Sorted(xs)
    ensures Sorted(r) && multiset(r) == multiset(xs) + multiset{x}
    ensures forall v | v in r :: v == x || v in xs
  {
    if |xs| == 0 then [x]
    else if x <= xs[0] then
      ConsSorted(x, xs);
      [x] + xs
    else
      assert xs == [xs[0]] + xs[1..];
      var rest := Insert(x, xs[1..]);
      ConsSorted(xs[0], rest);
      [xs[0]] + rest
  }

  lemma ConsSorted(v: int, ys: seq<int>)
    requires Sorted(ys) && forall u | u in ys :: v <= u
    ensures Sorted([v] + ys)
  {
    var r := [v] + ys;
    forall i, j | 0 <= i < j < |r| ensures r[i] <= r[j] {
      assert r[j] == ys[j - 1] && ys[j - 1] in ys;
      if i > 0 {
        assert r[i] == ys[i - 1];
      }
    }
  }

  /** Python's `sorted`: the same elements in non-decreasing order. */
  function Sort(xs: seq<int>): (r: seq<int>)
    ensures Sorted(r) && multiset(r) == multiset(xs)
  {
    if |xs| == 0 then []
    else
      assert xs == [xs[0]] + xs[1..];
      Insert(xs[0], Sort(xs[1..]))
  }

  /** Sorting distinct values lists them in strictly increasing order. */
  lemma SortDistinct(xs: seq<int>)
    requires Distinct(xs)
    ensures Ascending(Sort(xs)) && |Sort(xs)| == |xs|
    ensures forall v :: v in Sort(xs) <==> v in xs
  {
    var r := Sort(xs);
    SubMultisetDistinct(r, xs);
    assert |multiset(r)| == |multiset(xs)|;
    assert forall v :: v in r <==> v in multiset(r);
    assert forall v :: v in xs <==> v in multiset(xs);
  }

  // ---------------------------------------------------------------------------------
  // The walk through the rooms
  // ---------------------------------------------------------------------------------

  /** River boundaries: `[0] + rivers + [size - 1]`, even and strictly increasing, so
      that consecutive boundaries leave at least one line between them. */
  predicate Limits(l: seq<int>) {
    |l| >= 2 && (forall i | 0 <= i < |l| :: l[i] % 2 == 0) && Ascending(l)
  }

  /** `n` copies of `b`. */
  function Repeat(b: bool, n: nat): (r: seq<bool>)
    ensures |r| == n && multiset(r)[b] == n && multiset(r)[!b] == 0
  {
    if n == 0 then [] else [b] + Repeat(b, n - 1)
  }

  /** A sub-multiset as large as the whole is the whole. */
  lemma SameSizeSubMultiset<T>(a: multiset<T>, b: multiset<T>)
    requires a <= b && |a| == |b|
    ensures a == b
  {
    assert b == a + (b - a);
    assert |b - a| == 0;
  }

  /** The boundaries around `xs` between `lo` and `hi`. */
  lemma LimitsOf(lo: int, xs: seq<int>, hi: int)
    requires Ascending(xs) && lo < hi && lo % 2 == 0 && hi % 2 == 0
    requires forall k | 0 <= k < |xs| :: lo < xs[k] < hi && xs[k] % 2 == 0
    ensures Limits([lo] + xs + [hi])
  {
    var l := [lo] + xs + [hi];
    forall i, j | 0 <= i < j < |l| ensures l[i] < l[j] {
      if 0 < i && j < |l| - 1 {
        assert l[i] == xs[i - 1] && l[j] == xs[j - 1];
      } else if 0 < i {
        assert l[i] == xs[i - 1];
      } else if j < |l| - 1 {
        assert l[j] == xs[j - 1];
      }
    }
    forall i | 0 <= i < |l| ensures l[i] % 2 == 0 {
      if 0 < i < |l| - 1 {
        assert l[i] == xs[i - 1];
      }
    }
  }

  /** The boundaries of rivers chosen from the candidates of an odd size. */
  lemma RiverLimits(rivers: seq<int>, size: int)
    requires size >= 5 && size % 2 == 1 && Ascending(rivers)
    requires forall k | 0 <= k < |rivers| :: 2 <= rivers[k] <= size - 3 && rivers[k] % 2 == 0
    ensures Limits(Bounds(rivers, size))
  {
    assert (size - 1) % 2 == 0;
    LimitsOf(0, rivers, size - 1);
  }

  /** A step from room `from` to room `to`, rooms being numbered by the boundaries
      above and to the left of them: `to` is the room to the right, and `p` lies in the
      column river between them, strictly between the row boundaries of `from`; or `to`
      is the room below, and `p` lies in the row river between them, strictly between the
      column boundaries of `from`. */
  predicate Crosses(from: (int, int), to: (int, int), p: Position, lh: seq<int>, lv: seq<int>) {
    (to == (from.0, from.1 + 1) && 0 <= from.0 < |lh| - 1 && 0 <= from.1 < |lv| - 2 &&
     p.x == lv[from.1 + 1] && lh[from.0] < p.y < lh[from.0 + 1]) ||
    (to == (from.0 + 1, from.1) && 0 <= from.0 < |lh| - 2 && 0 <= from.1 < |lv| - 1 &&
     p.y == lh[from.0 + 1] && lv[from.1] < p.x < lv[from.1 + 1])
  }

  /** The rooms visited in order, each consecutive pair joined by its opening. */
  predicate Staircase(rooms: seq<(int, int)>, ps: seq<Position>, lh: seq<int>, lv: seq<int>) {
    |rooms| == |ps| + 1 && forall k | 0 <= k < |ps| :: Crosses(rooms[k], rooms[k + 1], ps[k], lh, lv)
  }

  /** The crossing loop, from room `(a, b)`: a `true` step (the source's `h`) opens the
      next column river at a random row of the current row band and moves right; a
      `false` step (`v`) opens the next row river at a random column of the current
      column band and moves down. The path holds exactly the steps left to reach the
      bottom-right room. Returns the grid, the openings, the rooms and the generator. */
  function Walk(g: Grid, path: seq<bool>, lh: seq<int>, lv: seq<int>, a: nat, b: nat, rng: Rng)
    : (r: (Grid, seq<Position>, seq<(int, int)>, Rng))
    requires Limits(lh) && Limits(lv) && lh[0] == 0 && lv[0] == 0
    requires g.Shape() == Shape(lh[|lh| - 1] + 1, lv[|lv| - 1] + 1)
    requires a + multiset(path)[false] == |lh| - 2 && b + multiset(path)[true] == |lv| - 2
    ensures |r.1| == |path| && Staircase(r.2, r.1, lh, lv)
    ensures r.2[0] == (a, b) && r.2[|path|] == (|lh| - 2, |lv| - 2)
    ensures r.0.Shape() == g.Shape()
    ensures forall p | p in r.1 :: 0 < p.y < lh[|lh| - 1] && 0 < p.x < lv[|lv| - 1]
    ensures forall p | g.Contains(p) :: r.0.At(p) == if p in r.1 then Floor else g.At(p)
    decreases |path|
  {
    if |path| == 0 then (g, [], [(a, b)], rng)
    else
      PathStep(path);
      var next := if path[0] then (a, b + 1) else (a + 1, b);
      var (p, rng1) := Opening(lh, lv, a, b, path[0], rng);
      var g1 := Update(g, p, Floor);
      var (g', ps, rooms, rng') := Walk(g1, path[1..], lh, lv, next.0, next.1, rng1);
      StaircaseCons((a, b), p, rooms, ps, lh, lv);
      OpenCons(g, g1, g', p, ps);
      (g', [p] + ps, [(a, b)] + rooms, rng')
  }

  /** The steps left after the first one. */
  lemma PathStep(path: seq<bool>)
    requires |path| > 0
    ensures multiset(path)[true] == multiset(path[1..])[true] + (if path[0] then 1 else 0)
    ensures multiset(path)[false] == multiset(path[1..])[false] + (if path[0] then 0 else 1)
  {
    assert path == [path[0]] + path[1..];
    assert multiset(path) == multiset{path[0]} + multiset(path[1..]);
  }

  /** A crossing into the first room of a staircase extends it. */
  lemma StaircaseCons(from: (int, int), p: Position, rooms: seq<(int, int)>, ps: seq<Position>, lh: seq<int>, lv: seq<int>)
    requires Staircase(rooms, ps, lh, lv) && Crosses(from, rooms[0], p, lh, lv)
    ensures Staircase([from] + rooms, [p] + ps, lh, lv)
    ensures ([from] + rooms)[0] == from && ([from] + rooms)[|[p] + ps|] == rooms[|ps|]
  {
    var rs, qs := [from] + rooms, [p] + ps;
    forall k | 0 <= k < |qs| ensures Crosses(rs[k], rs[k + 1], qs[k], lh, lv) {
      if k > 0 {
        assert rs[k] == rooms[k - 1] && rs[k + 1] == rooms[k] && qs[k] == ps[k - 1];
      }
    }
  }

  /** Opening `p` and then the cells `ps` opens `[p] + ps`. */
  lemma OpenCons(g: Grid, g1: Grid, g2: Grid, p: Position, ps: seq<Position>)
    requires g.Contains(p) && g1 == Update(g, p, Floor) && g2.Shape() == g1.Shape()
    requires forall x | g1.Contains(x) :: g2.At(x) == if x in ps then Floor else g1.At(x)
    ensures forall x | g.Contains(x) :: g2.At(x) == if x in [p] + ps then Floor else g.At(x)
  {
    forall x | g.Contains(x) ensures g2.At(x) == if x in [p] + ps then Floor else g.At(x) {
      assert g1.Contains(x);
    }
  }

  /** One step of the crossing loop from room `(a, b)`: the opening it makes. */
  function Opening(lh: seq<int>, lv: seq<int>, a: nat, b: nat, right: bool, rng: Rng): (r: (Position, Rng))
    requires Limits(lh) && Limits(lv) && lh[0] == 0 && lv[0] == 0
    requires right ==> a <= |lh| - 2 && b <= |lv| - 3
    requires !right ==> a <= |lh| - 3 && b <= |lv| - 2
    ensures Crosses((a, b), if right then (a, b + 1) else (a + 1, b), r.0, lh, lv)
    ensures 0 < r.0.y < lh[|lh| - 1] && 0 < r.0.x < lv[|lv| - 1]
  {
    if right then
      var (i, rng1) := Integers(rng, lh[a] + 1, lh[a + 1]).value;
      (Position(i, lv[b + 1]), rng1)
    else
      var (j, rng1) := Integers(rng, lv[b] + 1, lv[b + 1]).value;
      (Position(lh[a + 1], j), rng1)
  }

  // ---------------------------------------------------------------------------------
  // Drawing the rivers
  // ---------------------------------------------------------------------------------

  /** `draw_line_horizontal` over `range(1, w - 1)` for each of `rows`. */
  function DrawRows(g: Grid, rows: seq<int>, w: int, river: GridObject): (r: Grid)
    requires g.width == w && w >= 3
    requires forall k | 0 <= k < |rows| :: 0 <= rows[k] < g.height
    ensures r.Shape() == g.Shape()
    ensures forall p | g.Contains(p) :: r.At(p) == if p.y in rows && 1 <= p.x <= w - 2 then river else g.At(p)
    decreases |rows|
  {
    if |rows| == 0 then g
    else
      var g1 := DrawRow(g, rows[0], w, river);
      var r := DrawRows(g1, rows[1..], w, river);
      forall p | g.Contains(p)
        ensures r.At(p) == if p.y in rows && 1 <= p.x <= w - 2 then river else g.At(p)
      {
        assert g1.Contains(p);
        assert p.y in rows <==> p.y == rows[0] || p.y in rows[1..];
      }
      r
  }

  /** `draw_line_horizontal` over `range(1, w - 1)` for row `y`. */
  function DrawRow(g: Grid, y: int, w: int, river: GridObject): (r: Grid)
    requires g.width == w && w >= 3 && 0 <= y < g.height
    ensures r.Shape() == g.Shape()
    ensures forall p | g.Contains(p) :: r.At(p) == if p.y == y && 1 <= p.x <= w - 2 then river else g.At(p)
  {
    RangeBounds(1, w - 1);
    DrawLineHorizontal(g, y, Range(1, w - 1), river).value.0
  }

  /** `draw_line_vertical` over `range(1, h - 1)` for each of `cols`. */
  function DrawColumns(g: Grid, cols: seq<int>, h: int, river: GridObject): (r: Grid)
    requires g.height == h && h >= 3
    requires forall k | 0 <= k < |cols| :: 0 <= cols[k] < g.width
    ensures r.Shape() == g.Shape()
    ensures forall p | g.Contains(p) :: r.At(p) == if p.x in cols && 1 <= p.y <= h - 2 then river else g.At(p)
    decreases |cols|
  {
    if |cols| == 0 then g
    else
      var g1 := DrawColumn(g, cols[0], h, river);
      var r := DrawColumns(g1, cols[1..], h, river);
      forall p | g.Contains(p)
        ensures r.At(p) == if p.x in cols && 1 <= p.y <= h - 2 then river else g.At(p)
      {
        assert g1.Contains(p);
        assert p.x in cols <==> p.x == cols[0] || p.x in cols[1..];
      }
      r
  }

  /** `draw_line_vertical` over `range(1, h - 1)` for column `x`. */
  function DrawColumn(g: Grid, x: int, h: int, river: GridObject): (r: Grid)
    requires g.height == h && h >= 3 && 0 <= x < g.width
    ensures r.Shape() == g.Shape()
    ensures forall p | g.Contains(p) :: r.At(p) == if p.x == x && 1 <= p.y <= h - 2 then river else g.At(p)
  {
    RangeBounds(1, h - 1);
    DrawLineVertical(g, Range(1, h - 1), x, river).value.0
  }

  // ---------------------------------------------------------------------------------
  // reset_crossing
  // ---------------------------------------------------------------------------------

  /** What a crossing layout holds at `p`: the border walls, then the openings, then
      the rivers, then the exit of the empty layout, and Floor everywhere else. */
  function CrossingCell(h: int, w: int, river: GridObject, rows: seq<int>, cols: seq<int>,
                        openings: seq<Position>, p: Position): GridObject {
    if !Interior(h, w, p) then Wall
    else if p in openings then Floor
    else if p.y in rows || p.x in cols then river
    else if p == Position(h - 2, w - 2) then Exit(ColorNone)
    else Floor
  }

  /** The river boundaries of a crossing layout. */
  function Bounds(rivers: seq<int>, size: int): seq<int> {
    [0] + rivers + [size - 1]
  }

  /** A `reset_crossing` grid with rivers at `rows` and `cols`: the rivers lie between
      the border and each other with a line to spare, and the openings join a staircase
      of rooms from the top-left room to the bottom-right one. */
  ghost predicate CrossingLayout(g: Grid, h: int, w: int, river: GridObject, rows: seq<int>, cols: seq<int>,
                                 openings: seq<Position>, rooms: seq<(int, int)>) {
    g.Shape() == Shape(h, w) &&
    Limits(Bounds(rows, h)) && Limits(Bounds(cols, w)) &&
    Staircase(rooms, openings, Bounds(rows, h), Bounds(cols, w)) &&
    rooms[0] == (0, 0) && rooms[|openings|] == (|rows|, |cols|) &&
    forall p | g.Contains(p) :: g.At(p) == CrossingCell(h, w, river, rows, cols, openings, p)
  }

  /** How many rivers a crossing of `n` rivers draws in an `h` by `w` grid. */
  function RiverCount(h: int, w: int, n: int): int {
    var total := (h - 3) / 2 + (w - 3) / 2;
    if n < total then n else total
  }

  datatype Crossing = Crossing(grid: Grid, rows: seq<int>, cols: seq<int>, openings: seq<Position>,
                               rooms: seq<(int, int)>, rng: Rng)

  /** `rng.shuffle` of the candidates, cut to the first `n`. */
  function Shuffled(h: int, w: int, n: int, rng: Rng): (r: (seq<River>, Rng))
    requires h >= 5 && w >= 5 && n >= 0
    ensures |r.0| == RiverCount(h, w, n) && Distinct(r.0)
    ensures forall v | v in r.0 :: v in Candidates(h, w)
  {
    var cands := Candidates(h, w);
    assert |cands| == (h - 3) / 2 + (w - 3) / 2;
    var (shuffled, rng1) := Sample(rng, cands, |cands|).value;
    SampleDistinct(rng, cands, |cands|);
    var chosen := shuffled[..if n < |cands| then n else |cands|];
    assert forall v | v in chosen :: v in shuffled;
    (chosen, rng1)
  }

  /** The rivers chosen by a shuffle of the candidates: the first `n`, split into rows
      and columns, each sorted. */
  function ChooseRivers(h: int, w: int, n: int, rng: Rng): (r: (seq<int>, seq<int>, Rng))
    requires h >= 5 && h % 2 == 1 && w >= 5 && w % 2 == 1 && n >= 0
    ensures |r.0| + |r.1| == RiverCount(h, w, n)
    ensures Ascending(r.0) && forall k | 0 <= k < |r.0| :: 2 <= r.0[k] <= h - 3 && r.0[k] % 2 == 0
    ensures Ascending(r.1) && forall k | 0 <= k < |r.1| :: 2 <= r.1[k] <= w - 3 && r.1[k] % 2 == 0
  {
    var (chosen, rng1) := Shuffled(h, w, n, rng);
    var (ys, xs) := Split(chosen);
    SortedRivers(ys, h - 2);
    SortedRivers(xs, w - 2);
    (Sort(ys), Sort(xs), rng1)
  }

  /** Sorting distinct candidate positions below `hi` gives even positions from 2 up,
      in strictly increasing order. */
  lemma SortedRivers(vs: seq<int>, hi: int)
    requires Distinct(vs) && forall v | v in vs :: v in EveryOther(2, hi)
    ensures |Sort(vs)| == |vs| && Ascending(Sort(vs))
    ensures forall k | 0 <= k < |Sort(vs)| :: 2 <= Sort(vs)[k] <= hi - 1 && Sort(vs)[k] % 2 == 0
  {
    SortDistinct(vs);
    var r := Sort(vs);
    forall k | 0 <= k < |r| ensures 2 <= r[k] <= hi - 1 && r[k] % 2 == 0 {
      assert r[k] in r;
      var v := r[k];
      assert v in vs;
      assert (v - 2) % 2 == 0;
    }
  }

  /** The shuffled path: one `true` step per column river and one `false` step per row
      river. */
  function CrossingPath(rows: seq<int>, cols: seq<int>, rng: Rng): (r: (seq<bool>, Rng))
    ensures multiset(r.0)[true] == |cols| && multiset(r.0)[false] == |rows|
  {
    var steps := Repeat(true, |cols|) + Repeat(false, |rows|);
    var (path, rng1) := Sample(rng, steps, |steps|).value;
    SameSizeSubMultiset(multiset(path), multiset(steps));
    (path, rng1)
  }

  /** Every river drawn over the grid `e` of the empty layout, rows first. */
  function DrawRivers(e: Grid, h: int, w: int, rows: seq<int>, cols: seq<int>, river: GridObject): (r: Grid)
    requires e.Shape() == Shape(h, w) && h >= 3 && w >= 3
    requires forall k | 0 <= k < |rows| :: 1 <= rows[k] <= h - 2
    requires forall k | 0 <= k < |cols| :: 1 <= cols[k] <= w - 2
    ensures r.Shape() == e.Shape()
    ensures forall p | e.Contains(p) :: (r.At(p) ==
      if p.x in cols && 1 <= p.y <= h - 2 then river
      else if p.y in rows && 1 <= p.x <= w - 2 then river
      else e.At(p))
  {
    var g1 := DrawRows(e, rows, w, river);
    var r := DrawColumns(g1, cols, h, river);
    forall p | e.Contains(p)
      ensures r.At(p) == if p.x in cols && 1 <= p.y <= h - 2 then river
        else if p.y in rows && 1 <= p.x <= w - 2 then river
        else e.At(p)
    {
      assert g1.Contains(p);
    }
    r
  }

  /** The grid of `reset_empty` without randomness, the one a crossing starts from. */
  function EmptyBase(h: int, w: int, rng: Rng): (g: Grid)
    requires h >= 4 && w >= 4
    ensures EmptyLayout(g, h, w, Position(h - 2, w - 2))
  {
    ResetEmpty(h, w, false, false, rng).value.0.grid
  }

  /** The crossing drawn over the `reset_empty` grid. */
  function CrossingDraws(h: int, w: int, n: int, river: GridObject, rng: Rng): (r: Crossing)
    requires h >= 5 && h % 2 == 1 && w >= 5 && w % 2 == 1 && n >= 0
    ensures |r.rows| + |r.cols| == RiverCount(h, w, n)
    ensures CrossingLayout(r.grid, h, w, river, r.rows, r.cols, r.openings, r.rooms)
  {
    var (rows, cols, rng1) := ChooseRivers(h, w, n, rng);
    RiverLimits(rows, h);
    RiverLimits(cols, w);
    Cross(EmptyBase(h, w, rng), h, w, rows, cols, river, rng1)
  }

  /** The rivers drawn, then the crossing loop. */
  function Cross(e: Grid, h: int, w: int, rows: seq<int>, cols: seq<int>, river: GridObject, rng: Rng): (r: Crossing)
    requires h >= 5 && w >= 5 && EmptyLayout(e, h, w, Position(h - 2, w - 2))
    requires Limits(Bounds(rows, h)) && Limits(Bounds(cols, w))
    requires forall k | 0 <= k < |rows| :: 1 <= rows[k] <= h - 2
    requires forall k | 0 <= k < |cols| :: 1 <= cols[k] <= w - 2
    ensures r.rows == rows && r.cols == cols
    ensures CrossingLayout(r.grid, h, w, river, rows, cols, r.openings, r.rooms)
  {
    var g1 := DrawRivers(e, h, w, rows, cols, river);
    var (path, rng1) := CrossingPath(rows, cols, rng);
    var (g2, openings, rooms, rng2) := CrossRooms(g1, h, w, rows, cols, path, rng1);
    CrossingCells(e, g1, g2, h, w, river, rows, cols, openings);
    Crossing(g2, rows, cols, openings, rooms, rng2)
  }

  /** The crossing loop from the top-left room over the boundaries of `rows` and `cols`. */
  function CrossRooms(g: Grid, h: int, w: int, rows: seq<int>, cols: seq<int>, path: seq<bool>, rng: Rng)
    : (r: (Grid, seq<Position>, seq<(int, int)>, Rng))
    requires g.Shape() == Shape(h, w) && Limits(Bounds(rows, h)) && Limits(Bounds(cols, w))
    requires multiset(path)[true] == |cols| && multiset(path)[false] == |rows|
    ensures Staircase(r.2, r.1, Bounds(rows, h), Bounds(cols, w))
    ensures r.2[0] == (0, 0) && r.2[|r.1|] == (|rows|, |cols|)
    ensures r.0.Shape() == g.Shape()
    ensures forall p | p in r.1 :: 0 < p.y < h - 1 && 0 < p.x < w - 1
    ensures forall p | g.Contains(p) :: r.0.At(p) == if p in r.1 then Floor else g.At(p)
  {
    var lh := Bounds(rows, h);
    var lv := Bounds(cols, w);
    assert lh[0] == 0 && lh[|lh| - 1] == h - 1 && |lh| == |rows| + 2;
    assert lv[0] == 0 && lv[|lv| - 1] == w - 1 && |lv| == |cols| + 2;
    Walk(g, path, lh, lv, 0, 0, rng)
  }

  lemma CrossingCells(e: Grid, g1: Grid, g2: Grid, h: int, w: int, river: GridObject, rows: seq<int>,
                      cols: seq<int>, openings: seq<Position>)
    requires EmptyLayout(e, h, w, Position(h - 2, w - 2))
    requires g1.Shape() == e.Shape() && g2.Shape() == e.Shape()
    requires forall k | 0 <= k < |rows| :: 1 <= rows[k] <= h - 2
    requires forall k | 0 <= k < |cols| :: 1 <= cols[k] <= w - 2
    requires forall p | e.Contains(p) :: (g1.At(p) ==
      if p.x in cols && 1 <= p.y <= h - 2 then river
      else if p.y in rows && 1 <= p.x <= w - 2 then river
      else e.At(p))
    requires forall p | p in openings :: 0 < p.y < h - 1 && 0 < p.x < w - 1
    requires forall p | g1.Contains(p) :: g2.At(p) == if p in openings then Floor else g1.At(p)
    ensures forall p | g2.Contains(p) :: g2.At(p) == CrossingCell(h, w, river, rows, cols, openings, p)
  {
  }

  /** `reset_crossing`: the height and the width must be odd and at least 5 and the
      number of rivers not negative, each check raising ValueError. On the `reset_empty`
      grid, the first `n` of the shuffled candidate rivers (all of them when there are
      fewer) are drawn, and a shuffled path of openings leads through them; the agent
      stands at (1, 1) facing E, holding nothing. */
  function ResetCrossing(h: int, w: int, n: int, river: GridObject, rng: Rng): (r: Result<(State, Rng)>)
    ensures r.Failure? <==> h < 5 || h % 2 != 1 || w < 5 || w % 2 != 1 || n < 0
    ensures r.Failure? ==> r.error == ValueError
    ensures r.Success? ==> r.value.0.agent == Agent(Position(1, 1), E, NoneGridObject)
    ensures r.Success? ==> exists rows, cols, openings, rooms ::
      |rows| + |cols| == RiverCount(h, w, n) &&
      CrossingLayout(r.value.0.grid, h, w, river, rows, cols, openings, rooms)
  {
    if h < 5 || h % 2 != 1 then Failure(ValueError)
    else if w < 5 || w % 2 != 1 then Failure(ValueError)
    else if n < 0 then Failure(ValueError)
    else
      var agent := ResetEmpty(h, w, false, false, rng).value.0.agent;
      var c := CrossingDraws(h, w, n, river, rng);
      assert |c.rows| + |c.cols| == RiverCount(h, w, n) &&
        CrossingLayout(c.grid, h, w, river, c.rows, c.cols, c.openings, c.rooms);
      Success((State(c.grid, agent.(position := Position(1, 1), orientation := E)), c.rng))
  }

  // ---------------------------------------------------------------------------------
  // Properties
  // ---------------------------------------------------------------------------------

  /** A coordinate strictly between two consecutive boundaries is no boundary. */
  lemma OffBounds(l: seq<int>, a: int, v: int)
    requires Limits(l) && 0 <= a < |l| - 1 && l[a] < v < l[a + 1]
    ensures v !in l
  {
    forall i | 0 <= i < |l| ensures l[i] != v {
      if i <= a {
        assert i < a ==> l[i] < l[a];
      } else {
        assert i > a + 1 ==> l[a + 1] < l[i];
      }
    }
  }

  /** The rooms of a crossing are open: a cell strictly inside the room between the
      boundaries `a`, `a + 1` of the rows and `b`, `b + 1` of the columns is no river and
      no opening, so it holds Floor, or the exit of the empty layout. The agent's cell
      (1, 1) lies in the top-left room and the exit in the bottom-right one. */
  lemma RoomsAreOpen(g: Grid, h: int, w: int, river: GridObject, rows: seq<int>, cols: seq<int>,
                     openings: seq<Position>, rooms: seq<(int, int)>, a: int, b: int, p: Position)
    requires CrossingLayout(g, h, w, river, rows, cols, openings, rooms)
    requires 0 <= a <= |rows| && 0 <= b <= |cols|
    requires Bounds(rows, h)[a] < p.y < Bounds(rows, h)[a + 1] && Bounds(cols, w)[b] < p.x < Bounds(cols, w)[b + 1]
    ensures g.Contains(p) && g.At(p) == if p == Position(h - 2, w - 2) then Exit(ColorNone) else Floor
    ensures Bounds(rows, h)[0] < 1 < Bounds(rows, h)[1] && Bounds(cols, w)[0] < 1 < Bounds(cols, w)[1]
    ensures Bounds(rows, h)[|rows|] < h - 2 < Bounds(rows, h)[|rows| + 1]
    ensures Bounds(cols, w)[|cols|] < w - 2 < Bounds(cols, w)[|cols| + 1]
  {
    var lh := Bounds(rows, h);
    var lv := Bounds(cols, w);
    BoundsFacts(rows, h);
    BoundsFacts(cols, w);
    OffBounds(lh, a, p.y);
    OffBounds(lv, b, p.x);
    NotAnOpening(rooms, openings, lh, lv, p);
    assert g.Contains(p);
  }

  /** The boundaries of a river layout: the rivers between the two border lines, the
      first river below row (or column) 1 and the last above `size - 2`. */
  lemma BoundsFacts(rivers: seq<int>, size: int)
    requires Limits(Bounds(rivers, size))
    ensures forall v | v in rivers :: v in Bounds(rivers, size)
    ensures Bounds(rivers, size)[0] == 0 && Bounds(rivers, size)[|rivers| + 1] == size - 1
    ensures Bounds(rivers, size)[0] < 1 < Bounds(rivers, size)[1]
    ensures Bounds(rivers, size)[|rivers|] < size - 2 < Bounds(rivers, size)[|rivers| + 1]
  {
    var l := Bounds(rivers, size);
    assert l[0] < l[1] && l[|rivers|] < l[|rivers| + 1];
    assert l[1] % 2 == 0 && l[|rivers|] % 2 == 0 && l[|rivers| + 1] % 2 == 0;
  }

  /** A cell on no boundary line is none of the openings of a staircase. */
  lemma NotAnOpening(rooms: seq<(int, int)>, ps: seq<Position>, lh: seq<int>, lv: seq<int>, p: Position)
    requires Staircase(rooms, ps, lh, lv) && p.y !in lh && p.x !in lv
    ensures p !in ps
  {
    forall k | 0 <= k < |ps| ensures ps[k] != p {
      assert Crosses(rooms[k], rooms[k + 1], ps[k], lh, lv);
    }
  }

  /** Walking a staircase of rooms from column band `rooms[0].1` to a later one crosses
      every column boundary in between, once it reaches it. */
  lemma {:induction false} StaircaseCrossesColumn(rooms: seq<(int, int)>, ps: seq<Position>, lh: seq<int>, lv: seq<int>, m: int)
    requires Staircase(rooms, ps, lh, lv) && rooms[0].1 <= m < rooms[|ps|].1
    ensures exists k :: CrossesColumnAt(rooms, ps, lh, lv, m, k)
    decreases |ps|
  {
    assert Crosses(rooms[0], rooms[1], ps[0], lh, lv);
    if rooms[1].1 == m + 1 {
      assert CrossesColumnAt(rooms, ps, lh, lv, m, 0);
    } else {
      StaircaseTail(rooms, ps, lh, lv);
      StaircaseCrossesColumn(rooms[1..], ps[1..], lh, lv, m);
      var k :| CrossesColumnAt(rooms[1..], ps[1..], lh, lv, m, k);
      assert rooms[1..][k] == rooms[k + 1] && rooms[1..][k + 1] == rooms[k + 2] && ps[1..][k] == ps[k + 1];
      assert CrossesColumnAt(rooms, ps, lh, lv, m, k + 1);
    }
  }

  /** Crossing `k` of a staircase crosses column boundary `m + 1`, from band `m` to band
      `m + 1`, at a row strictly inside its row band. */
  predicate CrossesColumnAt(rooms: seq<(int, int)>, ps: seq<Position>, lh: seq<int>, lv: seq<int>, m: int, k: int) {
    0 <= k < |ps| && |rooms| == |ps| + 1 && 0 <= m && m + 1 < |lv| && 0 <= rooms[k].0 < |lh| - 1 &&
    rooms[k].1 == m && rooms[k + 1] == (rooms[k].0, m + 1) && ps[k].x == lv[m + 1] &&
    lh[rooms[k].0] < ps[k].y < lh[rooms[k].0 + 1]
  }

  /** The row analogue of `StaircaseCrossesColumn`. */
  lemma {:induction false} StaircaseCrossesRow(rooms: seq<(int, int)>, ps: seq<Position>, lh: seq<int>, lv: seq<int>, m: int)
    requires Staircase(rooms, ps, lh, lv) && rooms[0].0 <= m < rooms[|ps|].0
    ensures exists k :: CrossesRowAt(rooms, ps, lh, lv, m, k)
    decreases |ps|
  {
    assert Crosses(rooms[0], rooms[1], ps[0], lh, lv);
    if rooms[1].0 == m + 1 {
      assert CrossesRowAt(rooms, ps, lh, lv, m, 0);
    } else {
      StaircaseTail(rooms, ps, lh, lv);
      StaircaseCrossesRow(rooms[1..], ps[1..], lh, lv, m);
      var k :| CrossesRowAt(rooms[1..], ps[1..], lh, lv, m, k);
      assert rooms[1..][k] == rooms[k + 1] && rooms[1..][k + 1] == rooms[k + 2] && ps[1..][k] == ps[k + 1];
      assert CrossesRowAt(rooms, ps, lh, lv, m, k + 1);
    }
  }

  /** Crossing `k` of a staircase crosses row boundary `m + 1`, from band `m` to band
      `m + 1`, at a column strictly inside its column band. */
  predicate CrossesRowAt(rooms: seq<(int, int)>, ps: seq<Position>, lh: seq<int>, lv: seq<int>, m: int, k: int) {
    0 <= k < |ps| && |rooms| == |ps| + 1 && 0 <= m && m + 1 < |lh| && 0 <= rooms[k].1 < |lv| - 1 &&
    rooms[k].0 == m && rooms[k + 1] == (m + 1, rooms[k].1) && ps[k].y == lh[m + 1] &&
    lv[rooms[k].1] < ps[k].x < lv[rooms[k].1 + 1]
  }

  /** A staircase without its first crossing is a staircase. */
  lemma StaircaseTail(rooms: seq<(int, int)>, ps: seq<Position>, lh: seq<int>, lv: seq<int>)
    requires Staircase(rooms, ps, lh, lv) && |ps| > 0
    ensures Staircase(rooms[1..], ps[1..], lh, lv)
    ensures rooms[1..][0] == rooms[1] && rooms[1..][|ps| - 1] == rooms[|ps|]
  {
    forall k | 0 <= k < |ps| - 1 ensures Crosses(rooms[1..][k], rooms[1..][k + 1], ps[1..][k], lh, lv) {
      assert Crosses(rooms[k + 1], rooms[k + 2], ps[k + 1], lh, lv);
    }
  }

  /** Every column river of a crossing has a Floor opening, at a row strictly between
      two consecutive row boundaries, so on no row river. */
  lemma ColumnOpened(g: Grid, h: int, w: int, river: GridObject, rows: seq<int>, cols: seq<int>,
                     openings: seq<Position>, rooms: seq<(int, int)>, m: int)
    requires CrossingLayout(g, h, w, river, rows, cols, openings, rooms) && 0 <= m < |cols|
    ensures exists p | p in openings :: p.x == cols[m] && p.y !in rows && g.Contains(p) && g.At(p) == Floor
  {
    var lh := Bounds(rows, h);
    var lv := Bounds(cols, w);
    StaircaseCrossesColumn(rooms, openings, lh, lv, m);
    var k :| CrossesColumnAt(rooms, openings, lh, lv, m, k);
    var p := openings[k];
    OffBounds(lh, rooms[k].0, p.y);
    BoundsFacts(rows, h);
    OpeningInside(g, h, w, river, rows, cols, openings, rooms, k);
    assert lv[m + 1] == cols[m];
    assert p in openings;
  }

  /** Every row river of a crossing has a Floor opening, at a column strictly between
      two consecutive column boundaries, so on no column river. */
  lemma RowOpened(g: Grid, h: int, w: int, river: GridObject, rows: seq<int>, cols: seq<int>,
                  openings: seq<Position>, rooms: seq<(int, int)>, m: int)
    requires CrossingLayout(g, h, w, river, rows, cols, openings, rooms) && 0 <= m < |rows|
    ensures exists p | p in openings :: p.y == rows[m] && p.x !in cols && g.Contains(p) && g.At(p) == Floor
  {
    var lh := Bounds(rows, h);
    var lv := Bounds(cols, w);
    StaircaseCrossesRow(rooms, openings, lh, lv, m);
    var k :| CrossesRowAt(rooms, openings, lh, lv, m, k);
    var p := openings[k];
    OffBounds(lv, rooms[k].1, p.x);
    BoundsFacts(cols, w);
    OpeningInside(g, h, w, river, rows, cols, openings, rooms, k);
    assert lh[m + 1] == rows[m];
    assert p in openings;
  }

  /** Every opening of a crossing is an interior Floor cell. */
  lemma OpeningInside(g: Grid, h: int, w: int, river: GridObject, rows: seq<int>, cols: seq<int>,
                      openings: seq<Position>, rooms: seq<(int, int)>, k: int)
    requires CrossingLayout(g, h, w, river, rows, cols, openings, rooms) && 0 <= k < |openings|
    ensures Interior(h, w, openings[k]) && g.Contains(openings[k]) && g.At(openings[k]) == Floor
  {
    var lh := Bounds(rows, h);
    var lv := Bounds(cols, w);
    assert lh[0] == 0 && lh[|lh| - 1] == h - 1 && lv[0] == 0 && lv[|lv| - 1] == w - 1;
    assert Crosses(rooms[k], rooms[k + 1], openings[k], lh, lv);
    var (a, b) := rooms[k];
    assert 0 <= a && a + 1 <= |lh| - 1 && 0 <= b && b + 1 <= |lv| - 1;
    assert lh[0] <= lh[a] && lh[a + 1] <= lh[|lh| - 1];
    assert lv[0] <= lv[b] && lv[b + 1] <= lv[|lv| - 1];
  }
}

=== FILE: reset_factory.dfy ===
/** The reset-function factory: a reset function chosen by name, with the parameters that
    name needs bound in advance. */
module ResetFactory {
  import opened Wrappers
  import opened GridObjects
  import opened Geometry
  import opened Grids
  import opened Agents
  import opened Rng
  import opened Resets
  import opened RoomResets
  import opened CrossingResets

  /** The factory's keyword parameters, each possibly absent. */
  datatype ResetParams = ResetParams(
    height: Option<int>,
    width: Option<int>,
    layout: Option<(int, int)>,
    randomAgentPos: Option<bool>,
    numObstacles: Option<int>,
    numRivers: Option<int>,
    objectType: Option<GridObject>,
    colors: Option<set<Color>>,
    numBeacons: Option<int>,
    numExits: Option<int>)

  const NoParams := ResetParams(None, None, None, None, None, None, None, None, None, None)

  /** A reset function with its bound parameters. */
  datatype ResetFunction =
    | EmptyReset(height: int, width: int, randomAgent: bool)
    | RoomsReset(height: int, width: int, layout: (int, int))
    | DynamicObstaclesReset(height: int, width: int, numObstacles: int, randomAgentPos: bool)
    | KeydoorReset(height: int, width: int)
    | CrossingReset(height: int, width: int, numRivers: int, objectType: GridObject)
    | TeleportReset(height: int, width: int)
    | MemoryReset(height: int, width: int, colors: set<Color>)
    | MemoryRoomsReset(height: int, width: int, layout: (int, int), colors: set<Color>, numBeacons: int, numExits: int)

  /** The name the factory knows each reset function by. */
  function NameOf(f: ResetFunction): string {
    match f
    case EmptyReset(_, _, _) => "empty"
    case RoomsReset(_, _, _) => "rooms"
    case DynamicObstaclesReset(_, _, _, _) => "dynamic_obstacles"
    case KeydoorReset(_, _) => "keydoor"
    case CrossingReset(_, _, _, _) => "crossing"
    case TeleportReset(_, _) => "teleport"
    case MemoryReset(_, _, _) => "memory"
    case MemoryRoomsReset(_, _, _, _, _, _) => "memory_rooms"
  }

  const Names: set<string> := {"empty", "rooms", "dynamic_obstacles", "keydoor", "crossing", "teleport", "memory", "memory_rooms"}

  /** `factory`: for a known name, ValueError unless every parameter that reset function
      needs is given, the others being ignored; for an unknown name, ValueError. */
  function Factory(name: string, p: ResetParams): (r: Result<ResetFunction>)
    ensures name !in Names ==> r == Failure(ValueError)
    ensures r.Failure? ==> r.error == ValueError
    ensures r.Success? ==> NameOf(r.value) == name && Extends(p, ParamsOf(r.value))
    ensures forall f | NameOf(f) == name && Extends(p, ParamsOf(f)) :: r == Success(f)
  {
    if name == "empty" then
      if p.height.Some? && p.width.Some? && p.randomAgentPos.Some? then
        Success(EmptyReset(p.height.value, p.width.value, p.randomAgentPos.value))
      else Failure(ValueError)
    else if name == "rooms" then
      if p.height.Some? && p.width.Some? && p.layout.Some? then
        Success(RoomsReset(p.height.value, p.width.value, p.layout.value))
      else Failure(ValueError)
    else if name == "dynamic_obstacles" then
      if p.height.Some? && p.width.Some? && p.numObstacles.Some? && p.randomAgentPos.Some? then
        Success(DynamicObstaclesReset(p.height.value, p.width.value, p.numObstacles.value, p.randomAgentPos.value))
      else Failure(ValueError)
    else if name == "keydoor" then
      if p.height.Some? && p.width.Some? then Success(KeydoorReset(p.height.value, p.width.value))
      else Failure(ValueError)
    else if name == "crossing" then
      if p.height.Some? && p.width.Some? && p.numRivers.Some? && p.objectType.Some? then
        Success(CrossingReset(p.height.value, p.width.value, p.numRivers.value, p.objectType.value))
      else Failure(ValueError)
    else if name == "teleport" then
      if p.height.Some? && p.width.Some? then Success(TeleportReset(p.height.value, p.width.value))
      else Failure(ValueError)
    else if name == "memory" then
      if p.height.Some? && p.width.Some? && p.colors.Some? then
        Success(MemoryReset(p.height.value, p.width.value, p.colors.value))
      else Failure(ValueError)
    else if name == "memory_rooms" then
      if p.height.Some? && p.width.Some? && p.layout.Some? && p.colors.Some? && p.numBeacons.Some? && p.numExits.Some? then
        Success(MemoryRoomsReset(p.height.value, p.width.value, p.layout.value, p.colors.value,
                                 p.numBeacons.value, p.numExits.value))
      else Failure(ValueError)
    else Failure(ValueError)
  }

  /** Exactly the parameters a reset function binds. */
  function ParamsOf(f: ResetFunction): ResetParams {
    match f
    case EmptyReset(h, w, ra) => NoParams.(height := Some(h), width := Some(w), randomAgentPos := Some(ra))
    case RoomsReset(h, w, l) => NoParams.(height := Some(h), width := Some(w), layout := Some(l))
    case DynamicObstaclesReset(h, w, n, ra) =>
      NoParams.(height := Some(h), width := Some(w), numObstacles := Some(n), randomAgentPos := Some(ra))
    case KeydoorReset(h, w) => NoParams.(height := Some(h), width := Some(w))
    case CrossingReset(h, w, n, o) =>
      NoParams.(height := Some(h), width := Some(w), numRivers := Some(n), objectType := Some(o))
    case TeleportReset(h, w) => NoParams.(height := Some(h), width := Some(w))
    case MemoryReset(h, w, cs) => NoParams.(height := Some(h), width := Some(w), colors := Some(cs))
    case MemoryRoomsReset(h, w, l, cs, nb, ne) =>
      NoParams.(height := Some(h), width := Some(w), layout := Some(l), colors := Some(cs),
                numBeacons := Some(nb), numExits := Some(ne))
  }

  /** Every parameter `q` gives is given, with the same value, by `p`. */
  predicate Extends(p: ResetParams, q: ResetParams) {
    (q.height.Some? ==> p.height == q.height) &&
    (q.width.Some? ==> p.width == q.width) &&
    (q.layout.Some? ==> p.layout == q.layout) &&
    (q.randomAgentPos.Some? ==> p.randomAgentPos == q.randomAgentPos) &&
    (q.numObstacles.Some? ==> p.numObstacles == q.numObstacles) &&
    (q.numRivers.Some? ==> p.numRivers == q.numRivers) &&
    (q.objectType.Some? ==> p.objectType == q.objectType) &&
    (q.colors.Some? ==> p.colors == q.colors) &&
    (q.numBeacons.Some? ==> p.numBeacons == q.numBeacons) &&
    (q.numExits.Some? ==> p.numExits == q.numExits)
  }

  /** Running a reset function the factory built. `draw_room_grid` is the parameter
      `roomGrid`; a negative room size is reported as ValueError. */
  function Run(f: ResetFunction, roomGrid: RoomGridFn, rng: Rng): (r: Result<(State, Rng)>)
    ensures r.Success? ==> r.value.0.agent.obj == NoneGridObject
    ensures r.Success? ==> r.value.0.grid.Contains(r.value.0.agent.position)
  {
    match f
    case EmptyReset(h, w, ra) =>
      EmptyStart(h, w, ra, rng);
      ResetEmpty(h, w, ra, false, rng)
    case RoomsReset(h, w, l) =>
      if h < 0 || w < 0 then Failure(ValueError)
      else
        RoomsStart(h, w, l, roomGrid, rng);
        ResetRooms(h, w, l, roomGrid, rng)
    case DynamicObstaclesReset(h, w, n, ra) =>
      DynamicObstaclesStart(h, w, n, ra, rng);
      ResetDynamicObstacles(h, w, n, ra, rng)
    case KeydoorReset(h, w) =>
      KeydoorStart(h, w, rng);
      ResetKeydoor(h, w, rng)
    case CrossingReset(h, w, n, o) =>
      CrossingStart(h, w, n, o, rng);
      ResetCrossing(h, w, n, o, rng)
    case TeleportReset(h, w) =>
      TeleportStart(h, w, rng);
      ResetTeleport(h, w, rng)
    case MemoryReset(h, w, cs) =>
      MemoryStart(h, w, cs, rng);
      ResetMemory(h, w, cs, rng)
    case MemoryRoomsReset(h, w, l, cs, nb, ne) =>
      if h < 0 || w < 0 then Failure(ValueError)
      else
        MemoryRoomsStart(h, w, l, cs, nb, ne, roomGrid, rng);
        ResetMemoryRooms(h, w, l, cs, nb, ne, roomGrid, rng)
  }

  /** The agent of a start: on the grid, holding nothing. */
  predicate AgentReady(r: Result<(State, Rng)>) {
    r.Success? ==> r.value.0.agent.obj == NoneGridObject && r.value.0.grid.Contains(r.value.0.agent.position)
  }

  lemma EmptyStart(h: int, w: int, ra: bool, rng: Rng)
    ensures AgentReady(ResetEmpty(h, w, ra, false, rng))
  {
  }

  lemma RoomsStart(h: nat, w: nat, l: (int, int), roomGrid: RoomGridFn, rng: Rng)
    ensures AgentReady(ResetRooms(h, w, l, roomGrid, rng))
  {
  }

  lemma DynamicObstaclesStart(h: int, w: int, n: int, ra: bool, rng: Rng)
    ensures AgentReady(ResetDynamicObstacles(h, w, n, ra, rng))
  {
  }

  lemma KeydoorStart(h: int, w: int, rng: Rng)
    ensures AgentReady(ResetKeydoor(h, w, rng))
  {
  }

  lemma CrossingStart(h: int, w: int, n: int, o: GridObject, rng: Rng)
    ensures AgentReady(ResetCrossing(h, w, n, o, rng))
  {
  }

  lemma TeleportStart(h: int, w: int, rng: Rng)
    ensures AgentReady(ResetTeleport(h, w, rng))
  {
  }

  lemma MemoryStart(h: int, w: int, cs: set<Color>, rng: Rng)
    ensures AgentReady(ResetMemory(h, w, cs, rng))
  {
  }

  lemma MemoryRoomsStart(h: nat, w: nat, l: (int, int), cs: set<Color>, nb: int, ne: int, roomGrid: RoomGridFn, rng: Rng)
    ensures AgentReady(ResetMemoryRooms(h, w, l, cs, nb, ne, roomGrid, rng))
  {
    var r := ResetMemoryRooms(h, w, l, cs, nb, ne, roomGrid, rng);
    if r.Success? {
      var before := RoomLayout(h, w, l, roomGrid, rng).value.0;
      var ps, colors :| |colors| == ne && MemoryRoomsPlacement(before, r.value.0, ps, colors, nb, cs);
      PlacedAgentReady(before, r.value.0, ps, colors, nb, cs);
    }
  }

  /** The agent of a placement stands on one of the drawn cells, holding nothing. */
  lemma PlacedAgentReady(before: Grid, s: State, ps: seq<Position>, colors: seq<Color>, nb: int, cs: set<Color>)
    requires MemoryRoomsPlacement(before, s, ps, colors, nb, cs)
    ensures s.agent.obj == NoneGridObject && s.grid.Contains(s.agent.position)
  {
    assert before.Contains(ps[0]);
  }
}

=== FILE: reset_properties.dfy ===
/** Properties linking the reset functions to the rewards and spaces of the environments
    they start. */
module ResetProperties {
  import opened Wrappers
  import opened Geometry
  import opened GridObjects
  import opened Grids
  import opened Agents
  import opened Rewards
  import opened Resets
  import opened RoomResets

  // ---------------------------------------------------------------------------------
  // The memory task
  // ---------------------------------------------------------------------------------

  /** In the memory layout every beacon shows the same colour, so the first one found is
      the one at the bottom-left end. */
  lemma MemoryBeaconColor(s: State, h: int, w: int, colors: set<Color>)
    requires MemoryLayout(s, h, w, colors)
    ensures BeaconColor(s.grid) == Success(s.grid.At(Position(h - 2, 1)).color)
  {
    var g := s.grid;
    var c := g.At(Position(h - 2, 1)).color;
    assert g.Contains(Position(h - 2, 1));
    var r := BeaconColor(g);
    var p :| g.Contains(p) && g.At(p) == Beacon(r.value) && forall q | g.Contains(q) && Before(q, p) :: !g.At(q).Beacon?;
    MemoryBeacons(s, h, w, colors, p);
  }

  /** The beacons of the memory layout are the two at the bottom ends, of one colour. */
  lemma MemoryBeacons(s: State, h: int, w: int, colors: set<Color>, p: Position)
    requires MemoryLayout(s, h, w, colors)
    requires s.grid.Contains(p) && s.grid.At(p).Beacon?
    ensures s.grid.At(p) == s.grid.At(Position(h - 2, 1))
  {
    assert MemoryEnd(h, w, p);
    assert p != Position(1, 1) && p != Position(1, w - 2);
  }

  /** A `reset_memory` start pays nothing where the agent stands, and of its two exits
      exactly one pays the good reward: the one matching the beacons. */
  lemma MemoryExitsPay(s: State, h: int, w: int, colors: set<Color>, good: real, bad: real)
    requires MemoryLayout(s, h, w, colors)
    ensures MemoryReward(good, bad, s) == Success(0.0)
    ensures var left := MemoryReward(good, bad, s.(agent := s.agent.(position := Position(1, 1))));
      var right := MemoryReward(good, bad, s.(agent := s.agent.(position := Position(1, w - 2))));
      (left == Success(good) && right == Success(bad)) || (left == Success(bad) && right == Success(good))
  {
    var g := s.grid;
    var left, right := Position(1, 1), Position(1, w - 2);
    MemoryStartFacts(s, h, w, colors);
    ExitPays(good, bad, s, left, g.At(Position(h - 2, 1)).color);
    ExitPays(good, bad, s, right, g.At(Position(h - 2, 1)).color);
  }

  /** The facts about a memory start the rewards depend on: the agent on Floor, the two
      exits of distinct colours, and the beacons showing one of them. */
  lemma MemoryStartFacts(s: State, h: int, w: int, colors: set<Color>)
    requires MemoryLayout(s, h, w, colors)
    ensures s.grid.Contains(s.agent.position) && s.grid.At(s.agent.position) == Floor
    ensures var g, left, right := s.grid, Position(1, 1), Position(1, w - 2);
      g.Contains(left) && g.Contains(right) && g.At(left).Exit? && g.At(right).Exit? &&
      g.At(left).color != g.At(right).color &&
      BeaconColor(g) == Success(g.At(Position(h - 2, 1)).color) &&
      (g.At(Position(h - 2, 1)).color == g.At(left).color || g.At(Position(h - 2, 1)).color == g.At(right).color)
  {
    var g := s.grid;
    MemoryBeaconColor(s, h, w, colors);
    var mid := Position(h / 2, w / 2);
    assert g.Contains(mid) && !MemoryEnd(h, w, mid) && Corridor(h, w, mid);
  }

  /** Standing on an exit pays by whether its colour is the one the beacons show. */
  lemma ExitPays(good: real, bad: real, s: State, p: Position, b: Color)
    requires BeaconColor(s.grid) == Success(b)
    requires s.grid.Contains(p) && s.grid.At(p).Exit?
    ensures MemoryReward(good, bad, s.(agent := s.agent.(position := p)))
      == Success(if s.grid.At(p).color == b then good else bad)
  {
  }

  /** In a `reset_memory_rooms` start over a layout without beacons, stepping onto the
      exit of the first colour pays the good reward, onto any other exit the bad one,
      and the starting cell pays nothing. */
  lemma MemoryRoomsExitsPay(before: Grid, s: State, ps: seq<Position>, cs: seq<Color>, nb: int, colors: set<Color>,
                            good: real, bad: real, k: int)
    requires MemoryRoomsPlacement(before, s, ps, cs, nb, colors) && nb >= 1
    requires forall q | before.Contains(q) :: !before.At(q).Beacon?
    requires 0 <= k < |cs|
    ensures MemoryReward(good, bad, s) == Success(0.0)
    ensures MemoryReward(good, bad, s.(agent := s.agent.(position := ps[1 + nb + k]))) ==
      Success(if k == 0 then good else bad)
  {
    PlacementBeaconColor(before, s, ps, cs, nb, colors);
    PlacementFacts(before, s, ps, cs, nb, colors, k);
    ExitPays(good, bad, s, ps[1 + nb + k], cs[0]);
  }

  /** The facts about a `reset_memory_rooms` placement the rewards depend on: the agent
      on Floor, and exit `k` in the grid with its own colour. */
  lemma PlacementFacts(before: Grid, s: State, ps: seq<Position>, cs: seq<Color>, nb: int, colors: set<Color>, k: int)
    requires MemoryRoomsPlacement(before, s, ps, cs, nb, colors) && 0 <= k < |cs|
    ensures s.grid.Contains(s.agent.position) && s.grid.At(s.agent.position) == Floor
    ensures s.grid.Contains(ps[1 + nb + k]) && s.grid.At(ps[1 + nb + k]) == Exit(cs[k])
    ensures k != 0 ==> cs[k] != cs[0]
  {
    assert before.Contains(ps[0]) && before.Contains(ps[1 + nb + k]);
  }

  lemma PlacementBeaconColor(before: Grid, s: State, ps: seq<Position>, cs: seq<Color>, nb: int, colors: set<Color>)
    requires MemoryRoomsPlacement(before, s, ps, cs, nb, colors) && nb >= 1
    requires forall q | before.Contains(q) :: !before.At(q).Beacon?
    ensures BeaconColor(s.grid) == Success(cs[0])
  {
    var g := s.grid;
    assert g.Contains(ps[1]) && g.At(ps[1]) == Beacon(cs[0]);
    var r := BeaconColor(g);
    var p :| g.Contains(p) && g.At(p) == Beacon(r.value) && forall q | g.Contains(q) && Before(q, p) :: !g.At(q).Beacon?;
    BeaconsOfPlacement(before, s, ps, cs, nb, colors, p);
  }

  /** Over a layout without beacons, the only beacons a `reset_memory_rooms` placement
      shows are its own. */
  lemma BeaconsOfPlacement(before: Grid, s: State, ps: seq<Position>, cs: seq<Color>, nb: int, colors: set<Color>, p: Position)
    requires MemoryRoomsPlacement(before, s, ps, cs, nb, colors)
    requires forall q | before.Contains(q) :: !before.At(q).Beacon?
    requires s.grid.Contains(p) && s.grid.At(p).Beacon?
    ensures s.grid.At(p) == Beacon(cs[0])
  {
    forall i | 1 + nb <= i < |ps|
      ensures ps[i] != p
    {
      var j := i - 1 - nb;
      assert ps[1 + nb + j] == ps[i] && s.grid.At(ps[1 + nb + j]) == Exit(cs[j]);
    }
  }
}

=== FILE: reset_rooms.dfy ===
/** The room-grid reset functions: the grid is cut into a layout of rooms by walls on
    evenly spaced rows and columns, each wall gets one random passage per room it
    borders, and the agent and the placed objects go on distinct random Floor
    cells. */
module RoomResets {
  import opened Wrappers
  import opened Geometry
  import opened GridObjects
  import opened Grids
  import opened Agents
  import opened Rng
  import opened Seqs
  import opened Design
  import opened Resets

  // ---------------------------------------------------------------------------------
  // Arithmetic
  // ---------------------------------------------------------------------------------

  lemma DivUnique(x: int, d: int, q: int, r: int)
    requires d > 0 && x == q * d + r && 0 <= r < d
    ensures x / d == q
  {
    var q', r' := x / d, x % d;
    assert x == q' * d + r';
    if q' > q {
      MulMonotone(d, q, q');
    } else if q' < q {
      MulMonotone(d, q', q);
    }
  }

  lemma DivStep(a: int, d: int)
    requires d > 0
    ensures (a + d) / d == a / d + 1
  {
    DivUnique(a + d, d, a / d + 1, a % d);
  }

  lemma DivMonotone(a: int, b: int, d: int)
    requires a <= b && d > 0
    ensures a / d <= b / d
  {
    var qa, qb := a / d, b / d;
    assert a == qa * d + a % d && b == qb * d + b % d;
    assert qa > qb ==> qa * d >= (qb + 1) * d;
  }

  lemma MulMonotone(a: int, i: int, j: int)
    requires a >= 0 && i <= j
    ensures a * i <= a * j && (i < j ==> a * i + a <= a * j)
  {
    var k := j - i;
    assert a * j == a * i + a * k;
    assert k >= 1 ==> a * k == a * (k - 1) + a;
    assert a * k >= 0 && (k >= 1 ==> a * (k - 1) >= 0);
  }

  // ---------------------------------------------------------------------------------
  // Splitting the grid
  // ---------------------------------------------------------------------------------

  /** Integer division truncating toward zero, as numpy's cast of a float to int does. */
  function TruncDiv(a: int, d: int): int
    requires d > 0
  {
    if a >= 0 then a / d else -((-a) / d)
  }

  /** `numpy.linspace(0, stop, num=num, dtype=int)` in exact arithmetic: `num` evenly
      spaced points from 0 to `stop`, both ends included, each truncated toward zero. A
      negative count raises ValueError. */
  function Splits(stop: int, num: int): (r: Result<seq<int>>)
    ensures r.Failure? <==> num < 0
    ensures r.Failure? ==> r.error == ValueError
    ensures r.Success? ==> |r.value| == num
    ensures r.Success? && num >= 1 ==> r.value[0] == 0
    ensures r.Success? && num >= 2 ==> r.value[num - 1] == stop
    ensures r.Success? && stop >= 0 ==>
      forall i, j | 0 <= i <= j < num :: 0 <= r.value[i] <= r.value[j] <= stop
  {
    if num < 0 then Failure(ValueError)
    else if num == 0 then Success([])
    else if num == 1 then Success([0])
    else
      var r := seq(num, i => TruncDiv(stop * i, num - 1));
      SplitsEnds(stop, num, r);
      SplitsOrdered(stop, num, r);
      Success(r)
  }

  lemma SplitsEnds(stop: int, num: int, r: seq<int>)
    requires num >= 2 && r == seq(num, i => TruncDiv(stop * i, num - 1))
    ensures r[0] == 0 && r[num - 1] == stop
  {
    DivUnique(0, num - 1, 0, 0);
    if stop >= 0 {
      DivUnique(stop * (num - 1), num - 1, stop, 0);
    } else {
      DivUnique(-stop * (num - 1), num - 1, -stop, 0);
    }
  }

  lemma SplitsOrdered(stop: int, num: int, r: seq<int>)
    requires num >= 2 && r == seq(num, i => TruncDiv(stop * i, num - 1))
    ensures stop >= 0 ==> forall i, j | 0 <= i <= j < num :: 0 <= r[i] <= r[j] <= stop
  {
    forall i, j | 0 <= i <= j < num && stop >= 0 ensures 0 <= r[i] <= r[j] <= stop {
      MulMonotone(stop, 0, i);
      MulMonotone(stop, i, j);
      MulMonotone(stop, j, num - 1);
      DivMonotone(0, stop * i, num - 1);
      DivMonotone(stop * i, stop * j, num - 1);
      DivMonotone(stop * j, stop * (num - 1), num - 1);
      DivUnique(stop * (num - 1), num - 1, stop, 0);
    }
  }

  /** The layout check: the split points are distinct exactly when there are no more of
      them than cells to split. */
  lemma {:induction false} SplitsDistinct(stop: int, num: int)
    requires stop >= 0 && num >= 0
    ensures Distinct(Splits(stop, num).value) <==> num <= stop + 1
  {
    var r := Splits(stop, num).value;
    if num >= 2 && num <= stop + 1 {
      var d := num - 1;
      forall i, j | 0 <= i < j < num ensures r[i] != r[j] {
        MulMonotone(stop, i, j);
        assert stop * i + d <= stop * j;
        DivMonotone(stop * i + d, stop * j, d);
        DivStep(stop * i, d);
      }
    }
    if num > stop + 1 && Distinct(r) {
      var cells := Range(0, stop + 1);
      assert (set x | x in r) <= (set x | x in cells);
      DistinctCardinality(r);
      DistinctCardinality(cells);
      SubsetCardinality(set x | x in r, set x | x in cells);
      assert false;
    }
  }

  lemma SubsetCardinality<T>(a: set<T>, b: set<T>)
    requires a <= b
    ensures |a| <= |b|
  {
    assert b == a + (b - a);
  }

  // ---------------------------------------------------------------------------------
  // Passages
  // ---------------------------------------------------------------------------------

  /** A wall segment to open: along row `line` strictly between columns `lo` and `hi`
      when `across`, otherwise down column `line` strictly between rows `lo` and `hi`. */
  datatype Passage = Passage(across: bool, line: int, lo: int, hi: int)

  /** The cell at offset `v` along a passage's wall. */
  function Cell(p: Passage, v: int): Position {
    if p.across then Position(p.line, v) else Position(v, p.line)
  }

  /** Whether `q` lies on the passage's wall strictly between its ends. */
  predicate Opens(p: Passage, q: Position) {
    exists v | p.lo < v < p.hi :: q == Cell(p, v)
  }

  /** `more_itertools.pairwise`: each element with its successor. */
  function Pairs(xs: seq<int>): (r: seq<(int, int)>)
    ensures |r| == if |xs| == 0 then 0 else |xs| - 1
    ensures forall i | 0 <= i < |r| :: r[i] == (xs[i], xs[i + 1])
  {
    if |xs| <= 1 then [] else seq(|xs| - 1, i requires 0 <= i < |xs| - 1 => (xs[i], xs[i + 1]))
  }

  /** `xs[1:-1]`: all but the first and the last. */
  function Inner(xs: seq<int>): (r: seq<int>)
    ensures |xs| >= 2 ==> r == xs[1..|xs| - 1]
    ensures |xs| < 2 ==> r == []
  {
    if |xs| < 2 then [] else xs[1..|xs| - 1]
  }

  /** The passages through the inner horizontal walls, row by row, then through the inner
      vertical walls, band by band: one per wall and room it borders. */
  function RoomPassages(ys: seq<int>, xs: seq<int>): (r: seq<Passage>)
    ensures forall p | p in r ::
      (p.across && p.line in Inner(ys) && (p.lo, p.hi) in Pairs(xs)) ||
      (!p.across && p.line in Inner(xs) && (p.lo, p.hi) in Pairs(ys))
    ensures forall y, i | y in Inner(ys) && 0 <= i < |Pairs(xs)| ::
      Passage(true, y, Pairs(xs)[i].0, Pairs(xs)[i].1) in r
    ensures forall x, i | x in Inner(xs) && 0 <= i < |Pairs(ys)| ::
      Passage(false, x, Pairs(ys)[i].0, Pairs(ys)[i].1) in r
  {
    RowPassages(Inner(ys), Pairs(xs)) + ColumnPassages(Pairs(ys), Inner(xs))
  }

  function RowPassages(rows: seq<int>, pairs: seq<(int, int)>): (r: seq<Passage>)
    ensures forall p | p in r :: p.across && p.line in rows && (p.lo, p.hi) in pairs
    ensures forall y, i | y in rows && 0 <= i < |pairs| :: Passage(true, y, pairs[i].0, pairs[i].1) in r
  {
    if |rows| == 0 then []
    else
      var here := seq(|pairs|, i requires 0 <= i < |pairs| => Passage(true, rows[0], pairs[i].0, pairs[i].1));
      assert forall i | 0 <= i < |pairs| :: here[i] == Passage(true, rows[0], pairs[i].0, pairs[i].1);
      assert forall y | y in rows :: y == rows[0] || y in rows[1..];
      here + RowPassages(rows[1..], pairs)
  }

  function ColumnPassages(pairs: seq<(int, int)>, cols: seq<int>): (r: seq<Passage>)
    ensures forall p | p in r :: !p.across && p.line in cols && (p.lo, p.hi) in pairs
    ensures forall x, i | x in cols && 0 <= i < |pairs| :: Passage(false, x, pairs[i].0, pairs[i].1) in r
  {
    if |pairs| == 0 then []
    else
      var here := seq(|cols|, j requires 0 <= j < |cols| => Passage(false, cols[j], pairs[0].0, pairs[0].1));
      assert forall j | 0 <= j < |cols| :: here[j] == Passage(false, cols[j], pairs[0].0, pairs[0].1);
      assert forall i | 0 < i < |pairs| :: pairs[i] == pairs[1..][i - 1];
      here + ColumnPassages(pairs[1..], cols)
  }

  /** `after` is `before` with Floor knocked through `cells[k]` for each passage `k`,
      and nothing else changed. */
  ghost predicate Knocked(before: Grid, after: Grid, ps: seq<Passage>, cells: seq<Position>) {
    after.Shape() == before.Shape() && |cells| == |ps| &&
    (forall k | 0 <= k < |ps| :: before.Contains(cells[k]) && Opens(ps[k], cells[k])) &&
    forall q | before.Contains(q) :: after.At(q) == if q in cells then Floor else before.At(q)
  }

  /** The passage loops: for each passage in turn, `rng.integers(lo + 1, hi)` picks the
      cell, which becomes Floor. A passage with nothing strictly between its ends raises
      ValueError, and a cell off the grid raises IndexError. */
  function Knock(g: Grid, ps: seq<Passage>, rng: Rng): (r: Result<(Grid, seq<Position>, Rng)>)
    ensures r.Success? ==> Knocked(g, r.value.0, ps, r.value.1)
    ensures r.Success? ==> forall k | 0 <= k < |ps| :: ps[k].lo + 1 < ps[k].hi
    ensures (forall k | 0 <= k < |ps| ::
      (ps[k].lo + 1 < ps[k].hi && forall v | ps[k].lo < v < ps[k].hi :: g.Contains(Cell(ps[k], v)))) ==> r.Success?
    ensures r.Failure? ==> r.error == ValueError || r.error == IndexError
    decreases |ps|
  {
    if |ps| == 0 then Success((g, [], rng))
    else
      var p := ps[0];
      var (v, rng1) :- Integers(rng, p.lo + 1, p.hi);
      var q := Cell(p, v);
      var g1 :- Set(g, q, Floor);
      var (g2, rest, rng2) :- Knock(g1, ps[1..], rng1);
      KnockedStep(g, g1, g2, ps, q, rest);
      Success((g2, [q] + rest, rng2))
  }

  lemma KnockedStep(g: Grid, g1: Grid, g2: Grid, ps: seq<Passage>, q: Position, rest: seq<Position>)
    requires |ps| > 0 && g.Contains(q) && Opens(ps[0], q)
    requires g1.Shape() == g.Shape() && g1.At(q) == Floor
    requires forall t | g.Contains(t) && t != q :: g1.At(t) == g.At(t)
    requires Knocked(g1, g2, ps[1..], rest)
    ensures Knocked(g, g2, ps, [q] + rest)
  {
    var cells := [q] + rest;
    forall k | 0 <= k < |ps| ensures g.Contains(cells[k]) && Opens(ps[k], cells[k]) {
      if k > 0 {
        assert cells[k] == rest[k - 1] && ps[k] == ps[1..][k - 1];
      }
    }
  }

  // ---------------------------------------------------------------------------------
  // The room layout
  // ---------------------------------------------------------------------------------

  /** `draw_room_grid(grid, y_splits, x_splits, Wall)`: the walls of the rooms whose
      corners lie on the given rows and columns. The model takes it as given. */
  type RoomGridFn = (Grid, seq<int>, seq<int>) -> Grid

  /** The shared start of `reset_rooms` and `reset_memory_rooms`: the split rows from
      the layout's height, checked for distinctness, then the split columns, checked
      likewise, both raising ValueError; the room walls; then the passages. Returns the
      grid, the opened cells and the generator. */
  function RoomLayout(h: nat, w: nat, layout: (int, int), roomGrid: RoomGridFn, rng: Rng)
    : (r: Result<(Grid, seq<Position>, Rng)>)
    ensures var ys := Splits(h - 1, layout.0 + 1);
      ys.Failure? || !Distinct(ys.value) ==> r == Failure(ValueError)
    ensures var ys, xs := Splits(h - 1, layout.0 + 1), Splits(w - 1, layout.1 + 1);
      ys.Success? && Distinct(ys.value) && (xs.Failure? || !Distinct(xs.value)) ==> r == Failure(ValueError)
    ensures r.Success? ==>
      var ys, xs := Splits(h - 1, layout.0 + 1).value, Splits(w - 1, layout.1 + 1).value;
      Distinct(ys) && Distinct(xs) &&
      Knocked(roomGrid(NewGrid(h, w), ys, xs), r.value.0, RoomPassages(ys, xs), r.value.1)
  {
    var ys :- Splits(h - 1, layout.0 + 1);
    if !Distinct(ys) then Failure(ValueError)
    else
      var xs :- Splits(w - 1, layout.1 + 1);
      if !Distinct(xs) then Failure(ValueError)
      else Knock(roomGrid(NewGrid(h, w), ys, xs), RoomPassages(ys, xs), rng)
  }

  /** The Floor cells of a grid in row-major order. */
  function Floors(g: Grid): (r: seq<Position>)
    ensures forall p :: p in r <==> g.Contains(p) && g.At(p) == Floor
    ensures Distinct(r)
  {
    Vacant(g, {})
  }

  // ---------------------------------------------------------------------------------
  // reset_rooms
  // ---------------------------------------------------------------------------------

  /** `reset_rooms`: the room layout, then two distinct Floor cells, the first for the
      agent and the second for the exit, then the agent's orientation. Fewer than two
      Floor cells raise ValueError. */
  function ResetRooms(h: nat, w: nat, layout: (int, int), roomGrid: RoomGridFn, rng: Rng): (r: Result<(State, Rng)>)
    ensures RoomLayout(h, w, layout, roomGrid, rng).Failure? ==> r == Failure(RoomLayout(h, w, layout, roomGrid, rng).error)
    ensures RoomLayout(h, w, layout, roomGrid, rng).Success? ==>
      var g := RoomLayout(h, w, layout, roomGrid, rng).value.0;
      (r.Failure? <==> |Floors(g)| < 2) && (r.Failure? ==> r.error == ValueError)
    ensures r.Success? ==> var g := RoomLayout(h, w, layout, roomGrid, rng).value.0;
      RoomsPlacement(g, r.value.0)
  {
    var (g, _, rng1) :- RoomLayout(h, w, layout, roomGrid, rng);
    var floors := Floors(g);
    var (ps, rng2) :- Sample(rng1, floors, 2);
    var (o, rng3) := Choice(rng2, Orientations).value;
    var s := State(Update(g, ps[1], Exit(ColorNone)), Agent(ps[0], o, NoneGridObject));
    RoomsPlacementHolds(g, s, floors, ps);
    Success((s, rng3))
  }

  /** `after` is the room layout `before` with an exit on one Floor cell and the agent,
      holding nothing, on another. */
  ghost predicate RoomsPlacement(before: Grid, s: State) {
    s.grid.Shape() == before.Shape() && s.agent.obj == NoneGridObject &&
    before.Contains(s.agent.position) && s.grid.At(s.agent.position) == Floor &&
    exists e | before.Contains(e) && e != s.agent.position ::
      before.At(e) == Floor && s.grid.At(e) == Exit(ColorNone) &&
      forall q | before.Contains(q) && q != e :: s.grid.At(q) == before.At(q)
  }

  lemma RoomsPlacementHolds(g: Grid, s: State, floors: seq<Position>, ps: seq<Position>)
    requires floors == Floors(g)
    requires |ps| == 2 && multiset(ps) <= multiset(floors)
    requires g.Contains(ps[1]) && s.grid == Update(g, ps[1], Exit(ColorNone))
    requires s.agent.position == ps[0] && s.agent.obj == NoneGridObject
    ensures RoomsPlacement(g, s)
  {
    SubMultisetDistinct(ps, floors);
    assert ps[0] in multiset(ps) && ps[1] in multiset(ps);
    assert ps[0] in floors && ps[1] in floors;
    assert g.At(ps[1]) == Floor;
  }

  /** A sub-multiset of a sequence without duplicates has none either. */
  lemma SubMultisetDistinct<T>(xs: seq<T>, ys: seq<T>)
    requires Distinct(ys) && multiset(xs) <= multiset(ys)
    ensures Distinct(xs)
  {
    forall i, j | 0 <= i < j < |xs| ensures xs[i] != xs[j] {
      if xs[i] == xs[j] {
        assert multiset(xs)[xs[i]] >= 2 by {
          var x := xs[i];
          var a := xs[..j];
          assert xs == a + xs[j..];
          assert x in a;
          assert x in xs[j..];
        }
        DistinctMultiplicity(ys, xs[i]);
        assert false;
      }
    }
  }

  lemma {:induction false} DistinctMultiplicity<T>(ys: seq<T>, x: T)
    requires Distinct(ys)
    ensures multiset(ys)[x] <= 1
  {
    if |ys| > 0 {
      assert ys == [ys[0]] + ys[1..];
      assert Distinct(ys[1..]);
      DistinctMultiplicity(ys[1..], x);
      assert ys[0] !in ys[1..];
    }
  }

  // ---------------------------------------------------------------------------------
  // reset_memory_rooms
  // ---------------------------------------------------------------------------------

  /** The `reset_memory_rooms` placement over the room layout `before`: the agent, holding
      nothing, on the first of the drawn Floor cells `ps`; a beacon in the first colour of
      `cs` on each of the next `nb`; an exit in each colour of `cs`, in order, on the
      rest; every other cell as the layout left it. */
  ghost predicate MemoryRoomsPlacement(before: Grid, s: State, ps: seq<Position>, cs: seq<Color>, nb: int, colors: set<Color>) {
    nb >= 0 && |cs| >= 1 && |ps| == 1 + nb + |cs| && Distinct(ps) && Distinct(cs) &&
    (forall c | c in cs :: c in colors) &&
    (forall k | 0 <= k < |ps| :: before.Contains(ps[k]) && before.At(ps[k]) == Floor) &&
    s.grid.Shape() == before.Shape() && s.agent.position == ps[0] && s.agent.obj == NoneGridObject &&
    s.grid.At(ps[0]) == Floor &&
    (forall k | 1 <= k <= nb :: s.grid.At(ps[k]) == Beacon(cs[0])) &&
    (forall k | 0 <= k < |cs| :: s.grid.At(ps[1 + nb + k]) == Exit(cs[k])) &&
    (forall q | before.Contains(q) && q !in ps :: s.grid.At(q) == before.At(q))
  }

  /** `reset_memory_rooms`: the colours must leave out NONE and number at least two, and
      there must be at least one beacon and two exits, each check raising ValueError;
      then the room layout; then `1 + nb + ne` distinct Floor cells, the orientation, and
      `ne` distinct colours, the first being the good one. Too few Floor cells or too few
      colours raise ValueError. */
  function ResetMemoryRooms(h: nat, w: nat, layout: (int, int), colors: set<Color>, nb: int, ne: int,
                            roomGrid: RoomGridFn, rng: Rng): (r: Result<(State, Rng)>)
    ensures ColorNone in colors || |colors| < 2 || nb < 1 || ne < 2 ==> r == Failure(ValueError)
    ensures !(ColorNone in colors || |colors| < 2 || nb < 1 || ne < 2) ==>
      var l := RoomLayout(h, w, layout, roomGrid, rng);
      (l.Failure? ==> r == Failure(l.error)) &&
      (l.Success? ==> (r.Failure? <==> |Floors(l.value.0)| < 1 + nb + ne || ne > |colors|)) &&
      (l.Success? && r.Failure? ==> r.error == ValueError)
    ensures r.Success? ==> exists ps, cs ::
      (|cs| == ne && MemoryRoomsPlacement(RoomLayout(h, w, layout, roomGrid, rng).value.0, r.value.0, ps, cs, nb, colors))
  {
    if ColorNone in colors then Failure(ValueError)
    else if |colors| < 2 then Failure(ValueError)
    else if nb < 1 then Failure(ValueError)
    else if ne < 2 then Failure(ValueError)
    else
      var (g, _, rng1) :- RoomLayout(h, w, layout, roomGrid, rng);
      var floors := Floors(g);
      var (ps, rng2) :- Sample(rng1, floors, 1 + nb + ne);
      var (o, rng3) := Choice(rng2, Orientations).value;
      var (cs, rng4) :- Sample(rng3, ColorList(colors), ne);
      DrawnFacts(g, floors, ps, cs, colors);
      var s := MemoryRoomsState(g, ps, cs, nb, o, colors);
      Success((s, rng4))
  }

  /** The state `reset_memory_rooms` builds from its draws. */
  function MemoryRoomsState(g: Grid, ps: seq<Position>, cs: seq<Color>, nb: int,
                            o: Orientation, colors: set<Color>): (s: State)
    requires nb >= 1 && |cs| >= 1 && |ps| == 1 + nb + |cs| && Distinct(ps) && Distinct(cs)
    requires forall c | c in cs :: c in colors
    requires forall k | 0 <= k < |ps| :: g.Contains(ps[k]) && g.At(ps[k]) == Floor
    ensures MemoryRoomsPlacement(g, s, ps, cs, nb, colors)
  {
    var g1 := PlaceBeacons(g, ps, nb, cs[0]);
    SliceDistinct(ps, 1 + nb);
    var g2 := PlaceExits(g1, ps[1 + nb..], cs);
    var s := State(g2, Agent(ps[0], o, NoneGridObject));
    MemoryRoomsCells(g, g1, s, ps, cs, nb, colors);
    s
  }

  /** What drawing without replacement from the Floor cells and the colour list gives. */
  lemma DrawnFacts(g: Grid, floors: seq<Position>, ps: seq<Position>, cs: seq<Color>, colors: set<Color>)
    requires floors == Floors(g) && multiset(ps) <= multiset(floors)
    requires multiset(cs) <= multiset(ColorList(colors))
    ensures Distinct(ps) && Distinct(cs) && forall c | c in cs :: c in colors
    ensures forall k | 0 <= k < |ps| :: g.Contains(ps[k]) && g.At(ps[k]) == Floor
  {
    SubMultisetDistinct(ps, floors);
    SubMultisetDistinct(cs, ColorList(colors));
    SubMultisetMembers(ps, floors);
    SubMultisetMembers(cs, ColorList(colors));
    FloorCells(g, floors, ps);
  }

  lemma FloorCells(g: Grid, floors: seq<Position>, ps: seq<Position>)
    requires floors == Floors(g) && forall p | p in ps :: p in floors
    ensures forall k | 0 <= k < |ps| :: g.Contains(ps[k]) && g.At(ps[k]) == Floor
  {
    forall k | 0 <= k < |ps| ensures g.Contains(ps[k]) && g.At(ps[k]) == Floor {
      assert ps[k] in ps;
    }
  }

  lemma SliceDistinct<T>(xs: seq<T>, i: nat)
    requires Distinct(xs) && i <= |xs|
    ensures Distinct(xs[i..])
  {
    forall a, b | 0 <= a < b < |xs| - i ensures xs[i..][a] != xs[i..][b] {
      assert xs[i..][a] == xs[i + a] && xs[i..][b] == xs[i + b];
    }
  }

  /** Beacon(c) on cells 1 to `nb` of `ps`. */
  function PlaceBeacons(g: Grid, ps: seq<Position>, nb: int, c: Color): (r: Grid)
    requires 0 <= nb < |ps| && forall k | 0 <= k < |ps| :: g.Contains(ps[k])
    ensures r.Shape() == g.Shape()
    ensures forall p | p in ps[1..1 + nb] && r.Contains(p) :: r.At(p) == Beacon(c)
    ensures forall q | g.Contains(q) && q !in ps[1..1 + nb] :: r.At(q) == g.At(q)
  {
    var beacons := ps[1..1 + nb];
    assert forall p | p in beacons :: g.Contains(p);
    DrawAll(g, beacons, Beacon(c)).value
  }

  /** Exit(cs[k]) on cell `qs[k]` for each k, as `zip` pairs them. */
  function PlaceExits(g: Grid, qs: seq<Position>, cs: seq<Color>): (r: Grid)
    requires |qs| == |cs| && Distinct(qs) && forall k | 0 <= k < |qs| :: g.Contains(qs[k])
    ensures r.Shape() == g.Shape()
    ensures forall k | 0 <= k < |qs| :: r.Contains(qs[k]) && r.At(qs[k]) == Exit(cs[k])
    ensures forall q | g.Contains(q) && q !in qs :: r.At(q) == g.At(q)
    decreases |qs|
  {
    if |qs| == 0 then g
    else
      assert forall k | 0 < k < |qs| :: qs[k] == qs[1..][k - 1] && cs[k] == cs[1..][k - 1];
      var r := PlaceExits(Update(g, qs[0], Exit(cs[0])), qs[1..], cs[1..]);
      assert qs[0] !in qs[1..];
      r
  }

  lemma MemoryRoomsCells(g: Grid, g1: Grid, s: State, ps: seq<Position>, cs: seq<Color>, nb: int, colors: set<Color>)
    requires nb >= 1 && |cs| >= 1 && |ps| == 1 + nb + |cs| && Distinct(ps) && Distinct(cs)
    requires forall c | c in cs :: c in colors
    requires forall k | 0 <= k < |ps| :: g.Contains(ps[k]) && g.At(ps[k]) == Floor
    requires g1.Shape() == g.Shape()
    requires forall p | p in ps[1..1 + nb] && g1.Contains(p) :: g1.At(p) == Beacon(cs[0])
    requires forall q | g.Contains(q) && q !in ps[1..1 + nb] :: g1.At(q) == g.At(q)
    requires s.grid.Shape() == g1.Shape()
    requires forall k | 0 <= k < |cs| && s.grid.Contains(ps[1 + nb..][k]) :: s.grid.At(ps[1 + nb..][k]) == Exit(cs[k])
    requires forall q | g1.Contains(q) && q !in ps[1 + nb..] :: s.grid.At(q) == g1.At(q)
    requires s.agent.position == ps[0] && s.agent.obj == NoneGridObject
    ensures MemoryRoomsPlacement(g, s, ps, cs, nb, colors)
  {
    forall k | 1 <= k <= nb ensures s.grid.At(ps[k]) == Beacon(cs[0]) {
      assert ps[k] == ps[1..1 + nb][k - 1];
      assert ps[k] !in ps[1 + nb..];
    }
    forall k | 0 <= k < |cs| ensures s.grid.At(ps[1 + nb + k]) == Exit(cs[k]) {
      assert ps[1 + nb + k] == ps[1 + nb..][k];
    }
    assert ps[0] !in ps[1..1 + nb] && ps[0] !in ps[1 + nb..];
    forall q | g.Contains(q) && q !in ps ensures s.grid.At(q) == g.At(q) {
      assert q !in ps[1..1 + nb] && q !in ps[1 + nb..];
    }
  }

  /** The elements of a sub-multiset are elements of the whole. */
  lemma SubMultisetMembers<T>(xs: seq<T>, ys: seq<T>)
    requires multiset(xs) <= multiset(ys)
    ensures forall x | x in xs :: x in ys
  {
    forall x | x in xs ensures x in ys {
      assert x in multiset(xs);
    }
  }
}

=== FILE: resets.dfy ===
/** Reset functions: each builds an initial state, drawing its random choices from the
    generator it is given and handing back what is left of it. A failed parameter check
    raises ValueError. */
module Resets {
  import opened Wrappers
  import opened Geometry
  import opened GridObjects
  import opened Grids
  import opened Agents
  import opened Rng
  import opened Seqs
  import opened Design

  /** `list(Orientation)`: the orientations in declaration order. */
  const Orientations: seq<Orientation> := [N, S, E, W]

  /** Whether `p` lies strictly inside an `h` x `w` grid. */
  predicate Interior(h: int, w: int, p: Position) {
    1 <= p.y <= h - 2 && 1 <= p.x <= w - 2
  }

  /** The Floor cells outside `taken`, in row-major order: where the resets place what
      they sample. */
  function Vacant(g: Grid, taken: set<Position>): (r: seq<Position>)
    ensures forall p :: p in r <==> g.Contains(p) && g.At(p) == Floor && p !in taken
    ensures Distinct(r)
  {
    var ps := GridPositions(g);
    RowMajorDistinct(ps);
    FilterDistinct(ps, p => g.Contains(p) && g.At(p) == Floor && p !in taken);
    Filter(ps, p => g.Contains(p) && g.At(p) == Floor && p !in taken)
  }

  /** The cells holding `o`. */
  function CellsHolding(g: Grid, o: GridObject): (r: set<Position>)
    ensures forall p :: p in r <==> g.Contains(p) && g.At(p) == o
  {
    set p | p in GridPositions(g) && g.Contains(p) && g.At(p) == o
  }

  /** A Floor grid with walls around its edge. */
  function WalledGrid(h: nat, w: nat): (g: Grid)
    ensures g.Shape() == Shape(h, w)
    ensures forall p | g.Contains(p) :: g.At(p) == if Interior(h, w, p) then Floor else Wall
  {
    DrawWallBoundary(NewGrid(h, w))
  }

  // ---------------------------------------------------------------------------------
  // reset_empty
  // ---------------------------------------------------------------------------------

  /** Where `reset_empty` puts the exit: a random interior cell, row first, or the
      bottom-right interior corner without drawing. */
  function ExitPosition(h: int, w: int, randomExit: bool, rng: Rng): (r: (Position, Rng))
    requires h >= 4 && w >= 4
    ensures Interior(h, w, r.0)
    ensures !randomExit ==> r == (Position(h - 2, w - 2), rng)
  {
    if randomExit then
      var (y, rng1) := IntegersInclusive(rng, 1, h - 2).value;
      var (x, rng2) := IntegersInclusive(rng1, 1, w - 2).value;
      (Position(y, x), rng2)
    else (Position(h - 2, w - 2), rng)
  }

  /** The `reset_empty` layout with its exit at `exit`: walls around the edge, the exit
      inside, Floor everywhere else. */
  ghost predicate EmptyLayout(g: Grid, h: int, w: int, exit: Position) {
    g.Shape() == Shape(h, w) && Interior(h, w, exit) &&
    forall p | g.Contains(p) ::
      g.At(p) == if !Interior(h, w, p) then Wall else if p == exit then Exit(ColorNone) else Floor
  }

  /** The `reset_empty` grid with its exit at `exit`. */
  function EmptyGrid(h: nat, w: nat, exit: Position): (g: Grid)
    requires Interior(h, w, exit)
    ensures EmptyLayout(g, h, w, exit)
  {
    var walled := WalledGrid(h, w);
    var g := Update(walled, exit, Exit(ColorNone));
    forall p | g.Contains(p)
      ensures g.At(p) == if !Interior(h, w, p) then Wall else if p == exit then Exit(ColorNone) else Floor
    {
      if p != exit {
        assert walled.Contains(p);
      }
    }
    g
  }

  /** The empty layout holds only walls, Floor and its exit. */
  lemma EmptyLacks(g: Grid, h: int, w: int, exit: Position, o: GridObject)
    requires EmptyLayout(g, h, w, exit) && o != Wall && o != Floor && o != Exit(ColorNone)
    ensures forall p | g.Contains(p) :: g.At(p) != o
  {
  }

  /** `reset_empty`: walls around the edge and an exit inside. The agent holds nothing
      and stands at (1, 1) facing E, or on a random Floor cell facing a random way. */
  function ResetEmpty(h: int, w: int, randomAgent: bool, randomExit: bool, rng: Rng): (r: Result<(State, Rng)>)
    ensures r.Failure? <==> h < 4 || w < 4
    ensures r.Failure? ==> r.error == ValueError
    ensures r.Success? ==> EmptyLayout(r.value.0.grid, h, w, ExitPosition(h, w, randomExit, rng).0)
    ensures r.Success? ==> r.value.0.agent.obj == NoneGridObject
    ensures r.Success? && !randomAgent ==> r.value.0.agent == Agent(Position(1, 1), E, NoneGridObject)
    ensures r.Success? && randomAgent ==> (r.value.0.grid.Contains(r.value.0.agent.position)
      && r.value.0.grid.At(r.value.0.agent.position) == Floor)
    ensures r.Success? && !randomAgent && !randomExit ==> r.value.1 == rng
  {
    if h < 4 || w < 4 then Failure(ValueError)
    else
      var (exit, rng1) := ExitPosition(h, w, randomExit, rng);
      var g := EmptyGrid(h, w, exit);
      if randomAgent then
        EmptySpare(g, h, w, exit);
        var (agent, rng2) := RandomAgent(g, rng1);
        Success((State(g, agent), rng2))
      else Success((State(g, Agent(Position(1, 1), E, NoneGridObject)), rng1))
  }

  /** The empty layout always leaves a Floor cell: (1, 1), or (1, 2) when the exit takes
      (1, 1). */
  lemma EmptySpare(g: Grid, h: int, w: int, exit: Position)
    requires h >= 4 && w >= 4 && EmptyLayout(g, h, w, exit)
    ensures exists p :: g.Contains(p) && g.At(p) == Floor
  {
    var spare := if exit == Position(1, 1) then Position(1, 2) else Position(1, 1);
    assert g.Contains(spare) && g.At(spare) == Floor;
  }

  /** An agent holding nothing on a random Floor cell, facing a random way. */
  function RandomAgent(g: Grid, rng: Rng): (r: (Agent, Rng))
    requires exists p :: g.Contains(p) && g.At(p) == Floor
    ensures g.Contains(r.0.position) && g.At(r.0.position) == Floor
    ensures r.0.obj == NoneGridObject
  {
    var floors := Vacant(g, {});
    var spare :| g.Contains(spare) && g.At(spare) == Floor;
    assert spare in floors;
    var (p, rng1) := Choice(rng, floors).value;
    var (o, rng2) := Choice(rng1, Orientations).value;
    (Agent(p, o, NoneGridObject), rng2)
  }

  /** Without randomness, `reset_empty` draws nothing and its state is fully determined:
      the exit in the bottom-right interior corner and the agent in the top-left one. */
  lemma ResetEmptyFixed(h: int, w: int, rng: Rng)
    requires h >= 4 && w >= 4
    ensures var r := ResetEmpty(h, w, false, false, rng);
      r.Success? && r.value.1 == rng &&
      r.value.0.agent == Agent(Position(1, 1), E, NoneGridObject) &&
      r.value.0.grid.At(Position(h - 2, w - 2)) == Exit(ColorNone) &&
      r.value.0.grid.At(Position(1, 1)) == Floor &&
      forall p | r.value.0.grid.Contains(p) && !Interior(h, w, p) :: r.value.0.grid.At(p) == Wall
  {
    var g := ResetEmpty(h, w, false, false, rng).value.0.grid;
    assert EmptyLayout(g, h, w, Position(h - 2, w - 2));
    assert g.Contains(Position(1, 1)) && g.Contains(Position(h - 2, w - 2));
  }

  // ---------------------------------------------------------------------------------
  // reset_dynamic_obstacles
  // ---------------------------------------------------------------------------------

  /** `after` is `before` with `o` written over `n` distinct Floor cells other than
      `taken`, and nothing else changed. */
  ghost predicate PlacedOnFloor(before: Grid, after: Grid, o: GridObject, n: int, taken: Position) {
    after.Shape() == before.Shape() &&
    |CellsHolding(after, o)| == n &&
    forall p | after.Contains(p) ::
      if after.At(p) == o then before.At(p) == Floor && p != taken
      else after.At(p) == before.At(p)
  }

  /** `o` written over the chosen cells, drawn without replacement from the Floor cells
      other than `taken`. */
  function PlaceOnVacant(g: Grid, taken: Position, o: GridObject, vacant: seq<Position>, chosen: seq<Position>)
    : (r: Grid)
    requires vacant == Vacant(g, {taken})
    requires Distinct(chosen) && forall p | p in chosen :: p in vacant
    requires forall p | g.Contains(p) :: g.At(p) != o
    ensures PlacedOnFloor(g, r, o, |chosen|, taken)
  {
    PlacedCount(g, chosen, o);
    DrawAll(g, chosen, o).value
  }

  /** Writing `o` over distinct cells of a grid holding no `o` leaves exactly that many
      cells holding it. */
  lemma PlacedCount(g: Grid, ps: seq<Position>, o: GridObject)
    requires Distinct(ps) && forall p | p in ps :: g.Contains(p)
    requires forall p | g.Contains(p) :: g.At(p) != o
    ensures DrawAll(g, ps, o).Success? && |CellsHolding(DrawAll(g, ps, o).value, o)| == |ps|
  {
    var r := DrawAll(g, ps, o).value;
    assert CellsHolding(r, o) == set p | p in ps;
    DistinctCardinality(ps);
  }

  // ---------------------------------------------------------------------------------
  // reset_dynamic_obstacles
  // ---------------------------------------------------------------------------------

  /** `reset_dynamic_obstacles`: the empty layout with its exit in the corner, and `n`
      moving obstacles on distinct Floor cells other than the agent's. Asking for a
      negative number, or more than there are such cells, raises ValueError. */
  function ResetDynamicObstacles(h: int, w: int, n: int, randomAgentPos: bool, rng: Rng): (r: Result<(State, Rng)>)
    ensures h < 4 || w < 4 ==> r == Failure(ValueError)
    ensures h >= 4 && w >= 4 ==> (var e := ResetEmpty(h, w, randomAgentPos, false, rng).value.0;
      (r.Failure? <==> n < 0 || n > |Vacant(e.grid, {e.agent.position})|) && (r.Failure? ==> r.error == ValueError))
    ensures r.Success? ==> (var e := ResetEmpty(h, w, randomAgentPos, false, rng).value.0;
      r.value.0.agent == e.agent && PlacedOnFloor(e.grid, r.value.0.grid, MovingObstacle, n, e.agent.position))
  {
    var (e, rng1) :- ResetEmpty(h, w, randomAgentPos, false, rng);
    EmptyLacks(e.grid, h, w, Position(h - 2, w - 2), MovingObstacle);
    var vacant := Vacant(e.grid, {e.agent.position});
    var (chosen, rng2) :- Sample(rng1, vacant, n);
    SampleDistinct(rng1, vacant, n);
    var g := PlaceOnVacant(e.grid, e.agent.position, MovingObstacle, vacant, chosen);
    Success((State(g, e.agent), rng2))
  }

  // ---------------------------------------------------------------------------------
  // reset_keydoor
  // ---------------------------------------------------------------------------------

  /** The bounds of `range(lo, hi)` for a non-empty range. */
  lemma RangeBounds(lo: int, hi: int)
    requires lo < hi
    ensures |Range(lo, hi)| > 0 && SeqMin(Range(lo, hi)) == lo && SeqMax(Range(lo, hi)) == hi - 1
  {
    assert lo in Range(lo, hi) && hi - 1 in Range(lo, hi);
  }

  /** The `reset_keydoor` layout with its wall in column `xWall`: the empty layout's
      walls and exit, a wall column from row 1 to row `h - 2` holding one locked yellow
      door, and one yellow key and the agent strictly left of the column; every other
      interior cell off the column is Floor. */
  ghost predicate KeydoorLayout(s: State, h: int, w: int, xWall: int) {
    var g := s.grid;
    g.Shape() == Shape(h, w) && h >= 4 && 2 <= xWall <= w - 3 &&
    (forall p | g.Contains(p) && !Interior(h, w, p) :: g.At(p) == Wall) &&
    g.At(Position(h - 2, w - 2)) == Exit(ColorNone) &&
    (exists y | 1 <= y <= h - 2 :: CellsHolding(g, Door(Locked, Yellow)) == {Position(y, xWall)}) &&
    (forall y | 1 <= y <= h - 2 :: g.At(Position(y, xWall)) in {Wall, Door(Locked, Yellow)}) &&
    (exists k | Interior(h, w, k) && k.x < xWall ::
      CellsHolding(g, Key(Yellow)) == {k} &&
      forall p | Interior(h, w, p) && p.x != xWall && p != k && p != Position(h - 2, w - 2) ::
        g.At(p) == Floor) &&
    Interior(h, w, s.agent.position) && s.agent.position.x < xWall && s.agent.obj == NoneGridObject
  }

  /** `reset_keydoor`: a shape larger than (3, 5) gives the empty layout split by a wall
      column in a random column from 2 to `w - 3`; one random cell of it becomes a locked
      yellow door, and the yellow key and the agent (facing a random way) go to random
      cells left of it. The empty layout needs a height of 4, so a height of 3 raises
      ValueError too. */
  function ResetKeydoor(h: int, w: int, rng: Rng): (r: Result<(State, Rng)>)
    ensures r.Failure? <==> h < 4 || w < 5
    ensures r.Failure? ==> r.error == ValueError
    ensures r.Success? ==> KeydoorLayout(r.value.0, h, w, IntegersInclusive(rng, 2, w - 3).value.0)
  {
    if !(h >= 3 && w >= 5 && (h, w) != (3, 5)) then Failure(ValueError)
    else
      var (e, _) :- ResetEmpty(h, w, false, false, rng);
      var (xWall, rng1) := IntegersInclusive(rng, 2, w - 3).value;
      var (g1, line) := WallColumn(e.grid, h, w, xWall);
      var (door, rng2) := Choice(rng1, line).value;
      var g2 := Update(g1, door, Door(Locked, Yellow));
      var (yKey, rng3) := IntegersInclusive(rng2, 1, h - 2).value;
      var (xKey, rng4) := IntegersInclusive(rng3, 1, xWall - 1).value;
      var g3 := Update(g2, Position(yKey, xKey), Key(Yellow));
      var (yAgent, rng5) := IntegersInclusive(rng4, 1, h - 2).value;
      var (xAgent, rng6) := IntegersInclusive(rng5, 1, xWall - 1).value;
      var (o, rng7) := Choice(rng6, Orientations).value;
      var s := State(g3, Agent(Position(yAgent, xAgent), o, NoneGridObject));
      KeydoorWitness(e.grid, g1, g2, g3, h, w, xWall, door, Position(yKey, xKey));
      KeydoorLayoutHolds(s, h, w, xWall, door, Position(yKey, xKey));
      Success((s, rng7))
  }

  /** The wall column of `reset_keydoor` drawn over the empty layout, and its cells. */
  function WallColumn(e: Grid, h: int, w: int, xWall: int): (r: (Grid, seq<Position>))
    requires EmptyLayout(e, h, w, Position(h - 2, w - 2)) && 2 <= xWall <= w - 3
    ensures r.0.Shape() == e.Shape()
    ensures forall p | e.Contains(p) :: r.0.At(p) == if p.x == xWall && 1 <= p.y <= h - 2 then Wall else e.At(p)
    ensures forall p :: p in r.1 <==> p.x == xWall && 1 <= p.y <= h - 2
    ensures |r.1| > 0
  {
    RangeBounds(1, h - 1);
    var r := DrawLineVertical(e, Range(1, h - 1), xWall, Wall).value;
    assert Position(1, xWall) in r.1;
    r
  }

  /** The layout facts of a `reset_keydoor` state, given its door and key. */
  lemma KeydoorLayoutHolds(s: State, h: int, w: int, xWall: int, door: Position, key: Position)
    requires s.grid.Shape() == Shape(h, w) && h >= 4 && 2 <= xWall <= w - 3
    requires forall p | s.grid.Contains(p) && !Interior(h, w, p) :: s.grid.At(p) == Wall
    requires s.grid.At(Position(h - 2, w - 2)) == Exit(ColorNone)
    requires door.x == xWall && 1 <= door.y <= h - 2 && CellsHolding(s.grid, Door(Locked, Yellow)) == {door}
    requires forall y | 1 <= y <= h - 2 :: s.grid.At(Position(y, xWall)) in {Wall, Door(Locked, Yellow)}
    requires Interior(h, w, key) && key.x < xWall && CellsHolding(s.grid, Key(Yellow)) == {key}
    requires forall p | Interior(h, w, p) && p.x != xWall && p != key && p != Position(h - 2, w - 2) ::
      s.grid.At(p) == Floor
    requires Interior(h, w, s.agent.position) && s.agent.position.x < xWall && s.agent.obj == NoneGridObject
    ensures KeydoorLayout(s, h, w, xWall)
  {
    assert CellsHolding(s.grid, Door(Locked, Yellow)) == {Position(door.y, xWall)};
  }

  /** The grids `reset_keydoor` passes through, cell by cell. */
  lemma KeydoorWitness(e: Grid, g1: Grid, g2: Grid, g3: Grid, h: int, w: int, xWall: int, door: Position, key: Position)
    requires EmptyLayout(e, h, w, Position(h - 2, w - 2)) && 2 <= xWall <= w - 3
    requires g1.Shape() == e.Shape()
    requires forall p | e.Contains(p) :: g1.At(p) == if p.x == xWall && 1 <= p.y <= h - 2 then Wall else e.At(p)
    requires door.x == xWall && 1 <= door.y <= h - 2
    requires g2 == Update(g1, door, Door(Locked, Yellow))
    requires Interior(h, w, key) && key.x < xWall && g3 == Update(g2, key, Key(Yellow))
    ensures g3.Shape() == Shape(h, w)
    ensures forall p | g3.Contains(p) && !Interior(h, w, p) :: g3.At(p) == Wall
    ensures g3.At(Position(h - 2, w - 2)) == Exit(ColorNone)
    ensures CellsHolding(g3, Door(Locked, Yellow)) == {door}
    ensures forall y | 1 <= y <= h - 2 :: g3.At(Position(y, xWall)) in {Wall, Door(Locked, Yellow)}
    ensures CellsHolding(g3, Key(Yellow)) == {key}
    ensures forall p | Interior(h, w, p) && p.x != xWall && p != key && p != Position(h - 2, w - 2) ::
      g3.At(p) == Floor
  {
    assert g3.Contains(door) && g3.Contains(key);
  }

  // ---------------------------------------------------------------------------------
  // reset_teleport
  // ---------------------------------------------------------------------------------

  /** `reset_teleport`: the empty layout with its exit in the corner, two red telepods on
      distinct random Floor cells other than (1, 1), and the agent at (1, 1) facing E or S.
      The orientation is drawn twice, before and after the telepods, and the second
      draw is kept. */
  function ResetTeleport(h: int, w: int, rng: Rng): (r: Result<(State, Rng)>)
    ensures r.Failure? <==> h < 4 || w < 4
    ensures r.Failure? ==> r.error == ValueError
    ensures r.Success? ==> (var e := ResetEmpty(h, w, false, false, rng).value.0;
      r.value.0.agent.position == Position(1, 1) && r.value.0.agent.orientation in [E, S] &&
      r.value.0.agent.obj == NoneGridObject &&
      PlacedOnFloor(e.grid, r.value.0.grid, Telepod(Red), 2, Position(1, 1)))
  {
    var (e, _) :- ResetEmpty(h, w, false, false, rng);
    var (_, rng1) := Choice(rng, [E, S]).value;
    var (g, rng2) := Telepods(e.grid, h, w, rng1);
    var (o, rng3) := Choice(rng2, [E, S]).value;
    Success((State(g, Agent(Position(1, 1), o, NoneGridObject)), rng3))
  }

  /** Two red telepods on distinct random Floor cells of the empty layout other than
      (1, 1). */
  function Telepods(g: Grid, h: int, w: int, rng: Rng): (r: (Grid, Rng))
    requires h >= 4 && w >= 4 && EmptyLayout(g, h, w, Position(h - 2, w - 2))
    ensures PlacedOnFloor(g, r.0, Telepod(Red), 2, Position(1, 1))
  {
    EmptyLacks(g, h, w, Position(h - 2, w - 2), Telepod(Red));
    var vacant := Vacant(g, {Position(1, 1)});
    TwoVacant(g, h, w);
    var (chosen, rng1) := Sample(rng, vacant, 2).value;
    SampleDistinct(rng, vacant, 2);
    (PlaceOnVacant(g, Position(1, 1), Telepod(Red), vacant, chosen), rng1)
  }

  /** The empty layout has Floor at (1, 2) and (2, 1), so at least two Floor cells other
      than (1, 1). */
  lemma TwoVacant(g: Grid, h: int, w: int)
    requires h >= 4 && w >= 4 && EmptyLayout(g, h, w, Position(h - 2, w - 2))
    ensures |Vacant(g, {Position(1, 1)})| >= 2
  {
    var vacant := Vacant(g, {Position(1, 1)});
    assert Position(1, 2) in vacant && Position(2, 1) in vacant;
  }

  // ---------------------------------------------------------------------------------
  // reset_memory
  // ---------------------------------------------------------------------------------

  /** Every colour, in colour-value order. */
  const AllColors: seq<Color> := [ColorNone, Red, Green, Blue, Yellow]

  lemma AllColorsComplete()
    ensures Distinct(AllColors) && forall c: Color :: c in AllColors
  {
    forall c: Color ensures c in AllColors {
      match c
      case ColorNone => assert AllColors[0] == c;
      case Red => assert AllColors[1] == c;
      case Green => assert AllColors[2] == c;
      case Blue => assert AllColors[3] == c;
      case Yellow => assert AllColors[4] == c;
    }
  }

  /** `list(colors)` of a set of colours, taken in colour-value order. */
  function ColorList(colors: set<Color>): (r: seq<Color>)
    ensures forall c :: c in r <==> c in colors
    ensures Distinct(r) && |r| == |colors|
  {
    var r := Filter(AllColors, c => c in colors);
    ColorListFacts(colors, r);
    r
  }

  lemma ColorListFacts(colors: set<Color>, r: seq<Color>)
    requires r == Filter(AllColors, c => c in colors)
    ensures forall c :: c in r <==> c in colors
    ensures Distinct(r) && |r| == |colors|
  {
    AllColorsComplete();
    FilterDistinct(AllColors, c => c in colors);
    ColorListMembers(colors, r);
    DistinctCardinality(r);
    SameElements(colors, r);
  }

  lemma ColorListMembers(colors: set<Color>, r: seq<Color>)
    requires r == Filter(AllColors, c => c in colors)
    requires forall c: Color :: c in AllColors
    ensures forall c :: c in r <==> c in colors
  {
  }

  lemma SameElements(colors: set<Color>, r: seq<Color>)
    requires forall c :: c in r <==> c in colors
    ensures (set c | c in r) == colors
  {
  }

  /** The Floor cells of the `reset_memory` layout: the top and bottom corridors and the
      middle column joining them. */
  predicate Corridor(h: int, w: int, p: Position) {
    ((p.y == 1 || p.y == h - 2) && 2 <= p.x <= w - 3) || (p.x == w / 2 && 2 <= p.y <= h - 3)
  }

  /** The walls and corridors of `reset_memory`, before the exits and beacons: a block of
      walls with Floor drawn along rows 1 and `h - 2` and down the middle column. */
  function MemoryCorridors(h: int, w: int): (g: Grid)
    requires h >= 5 && w >= 5
    ensures g.Shape() == Shape(h, w)
    ensures forall p | g.Contains(p) :: g.At(p) == if Corridor(h, w, p) then Floor else Wall
  {
    var g0 := WallBlock(h, w);
    var g1 := FloorRow(g0, 1, 2, w - 2);
    var g2 := FloorRow(g1, h - 2, 2, w - 2);
    var g3 := FloorColumn(g2, 2, h - 2, w / 2);
    CorridorCells(h, w, g0, g1, g2, g3);
    g3
  }

  /** The cells after the three Floor lines are drawn over the walls. */
  lemma CorridorCells(h: int, w: int, g0: Grid, g1: Grid, g2: Grid, g3: Grid)
    requires h >= 5 && w >= 5
    requires g0.Shape() == Shape(h, w) && forall p | g0.Contains(p) :: g0.At(p) == Wall
    requires g1.Shape() == g0.Shape()
    requires forall p | g0.Contains(p) :: g1.At(p) == if p.y == 1 && 2 <= p.x < w - 2 then Floor else g0.At(p)
    requires g2.Shape() == g1.Shape()
    requires forall p | g1.Contains(p) :: g2.At(p) == if p.y == h - 2 && 2 <= p.x < w - 2 then Floor else g1.At(p)
    requires g3.Shape() == g2.Shape()
    requires forall p | g2.Contains(p) :: g3.At(p) == if p.x == w / 2 && 2 <= p.y < h - 2 then Floor else g2.At(p)
    ensures forall p | g3.Contains(p) :: g3.At(p) == if Corridor(h, w, p) then Floor else Wall
  {
  }

  /** A grid of walls: a new grid with its whole area drawn in Wall. */
  function WallBlock(h: nat, w: nat): (g: Grid)
    requires h >= 1 && w >= 1
    ensures g.Shape() == Shape(h, w)
    ensures forall p | g.Contains(p) :: g.At(p) == Wall
  {
    var g0 := NewGrid(h, w);
    DrawArea(g0, GridArea(g0), Wall, true).value.0
  }

  /** Floor drawn along row `y` over the columns `lo` to `hi - 1`. */
  function FloorRow(g: Grid, y: int, lo: int, hi: int): (r: Grid)
    requires lo < hi && g.Contains(Position(y, lo)) && g.Contains(Position(y, hi - 1))
    ensures r.Shape() == g.Shape()
    ensures forall p | g.Contains(p) :: r.At(p) == if p.y == y && lo <= p.x < hi then Floor else g.At(p)
  {
    RangeBounds(lo, hi);
    DrawLineHorizontal(g, y, Range(lo, hi), Floor).value.0
  }

  /** Floor drawn down column `x` over the rows `lo` to `hi - 1`. */
  function FloorColumn(g: Grid, lo: int, hi: int, x: int): (r: Grid)
    requires lo < hi && g.Contains(Position(lo, x)) && g.Contains(Position(hi - 1, x))
    ensures r.Shape() == g.Shape()
    ensures forall p | g.Contains(p) :: r.At(p) == if p.x == x && lo <= p.y < hi then Floor else g.At(p)
  {
    RangeBounds(lo, hi);
    DrawLineVertical(g, Range(lo, hi), x, Floor).value.0
  }

  /** The `reset_memory` layout: corridors in a block of walls, two exits of distinct
      colours at both ends of the top corridor, two beacons of the colour of one of them
      at both ends of the bottom corridor, and the agent in the middle facing N. */
  ghost predicate MemoryLayout(s: State, h: int, w: int, colors: set<Color>) {
    var g := s.grid;
    var left, right := Position(1, 1), Position(1, w - 2);
    var beacon := Position(h - 2, 1);
    g.Shape() == Shape(h, w) && h >= 5 && w >= 5 &&
    (forall p | g.Contains(p) && !MemoryEnd(h, w, p) ::
      g.At(p) == if Corridor(h, w, p) then Floor else Wall) &&
    g.At(left).Exit? && g.At(right).Exit? &&
    g.At(left).color in colors && g.At(right).color in colors && g.At(left).color != g.At(right).color &&
    g.At(beacon).Beacon? && g.At(Position(h - 2, w - 2)) == g.At(beacon) &&
    (g.At(beacon).color == g.At(left).color || g.At(beacon).color == g.At(right).color) &&
    s.agent == Agent(Position(h / 2, w / 2), N, NoneGridObject)
  }

  /** The corners of the `reset_memory` corridors, where the exits and beacons go. */
  predicate MemoryEnd(h: int, w: int, p: Position) {
    (p.y == 1 || p.y == h - 2) && (p.x == 1 || p.x == w - 2)
  }

  /** `reset_memory`: needs a height of at least 5, an odd width of at least 5, and at
      least two colours, none of them NONE. Two distinct colours are drawn, the first for
      the good exit and both beacons, and the two exits take random ends of the top
      corridor. */
  function ResetMemory(h: int, w: int, colors: set<Color>, rng: Rng): (r: Result<(State, Rng)>)
    ensures r.Failure? <==> h < 5 || w < 5 || w % 2 != 1 || ColorNone in colors || |colors| < 2
    ensures r.Failure? ==> r.error == ValueError
    ensures r.Success? ==> MemoryLayout(r.value.0, h, w, colors)
  {
    if h < 5 then Failure(ValueError)
    else if !(w >= 5 && w % 2 == 1) then Failure(ValueError)
    else if ColorNone in colors then Failure(ValueError)
    else if |colors| < 2 then Failure(ValueError)
    else Success(MemoryDraws(h, w, colors, rng))
  }

  /** The draws of `reset_memory` once its checks have passed: the good and bad colours,
      then the ends of the top corridor for the good and bad exits. */
  function MemoryDraws(h: int, w: int, colors: set<Color>, rng: Rng): (r: (State, Rng))
    requires h >= 5 && w >= 5 && |colors| >= 2
    ensures MemoryLayout(r.0, h, w, colors)
  {
    var (cs, rng1) := ColorPair(colors, rng);
    var (xs, rng2) := EndPair(w, rng1);
    var g0 := MemoryCorridors(h, w);
    var s := State(ExitsAndBeacons(g0, h, w, cs, xs), Agent(Position(h / 2, w / 2), N, NoneGridObject));
    MemoryLayoutHolds(s, g0, h, w, colors, cs, xs);
    (s, rng2)
  }

  /** Two distinct elements drawn without replacement. */
  function TwoOf<T>(rng: Rng, xs: seq<T>): (r: (seq<T>, Rng))
    requires Distinct(xs) && |xs| >= 2
    ensures |r.0| == 2 && r.0[0] != r.0[1] && r.0[0] in xs && r.0[1] in xs
  {
    var (ys, rng1) := Sample(rng, xs, 2).value;
    SampleDistinct(rng, xs, 2);
    assert ys[0] in ys && ys[1] in ys;
    (ys, rng1)
  }

  /** The good and bad colours: two distinct colours of `colors`. */
  function ColorPair(colors: set<Color>, rng: Rng): (r: (seq<Color>, Rng))
    requires |colors| >= 2
    ensures |r.0| == 2 && r.0[0] != r.0[1] && r.0[0] in colors && r.0[1] in colors
  {
    TwoOf(rng, ColorList(colors))
  }

  /** The columns of the good and bad exits: the two ends of the top corridor in random
      order. */
  function EndPair(w: int, rng: Rng): (r: (seq<int>, Rng))
    requires w >= 5
    ensures |r.0| == 2 && r.0[0] != r.0[1] && r.0[0] in [1, w - 2] && r.0[1] in [1, w - 2]
  {
    TwoOf(rng, [1, w - 2])
  }

  /** The exits in colours `cs` at the top-corridor ends `xs`, and beacons in the first
      colour at both bottom-corridor ends. */
  function ExitsAndBeacons(g: Grid, h: int, w: int, cs: seq<Color>, xs: seq<int>): (r: Grid)
    requires h >= 5 && w >= 5 && g.Shape() == Shape(h, w)
    requires |cs| == 2 && |xs| == 2 && xs[0] in [1, w - 2] && xs[1] in [1, w - 2]
    ensures r.Shape() == g.Shape()
    ensures forall p | g.Contains(p) && !MemoryEnd(h, w, p) :: r.At(p) == g.At(p)
    ensures xs[0] != xs[1] ==>
      r.At(Position(1, xs[0])) == Exit(cs[0]) && r.At(Position(1, xs[1])) == Exit(cs[1])
    ensures r.At(Position(h - 2, 1)) == Beacon(cs[0]) && r.At(Position(h - 2, w - 2)) == Beacon(cs[0])
  {
    var g1 := Update(g, Position(1, xs[0]), Exit(cs[0]));
    var g2 := Update(g1, Position(1, xs[1]), Exit(cs[1]));
    var g3 := Update(g2, Position(h - 2, 1), Beacon(cs[0]));
    Update(g3, Position(h - 2, w - 2), Beacon(cs[0]))
  }

  /** The layout facts of a `reset_memory` state, from the draws that built it. */
  lemma MemoryLayoutHolds(s: State, g0: Grid, h: int, w: int, colors: set<Color>, cs: seq<Color>, xs: seq<int>)
    requires h >= 5 && w >= 5 && g0.Shape() == Shape(h, w)
    requires forall p | g0.Contains(p) :: g0.At(p) == if Corridor(h, w, p) then Floor else Wall
    requires |cs| == 2 && cs[0] != cs[1] && cs[0] in colors && cs[1] in colors
    requires |xs| == 2 && xs[0] != xs[1] && xs[0] in [1, w - 2] && xs[1] in [1, w - 2]
    requires s.grid.Shape() == g0.Shape()
    requires forall p | g0.Contains(p) && !MemoryEnd(h, w, p) :: s.grid.At(p) == g0.At(p)
    requires s.grid.At(Position(1, xs[0])) == Exit(cs[0]) && s.grid.At(Position(1, xs[1])) == Exit(cs[1])
    requires s.grid.At(Position(h - 2, 1)) == Beacon(cs[0]) && s.grid.At(Position(h - 2, w - 2)) == Beacon(cs[0])
    requires s.agent == Agent(Position(h / 2, w / 2), N, NoneGridObject)
    ensures MemoryLayout(s, h, w, colors)
  {
    var g := s.grid;
    if xs[0] == 1 {
      assert g.At(Position(1, 1)) == Exit(cs[0]) && g.At(Position(1, w - 2)) == Exit(cs[1]);
    } else {
      assert g.At(Position(1, 1)) == Exit(cs[1]) && g.At(Position(1, w - 2)) == Exit(cs[0]);
    }
  }
}

=== FILE: reward_properties.dfy ===
/** Properties of the reward functions: how reductions compose, what the progress rewards
    do when time is reversed or nothing changes, how the event rewards agree with the
    dynamics that cause the events, and that the factory rebuilds every reward function
    from its own keyword arguments. */
module RewardProperties {
  import opened Wrappers
  import opened Geometry
  import opened Actions
  import opened GridObjects
  import opened Grids
  import opened Agents
  import opened Kwargs
  import opened Rewards
  import opened ShortestPaths
  import Transitions

  // ---------------------------------------------------------------------------------
  // Reductions
  // ---------------------------------------------------------------------------------

  /** Summing a concatenation sums the parts. */
  lemma {:induction false} SumAppend(xs: seq<real>, ys: seq<real>)
    ensures Sum(xs + ys) == Sum(xs) + Sum(ys)
    decreases |ys|
  {
    if |ys| > 0 {
      var ys' := ys[..|ys| - 1];
      assert (xs + ys)[..|xs + ys| - 1] == xs + ys';
      SumAppend(xs, ys');
    } else {
      assert xs + ys == xs;
    }
  }

  /** Entry `k` of the results from index `i` on is what member `i + k` pays. */
  lemma {:induction false} ResultsAt(f: RewardFunction, i: nat, k: nat,
                                     custom: CustomRewards, s: State, a: Action, t: State)
    requires (f.Reduce? || f.ReduceSum?) && i + k < |f.fns|
    ensures Results(f, i, custom, s, a, t)[k] == Eval(f.fns[i + k], custom, s, a, t)
    decreases k
  {
    if k > 0 {
      ResultsAt(f, i + 1, k - 1, custom, s, a, t);
    }
  }

  /** Two reductions over the same members see the same results. */
  lemma SameMembersSameResults(f: RewardFunction, g: RewardFunction,
                               custom: CustomRewards, s: State, a: Action, t: State)
    requires (f.Reduce? || f.ReduceSum?) && (g.Reduce? || g.ReduceSum?) && f.fns == g.fns
    ensures Results(f, 0, custom, s, a, t) == Results(g, 0, custom, s, a, t)
  {
    forall k | 0 <= k < |f.fns|
      ensures Results(f, 0, custom, s, a, t)[k] == Results(g, 0, custom, s, a, t)[k]
    {
      ResultsAt(f, 0, k, custom, s, a, t);
      ResultsAt(g, 0, k, custom, s, a, t);
    }
  }

  /** The members of a concatenation pay what the members of its parts pay. */
  lemma ResultsAppend(fs: seq<RewardFunction>, gs: seq<RewardFunction>,
                      custom: CustomRewards, s: State, a: Action, t: State)
    ensures Results(ReduceSum(fs + gs), 0, custom, s, a, t)
      == Results(ReduceSum(fs), 0, custom, s, a, t) + Results(ReduceSum(gs), 0, custom, s, a, t)
  {
    var both := Results(ReduceSum(fs + gs), 0, custom, s, a, t);
    var rs, ss := Results(ReduceSum(fs), 0, custom, s, a, t), Results(ReduceSum(gs), 0, custom, s, a, t);
    forall k | 0 <= k < |both| ensures both[k] == (rs + ss)[k] {
      ResultsAt(ReduceSum(fs + gs), 0, k, custom, s, a, t);
      if k < |fs| {
        ResultsAt(ReduceSum(fs), 0, k, custom, s, a, t);
        assert (fs + gs)[k] == fs[k];
      } else {
        ResultsAt(ReduceSum(gs), 0, k - |fs|, custom, s, a, t);
        assert (fs + gs)[k] == gs[k - |fs|];
      }
    }
  }

  /** Summing rewards is the general reduction with Python's `sum`. */
  lemma ReduceSumIsReduce(fns: seq<RewardFunction>, custom: CustomRewards, s: State, a: Action, t: State)
    ensures Eval(ReduceSum(fns), custom, s, a, t) == Eval(Reduce(fns, Sum), custom, s, a, t)
  {
    SameMembersSameResults(ReduceSum(fns), Reduce(fns, Sum), custom, s, a, t);
  }

  /** Summing the rewards of two lists one after the other: the first error of the first
      list wins, then the first error of the second, and otherwise the sums add up. */
  lemma ReduceSumConcat(fs: seq<RewardFunction>, gs: seq<RewardFunction>,
                        custom: CustomRewards, s: State, a: Action, t: State)
    ensures var x, y := Eval(ReduceSum(fs), custom, s, a, t), Eval(ReduceSum(gs), custom, s, a, t);
      Eval(ReduceSum(fs + gs), custom, s, a, t)
        == if x.Failure? then x else if y.Failure? then y else Success(x.value + y.value)
  {
    var rs, ss := Results(ReduceSum(fs), 0, custom, s, a, t), Results(ReduceSum(gs), 0, custom, s, a, t);
    ResultsAppend(fs, gs, custom, s, a, t);
    SumOfCollected(fs, custom, s, a, t);
    SumOfCollected(gs, custom, s, a, t);
    SumOfCollected(fs + gs, custom, s, a, t);
    assert Eval(ReduceSum(fs + gs), custom, s, a, t) == SumOf(Collect(rs + ss, 0));
    SumCollectAppend(rs, ss);
  }

  /** A member that raises StopIteration inside a reduction: with the agent on a grid
      without beacons the memory reward raises StopIteration by itself, and RuntimeError
      inside `reduce_sum`. */
  lemma StopIterationInsideReduction(good: real, bad: real, custom: CustomRewards, s: State, a: Action, t: State)
    requires t.grid.Contains(t.agent.position)
    requires forall p | t.grid.Contains(p) :: !t.grid.At(p).Beacon?
    ensures Eval(ReachExitMemory(good, bad), custom, s, a, t) == Failure(StopIteration)
    ensures Eval(ReduceSum([ReachExitMemory(good, bad)]), custom, s, a, t) == Failure(RuntimeError)
  {
    var f := ReduceSum([ReachExitMemory(good, bad)]);
    assert Results(f, 1, custom, s, a, t) == [];
    assert Results(f, 0, custom, s, a, t) == [Failure(StopIteration)];
  }

  /** One such grid: a single Floor cell with the agent on it. */
  lemma MissingBeaconInsideReduction(custom: CustomRewards, s: State, a: Action)
    ensures var t := State(Matrix(1, 1, [[Floor]]), Agent(Position(0, 0), N, NoneGridObject));
      Eval(ReduceSum([ReachExitMemory(1.0, 0.0)]), custom, s, a, t) == Failure(RuntimeError)
  {
    var t := State(Matrix(1, 1, [[Floor]]), Agent(Position(0, 0), N, NoneGridObject));
    forall p | t.grid.Contains(p) ensures !t.grid.At(p).Beacon? {
      assert p == Position(0, 0);
    }
    StopIterationInsideReduction(1.0, 0.0, custom, s, a, t);
  }

  /** Summing the collection of two sequences of results one after the other. */
  lemma SumCollectAppend(rs: seq<Result<real>>, ss: seq<Result<real>>)
    ensures var x, y := SumOf(Collect(rs, 0)), SumOf(Collect(ss, 0));
      SumOf(Collect(rs + ss, 0)) == if x.Failure? then x else if y.Failure? then y else Success(x.value + y.value)
  {
    CollectAppend(rs, ss);
    SumOfAppend(Collect(rs, 0), Collect(ss, 0), Collect(rs + ss, 0));
  }

  /** The sum of collected rewards, or the error collecting them raised as it leaves the
      generator. */
  function SumOf(x: Result<seq<real>>): (r: Result<real>)
    ensures r.Failure? <==> x.Failure?
    ensures r.Failure? ==> r.error == GeneratorError(x.error)
  {
    if x.Failure? then Failure(GeneratorError(x.error)) else Success(Sum(x.value))
  }

  /** Summing two collections collected one after the other. */
  lemma SumOfAppend(x: Result<seq<real>>, y: Result<seq<real>>, z: Result<seq<real>>)
    requires z == if x.Failure? then x else if y.Failure? then y else Success(x.value + y.value)
    ensures SumOf(z) == if SumOf(x).Failure? then SumOf(x) else if SumOf(y).Failure? then SumOf(y)
      else Success(SumOf(x).value + SumOf(y).value)
  {
    if x.Success? && y.Success? {
      SumAppend(x.value, y.value);
    }
  }

  /** Summing rewards sums the collected member rewards, or raises the first error. */
  lemma SumOfCollected(fns: seq<RewardFunction>, custom: CustomRewards, s: State, a: Action, t: State)
    ensures Eval(ReduceSum(fns), custom, s, a, t) == SumOf(Collect(Results(ReduceSum(fns), 0, custom, s, a, t), 0))
  {
  }

  // ---------------------------------------------------------------------------------
  // Progress rewards
  // ---------------------------------------------------------------------------------

  /** Reversing a transition swaps the getting-closer rewards: moving away pays what moving
      closer pays with the two rewards exchanged. */
  lemma GettingCloserReversed(distance: DistanceFunction, kind: Kind, closer: real, further: real,
                              custom: CustomRewards, s: State, a: Action, a': Action, t: State)
    ensures Eval(GettingCloser(distance, kind, closer, further), custom, s, a, t)
      == Eval(GettingCloser(distance, kind, further, closer), custom, t, a', s)
  {
  }

  /** The same holds for navigation distances, infinity included, when both distances
      can be read; on errors the two orders may raise different exceptions, since the
      state before is examined first. */
  lemma ShortestPathReversed(kind: Kind, closer: real, further: real, s: State, t: State)
    requires ShortestPathReward(kind, closer, further, s, t).Success?
    ensures ShortestPathReward(kind, further, closer, t, s) == ShortestPathReward(kind, closer, further, s, t)
  {
    var prev, next := PathDistance(kind, s).value, PathDistance(kind, t).value;
    ShortestPathValue(kind, closer, further, s, t);
    ShortestPathValue(kind, further, closer, t, s);
    assert !(DistLt(next, prev) && DistLt(prev, next));
  }

  /** The navigation reward of a transition whose two distances can be read. */
  lemma ShortestPathValue(kind: Kind, closer: real, further: real, s: State, t: State)
    requires PathDistance(kind, s).Success? && PathDistance(kind, t).Success?
    ensures var prev, next := PathDistance(kind, s).value, PathDistance(kind, t).value;
      ShortestPathReward(kind, closer, further, s, t)
        == Success(if DistLt(next, prev) then closer else if DistLt(prev, next) then further else 0.0)
  {
  }

  /** A transition that changes nothing earns nothing from the rewards that measure a
      change, unless they raise. */
  lemma NoChangeNoReward(f: RewardFunction, custom: CustomRewards, s: State, a: Action)
    requires f.GettingCloser? || f.GettingCloserShortestPath? || f.ActuateDoor? || f.PickNDrop?
    ensures Eval(f, custom, s, a, s).Success? ==> Eval(f, custom, s, a, s).value == 0.0
  {
  }

  /** With Manhattan distance and a non-zero rate, the distance reward is zero exactly
      when the agent stands on the object. */
  lemma ProportionalZeroOnTarget(kind: Kind, rate: real, t: State)
    requires rate != 0.0
    requires UniquePosition(t.grid, kind).Success?
    ensures ProportionalReward(Manhattan, kind, rate, t).Success?
    ensures ProportionalReward(Manhattan, kind, rate, t).value == 0.0
      <==> t.agent.position == UniquePosition(t.grid, kind).value
  {
    ProportionalValue(Manhattan, kind, rate, t);
    RateZero(rate, t.agent.position, UniquePosition(t.grid, kind).value);
  }

  lemma ProportionalValue(distance: DistanceFunction, kind: Kind, rate: real, t: State)
    requires UniquePosition(t.grid, kind).Success?
    ensures ProportionalReward(distance, kind, rate, t).value
      == rate * distance(t.agent.position, UniquePosition(t.grid, kind).value)
  {
  }

  lemma RateZero(rate: real, p: Position, q: Position)
    requires rate != 0.0
    ensures rate * Manhattan(p, q) == 0.0 <==> p == q
  {
    ManhattanZero(p, q);
  }

  lemma ManhattanZero(p: Position, q: Position)
    ensures Manhattan(p, q) == 0.0 <==> p == q
  {
    if ManhattanDistance(p, q) == 0 {
      assert p.y == q.y && p.x == q.x;
    }
  }

  // ---------------------------------------------------------------------------------
  // Event rewards against the dynamics
  // ---------------------------------------------------------------------------------

  /** Under the door dynamics, actuating a door in front pays the opening reward exactly
      when the door was closed and the agent can unlock it, and nothing otherwise. */
  lemma DoorRewardUnderActuation(open: real, close: real, s: State)
    requires s.grid.Contains(PositionInFront(s.agent)) && s.grid.At(PositionInFront(s.agent)).Door?
    ensures var door := s.grid.At(PositionInFront(s.agent));
      DoorReward(open, close, s, Actuate, Transitions.ActuateDoor(s, Actuate))
        == Success(if !IsOpen(door) && Transitions.Unlocks(door, s.agent.obj) then open else 0.0)
  {
  }

  /** The door dynamics never close a door, so the closing reward is never paid. */
  lemma DoorDynamicsNeverClose(open: real, close: real, s: State, a: Action)
    requires close != open && close != 0.0
    ensures DoorReward(open, close, s, a, Transitions.ActuateDoor(s, a)) != Success(close)
  {
    var t := Transitions.ActuateDoor(s, a);
    var front := PositionInFront(s.agent);
    if a == Actuate && s.grid.Contains(front) && s.grid.At(front).Door? {
      DoorRewardUnderActuation(open, close, s);
    }
  }

  /** A move the wall reward punishes is one the movement dynamics refuse: the agent stays
      where it was. */
  lemma WallBumpBlocksMove(reward: real, s: State, a: Action)
    requires WallReward(reward, s, a) != 0.0
    ensures Transitions.UpdateAgent(s, a).agent.position == s.agent.position
  {
  }

  /** Under pick-and-drop, picking up a key with an empty hand pays the pick reward. */
  lemma PickKeyReward(pick: real, drop: real, s: State)
    requires s.grid.Contains(PositionInFront(s.agent)) && s.grid.At(PositionInFront(s.agent)).Key?
    requires s.agent.obj == NoneGridObject
    ensures Transitions.PickupMechanics(s, Action.PickNDrop).Success?
    ensures PickReward(KeyKind, pick, drop, s, Transitions.PickupMechanics(s, Action.PickNDrop).value) == pick
  {
    var front := PositionInFront(s.agent);
    var t := Transitions.PickupMechanics(s, Action.PickNDrop).value;
    Transitions.PickNDropHand(s);
    assert t.agent.obj == s.grid.At(front);
    assert KindOf(s.agent.obj) != KeyKind && KindOf(t.agent.obj) == KeyKind;
  }

  /** Under pick-and-drop, putting a held key down onto floor pays the drop reward. */
  lemma DropKeyReward(pick: real, drop: real, s: State)
    requires s.grid.Contains(PositionInFront(s.agent)) && s.grid.At(PositionInFront(s.agent)) == Floor
    requires s.agent.obj.Key?
    ensures Transitions.PickupMechanics(s, Action.PickNDrop).Success?
    ensures PickReward(KeyKind, pick, drop, s, Transitions.PickupMechanics(s, Action.PickNDrop).value) == drop
  {
    var front := PositionInFront(s.agent);
    var t := Transitions.PickupMechanics(s, Action.PickNDrop).value;
    Transitions.PickNDropHand(s);
    assert KindOf(s.agent.obj) == KeyKind && KindOf(t.agent.obj) != KeyKind;
  }

  /** Swapping the held key for another pays nothing: the agent holds a key before and
      after. */
  lemma SwapKeyNoReward(pick: real, drop: real, s: State)
    requires s.grid.Contains(PositionInFront(s.agent)) && s.grid.At(PositionInFront(s.agent)).Key?
    requires s.agent.obj.Key?
    ensures Transitions.PickupMechanics(s, Action.PickNDrop).Success?
    ensures PickReward(KeyKind, pick, drop, s, Transitions.PickupMechanics(s, Action.PickNDrop).value) == 0.0
  {
    var front := PositionInFront(s.agent);
    var t := Transitions.PickupMechanics(s, Action.PickNDrop).value;
    Transitions.PickNDropHand(s);
    assert KindOf(s.agent.obj) == KeyKind && KindOf(t.agent.obj) == KeyKind;
  }

  // ---------------------------------------------------------------------------------
  // The factory
  // ---------------------------------------------------------------------------------

  /** Every built-in name is parsed back to its reward function. */
  lemma ParseBuiltinName(b: Builtin)
    ensures ParseBuiltin(BuiltinName(b)) == Some(b)
  {
    match b
    case ReduceName =>
    case ReduceSumName =>
    case OverlapName =>
    case LivingRewardName =>
    case ReachExitName =>
    case BumpMovingObstacleName =>
    case ProportionalToDistanceName =>
    case GettingCloserName =>
    case GettingCloserShortestPathName =>
    case BumpIntoWallName =>
    case ActuateDoorName =>
    case PickNDropName =>
    case ReachExitMemoryName =>
  }

  /** No built-in name contains a colon, so no `module:function` name shadows one. */
  lemma BuiltinNamesHaveNoColon(b: Builtin)
    ensures !IsCustomFunction(BuiltinName(b))
  {
    match b
    case ReduceName =>
    case ReduceSumName =>
    case OverlapName =>
    case LivingRewardName =>
    case ReachExitName =>
    case BumpMovingObstacleName =>
    case ProportionalToDistanceName =>
    case GettingCloserName =>
    case GettingCloserShortestPathName =>
    case BumpIntoWallName =>
    case ActuateDoorName =>
    case PickNDropName =>
    case ReachExitMemoryName =>
  }

  /** The keyword arguments that rebuild a reward function: every parameter spelled out. */
  function ArgsOf(f: RewardFunction): map<string, Arg> {
    match f
    case Reduce(fns, reduction) => map["reward_functions" := RewardsArg(fns), "reduction" := ReductionArg(reduction)]
    case ReduceSum(fns) => map["reward_functions" := RewardsArg(fns)]
    case Overlap(kind, on, off) =>
      map["object_type" := KindArg(kind), "reward_on" := RealArg(on), "reward_off" := RealArg(off)]
    case LivingReward(reward) => map["reward" := RealArg(reward)]
    case ReachExit(on, off) => map["reward_on" := RealArg(on), "reward_off" := RealArg(off)]
    case BumpMovingObstacle(reward) => map["reward" := RealArg(reward)]
    case ProportionalToDistance(distance, kind, rate) =>
      map["distance_function" := DistanceArg(distance), "object_type" := KindArg(kind),
          "reward_per_unit_distance" := RealArg(rate)]
    case GettingCloser(distance, kind, closer, further) =>
      map["distance_function" := DistanceArg(distance), "object_type" := KindArg(kind),
          "reward_closer" := RealArg(closer), "reward_further" := RealArg(further)]
    case GettingCloserShortestPath(kind, closer, further) =>
      map["object_type" := KindArg(kind), "reward_closer" := RealArg(closer), "reward_further" := RealArg(further)]
    case BumpIntoWall(reward) => map["reward" := RealArg(reward)]
    case ActuateDoor(open, close) => map["reward_open" := RealArg(open), "reward_close" := RealArg(close)]
    case PickNDrop(kind, pick, drop) =>
      map["object_type" := KindArg(kind), "reward_pick" := RealArg(pick), "reward_drop" := RealArg(drop)]
    case ReachExitMemory(good, bad) => map["reward_good" := RealArg(good), "reward_bad" := RealArg(bad)]
    case Custom(_, kwargs) => kwargs
  }

  /** The factory rebuilds every reward function from its name and its keyword arguments;
      a user-supplied one needs a well-formed `module:function` name. */
  lemma FactoryRoundTrip(f: RewardFunction)
    requires f.Custom? ==> CustomFunctionName(f.name).Success?
    ensures Factory(NameOf(f), ArgsOf(f)) == Success(f)
  {
    if f.Custom? {
      assert NameOf(f) == f.name && ArgsOf(f) == f.kwargs;
      CustomRoundTrip(f.name, f.kwargs);
    } else {
      var b := BuiltinOf(f);
      ParseBuiltinName(b);
      assert ParseBuiltin(NameOf(f)) == Some(b);
      BindRoundTrip(f);
      assert Factory(NameOf(f), ArgsOf(f)) == BuildBuiltin(b, ArgsOf(f));
    }
  }

  /** A user-supplied reward function with a well-formed name is rebuilt from its name and
      its keyword arguments. */
  lemma CustomRoundTrip(name: string, kwargs: map<string, Arg>)
    requires CustomFunctionName(name).Success?
    ensures Factory(name, kwargs) == Success(Custom(name, kwargs))
  {
    if ParseBuiltin(name).Some? {
      BuiltinNamesHaveNoColon(ParseBuiltin(name).value);
    }
  }

  /** The built-in reward function `f` was built as. */
  function BuiltinOf(f: RewardFunction): (b: Builtin)
    requires !f.Custom?
    ensures BuiltinName(b) == NameOf(f)
  {
    match f
    case Reduce(_, _) => ReduceName
    case ReduceSum(_) => ReduceSumName
    case Overlap(_, _, _) => OverlapName
    case LivingReward(_) => LivingRewardName
    case ReachExit(_, _) => ReachExitName
    case BumpMovingObstacle(_) => BumpMovingObstacleName
    case ProportionalToDistance(_, _, _) => ProportionalToDistanceName
    case GettingCloser(_, _, _, _) => GettingCloserName
    case GettingCloserShortestPath(_, _, _) => GettingCloserShortestPathName
    case BumpIntoWall(_) => BumpIntoWallName
    case ActuateDoor(_, _) => ActuateDoorName
    case PickNDrop(_, _, _) => PickNDropName
    case ReachExitMemory(_, _) => ReachExitMemoryName
  }

  /** Binding the spelled-out keyword arguments of a built-in reward function gives it
      back. */
  lemma BindRoundTrip(f: RewardFunction)
    requires !f.Custom?
    ensures BuildBuiltin(BuiltinOf(f), ArgsOf(f)) == Success(f)
  {
    ArgsOfKeys(f);
    BoundArgs(f);
    RoundTripFrom(f);
  }

  /** The spelled-out keyword arguments of a built-in reward function are complete and
      well typed, and bind to it again. */
  lemma BoundArgs(f: RewardFunction)
    requires !f.Custom?
    ensures Complete(BuiltinOf(f), ArgsOf(f)) && WellTyped(BuiltinOf(f), ArgsOf(f))
    ensures Bind(BuiltinOf(f), ArgsOf(f)) == f
  {
    match f
    case Reduce(_, _) => BoundReduce(f);
    case ReduceSum(_) => BoundReduceSum(f);
    case Overlap(_, _, _) => BoundOverlap(f);
    case LivingReward(_) => BoundLivingReward(f);
    case ReachExit(_, _) => BoundReachExit(f);
    case BumpMovingObstacle(_) => BoundBumpMovingObstacle(f);
    case ProportionalToDistance(_, _, _) => BoundProportionalToDistance(f);
    case GettingCloser(_, _, _, _) => BoundGettingCloser(f);
    case GettingCloserShortestPath(_, _, _) => BoundGettingCloserShortestPath(f);
    case BumpIntoWall(_) => BoundBumpIntoWall(f);
    case ActuateDoor(_, _) => BoundActuateDoor(f);
    case PickNDrop(_, _, _) => BoundPickNDrop(f);
    case ReachExitMemory(_, _) => BoundReachExitMemory(f);
  }

  /** The spelled-out keyword arguments of Reduce are complete and well typed, and
      bind to it again. */
  lemma BoundReduce(f: RewardFunction)
    requires f.Reduce?
    ensures Complete(BuiltinOf(f), ArgsOf(f)) && WellTyped(BuiltinOf(f), ArgsOf(f))
    ensures Bind(BuiltinOf(f), ArgsOf(f)) == f
  {
    var b, kwargs := BuiltinOf(f), ArgsOf(f);
    assert Params(b) == [Param("reward_functions", RewardsType), Param("reduction", ReductionType)];
    assert kwargs == map["reward_functions" := RewardsArg(f.fns), "reduction" := ReductionArg(f.reduction)];
    assert "reward_functions" != "reduction" by { assert |"reward_functions"| != |"reduction"|; }
    assert kwargs["reward_functions"] == RewardsArg(f.fns);
    assert kwargs["reduction"] == ReductionArg(f.reduction);
    assert Complete(b, kwargs) && WellTyped(b, kwargs);
    assert Bind(b, kwargs) == f;
  }

  /** The spelled-out keyword arguments of ReduceSum are complete and well typed, and
      bind to it again. */
  lemma BoundReduceSum(f: RewardFunction)
    requires f.ReduceSum?
    ensures Complete(BuiltinOf(f), ArgsOf(f)) && WellTyped(BuiltinOf(f), ArgsOf(f))
    ensures Bind(BuiltinOf(f), ArgsOf(f)) == f
  {
    var b, kwargs := BuiltinOf(f), ArgsOf(f);
    assert Params(b) == [Param("reward_functions", RewardsType)];
    assert kwargs == map["reward_functions" := RewardsArg(f.fns)];
    assert kwargs["reward_functions"] == RewardsArg(f.fns);
    assert Complete(b, kwargs) && WellTyped(b, kwargs);
    assert Bind(b, kwargs) == f;
  }

  /** The spelled-out keyword arguments of Overlap are complete and well typed, and
      bind to it again. */
  lemma BoundOverlap(f: RewardFunction)
    requires f.Overlap?
    ensures Complete(BuiltinOf(f), ArgsOf(f)) && WellTyped(BuiltinOf(f), ArgsOf(f))
    ensures Bind(BuiltinOf(f), ArgsOf(f)) == f
  {
    var b, kwargs := BuiltinOf(f), ArgsOf(f);
    assert Params(b) == [Param("object_type", KindType), Param("reward_on", RealType), Param("reward_off", RealType)];
    assert kwargs == map["object_type" := KindArg(f.objectType), "reward_on" := RealArg(f.rewardOn), "reward_off" := RealArg(f.rewardOff)];
    assert "object_type" != "reward_on" by { assert |"object_type"| != |"reward_on"|; }
    assert "object_type" != "reward_off" by { assert |"object_type"| != |"reward_off"|; }
    assert "reward_on" != "reward_off" by { assert |"reward_on"| != |"reward_off"|; }
    assert kwargs["object_type"] == KindArg(f.objectType);
    assert kwargs["reward_on"] == RealArg(f.rewardOn);
    assert kwargs["reward_off"] == RealArg(f.rewardOff);
    assert Complete(b, kwargs) && WellTyped(b, kwargs);
    assert Bind(b, kwargs) == f;
  }

  /** The spelled-out keyword arguments of LivingReward are complete and well typed, and
      bind to it again. */
  lemma BoundLivingReward(f: RewardFunction)
    requires f.LivingReward?
    ensures Complete(BuiltinOf(f), ArgsOf(f)) && WellTyped(BuiltinOf(f), ArgsOf(f))
    ensures Bind(BuiltinOf(f), ArgsOf(f)) == f
  {
    var b, kwargs := BuiltinOf(f), ArgsOf(f);
    assert Params(b) == [Param("reward", RealType)];
    assert kwargs == map["reward" := RealArg(f.reward)];
    assert kwargs["reward"] == RealArg(f.reward);
    assert Complete(b, kwargs) && WellTyped(b, kwargs);
    assert Bind(b, kwargs) == f;
  }

  /** The spelled-out keyword arguments of ReachExit are complete and well typed, and
      bind to it again. */
  lemma BoundReachExit(f: RewardFunction)
    requires f.ReachExit?
    ensures Complete(BuiltinOf(f), ArgsOf(f)) && WellTyped(BuiltinOf(f), ArgsOf(f))
    ensures Bind(BuiltinOf(f), ArgsOf(f)) == f
  {
    var b, kwargs := BuiltinOf(f), ArgsOf(f);
    assert Params(b) == [Param("reward_on", RealType), Param("reward_off", RealType)];
    assert kwargs == map["reward_on" := RealArg(f.rewardOn), "reward_off" := RealArg(f.rewardOff)];
    assert "reward_on" != "reward_off" by { assert |"reward_on"| != |"reward_off"|; }
    assert kwargs["reward_on"] == RealArg(f.rewardOn);
    assert kwargs["reward_off"] == RealArg(f.rewardOff);
    assert Complete(b, kwargs) && WellTyped(b, kwargs);
    assert Bind(b, kwargs) == f;
  }

  /** The spelled-out keyword arguments of BumpMovingObstacle are complete and well typed, and
      bind to it again. */
  lemma BoundBumpMovingObstacle(f: RewardFunction)
    requires f.BumpMovingObstacle?
    ensures Complete(BuiltinOf(f), ArgsOf(f)) && WellTyped(BuiltinOf(f), ArgsOf(f))
    ensures Bind(BuiltinOf(f), ArgsOf(f)) == f
  {
    var b, kwargs := BuiltinOf(f), ArgsOf(f);
    assert Params(b) == [Param("reward", RealType)];
    assert kwargs == map["reward" := RealArg(f.reward)];
    assert kwargs["reward"] == RealArg(f.reward);
    assert Complete(b, kwargs) && WellTyped(b, kwargs);
    assert Bind(b, kwargs) == f;
  }

  /** The spelled-out keyword arguments of ProportionalToDistance are complete and well typed, and
      bind to it again. */
  lemma BoundProportionalToDistance(f: RewardFunction)
    requires f.ProportionalToDistance?
    ensures Complete(BuiltinOf(f), ArgsOf(f)) && WellTyped(BuiltinOf(f), ArgsOf(f))
    ensures Bind(BuiltinOf(f), ArgsOf(f)) == f
  {
    var b, kwargs := BuiltinOf(f), ArgsOf(f);
    assert Params(b) == [Param("object_type", KindType), Param("distance_function", DistanceType), Param("reward_per_unit_distance", RealType)];
    assert kwargs == map["distance_function" := DistanceArg(f.distance), "object_type" := KindArg(f.objectType), "reward_per_unit_distance" := RealArg(f.rewardPerUnitDistance)];
    assert "object_type" != "distance_function" by { assert |"object_type"| != |"distance_function"|; }
    assert "object_type" != "reward_per_unit_distance" by { assert |"object_type"| != |"reward_per_unit_distance"|; }
    assert "distance_function" != "reward_per_unit_distance" by { assert |"distance_function"| != |"reward_per_unit_distance"|; }
    assert kwargs["object_type"] == KindArg(f.objectType);
    assert kwargs["distance_function"] == DistanceArg(f.distance);
    assert kwargs["reward_per_unit_distance"] == RealArg(f.rewardPerUnitDistance);
    assert Complete(b, kwargs) && WellTyped(b, kwargs);
    assert Bind(b, kwargs) == f;
  }

  /** The spelled-out keyword arguments of GettingCloser are complete and well typed, and
      bind to it again. */
  lemma BoundGettingCloser(f: RewardFunction)
    requires f.GettingCloser?
    ensures Complete(BuiltinOf(f), ArgsOf(f)) && WellTyped(BuiltinOf(f), ArgsOf(f))
    ensures Bind(BuiltinOf(f), ArgsOf(f)) == f
  {
    var b, kwargs := BuiltinOf(f), ArgsOf(f);
    assert Params(b) == [Param("object_type", KindType), Param("distance_function", DistanceType), Param("reward_closer", RealType), Param("reward_further", RealType)];
    assert kwargs == map["distance_function" := DistanceArg(f.distance), "object_type" := KindArg(f.objectType), "reward_closer" := RealArg(f.rewardCloser), "reward_further" := RealArg(f.rewardFurther)];
    assert "object_type" != "distance_function" by { assert |"object_type"| != |"distance_function"|; }
    assert "object_type" != "reward_closer" by { assert |"object_type"| != |"reward_closer"|; }
    assert "object_type" != "reward_further" by { assert |"object_type"| != |"reward_further"|; }
    assert "distance_function" != "reward_closer" by { assert |"distance_function"| != |"reward_closer"|; }
    assert "distance_function" != "reward_further" by { assert |"distance_function"| != |"reward_further"|; }
    assert "reward_closer" != "reward_further" by { assert |"reward_closer"| != |"reward_further"|; }
    assert kwargs["object_type"] == KindArg(f.objectType);
    assert kwargs["distance_function"] == DistanceArg(f.distance);
    assert kwargs["reward_closer"] == RealArg(f.rewardCloser);
    assert kwargs["reward_further"] == RealArg(f.rewardFurther);
    assert Complete(b, kwargs) && WellTyped(b, kwargs);
    assert Bind(b, kwargs) == f;
  }

  /** The spelled-out keyword arguments of GettingCloserShortestPath are complete and well typed, and
      bind to it again. */
  lemma BoundGettingCloserShortestPath(f: RewardFunction)
    requires f.GettingCloserShortestPath?
    ensures Complete(BuiltinOf(f), ArgsOf(f)) && WellTyped(BuiltinOf(f), ArgsOf(f))
    ensures Bind(BuiltinOf(f), ArgsOf(f)) == f
  {
    var b, kwargs := BuiltinOf(f), ArgsOf(f);
    assert Params(b) == [Param("object_type", KindType), Param("reward_closer", RealType), Param("reward_further", RealType)];
    assert kwargs == map["object_type" := KindArg(f.objectType), "reward_closer" := RealArg(f.rewardCloser), "reward_further" := RealArg(f.rewardFurther)];
    assert "object_type" != "reward_closer" by { assert |"object_type"| != |"reward_closer"|; }
    assert "object_type" != "reward_further" by { assert |"object_type"| != |"reward_further"|; }
    assert "reward_closer" != "reward_further" by { assert |"reward_closer"| != |"reward_further"|; }
    assert kwargs["object_type"] == KindArg(f.objectType);
    assert kwargs["reward_closer"] == RealArg(f.rewardCloser);
    assert kwargs["reward_further"] == RealArg(f.rewardFurther);
    assert Complete(b, kwargs) && WellTyped(b, kwargs);
    assert Bind(b, kwargs) == f;
  }

  /** The spelled-out keyword arguments of BumpIntoWall are complete and well typed, and
      bind to it again. */
  lemma BoundBumpIntoWall(f: RewardFunction)
    requires f.BumpIntoWall?
    ensures Complete(BuiltinOf(f), ArgsOf(f)) && WellTyped(BuiltinOf(f), ArgsOf(f))
    ensures Bind(BuiltinOf(f), ArgsOf(f)) == f
  {
    var b, kwargs := BuiltinOf(f), ArgsOf(f);
    assert Params(b) == [Param("reward", RealType)];
    assert kwargs == map["reward" := RealArg(f.reward)];
    assert kwargs["reward"] == RealArg(f.reward);
    assert Complete(b, kwargs) && WellTyped(b, kwargs);
    assert Bind(b, kwargs) == f;
  }

  /** The spelled-out keyword arguments of ActuateDoor are complete and well typed, and
      bind to it again. */
  lemma BoundActuateDoor(f: RewardFunction)
    requires f.ActuateDoor?
    ensures Complete(BuiltinOf(f), ArgsOf(f)) && WellTyped(BuiltinOf(f), ArgsOf(f))
    ensures Bind(BuiltinOf(f), ArgsOf(f)) == f
  {
    var b, kwargs := BuiltinOf(f), ArgsOf(f);
    assert Params(b) == [Param("reward_open", RealType), Param("reward_close", RealType)];
    assert kwargs == map["reward_open" := RealArg(f.rewardOpen), "reward_close" := RealArg(f.rewardClose)];
    assert "reward_open" != "reward_close" by { assert |"reward_open"| != |"reward_close"|; }
    assert kwargs["reward_open"] == RealArg(f.rewardOpen);
    assert kwargs["reward_close"] == RealArg(f.rewardClose);
    assert Complete(b, kwargs) && WellTyped(b, kwargs);
    assert Bind(b, kwargs) == f;
  }

  /** The spelled-out keyword arguments of PickNDrop are complete and well typed, and
      bind to it again. */
  lemma BoundPickNDrop(f: RewardFunction)
    requires f.PickNDrop?
    ensures Complete(BuiltinOf(f), ArgsOf(f)) && WellTyped(BuiltinOf(f), ArgsOf(f))
    ensures Bind(BuiltinOf(f), ArgsOf(f)) == f
  {
    var b, kwargs := BuiltinOf(f), ArgsOf(f);
    assert Params(b) == [Param("object_type", KindType), Param("reward_pick", RealType), Param("reward_drop", RealType)];
    assert kwargs == map["object_type" := KindArg(f.objectType), "reward_pick" := RealArg(f.rewardPick), "reward_drop" := RealArg(f.rewardDrop)];
    assert "object_type" != "reward_pick" by { assert "object_type"[0] != "reward_pick"[0]; }
    assert "object_type" != "reward_drop" by { assert "object_type"[0] != "reward_drop"[0]; }
    assert "reward_pick" != "reward_drop" by { assert "reward_pick"[7] != "reward_drop"[7]; }
    assert kwargs["object_type"] == KindArg(f.objectType);
    assert kwargs["reward_pick"] == RealArg(f.rewardPick);
    assert kwargs["reward_drop"] == RealArg(f.rewardDrop);
    assert Complete(b, kwargs) && WellTyped(b, kwargs);
    assert Bind(b, kwargs) == f;
  }

  /** The spelled-out keyword arguments of ReachExitMemory are complete and well typed, and
      bind to it again. */
  lemma BoundReachExitMemory(f: RewardFunction)
    requires f.ReachExitMemory?
    ensures Complete(BuiltinOf(f), ArgsOf(f)) && WellTyped(BuiltinOf(f), ArgsOf(f))
    ensures Bind(BuiltinOf(f), ArgsOf(f)) == f
  {
    var b, kwargs := BuiltinOf(f), ArgsOf(f);
    assert Params(b) == [Param("reward_good", RealType), Param("reward_bad", RealType)];
    assert kwargs == map["reward_good" := RealArg(f.rewardGood), "reward_bad" := RealArg(f.rewardBad)];
    assert "reward_good" != "reward_bad" by { assert |"reward_good"| != |"reward_bad"|; }
    assert kwargs["reward_good"] == RealArg(f.rewardGood);
    assert kwargs["reward_bad"] == RealArg(f.rewardBad);
    assert Complete(b, kwargs) && WellTyped(b, kwargs);
    assert Bind(b, kwargs) == f;
  }

  /** A built-in reward function whose spelled-out keywords are complete, well typed and
      bind to it again is rebuilt by the factory. */
  lemma RoundTripFrom(f: RewardFunction)
    requires !f.Custom?
    requires forall k | k in ArgsOf(f) :: k in KeyList(Params(BuiltinOf(f)))
    requires Complete(BuiltinOf(f), ArgsOf(f)) && WellTyped(BuiltinOf(f), ArgsOf(f))
    requires Bind(BuiltinOf(f), ArgsOf(f)) == f
    ensures BuildBuiltin(BuiltinOf(f), ArgsOf(f)) == Success(f)
  {
    SelectAll(ArgsOf(f), KeyList(Params(BuiltinOf(f))));
  }

  /** Selecting keys that cover every keyword keeps them all. */
  lemma SelectAll(kwargs: map<string, Arg>, keys: seq<string>)
    requires forall k | k in kwargs :: k in keys
    ensures SelectKwargs(kwargs, keys) == kwargs
  {
  }

  /** The spelled-out keyword arguments are all parameters of the reward function. */
  lemma ArgsOfKeys(f: RewardFunction)
    requires !f.Custom?
    ensures forall k | k in ArgsOf(f) :: k in KeyList(Params(BuiltinOf(f)))
  {
    var keys := KeyList(Params(BuiltinOf(f)));
    match f
    case Reduce(_, _) => assert keys == ["reward_functions", "reduction"];
    case ReduceSum(_) => assert keys == ["reward_functions"];
    case Overlap(_, _, _) => assert keys == ["object_type", "reward_on", "reward_off"];
    case LivingReward(_) => assert keys == ["reward"];
    case ReachExit(_, _) => assert keys == ["reward_on", "reward_off"];
    case BumpMovingObstacle(_) => assert keys == ["reward"];
    case ProportionalToDistance(_, _, _) =>
      assert keys == ["object_type", "distance_function", "reward_per_unit_distance"];
    case GettingCloser(_, _, _, _) =>
      assert keys == ["object_type", "distance_function", "reward_closer", "reward_further"];
    case GettingCloserShortestPath(_, _, _) => assert keys == ["object_type", "reward_closer", "reward_further"];
    case BumpIntoWall(_) => assert keys == ["reward"];
    case ActuateDoor(_, _) => assert keys == ["reward_open", "reward_close"];
    case PickNDrop(_, _, _) => assert keys == ["object_type", "reward_pick", "reward_drop"];
    case ReachExitMemory(_, _) => assert keys == ["reward_good", "reward_bad"];
  }

  /** A built-in factory ignores keyword arguments it does not know. */
  lemma FactoryIgnoresExtraKeys(b: Builtin, kwargs: map<string, Arg>)
    ensures Factory(BuiltinName(b), kwargs) == Factory(BuiltinName(b), SelectKwargs(kwargs, KeyList(Params(b))))
  {
    var selected := SelectKwargs(kwargs, KeyList(Params(b)));
    ParseBuiltinName(b);
    SelectedKwargs(b, kwargs);
    SelectedKwargs(b, selected);
    SelectIdempotent(kwargs, KeyList(Params(b)));
  }
}

=== FILE: rewards.dfy ===
/** Reward functions over a transition `(state, action, next_state)`, their reductions,
    and the factory that builds them by name. Rewards are real numbers. */
module Rewards {
  import opened Wrappers
  import opened Geometry
  import opened Actions
  import opened GridObjects
  import opened Grids
  import opened Agents
  import opened Seqs
  import opened EnvUtils
  import opened ShortestPaths
  import opened Kwargs
  import Transitions

  /** A distance between two positions. */
  type DistanceFunction = (Position, Position) -> real

  /** The default distance function. */
  function Manhattan(p: Position, q: Position): real {
    ManhattanDistance(p, q) as real
  }

  /** The reward functions the factory builds, with their keyword arguments bound. */
  datatype RewardFunction =
    | Reduce(fns: seq<RewardFunction>, reduction: seq<real> -> real)
    | ReduceSum(fns: seq<RewardFunction>)
    | Overlap(objectType: Kind, rewardOn: real, rewardOff: real)
    | LivingReward(reward: real)
    | ReachExit(rewardOn: real, rewardOff: real)
    | BumpMovingObstacle(reward: real)
    | ProportionalToDistance(distance: DistanceFunction, objectType: Kind, rewardPerUnitDistance: real)
    | GettingCloser(distance: DistanceFunction, objectType: Kind, rewardCloser: real, rewardFurther: real)
    | GettingCloserShortestPath(objectType: Kind, rewardCloser: real, rewardFurther: real)
    | BumpIntoWall(reward: real)
    | ActuateDoor(rewardOpen: real, rewardClose: real)
    | PickNDrop(objectType: Kind, rewardPick: real, rewardDrop: real)
    | ReachExitMemory(rewardGood: real, rewardBad: real)
    | Custom(name: string, kwargs: map<string, Arg>)

  /** A keyword-argument value. */
  datatype Arg =
    | RealArg(value: real)
    | KindArg(kind: Kind)
    | RewardsArg(functions: seq<RewardFunction>)
    | ReductionArg(reduce: seq<real> -> real)
    | DistanceArg(measure: DistanceFunction)

  /** What a user-supplied `module:function` reward returns when called with its bound
      keyword arguments; the imported code is not part of this model. */
  type CustomRewards = (string, map<string, Arg>, State, Action, State) -> Result<real>

  // ---------------------------------------------------------------------------------
  // Locating objects
  // ---------------------------------------------------------------------------------

  /** The cells of `g` holding an object of class `kind`, in row-major order. */
  function KindPositions(g: Grid, kind: Kind): (r: seq<Position>)
    ensures forall p :: p in r <==> g.Contains(p) && KindOf(g.At(p)) == kind
    ensures Distinct(r)
  {
    var ps := GridPositions(g);
    assert Distinct(ps);
    FilterDistinct(ps, p => g.Contains(p) && KindOf(g.At(p)) == kind);
    Filter(ps, p => g.Contains(p) && KindOf(g.At(p)) == kind)
  }

  /** The position of the one object of class `kind`; ValueError when there is none or
      there are several. */
  function UniquePosition(g: Grid, kind: Kind): (r: Result<Position>)
    ensures r.Success? ==>
      g.Contains(r.value) && KindOf(g.At(r.value)) == kind
      && forall p | g.Contains(p) && KindOf(g.At(p)) == kind :: p == r.value
    ensures r.Failure? ==> r.error == ValueError
    ensures r.Failure? ==>
      (forall p | g.Contains(p) :: KindOf(g.At(p)) != kind)
      || exists p, q | g.Contains(p) && g.Contains(q) && p != q ::
        KindOf(g.At(p)) == kind && KindOf(g.At(q)) == kind
  {
    var ps := KindPositions(g, kind);
    if |ps| == 1 then
      assert ps == [ps[0]];
      Success(ps[0])
    else if |ps| == 0 then Failure(ValueError)
    else
      assert ps[0] in ps && ps[1] in ps && ps[0] != ps[1];
      Failure(ValueError)
  }

  /** Reads a NumPy array at `p`; out of range raises IndexError. */
  function ArrayAt<T>(m: Matrix<T>, p: Position): (r: Result<T>)
    requires m.Valid()
    ensures r.Failure? <==> !(-(m.height as int) <= p.y < m.height && -(m.width as int) <= p.x < m.width)
    ensures r.Failure? ==> r.error == IndexError
    ensures m.Contains(p) ==> r == Success(m.At(p))
  {
    var y := AxisIndex(p.y, m.height);
    var x := AxisIndex(p.x, m.width);
    if y.None? || x.None? then Failure(IndexError) else Success(m.At(Position(y.value, x.value)))
  }

  // ---------------------------------------------------------------------------------
  // The primitives
  // ---------------------------------------------------------------------------------

  /** `on` when the agent's cell in `t` holds an object of class `kind`, `off` otherwise;
      an agent off the grid raises IndexError. */
  function OverlapReward(kind: Kind, on: real, off: real, t: State): (r: Result<real>)
    ensures r.Failure? <==> !t.grid.Contains(t.agent.position)
    ensures r.Failure? ==> r.error == IndexError
    ensures r.Success? ==> r.value == on || r.value == off
    ensures r.Success? && on != off ==> (r.value == on <==> KindOf(t.grid.At(t.agent.position)) == kind)
  {
    var o :- Get(t.grid, t.agent.position);
    Success(if KindOf(o) == kind then on else off)
  }

  /** `rate` times the distance from the agent to the one `kind` object of `t`. */
  function ProportionalReward(distance: DistanceFunction, kind: Kind, rate: real, t: State): (r: Result<real>)
    ensures r.Success? <==> UniquePosition(t.grid, kind).Success?
    ensures r.Failure? ==> r.error == ValueError
    ensures r.Success? ==> r.value == rate * distance(t.agent.position, UniquePosition(t.grid, kind).value)
  {
    var target :- UniquePosition(t.grid, kind);
    Success(rate * distance(t.agent.position, target))
  }

  /** The reward for a change of distance: `closer` for a strict decrease, `further` for a
      strict increase, and 0 when the distance is unchanged. */
  function Progress(prev: real, next: real, closer: real, further: real): (r: real)
    ensures next < prev ==> r == closer
    ensures next > prev ==> r == further
    ensures next == prev ==> r == 0.0
  {
    if next < prev then closer else if next > prev then further else 0.0
  }

  /** The distance from the agent to the one `kind` object of `s`. */
  function ObjectDistance(distance: DistanceFunction, kind: Kind, s: State): (r: Result<real>)
    ensures r.Success? <==> UniquePosition(s.grid, kind).Success?
    ensures r.Failure? ==> r.error == ValueError
    ensures r.Success? ==> r.value == distance(s.agent.position, UniquePosition(s.grid, kind).value)
  {
    var target :- UniquePosition(s.grid, kind);
    Success(distance(s.agent.position, target))
  }

  /** The getting-closer reward: compares the distance to the one `kind` object before
      and after; the state before is examined first. */
  function CloserReward(distance: DistanceFunction, kind: Kind, closer: real, further: real, s: State, t: State)
    : (r: Result<real>)
    ensures r.Success? <==> ObjectDistance(distance, kind, s).Success? && ObjectDistance(distance, kind, t).Success?
    ensures r.Failure? ==> r.error == ValueError
    ensures r.Success? ==>
      var prev, next := ObjectDistance(distance, kind, s).value, ObjectDistance(distance, kind, t).value;
      (r.value == closer && next < prev) || (r.value == further && next > prev) || (r.value == 0.0 && next == prev)
  {
    var prev :- ObjectDistance(distance, kind, s);
    var next :- ObjectDistance(distance, kind, t);
    Success(Progress(prev, next, closer, further))
  }

  /** The navigation layout of a grid: a cell is passable when its object does not
      block. */
  function LayoutOf(g: Grid): (l: Layout)
    ensures l.Shape() == g.Shape()
    ensures forall p | g.Contains(p) :: l.At(p) == !Blocks(g.At(p))
  {
    Matrix(g.height, g.width, seq(g.height, y requires 0 <= y < g.height =>
      seq(g.width, x requires 0 <= x < g.width => !Blocks(g.cells[y][x]))))
  }

  /** The navigation distance from the one `kind` object to the agent, read from the
      breadth-first distance array with NumPy indexing. */
  function PathDistance(kind: Kind, s: State): (r: Result<Dist>)
    ensures r.Failure? ==> r.error == ValueError || r.error == IndexError
    ensures UniquePosition(s.grid, kind).Failure? ==> r == Failure(ValueError)
    ensures UniquePosition(s.grid, kind).Success? && s.grid.Contains(s.agent.position) ==>
      r == Success(Dijkstra(LayoutOf(s.grid), UniquePosition(s.grid, kind).value).value.At(s.agent.position))
  {
    var target :- UniquePosition(s.grid, kind);
    var d := Dijkstra(LayoutOf(s.grid), target).value;
    ArrayAt(d, s.agent.position)
  }

  /** The getting-closer reward on navigation distances, where infinity is not closer
      than infinity. */
  function ShortestPathReward(kind: Kind, closer: real, further: real, s: State, t: State): (r: Result<real>)
    ensures r.Success? <==> PathDistance(kind, s).Success? && PathDistance(kind, t).Success?
    ensures r.Failure? ==> r.error == ValueError || r.error == IndexError
    ensures r.Success? ==>
      var prev, next := PathDistance(kind, s).value, PathDistance(kind, t).value;
      (r.value == closer && DistLt(next, prev)) || (r.value == further && DistLt(prev, next))
      || (r.value == 0.0 && next == prev)
  {
    var prev :- PathDistance(kind, s);
    var next :- PathDistance(kind, t);
    Success(if DistLt(next, prev) then closer else if DistLt(prev, next) then further else 0.0)
  }

  /** Whether the move `a` would take the agent of `s` onto a wall, regardless of
      obstruction. */
  predicate BumpsWall(s: State, a: Action) {
    var p := UpdatedAgentPositionIfUnobstructed(s.agent.position, s.agent.orientation, a);
    s.grid.Contains(p) && s.grid.At(p) == Wall
  }

  /** `reward` when the intended position is a wall of the state before, 0 otherwise. */
  function WallReward(reward: real, s: State, a: Action): (r: real)
    ensures r == reward || r == 0.0
    ensures reward != 0.0 ==> (r == reward <==> BumpsWall(s, a))
  {
    if BumpsWall(s, a) then reward else 0.0
  }

  /** The door reward: 0 unless the action actuates and a door is in front in both
      states; `open` when the door went from not open to open, `close` for the
      reverse. The front cell is taken from the state before; reading it off either
      grid raises IndexError. */
  function DoorReward(open: real, close: real, s: State, a: Action, t: State): (r: Result<real>)
    ensures a != Actuate ==> r == Success(0.0)
    ensures r.Failure? ==> r.error == IndexError
    ensures r.Failure? <==> a == Actuate && var front := PositionInFront(s.agent);
      (!s.grid.Contains(front) || (s.grid.At(front).Door? && !t.grid.Contains(front)))
    ensures r.Success? && r.value != 0.0 ==> a == Actuate && var front := PositionInFront(s.agent);
      s.grid.At(front).Door? && t.grid.At(front).Door?
      && ((r.value == open && !IsOpen(s.grid.At(front)) && IsOpen(t.grid.At(front)))
        || (r.value == close && IsOpen(s.grid.At(front)) && !IsOpen(t.grid.At(front))))
    ensures a == Actuate ==> var front := PositionInFront(s.agent);
      s.grid.Contains(front) && s.grid.At(front).Door? && t.grid.Contains(front) && t.grid.At(front).Door? ==>
        r == Success(
          if !IsOpen(s.grid.At(front)) && IsOpen(t.grid.At(front)) then open
          else if IsOpen(s.grid.At(front)) && !IsOpen(t.grid.At(front)) then close
          else 0.0)
    ensures a == Actuate ==> var front := PositionInFront(s.agent);
      s.grid.Contains(front) && !s.grid.At(front).Door? ==> r == Success(0.0)
    ensures a == Actuate ==> var front := PositionInFront(s.agent);
      s.grid.Contains(front) && s.grid.At(front).Door? && t.grid.Contains(front) && !t.grid.At(front).Door? ==>
        r == Success(0.0)
  {
    if a != Actuate then Success(0.0)
    else
      var front := PositionInFront(s.agent);
      var door :- Get(s.grid, front);
      if !door.Door? then Success(0.0)
      else
        var next :- Get(t.grid, front);
        if !next.Door? then Success(0.0)
        else if !IsOpen(door) && IsOpen(next) then Success(open)
        else if IsOpen(door) && !IsOpen(next) then Success(close)
        else Success(0.0)
  }

  /** `pick` when the held object becomes of class `kind`, `drop` when it stops being
      one, 0 otherwise; the action is not consulted. */
  function PickReward(kind: Kind, pick: real, drop: real, s: State, t: State): (r: real)
    ensures r == pick || r == drop || r == 0.0
    ensures KindOf(s.agent.obj) == KindOf(t.agent.obj) ==> r == 0.0
    ensures pick != 0.0 && pick != drop ==>
      (r == pick <==> KindOf(s.agent.obj) != kind && KindOf(t.agent.obj) == kind)
    ensures drop != 0.0 && pick != drop ==>
      (r == drop <==> KindOf(s.agent.obj) == kind && KindOf(t.agent.obj) != kind)
  {
    var had := KindOf(s.agent.obj) == kind;
    var has := KindOf(t.agent.obj) == kind;
    if !had && has then pick else if had && !has then drop else 0.0
  }

  /** The colour of the first beacon in row-major order; StopIteration when there is
      none. */
  function BeaconColor(g: Grid): (r: Result<Color>)
    ensures r.Failure? <==> forall p | g.Contains(p) :: !g.At(p).Beacon?
    ensures r.Failure? ==> r.error == StopIteration
    ensures r.Success? ==> exists p | g.Contains(p) ::
      g.At(p) == Beacon(r.value) && forall q | g.Contains(q) && Before(q, p) :: !g.At(q).Beacon?
  {
    var ps := GridPositions(g);
    var beacons := Filter(ps, p => g.Contains(p) && g.At(p).Beacon?);
    if |beacons| == 0 then Failure(StopIteration)
    else
      FilterFirst(ps, p => g.Contains(p) && g.At(p).Beacon?);
      FirstInRowMajor(g, beacons[0]);
      Success(g.At(beacons[0]).color)
  }

  /** A position that comes first among the grid positions satisfying a property comes
      before nothing else satisfying it in row-major order. */
  lemma FirstInRowMajor(g: Grid, b: Position)
    requires exists j | 0 <= j < |GridPositions(g)| ::
      GridPositions(g)[j] == b && g.Contains(b) && g.At(b).Beacon?
      && forall i | 0 <= i < j :: !(g.Contains(GridPositions(g)[i]) && g.At(GridPositions(g)[i]).Beacon?)
    ensures g.Contains(b) && g.At(b).Beacon?
    ensures forall q | g.Contains(q) && Before(q, b) :: !g.At(q).Beacon?
  {
    var ps := GridPositions(g);
    var j :| 0 <= j < |ps| && ps[j] == b && g.Contains(b) && g.At(b).Beacon?
      && forall i | 0 <= i < j :: !(g.Contains(ps[i]) && g.At(ps[i]).Beacon?);
    forall q | g.Contains(q) && Before(q, b) ensures !g.At(q).Beacon? {
      var i :| 0 <= i < |ps| && ps[i] == q;
    }
  }

  /** The memory reward: on an exit, `good` when its colour is the beacon colour and `bad`
      otherwise; 0 off the exits. An agent off the grid raises IndexError before a
      missing beacon raises StopIteration. */
  function MemoryReward(good: real, bad: real, t: State): (r: Result<real>)
    ensures !t.grid.Contains(t.agent.position) ==> r == Failure(IndexError)
    ensures t.grid.Contains(t.agent.position) ==> (r.Failure? <==> BeaconColor(t.grid).Failure?)
    ensures r.Success? ==> var o := t.grid.At(t.agent.position);
      if o.Exit? then r.value == (if o.color == BeaconColor(t.grid).value then good else bad)
      else r.value == 0.0
  {
    var o :- Get(t.grid, t.agent.position);
    var beacon :- BeaconColor(t.grid);
    Success(if o.Exit? then (if o.color == beacon then good else bad) else 0.0)
  }

  // ---------------------------------------------------------------------------------
  // Evaluation
  // ---------------------------------------------------------------------------------

  /** Python's `sum`: 0 plus each element in turn. */
  function Sum(xs: seq<real>): real {
    if |xs| == 0 then 0.0 else Sum(xs[..|xs| - 1]) + xs[|xs| - 1]
  }

  /** The exception that leaves a generator expression when its body raises `e`: a
      StopIteration inside a generator becomes RuntimeError (PEP 479); any other
      exception passes through. */
  function GeneratorError(e: ErrorKind): (r: ErrorKind)
    ensures r != StopIteration
    ensures e != StopIteration ==> r == e
    ensures e == StopIteration ==> r == RuntimeError
  {
    if e == StopIteration then RuntimeError else e
  }

  /** The member rewards as the reduction reads them through `reduce`'s generator. */
  function Generated(c: Result<seq<real>>): (r: Result<seq<real>>)
    ensures r.Success? <==> c.Success?
    ensures r.Success? ==> r.value == c.value
    ensures r.Failure? ==> r.error == GeneratorError(c.error)
  {
    if c.Failure? then Failure(GeneratorError(c.error)) else c
  }

  /** Evaluates a reward function on a transition. A reduction fails exactly when one of
      its members does, with that member's error as it leaves the generator, so never
      with StopIteration. */
  function Eval(f: RewardFunction, custom: CustomRewards, s: State, a: Action, t: State): (r: Result<real>)
    ensures f.Reduce? || f.ReduceSum? ==>
      (r.Failure? <==> Collect(Results(f, 0, custom, s, a, t), 0).Failure?)
    ensures (f.Reduce? || f.ReduceSum?) && r.Failure? ==>
      r.error == GeneratorError(Collect(Results(f, 0, custom, s, a, t), 0).error) && r.error != StopIteration
    decreases f, 1
  {
    match f
    case Reduce(fns, reduction) =>
      var xs :- Generated(Collect(Results(f, 0, custom, s, a, t), 0));
      Success(reduction(xs))
    case ReduceSum(fns) =>
      var xs :- Generated(Collect(Results(f, 0, custom, s, a, t), 0));
      Success(Sum(xs))
    case Overlap(kind, on, off) => OverlapReward(kind, on, off, t)
    case LivingReward(reward) => Success(reward)
    case ReachExit(on, off) => OverlapReward(ExitKind, on, off, t)
    case BumpMovingObstacle(reward) => OverlapReward(MovingObstacleKind, reward, 0.0, t)
    case ProportionalToDistance(distance, kind, rate) => ProportionalReward(distance, kind, rate, t)
    case GettingCloser(distance, kind, closer, further) => CloserReward(distance, kind, closer, further, s, t)
    case GettingCloserShortestPath(kind, closer, further) => ShortestPathReward(kind, closer, further, s, t)
    case BumpIntoWall(reward) => Success(WallReward(reward, s, a))
    case ActuateDoor(open, close) => DoorReward(open, close, s, a, t)
    case PickNDrop(kind, pick, drop) => Success(PickReward(kind, pick, drop, s, t))
    case ReachExitMemory(good, bad) => MemoryReward(good, bad, t)
    case Custom(name, kwargs) => custom(name, kwargs, s, a, t)
  }

  /** What each member of a reduction from index `i` on pays on the transition, in order.
      The source hands the reduction a generator; collecting it raises the first error
      met. */
  function Results(f: RewardFunction, i: nat, custom: CustomRewards, s: State, a: Action, t: State)
    : (r: seq<Result<real>>)
    requires (f.Reduce? || f.ReduceSum?) && i <= |f.fns|
    ensures |r| == |f.fns| - i
    decreases f, 0, |f.fns| - i
  {
    if i == |f.fns| then [] else [Eval(f.fns[i], custom, s, a, t)] + Results(f, i + 1, custom, s, a, t)
  }

  // ---------------------------------------------------------------------------------
  // The factory
  // ---------------------------------------------------------------------------------

  /** The built-in reward functions, by factory name. */
  datatype Builtin =
    | ReduceName | ReduceSumName | OverlapName | LivingRewardName | ReachExitName
    | BumpMovingObstacleName | ProportionalToDistanceName | GettingCloserName
    | GettingCloserShortestPathName | BumpIntoWallName | ActuateDoorName | PickNDropName
    | ReachExitMemoryName

  /** The factory name of a built-in reward function. */
  function BuiltinName(b: Builtin): string {
    match b
    case ReduceName => "reduce"
    case ReduceSumName => "reduce_sum"
    case OverlapName => "overlap"
    case LivingRewardName => "living_reward"
    case ReachExitName => "reach_exit"
    case BumpMovingObstacleName => "bump_moving_obstacle"
    case ProportionalToDistanceName => "proportional_to_distance"
    case GettingCloserName => "getting_closer"
    case GettingCloserShortestPathName => "getting_closer_shortest_path"
    case BumpIntoWallName => "bump_into_wall"
    case ActuateDoorName => "actuate_door"
    case PickNDropName => "pickndrop"
    case ReachExitMemoryName => "reach_exit_memory"
  }

  /** The built-in reward function a factory name denotes, if any. */
  function ParseBuiltin(name: string): (r: Option<Builtin>)
    ensures r.Some? ==> BuiltinName(r.value) == name
    ensures r.None? ==> forall b :: BuiltinName(b) != name
  {
    if name == "reduce" then Some(ReduceName)
    else if name == "reduce_sum" then Some(ReduceSumName)
    else if name == "overlap" then Some(OverlapName)
    else if name == "living_reward" then Some(LivingRewardName)
    else if name == "reach_exit" then Some(ReachExitName)
    else if name == "bump_moving_obstacle" then Some(BumpMovingObstacleName)
    else if name == "proportional_to_distance" then Some(ProportionalToDistanceName)
    else if name == "getting_closer" then Some(GettingCloserName)
    else if name == "getting_closer_shortest_path" then Some(GettingCloserShortestPathName)
    else if name == "bump_into_wall" then Some(BumpIntoWallName)
    else if name == "actuate_door" then Some(ActuateDoorName)
    else if name == "pickndrop" then Some(PickNDropName)
    else if name == "reach_exit_memory" then Some(ReachExitMemoryName)
    else None
  }

  /** The types a keyword argument can have. */
  datatype ArgType = RealType | KindType | RewardsType | ReductionType | DistanceType

  /** Whether `a` has type `t`. */
  predicate HasType(a: Arg, t: ArgType) {
    match t
    case RealType => a.RealArg?
    case KindType => a.KindArg?
    case RewardsType => a.RewardsArg?
    case ReductionType => a.ReductionArg?
    case DistanceType => a.DistanceArg?
  }

  /** A keyword parameter and the type of the values it takes. */
  datatype Param = Param(key: string, typ: ArgType)

  /** The keyword parameters a built-in reward function cannot do without. */
  function Required(b: Builtin): seq<Param> {
    match b
    case ReduceName => [Param("reward_functions", RewardsType), Param("reduction", ReductionType)]
    case ReduceSumName => [Param("reward_functions", RewardsType)]
    case OverlapName | ProportionalToDistanceName | GettingCloserName
      | GettingCloserShortestPathName | PickNDropName => [Param("object_type", KindType)]
    case _ => []
  }

  /** The keyword parameters a built-in reward function accepts with a default. */
  function Optional(b: Builtin): seq<Param> {
    match b
    case OverlapName | ReachExitName => [Param("reward_on", RealType), Param("reward_off", RealType)]
    case LivingRewardName | BumpMovingObstacleName | BumpIntoWallName => [Param("reward", RealType)]
    case ProportionalToDistanceName =>
      [Param("distance_function", DistanceType), Param("reward_per_unit_distance", RealType)]
    case GettingCloserName =>
      [Param("distance_function", DistanceType), Param("reward_closer", RealType), Param("reward_further", RealType)]
    case GettingCloserShortestPathName => [Param("reward_closer", RealType), Param("reward_further", RealType)]
    case ActuateDoorName => [Param("reward_open", RealType), Param("reward_close", RealType)]
    case PickNDropName => [Param("reward_pick", RealType), Param("reward_drop", RealType)]
    case ReachExitMemoryName => [Param("reward_good", RealType), Param("reward_bad", RealType)]
    case _ => []
  }

  /** Every keyword parameter of a built-in reward function, the required ones first. */
  function Params(b: Builtin): seq<Param> {
    Required(b) + Optional(b)
  }

  /** The keywords of a parameter list. */
  function KeyList(ps: seq<Param>): (r: seq<string>)
    ensures |r| == |ps| && forall i | 0 <= i < |ps| :: r[i] == ps[i].key
  {
    seq(|ps|, i requires 0 <= i < |ps| => ps[i].key)
  }

  /** Every required keyword of `b` is bound. */
  predicate Complete(b: Builtin, kwargs: map<string, Arg>) {
    forall i | 0 <= i < |Required(b)| :: Required(b)[i].key in kwargs
  }

  /** Every keyword argument `b` binds has the type its parameter expects. */
  predicate WellTyped(b: Builtin, kwargs: map<string, Arg>) {
    forall i | 0 <= i < |Params(b)| && Params(b)[i].key in kwargs :: HasType(kwargs[Params(b)[i].key], Params(b)[i].typ)
  }

  /** The value of the required parameter `i` of `b`. */
  function RequiredAt(b: Builtin, kwargs: map<string, Arg>, i: nat, t: ArgType): (r: Arg)
    requires Complete(b, kwargs) && WellTyped(b, kwargs)
    requires i < |Required(b)| && Required(b)[i].typ == t
    ensures HasType(r, t)
  {
    assert Params(b)[i] == Required(b)[i];
    kwargs[Required(b)[i].key]
  }

  /** The real bound to the optional parameter `i` of `b`, or `default`. */
  function RealOr(b: Builtin, kwargs: map<string, Arg>, i: nat, default: real): real
    requires WellTyped(b, kwargs)
    requires i < |Optional(b)| && Optional(b)[i].typ == RealType
  {
    var k := Optional(b)[i].key;
    assert Params(b)[|Required(b)| + i] == Optional(b)[i];
    if k in kwargs then kwargs[k].value else default
  }

  /** The distance function bound to the optional parameter `i` of `b`, or Manhattan
      distance. */
  function DistanceOr(b: Builtin, kwargs: map<string, Arg>, i: nat): DistanceFunction
    requires WellTyped(b, kwargs)
    requires i < |Optional(b)| && Optional(b)[i].typ == DistanceType
  {
    var k := Optional(b)[i].key;
    assert Params(b)[|Required(b)| + i] == Optional(b)[i];
    if k in kwargs then kwargs[k].measure else Manhattan
  }

  /** The factory name of a reward function. */
  function NameOf(f: RewardFunction): string {
    match f
    case Reduce(_, _) => "reduce"
    case ReduceSum(_) => "reduce_sum"
    case Overlap(_, _, _) => "overlap"
    case LivingReward(_) => "living_reward"
    case ReachExit(_, _) => "reach_exit"
    case BumpMovingObstacle(_) => "bump_moving_obstacle"
    case ProportionalToDistance(_, _, _) => "proportional_to_distance"
    case GettingCloser(_, _, _, _) => "getting_closer"
    case GettingCloserShortestPath(_, _, _) => "getting_closer_shortest_path"
    case BumpIntoWall(_) => "bump_into_wall"
    case ActuateDoor(_, _) => "actuate_door"
    case PickNDrop(_, _, _) => "pickndrop"
    case ReachExitMemory(_, _) => "reach_exit_memory"
    case Custom(name, _) => name
  }

  /** Binds the keyword arguments of a built-in reward function, filling in the
      defaults. */
  function Bind(b: Builtin, kwargs: map<string, Arg>): (r: RewardFunction)
    requires Complete(b, kwargs) && WellTyped(b, kwargs)
    ensures NameOf(r) == BuiltinName(b)
  {
    match b
    case ReduceName =>
      Reduce(RequiredAt(b, kwargs, 0, RewardsType).functions, RequiredAt(b, kwargs, 1, ReductionType).reduce)
    case ReduceSumName => ReduceSum(RequiredAt(b, kwargs, 0, RewardsType).functions)
    case OverlapName =>
      Overlap(RequiredAt(b, kwargs, 0, KindType).kind, RealOr(b, kwargs, 0, 1.0), RealOr(b, kwargs, 1, 0.0))
    case LivingRewardName => LivingReward(RealOr(b, kwargs, 0, -1.0))
    case ReachExitName => ReachExit(RealOr(b, kwargs, 0, 1.0), RealOr(b, kwargs, 1, 0.0))
    case BumpMovingObstacleName => BumpMovingObstacle(RealOr(b, kwargs, 0, -1.0))
    case ProportionalToDistanceName =>
      ProportionalToDistance(DistanceOr(b, kwargs, 0), RequiredAt(b, kwargs, 0, KindType).kind, RealOr(b, kwargs, 1, -1.0))
    case GettingCloserName =>
      GettingCloser(DistanceOr(b, kwargs, 0), RequiredAt(b, kwargs, 0, KindType).kind,
        RealOr(b, kwargs, 1, 1.0), RealOr(b, kwargs, 2, -1.0))
    case GettingCloserShortestPathName =>
      GettingCloserShortestPath(RequiredAt(b, kwargs, 0, KindType).kind, RealOr(b, kwargs, 0, 1.0), RealOr(b, kwargs, 1, -1.0))
    case BumpIntoWallName => BumpIntoWall(RealOr(b, kwargs, 0, -1.0))
    case ActuateDoorName => ActuateDoor(RealOr(b, kwargs, 0, 1.0), RealOr(b, kwargs, 1, -1.0))
    case PickNDropName =>
      RewardFunction.PickNDrop(RequiredAt(b, kwargs, 0, KindType).kind, RealOr(b, kwargs, 0, 1.0), RealOr(b, kwargs, 1, -1.0))
    case ReachExitMemoryName => ReachExitMemory(RealOr(b, kwargs, 0, 1.0), RealOr(b, kwargs, 1, -1.0))
  }

  /** Builds a built-in reward function: ValueError when a required keyword is missing,
      otherwise the function bound to the keywords it knows, with defaults for the rest. */
  function BuildBuiltin(b: Builtin, kwargs: map<string, Arg>): (r: Result<RewardFunction>)
    ensures r.Success? <==> Complete(b, kwargs) && WellTyped(b, kwargs)
    ensures r.Failure? ==> (r.error == ValueError <==> !Complete(b, kwargs))
    ensures r.Failure? ==> r.error == ValueError || r.error == TypeError
    ensures r.Success? ==> NameOf(r.value) == BuiltinName(b)
  {
    SelectedKwargs(b, kwargs);
    var _ :- CheckraiseKwargs(kwargs, KeyList(Required(b)));
    var selected := SelectKwargs(kwargs, KeyList(Params(b)));
    if !WellTyped(b, selected) then Failure(TypeError) else Success(Bind(b, selected))
  }

  /** Builds a user-supplied `module:function` reward bound to every keyword argument;
      a name that is not of that form raises ValueError. */
  function BuildCustom(name: string, kwargs: map<string, Arg>): (r: Result<RewardFunction>)
    ensures r.Success? <==> IsCustomFunction(name) && CustomFunctionName(name).Success?
    ensures r.Failure? ==> r.error == ValueError
    ensures r.Success? ==> r.value == Custom(name, kwargs)
  {
    if !IsCustomFunction(name) then Failure(ValueError)
    else
      var _ :- CustomFunctionName(name);
      Success(Custom(name, kwargs))
  }

  /** Builds a reward function by name: a built-in name binds its keyword arguments, a
      `module:function` name binds every keyword argument to the user-supplied function,
      and any other name raises ValueError. */
  function Factory(name: string, kwargs: map<string, Arg>): (r: Result<RewardFunction>)
    ensures ParseBuiltin(name).Some? ==> r == BuildBuiltin(ParseBuiltin(name).value, kwargs)
    ensures ParseBuiltin(name).None? ==> r == BuildCustom(name, kwargs)
    ensures r.Success? ==> NameOf(r.value) == name
  {
    match ParseBuiltin(name)
    case Some(b) => BuildBuiltin(b, kwargs)
    case None => BuildCustom(name, kwargs)
  }

  /** Selecting the keywords of `b` keeps its required ones and their types, and the
      required-keyword check is the completeness of the binding. */
  lemma SelectedKwargs(b: Builtin, kwargs: map<string, Arg>)
    ensures CheckraiseKwargs(kwargs, KeyList(Required(b))).Success? <==> Complete(b, kwargs)
    ensures var selected := SelectKwargs(kwargs, KeyList(Params(b)));
      (Complete(b, selected) <==> Complete(b, kwargs)) && (WellTyped(b, selected) <==> WellTyped(b, kwargs))
  {
    CheckraiseComplete(b, kwargs);
    SelectedComplete(b, kwargs);
    SelectedWellTyped(b, kwargs);
  }

  lemma CheckraiseComplete(b: Builtin, kwargs: map<string, Arg>)
    ensures CheckraiseKwargs(kwargs, KeyList(Required(b))).Success? <==> Complete(b, kwargs)
  {
    var req := KeyList(Required(b));
    forall i | 0 <= i < |Required(b)| ensures Required(b)[i].key in req {
      assert req[i] == Required(b)[i].key;
    }
  }

  lemma SelectedComplete(b: Builtin, kwargs: map<string, Arg>)
    ensures Complete(b, SelectKwargs(kwargs, KeyList(Params(b)))) <==> Complete(b, kwargs)
  {
    var all := KeyList(Params(b));
    forall i | 0 <= i < |Required(b)| ensures Required(b)[i].key in all {
      assert Required(b)[i] == Params(b)[i];
      assert all[i] == Params(b)[i].key;
    }
  }

  lemma SelectedWellTyped(b: Builtin, kwargs: map<string, Arg>)
    ensures WellTyped(b, SelectKwargs(kwargs, KeyList(Params(b)))) <==> WellTyped(b, kwargs)
  {
    var all := KeyList(Params(b));
    forall i | 0 <= i < |Params(b)| ensures Params(b)[i].key in all {
      assert all[i] == Params(b)[i].key;
    }
  }
}

=== FILE: rng.dfy ===
/** Randomness as an explicit argument. A generator is a stream of raw draws; every random
    choice consumes one draw and reduces it modulo the number of candidates, so every
    candidate is reachable and nothing outside the candidate list can be chosen. */
module Rng {
  import opened Wrappers
  import opened Seqs

  datatype Rng = Rng(draws: seq<nat>)

  /** The next raw draw (0 once the stream is exhausted) and the remaining generator. */
  function Draw(r: Rng): (nat, Rng) {
    if |r.draws| == 0 then (0, r) else (r.draws[0], Rng(r.draws[1..]))
  }

  /** A uniformly chosen element; an empty candidate list raises ValueError. */
  function Choice<T>(r: Rng, xs: seq<T>): (res: Result<(T, Rng)>)
    ensures res.Failure? <==> |xs| == 0
    ensures res.Failure? ==> res.error == ValueError
    ensures res.Success? ==> res.value.0 in xs
  {
    if |xs| == 0 then Failure(ValueError)
    else
      var (n, r') := Draw(r);
      Success((xs[n % |xs|], r'))
  }

  /** Every candidate is the outcome of some generator. */
  lemma ChoiceReachable<T>(xs: seq<T>, i: nat)
    requires i < |xs|
    ensures Choice(Rng([i]), xs) == Success((xs[i], Rng([])))
  {
    assert i % |xs| == i;
    assert [i][1..] == [];
  }

  /** An integer in `[low, high)`; an empty range raises ValueError. */
  function Integers(r: Rng, low: int, high: int): (res: Result<(int, Rng)>)
    ensures res.Failure? <==> low >= high
    ensures res.Failure? ==> res.error == ValueError
    ensures res.Success? ==> low <= res.value.0 < high
  {
    if low >= high then Failure(ValueError)
    else
      var (n, r') := Draw(r);
      Success((low + n % (high - low), r'))
  }

  /** An integer in `[low, high]` (numpy's `endpoint=True`). */
  function IntegersInclusive(r: Rng, low: int, high: int): (res: Result<(int, Rng)>)
    ensures res.Failure? <==> low > high
    ensures res.Failure? ==> res.error == ValueError
    ensures res.Success? ==> low <= res.value.0 <= high
  {
    Integers(r, low, high + 1)
  }

  /** `k` elements drawn without replacement; a negative `k`, or more than there are,
      raises ValueError. */
  function Sample<T>(r: Rng, xs: seq<T>, k: int): (res: Result<(seq<T>, Rng)>)
    ensures res.Failure? <==> k < 0 || k > |xs|
    ensures res.Failure? ==> res.error == ValueError
    ensures res.Success? ==> |res.value.0| == k && multiset(res.value.0) <= multiset(xs)
    ensures res.Success? ==> forall x | x in res.value.0 :: x in xs
    decreases if k < 0 then 0 else k
  {
    if k < 0 || k > |xs| then Failure(ValueError)
    else if k == 0 then Success(([], r))
    else
      var (n, r') := Draw(r);
      var i := n % |xs|;
      var rest := xs[..i] + xs[i + 1..];
      assert xs == xs[..i] + [xs[i]] + xs[i + 1..];
      assert multiset(xs) == multiset(rest) + multiset{xs[i]};
      var (tail, r'') := Sample(r', rest, k - 1).value;
      Success(([xs[i]] + tail, r''))
  }

  /** Drawing without replacement from distinct candidates gives distinct elements. */
  lemma {:induction false} SampleDistinct<T>(r: Rng, xs: seq<T>, k: int)
    requires Distinct(xs)
    requires Sample(r, xs, k).Success?
    ensures Distinct(Sample(r, xs, k).value.0)
    decreases if k < 0 then 0 else k
  {
    if k > 0 {
      var (n, r') := Draw(r);
      var i := n % |xs|;
      var rest := xs[..i] + xs[i + 1..];
      RemoveDistinct(xs, i);
      SampleDistinct(r', rest, k - 1);
      var tail := Sample(r', rest, k - 1).value.0;
      assert Sample(r, xs, k).value.0 == [xs[i]] + tail;
      DistinctCons(xs[i], tail);
    }
  }

  /** Removing one element of a distinct sequence leaves a distinct sequence without it. */
  lemma RemoveDistinct<T>(xs: seq<T>, i: nat)
    requires Distinct(xs) && i < |xs|
    ensures Distinct(xs[..i] + xs[i + 1..]) && xs[i] !in xs[..i] + xs[i + 1..]
  {
    var rest := xs[..i] + xs[i + 1..];
    assert forall a | 0 <= a < |rest| :: rest[a] == if a < i then xs[a] else xs[a + 1];
  }
}

=== FILE: seqs.dfy ===
/** Small sequence combinators shared by the dynamics, rewards and resets. */
module Seqs {

  /** No element occurs twice. */
  predicate Distinct<T(==)>(xs: seq<T>) {
    forall i, j | 0 <= i < j < |xs| :: xs[i] != xs[j]
  }

  /** The elements of `xs` that satisfy `keep`, in their original order. */
  function Filter<T(==,!new)>(xs: seq<T>, keep: T -> bool): (r: seq<T>)
    ensures |r| <= |xs|
    ensures forall x :: x in r <==> x in xs && keep(x)
    ensures multiset(r) <= multiset(xs)
  {
    if |xs| == 0 then []
    else
      assert xs == [xs[0]] + xs[1..];
      (if keep(xs[0]) then [xs[0]] else []) + Filter(xs[1..], keep)
  }

  /** Filtering keeps distinct elements distinct. */
  lemma {:induction false} FilterDistinct<T(!new)>(xs: seq<T>, keep: T -> bool)
    requires Distinct(xs)
    ensures Distinct(Filter(xs, keep))
  {
    if |xs| > 0 {
      assert Distinct(xs[1..]);
      FilterDistinct(xs[1..], keep);
      var rest := Filter(xs[1..], keep);
      assert xs[0] !in xs[1..];
      var r := Filter(xs, keep);
      if keep(xs[0]) {
        assert r == [xs[0]] + rest;
        forall i, j | 0 <= i < j < |r| ensures r[i] != r[j] {
          if i == 0 {
            assert r[j] == rest[j - 1];
          } else {
            assert r[i] == rest[i - 1] && r[j] == rest[j - 1];
          }
        }
      } else {
        assert r == rest;
      }
    }
  }

  /** Prepending a new element keeps a sequence distinct. */
  lemma DistinctCons<T>(x: T, xs: seq<T>)
    requires Distinct(xs) && x !in xs
    ensures Distinct([x] + xs)
  {
    var ys := [x] + xs;
    forall i, j | 0 <= i < j < |ys| ensures ys[i] != ys[j] {
      assert ys[j] == xs[j - 1];
      if i > 0 {
        assert ys[i] == xs[i - 1];
      }
    }
  }

  /** The first element a filter keeps is the earliest element of `xs` satisfying `keep`. */
  lemma {:induction false} FilterFirst<T(!new)>(xs: seq<T>, keep: T -> bool)
    requires |Filter(xs, keep)| > 0
    ensures exists j | 0 <= j < |xs| ::
      xs[j] == Filter(xs, keep)[0] && keep(xs[j]) && forall i | 0 <= i < j :: !keep(xs[i])
  {
    if !keep(xs[0]) {
      FilterFirst(xs[1..], keep);
      var j :| 0 <= j < |xs[1..]| && xs[1..][j] == Filter(xs[1..], keep)[0] && keep(xs[1..][j])
        && forall i | 0 <= i < j :: !keep(xs[1..][i]);
      assert xs[j + 1] == xs[1..][j];
      forall i | 0 <= i < j + 1 ensures !keep(xs[i]) {
        if i > 0 {
          assert xs[i] == xs[1..][i - 1];
        }
      }
    } else {
      assert xs[0] == Filter(xs, keep)[0];
    }
  }

  /** Python's `range(lo, hi)`: the integers from `lo` up to but excluding `hi`. */
  function Range(lo: int, hi: int): (r: seq<int>)
    ensures |r| == if lo <= hi then hi - lo else 0
    ensures forall i | 0 <= i < |r| :: r[i] == lo + i
    ensures forall x :: x in r <==> lo <= x < hi
  {
    if lo >= hi then []
    else
      var r := seq(hi - lo, i => lo + i);
      assert forall x | lo <= x < hi :: x in r by {
        forall x | lo <= x < hi ensures x in r {
          assert r[x - lo] == x;
        }
      }
      r
  }

  /** The least element of a non-empty sequence. */
  function SeqMin(xs: seq<int>): (m: int)
    requires |xs| > 0
    ensures m in xs && forall x | x in xs :: m <= x
  {
    if |xs| == 1 then xs[0]
    else
      var rest := SeqMin(xs[1..]);
      assert forall x | x in xs :: x == xs[0] || x in xs[1..];
      if xs[0] <= rest then xs[0] else rest
  }

  /** The greatest element of a non-empty sequence. */
  function SeqMax(xs: seq<int>): (m: int)
    requires |xs| > 0
    ensures m in xs && forall x | x in xs :: x <= m
  {
    if |xs| == 1 then xs[0]
    else
      var rest := SeqMax(xs[1..]);
      assert forall x | x in xs :: x == xs[0] || x in xs[1..];
      if xs[0] >= rest then xs[0] else rest
  }

  /** A filter that keeps every element is the identity. */
  lemma {:induction false} FilterAll<T(!new)>(xs: seq<T>, keep: T -> bool)
    requires forall x | x in xs :: keep(x)
    ensures Filter(xs, keep) == xs
  {
    if |xs| > 0 {
      forall x | x in xs[1..] ensures keep(x) {
        assert x in xs;
      }
      FilterAll(xs[1..], keep);
      assert keep(xs[0]);
      assert Filter(xs, keep) == [xs[0]] + Filter(xs[1..], keep);
      assert xs == [xs[0]] + xs[1..];
    }
  }

  /** A sequence without repeats has as many elements as the set of its elements. */
  lemma {:induction false} DistinctCardinality<T>(xs: seq<T>)
    requires Distinct(xs)
    ensures |(set x | x in xs)| == |xs|
  {
    if |xs| > 0 {
      assert Distinct(xs[1..]);
      DistinctCardinality(xs[1..]);
      assert (set x | x in xs) == {xs[0]} + (set x | x in xs[1..]);
      assert xs[0] !in (set x | x in xs[1..]);
    }
  }
}

=== FILE: shortest_path.dfy ===
/** Breadth-first navigation distances over a passability layout, as used by the
    shortest-path shaping reward. Distances are exact naturals or infinity. */
module ShortestPaths {
  import opened Wrappers
  import opened Geometry
  import opened Seqs
  import opened Grids

  /** A distance as the float array holds it: a whole number or infinity. */
  datatype Dist = Fin(n: nat) | Inf

  /** Float comparison `a <= b` with infinity on top. */
  predicate DistLe(a: Dist, b: Dist) {
    b.Inf? || (a.Fin? && a.n <= b.n)
  }

  /** Float comparison `a < b`; infinity is not below infinity. */
  predicate DistLt(a: Dist, b: Dist) {
    a.Fin? && (b.Inf? || a.n < b.n)
  }

  /** Float `a + 1`. */
  function Succ(a: Dist): Dist {
    if a.Fin? then Fin(a.n + 1) else Inf
  }

  /** Whether each cell can be walked through. */
  type Layout = m: Matrix<bool> | m.Valid() witness Matrix(0, 0, [])

  /** A distance per cell. */
  type Distances = m: Matrix<Dist> | m.Valid() witness Matrix(0, 0, [])

  predicate Passable(layout: Layout, p: Position) {
    layout.Contains(p) && layout.At(p)
  }

  /** The four neighbours in the order the search expands them: up, down, left, right. */
  function Neighbours(p: Position): seq<Position> {
    [Position(p.y - 1, p.x), Position(p.y + 1, p.x), Position(p.y, p.x - 1), Position(p.y, p.x + 1)]
  }

  /** The neighbours are exactly the adjacent cells, and adjacency is symmetric. */
  lemma NeighboursAdjacent(p: Position, q: Position)
    ensures q in Neighbours(p) <==> Adjacent(q, p)
    ensures q in Neighbours(p) <==> p in Neighbours(q)
  {
  }

  /** A walk from `w[0]` that only enters passable cells, one step at a time. The start
      cell itself need not be passable. */
  predicate IsPath(layout: Layout, w: seq<Position>) {
    |w| > 0 && layout.Contains(w[0])
    && forall i | 0 < i < |w| :: Passable(layout, w[i]) && Adjacent(w[i - 1], w[i])
  }

  // ---------------------------------------------------------------------------------
  // The search
  // ---------------------------------------------------------------------------------

  /** Every enqueued cell is in bounds and enqueued once, and the finite cells are exactly
      the enqueued ones. */
  ghost predicate Enqueued(layout: Layout, d: Distances, order: seq<Position>) {
    d.Shape() == layout.Shape()
    && (forall i | 0 <= i < |order| :: layout.Contains(order[i]))
    && Distinct(order)
    && (forall p | layout.Contains(p) :: d.At(p).Fin? <==> p in order)
  }

  /** The source is at 0 and is the only cell at 0; any other finite cell is passable and
      has a neighbour exactly one closer. */
  ghost predicate Sound(layout: Layout, source: Position, d: Distances) {
    d.Shape() == layout.Shape() && layout.Contains(source) && d.At(source) == Fin(0)
    && forall p | layout.Contains(p) && d.At(p).Fin? ::
      if d.At(p).n == 0 then p == source
      else (Passable(layout, p)
        && exists q | q in Neighbours(p) :: layout.Contains(q) && d.At(q) == Fin(d.At(p).n - 1))
  }

  /** The queue holds non-decreasing distances, and no entry exceeds the head's by more
      than one. */
  ghost predicate Layered(d: Distances, order: seq<Position>, head: nat)
    requires forall i | 0 <= i < |order| :: d.Contains(order[i])
  {
    (forall i, j | 0 <= i < j < |order| :: DistLe(d.At(order[i]), d.At(order[j])))
    && (head < |order| ==> forall j | 0 <= j < |order| :: DistLe(d.At(order[j]), Succ(d.At(order[head]))))
  }

  /** Every processed cell has its passable neighbours reached, at most one further. */
  ghost predicate Closed(layout: Layout, d: Distances, order: seq<Position>, head: nat)
    requires d.Shape() == layout.Shape() && head <= |order|
    requires forall i | 0 <= i < |order| :: layout.Contains(order[i])
  {
    forall i, q | 0 <= i < head && layout.Contains(order[i]) && q in Neighbours(order[i]) && Passable(layout, q) ::
      DistLe(d.At(q), Succ(d.At(order[i])))
  }

  /** The loop invariant of the search. */
  ghost predicate Inv(layout: Layout, source: Position, d: Distances, order: seq<Position>, head: nat) {
    Enqueued(layout, d, order) && head <= |order|
    && Sound(layout, source, d)
    && Layered(d, order, head)
    && Closed(layout, d, order, head)
  }

  /** Expands one cell: each passable, unreached cell of `ns` gets distance `k` and joins
      the queue, in the order of `ns`. */
  function Visit(layout: Layout, d: Distances, order: seq<Position>, k: nat, ns: seq<Position>)
    : (r: (Distances, seq<Position>))
    requires d.Shape() == layout.Shape()
    ensures r.0.Shape() == d.Shape()
    ensures |r.1| >= |order| && r.1[..|order|] == order
    decreases |ns|
  {
    if |ns| == 0 then (d, order)
    else
      var n := ns[0];
      if Passable(layout, n) && d.At(n) == Inf then
        var d1 := Update(d, n, Fin(k));
        var r := Visit(layout, d1, order + [n], k, ns[1..]);
        assert r.1[..|order|] == order by {
          assert r.1[..|order|] == r.1[..|order| + 1][..|order|];
        }
        r
      else
        Visit(layout, d, order, k, ns[1..])
  }

  /** Each cell joining the queue leaves one fewer unreached cell. */
  lemma {:induction false} VisitCount(layout: Layout, d: Distances, order: seq<Position>, k: nat, ns: seq<Position>)
    requires d.Shape() == layout.Shape()
    ensures var r := Visit(layout, d, order, k, ns);
      Objects(r.0)[Inf] + (|r.1| - |order|) == Objects(d)[Inf]
    decreases |ns|
  {
    if |ns| > 0 {
      var n := ns[0];
      if Passable(layout, n) && d.At(n) == Inf {
        UpdateObjects(d, n, Fin(k));
        VisitCount(layout, Update(d, n, Fin(k)), order + [n], k, ns[1..]);
      } else {
        VisitCount(layout, d, order, k, ns[1..]);
      }
    }
  }

  /** A cell `Visit` reaches: a passable cell of `ns` that had no distance yet. */
  predicate Fresh(layout: Layout, d: Distances, ns: seq<Position>, p: Position)
    requires d.Shape() == layout.Shape()
  {
    p in ns && Passable(layout, p) && d.At(p) == Inf
  }

  /** After `Visit`, exactly the fresh cells have changed, and they sit at distance `k`. */
  lemma {:induction false} VisitCells(layout: Layout, d: Distances, order: seq<Position>, k: nat, ns: seq<Position>)
    requires d.Shape() == layout.Shape()
    ensures var r := Visit(layout, d, order, k, ns);
      forall p | layout.Contains(p) :: r.0.At(p) == (if Fresh(layout, d, ns, p) then Fin(k) else d.At(p))
    decreases |ns|
  {
    if |ns| > 0 {
      var n := ns[0];
      if Passable(layout, n) && d.At(n) == Inf {
        VisitCells(layout, Update(d, n, Fin(k)), order + [n], k, ns[1..]);
      } else {
        VisitCells(layout, d, order, k, ns[1..]);
      }
    }
  }

  /** Every fresh cell joins the queue. */
  lemma {:induction false} VisitComplete(layout: Layout, d: Distances, order: seq<Position>, k: nat, ns: seq<Position>)
    requires d.Shape() == layout.Shape()
    ensures var r := Visit(layout, d, order, k, ns);
      forall p | Fresh(layout, d, ns, p) :: p in r.1
    decreases |ns|
  {
    if |ns| > 0 {
      var n := ns[0];
      if Passable(layout, n) && d.At(n) == Inf {
        var d1 := Update(d, n, Fin(k));
        VisitComplete(layout, d1, order + [n], k, ns[1..]);
        var r := Visit(layout, d1, order + [n], k, ns[1..]);
        assert r.1[..|order| + 1] == order + [n];
        assert n in r.1[..|order| + 1];
        forall p | Fresh(layout, d, ns, p) && p != n ensures Fresh(layout, d1, ns[1..], p) {
          assert p in ns[1..];
        }
      } else {
        VisitComplete(layout, d, order, k, ns[1..]);
        forall p | Fresh(layout, d, ns, p) ensures Fresh(layout, d, ns[1..], p) {
          assert p != n && p in ns[1..];
        }
      }
    }
  }

  /** The cells `Visit` enqueues are distinct fresh cells. */
  lemma {:induction false} VisitAdded(layout: Layout, d: Distances, order: seq<Position>, k: nat, ns: seq<Position>)
    requires d.Shape() == layout.Shape()
    ensures var r := Visit(layout, d, order, k, ns);
      (forall p | p in r.1[|order|..] :: Fresh(layout, d, ns, p)) && Distinct(r.1[|order|..])
    decreases |ns|
  {
    if |ns| > 0 {
      var n := ns[0];
      if Passable(layout, n) && d.At(n) == Inf {
        var d1 := Update(d, n, Fin(k));
        VisitAdded(layout, d1, order + [n], k, ns[1..]);
        var r := Visit(layout, d1, order + [n], k, ns[1..]);
        var rest := r.1[|order| + 1..];
        assert r.1[|order|..] == [n] + rest;
        assert Distinct(rest) by {
          assert |order + [n]| == |order| + 1;
        }
        forall p | p in rest ensures Fresh(layout, d, ns, p) && p != n {
          assert Fresh(layout, d1, ns[1..], p);
        }
        DistinctCons(n, rest);
      } else {
        VisitAdded(layout, d, order, k, ns[1..]);
        var r := Visit(layout, d, order, k, ns[1..]);
        forall p | p in r.1[|order|..] ensures Fresh(layout, d, ns, p) {
          assert Fresh(layout, d, ns[1..], p);
        }
      }
    }
  }

  /** What one expansion does to the distances and the queue, in the terms the invariant
      needs. */
  lemma VisitFacts(layout: Layout, d: Distances, order: seq<Position>, k: nat, ns: seq<Position>)
    requires Enqueued(layout, d, order)
    ensures var r := Visit(layout, d, order, k, ns);
      (forall p | p in r.1[|order|..] :: p in ns && Passable(layout, p) && d.At(p) == Inf && r.0.At(p) == Fin(k))
      && Distinct(r.1[|order|..])
      && (forall p | layout.Contains(p) && p !in r.1[|order|..] :: r.0.At(p) == d.At(p))
      && (forall p | layout.Contains(p) && d.At(p).Fin? :: r.0.At(p) == d.At(p))
      && (forall q | q in ns && Passable(layout, q) :: r.0.At(q) == (if d.At(q).Fin? then d.At(q) else Fin(k)))
  {
    var r := Visit(layout, d, order, k, ns);
    VisitCells(layout, d, order, k, ns);
    VisitComplete(layout, d, order, k, ns);
    VisitAdded(layout, d, order, k, ns);
    assert r.1 == order + r.1[|order|..];
    forall p | Fresh(layout, d, ns, p) ensures p in r.1[|order|..] {
      assert p in r.1 && p !in order;
    }
  }

  /** The number of cells without a distance yet. */
  function Unreached(d: Distances): nat {
    Objects(d)[Inf]
  }

  /** Runs the search from queue index `head` until the queue is exhausted. Each step
      enqueues a cell or advances the head past one, which bounds the number of steps. */
  function BfsLoop(layout: Layout, source: Position, d: Distances, order: seq<Position>, head: nat)
    : (r: (Distances, seq<Position>))
    requires Inv(layout, source, d, order, head)
    decreases Unreached(d) + |order| - head
  {
    if head == |order| then (d, order)
    else
      var r := Expand(layout, source, d, order, head);
      BfsLoop(layout, source, r.0, r.1, head + 1)
  }

  /** The invariant holds when the queue is exhausted. The invariant is stated as an
      equation so that the verifier carries it as one fact instead of re-proving each of
      its conjuncts at every step. */
  lemma {:induction false} BfsLoopInv(layout: Layout, source: Position, d: Distances, order: seq<Position>, head: nat,
                                     r: (Distances, seq<Position>))
    requires Inv(layout, source, d, order, head) == true
    requires r == BfsLoop(layout, source, d, order, head)
    ensures Inv(layout, source, r.0, r.1, |r.1|) == true
    decreases Unreached(d) + |order| - head
  {
    if head < |order| {
      var e := Expand(layout, source, d, order, head);
      BfsLoopInv(layout, source, e.0, e.1, head + 1, r);
    }
  }

  /** Expands the cell at the head of the queue. */
  function Expand(layout: Layout, source: Position, d: Distances, order: seq<Position>, head: nat)
    : (r: (Distances, seq<Position>))
    requires Inv(layout, source, d, order, head) && head < |order|
    ensures Inv(layout, source, r.0, r.1, head + 1)
    ensures Unreached(r.0) + |r.1| == Unreached(d) + |order|
  {
    StepPreservesInv(layout, source, d, order, head);
    Visit(layout, d, order, d.At(order[head]).n + 1, Neighbours(order[head]))
  }

  /** One expansion keeps the invariant, with the head one further. */
  lemma StepPreservesInv(layout: Layout, source: Position, d: Distances, order: seq<Position>, head: nat)
    requires Inv(layout, source, d, order, head) && head < |order|
    ensures var r := Visit(layout, d, order, d.At(order[head]).n + 1, Neighbours(order[head]));
      Inv(layout, source, r.0, r.1, head + 1)
      && Unreached(r.0) + |r.1| == Unreached(d) + |order|
  {
    var k := d.At(order[head]).n + 1;
    var (d', order') := Visit(layout, d, order, k, Neighbours(order[head]));
    VisitFacts(layout, d, order, k, Neighbours(order[head]));
    VisitCount(layout, d, order, k, Neighbours(order[head]));
    EnqueuedStep(layout, d, order, d', order', k);
    SoundStep(layout, source, d, order, head, d', order', k);
    LayeredStep(layout, d, order, head, d', order', k);
    ClosedStep(layout, d, order, head, d', order', k);
  }

  lemma EnqueuedStep(layout: Layout, d: Distances, order: seq<Position>,
                     d': Distances, order': seq<Position>, k: nat)
    requires Enqueued(layout, d, order) && d'.Shape() == d.Shape()
    requires |order| <= |order'| && order'[..|order|] == order && Distinct(order'[|order|..])
    requires forall p | p in order'[|order|..] :: Passable(layout, p) && d.At(p) == Inf && d'.At(p) == Fin(k)
    requires forall p | layout.Contains(p) && p !in order'[|order|..] :: d'.At(p) == d.At(p)
    ensures Enqueued(layout, d', order')
  {
    var added := order'[|order|..];
    assert order' == order + added;
    forall i | 0 <= i < |order'| ensures layout.Contains(order'[i]) {
      if i >= |order| {
        assert Passable(layout, order'[i]);
      }
    }
    forall i, j | 0 <= i < j < |order'| ensures order'[i] != order'[j] {
      if j >= |order| && i < |order| {
        assert d.At(order'[j]) == Inf;
        assert order'[i] in order;
      } else if i >= |order| {
        assert added[i - |order|] == order'[i] && added[j - |order|] == order'[j];
      }
    }
    forall c | layout.Contains(c) ensures d'.At(c).Fin? <==> c in order' {
      if c in added {
        var i :| 0 <= i < |added| && added[i] == c;
        assert order'[|order| + i] == c;
      } else {
        assert d'.At(c) == d.At(c);
      }
    }
  }

  lemma SoundStep(layout: Layout, source: Position, d: Distances, order: seq<Position>, head: nat,
                  d': Distances, order': seq<Position>, k: nat)
    requires Sound(layout, source, d) && Enqueued(layout, d, order) && head < |order|
    requires k == d.At(order[head]).n + 1 && d'.Shape() == d.Shape() && |order| <= |order'|
    requires forall p | p in order'[|order|..] :: Passable(layout, p) && p in Neighbours(order[head]) && d'.At(p) == Fin(k)
    requires forall p | layout.Contains(p) && p !in order'[|order|..] :: d'.At(p) == d.At(p)
    requires forall p | layout.Contains(p) && d.At(p).Fin? :: d'.At(p) == d.At(p)
    ensures Sound(layout, source, d')
  {
    var p := order[head];
    var added := order'[|order|..];
    forall c | layout.Contains(c) && d'.At(c).Fin?
      ensures if d'.At(c).n == 0 then c == source
        else (Passable(layout, c)
          && exists q | q in Neighbours(c) :: layout.Contains(q) && d'.At(q) == Fin(d'.At(c).n - 1))
    {
      if c in added {
        NeighboursAdjacent(p, c);
        assert p in Neighbours(c) && d'.At(p) == d.At(p);
      } else {
        assert d'.At(c) == d.At(c);
        if d.At(c).n > 0 {
          var q :| q in Neighbours(c) && layout.Contains(q) && d.At(q) == Fin(d.At(c).n - 1);
          assert d'.At(q) == d.At(q);
        }
      }
    }
  }

  lemma LayeredStep(layout: Layout, d: Distances, order: seq<Position>, head: nat,
                    d': Distances, order': seq<Position>, k: nat)
    requires Enqueued(layout, d, order) && head < |order| && Layered(d, order, head)
    requires d.At(order[head]).Fin? && k == d.At(order[head]).n + 1
    requires Enqueued(layout, d', order') && |order| <= |order'| && order'[..|order|] == order
    requires forall p | p in order'[|order|..] :: d'.At(p) == Fin(k)
    requires forall p | layout.Contains(p) && d.At(p).Fin? :: d'.At(p) == d.At(p)
    ensures Layered(d', order', head + 1)
  {
    var p := order[head];
    var added := order'[|order|..];
    assert order' == order + added;
    forall i | 0 <= i < |order| ensures d'.At(order'[i]) == d.At(order[i]) && d.At(order[i]).Fin? {
      assert order'[i] == order[i] && order[i] in order;
    }
    forall i | |order| <= i < |order'| ensures d'.At(order'[i]) == Fin(k) {
      assert order'[i] == added[i - |order|];
    }
    forall i, j | 0 <= i < j < |order'| ensures DistLe(d'.At(order'[i]), d'.At(order'[j])) {
      if j < |order| {
        assert DistLe(d.At(order[i]), d.At(order[j]));
      } else if i < |order| {
        assert DistLe(d.At(order[i]), Succ(d.At(p)));
      }
    }
    if head + 1 < |order'| {
      forall j | 0 <= j < |order'| ensures DistLe(d'.At(order'[j]), Succ(d'.At(order'[head + 1]))) {
        assert DistLe(d'.At(order'[head]), d'.At(order'[head + 1]));
        if j < |order| {
          assert DistLe(d.At(order[j]), Succ(d.At(p)));
        }
      }
    }
  }

  lemma ClosedStep(layout: Layout, d: Distances, order: seq<Position>, head: nat,
                   d': Distances, order': seq<Position>, k: nat)
    requires Enqueued(layout, d, order) && head < |order| && Layered(d, order, head)
    requires Closed(layout, d, order, head)
    requires d.At(order[head]).Fin? && k == d.At(order[head]).n + 1
    requires Enqueued(layout, d', order') && |order| <= |order'| && order'[..|order|] == order
    requires forall p | layout.Contains(p) && d.At(p).Fin? :: d'.At(p) == d.At(p)
    requires forall q | q in Neighbours(order[head]) && Passable(layout, q) ::
      d'.At(q) == (if d.At(q).Fin? then d.At(q) else Fin(k))
    ensures Closed(layout, d', order', head + 1)
  {
    ClosedKept(layout, d, order, head, d', order');
    ClosedHead(layout, d, order, head, d', k);
    forall i, q | 0 <= i < head + 1 && q in Neighbours(order'[i]) && Passable(layout, q)
      ensures DistLe(d'.At(q), Succ(d'.At(order'[i])))
    {
      assert order'[i] == order'[..|order|][i];
    }
  }

  /** Cells processed before the head keep their closure: their reached neighbours keep
      their distances. */
  lemma ClosedKept(layout: Layout, d: Distances, order: seq<Position>, head: nat,
                   d': Distances, order': seq<Position>)
    requires Enqueued(layout, d, order) && d'.Shape() == d.Shape()
    requires head <= |order| <= |order'| && order'[..|order|] == order
    requires Closed(layout, d, order, head)
    requires forall p | layout.Contains(p) && d.At(p).Fin? :: d'.At(p) == d.At(p)
    ensures forall i, q | 0 <= i < head && q in Neighbours(order'[i]) && Passable(layout, q) ::
      DistLe(d'.At(q), Succ(d'.At(order'[i])))
  {
    forall i, q | 0 <= i < head && q in Neighbours(order'[i]) && Passable(layout, q)
      ensures DistLe(d'.At(q), Succ(d'.At(order'[i])))
    {
      assert order'[i] == order[i] && order[i] in order;
      assert DistLe(d.At(q), Succ(d.At(order[i])));
    }
  }

  /** The head's passable neighbours end at most one further than the head. */
  lemma ClosedHead(layout: Layout, d: Distances, order: seq<Position>, head: nat, d': Distances, k: nat)
    requires Enqueued(layout, d, order) && head < |order| && Layered(d, order, head)
    requires d.At(order[head]).Fin? && k == d.At(order[head]).n + 1 && d'.Shape() == d.Shape()
    requires forall p | layout.Contains(p) && d.At(p).Fin? :: d'.At(p) == d.At(p)
    requires forall q | q in Neighbours(order[head]) && Passable(layout, q) ::
      d'.At(q) == (if d.At(q).Fin? then d.At(q) else Fin(k))
    ensures forall q | q in Neighbours(order[head]) && Passable(layout, q) ::
      DistLe(d'.At(q), Succ(d'.At(order[head])))
  {
    forall q | q in Neighbours(order[head]) && Passable(layout, q)
      ensures DistLe(d'.At(q), Succ(d'.At(order[head])))
    {
      if d.At(q).Fin? {
        var j :| 0 <= j < |order| && order[j] == q;
        assert DistLe(d.At(order[j]), Succ(d.At(order[head])));
      }
    }
  }

  /** All cells unreached except the source, which is at 0 and is the only one queued. */
  function InitialDistances(layout: Layout, source: Position): (d: Distances)
    requires layout.Contains(source)
    ensures Inv(layout, source, d, [source], 0)
  {
    var d: Distances := Matrix(layout.height, layout.width,
      seq(layout.height, y => seq(layout.width, x => if Position(y, x) == source then Fin(0) else Inf)));
    assert forall c | layout.Contains(c) :: d.At(c) == (if c == source then Fin(0) else Inf);
    d
  }

  /** The cell NumPy marks for `source`: each coordinate wrapped from the end when it is
      negative, or nothing when one is outside `[-n, n)`. */
  function Home(layout: Layout, source: Position): (r: Option<Position>)
    ensures r.Some? <==> -(layout.height as int) <= source.y < layout.height
                         && -(layout.width as int) <= source.x < layout.width
    ensures r.Some? ==> layout.Contains(r.value)
    ensures layout.Contains(source) ==> r == Some(source)
    ensures r.Some? && !layout.Contains(source) ==> source.y < 0 || source.x < 0
  {
    match (AxisIndex(source.y, layout.height), AxisIndex(source.x, layout.width))
    case (Some(y), Some(x)) => Some(Position(y, x))
    case _ => None
  }

  /** The cell a search from a wrapped source enters the layout by. Expanding the raw
      source enqueues its in-range passable neighbours other than the wrapped cell, which
      is already visited; with a negative coordinate only the neighbour towards row or
      column 0 can be in range. */
  function Entry(layout: Layout, source: Position, home: Position): (r: Option<Position>)
    requires !layout.Contains(source) && (source.y < 0 || source.x < 0)
    ensures r.Some? ==> r.value in Neighbours(source) && Passable(layout, r.value) && r.value != home
    ensures r.None? ==> forall q | q in Neighbours(source) :: !Passable(layout, q) || q == home
  {
    var q := if source.y < 0 then Position(source.y + 1, source.x) else Position(source.y, source.x + 1);
    if Passable(layout, q) && q != home then Some(q) else None
  }

  /** The layout with `home` walled off: the search never re-enters a visited cell. */
  function Blocked(layout: Layout, home: Position): (r: Layout)
    requires layout.Contains(home)
    ensures r.Shape() == layout.Shape() && !Passable(r, home)
    ensures forall p | layout.Contains(p) && p != home :: Passable(r, p) <==> Passable(layout, p)
  {
    Update(layout, home, false)
  }

  /** The distances of a search from a wrapped source: the wrapped cell `home` at 0;
      with no entry, no other cell reached; otherwise the entry at 1, and any other
      reached cell passable and next to a cell other than `home` one closer. */
  ghost predicate WrappedSound(layout: Layout, d: Distances, home: Position, entry: Option<Position>) {
    d.Shape() == layout.Shape() && layout.Contains(home) && d.At(home) == Fin(0)
    && match entry
       case None => forall p | layout.Contains(p) && p != home :: d.At(p) == Inf
       case Some(e) =>
         layout.Contains(e) && d.At(e) == Fin(1)
         && forall p | layout.Contains(p) && d.At(p).Fin? && p != home && p != e ::
           d.At(p).n > 1 && Passable(layout, p)
           && exists q | q in Neighbours(p) :: layout.Contains(q) && q != home && d.At(q) == Fin(d.At(p).n - 1)
  }

  /** Breadth-first distances from `source` over the passable cells. As in NumPy, a
      source with a negative coordinate in `[-n, 0)` marks the wrapped cell at 0 while the
      search expands the raw source, so the cells it reaches are one further than from
      the single neighbour it enters by; a source outside `[-n, n)` raises IndexError. */
  function Dijkstra(layout: Layout, source: Position): (r: Result<Distances>)
    ensures r.Failure? <==> Home(layout, source).None?
    ensures r.Failure? ==> r.error == IndexError
    ensures r.Success? ==> r.value.Shape() == layout.Shape() && r.value.At(Home(layout, source).value) == Fin(0)
    ensures r.Success? && layout.Contains(source) ==> forall p | layout.Contains(p) && r.value.At(p).Fin? && p != source ::
      r.value.At(p).n > 0 && Passable(layout, p)
      && exists q | q in Neighbours(p) :: layout.Contains(q) && r.value.At(q) == Fin(r.value.At(p).n - 1)
    ensures r.Success? && !layout.Contains(source) ==>
      WrappedSound(layout, r.value, Home(layout, source).value, Entry(layout, source, Home(layout, source).value))
  {
    match Home(layout, source)
    case None => Failure(IndexError)
    case Some(home) =>
      if layout.Contains(source) then Success(Search(layout, source).0)
      else Success(FromWrapped(layout, source, home))
  }

  /** The search from a source NumPy wraps onto `home`. */
  function FromWrapped(layout: Layout, source: Position, home: Position): (d: Distances)
    requires layout.Contains(home) && !layout.Contains(source) && (source.y < 0 || source.x < 0)
    ensures WrappedSound(layout, d, home, Entry(layout, source, home))
  {
    var entry := Entry(layout, source, home);
    if entry.None? then Shifted(Unreachable(layout), home)
    else
      var base := Search(Blocked(layout, home), entry.value).0;
      ShiftedSound(layout, home, entry.value, base);
      Shifted(base, home)
  }

  /** A search entering by `e` with `home` walled off, shifted one further, is sound for
      the wrapped source. */
  lemma ShiftedSound(layout: Layout, home: Position, e: Position, base: Distances)
    requires layout.Contains(home) && Passable(layout, e) && e != home
    requires Sound(Blocked(layout, home), e, base)
    ensures WrappedSound(layout, Shifted(base, home), home, Some(e))
  {
    var blocked := Blocked(layout, home);
    var d := Shifted(base, home);
    assert base.At(home) == Inf by {
      assert !Passable(blocked, home) && layout.Contains(home);
    }
    forall p | layout.Contains(p) && d.At(p).Fin? && p != home && p != e
      ensures d.At(p).n > 1 && Passable(layout, p)
      ensures exists q | q in Neighbours(p) :: layout.Contains(q) && q != home && d.At(q) == Fin(d.At(p).n - 1)
    {
      ShiftedStep(layout, home, e, base, p);
    }
  }

  /** A reached cell other than `home` and the entry steps back to a cell other than
      `home`, one closer. */
  lemma ShiftedStep(layout: Layout, home: Position, e: Position, base: Distances, p: Position)
    requires layout.Contains(home) && Passable(layout, e) && e != home
    requires Sound(Blocked(layout, home), e, base) && base.At(home) == Inf
    requires layout.Contains(p) && base.At(p).Fin? && p != home && p != e
    ensures base.At(p).n > 0 && Passable(layout, p)
    ensures exists q | q in Neighbours(p) :: layout.Contains(q) && q != home && Shifted(base, home).At(q) == Fin(base.At(p).n)
  {
    var q := StepBack(Blocked(layout, home), e, base, p);
    assert q != home && Shifted(base, home).At(q) == Succ(base.At(q));
  }

  /** Distances with no cell reached. */
  function Unreachable(layout: Layout): (d: Distances)
    ensures d.Shape() == layout.Shape()
    ensures forall p | layout.Contains(p) :: d.At(p) == Inf
  {
    Matrix(layout.height, layout.width, seq(layout.height, y => seq(layout.width, x => Inf)))
  }

  /** Distances one further than `base` everywhere except `home`, which is at 0. */
  function Shifted(base: Distances, home: Position): (d: Distances)
    requires base.Contains(home)
    ensures d.Shape() == base.Shape() && d.At(home) == Fin(0)
    ensures forall p | base.Contains(p) && p != home :: d.At(p) == Succ(base.At(p))
  {
    Matrix(base.height, base.width, seq(base.height, y requires 0 <= y < base.height =>
      seq(base.width, x requires 0 <= x < base.width =>
        if Position(y, x) == home then Fin(0) else Succ(base.cells[y][x]))))
  }

  /** The final distances and the order cells were enqueued in. */
  function Search(layout: Layout, source: Position): (r: (Distances, seq<Position>))
    requires layout.Contains(source)
    ensures Inv(layout, source, r.0, r.1, |r.1|)
  {
    var d0 := InitialDistances(layout, source);
    var r := BfsLoop(layout, source, d0, [source], 0);
    BfsLoopInv(layout, source, d0, [source], 0, r);
    r
  }

  /** Each cell is enqueued at most once, and exactly the reached cells are. */
  lemma EnqueuedOnce(layout: Layout, source: Position)
    requires layout.Contains(source)
    ensures var (d, order) := Search(layout, source);
      Distinct(order) && order[0] == source
      && forall p | layout.Contains(p) :: d.At(p).Fin? <==> p in order
  {
    var (d, order) := Search(layout, source);
    var i :| 0 <= i < |order| && order[i] == source;
    if i > 0 {
      assert DistLe(d.At(order[0]), d.At(order[i]));
      assert d.At(order[0]).n == 0;
    }
  }

  /** No walk from the source is shorter than the computed distance of its end. */
  lemma DijkstraOptimal(layout: Layout, source: Position, w: seq<Position>)
    requires layout.Contains(source) && IsPath(layout, w) && w[0] == source
    ensures DistLe(Dijkstra(layout, source).value.At(w[|w| - 1]), Fin(|w| - 1))
  {
    var (d, order) := Search(layout, source);
    ClosedOptimal(layout, source, d, order, w);
  }

  /** Once every enqueued cell is processed, a walk of length `n` from the source ends on a
      cell at distance at most `n`. */
  lemma {:induction false} ClosedOptimal(layout: Layout, source: Position, d: Distances, order: seq<Position>,
                                        w: seq<Position>)
    requires Enqueued(layout, d, order) && Closed(layout, d, order, |order|)
    requires layout.Contains(source) && d.At(source) == Fin(0)
    requires IsPath(layout, w) && w[0] == source
    ensures DistLe(d.At(w[|w| - 1]), Fin(|w| - 1))
  {
    if |w| > 1 {
      var w' := w[..|w| - 1];
      assert IsPath(layout, w') by {
        forall i | 0 < i < |w'| ensures Passable(layout, w'[i]) && Adjacent(w'[i - 1], w'[i]) {
          assert w'[i] == w[i] && w'[i - 1] == w[i - 1];
        }
      }
      ClosedOptimal(layout, source, d, order, w');
      var c := w[|w| - 2];
      assert c == w'[|w'| - 1];
      assert Adjacent(w[|w| - 2], w[|w| - 1]);
      NeighboursAdjacent(c, w[|w| - 1]);
      var i :| 0 <= i < |order| && order[i] == c;
      assert DistLe(d.At(w[|w| - 1]), Succ(d.At(order[i])));
    }
  }

  /** Every finite distance is the length of some walk from the source. */
  lemma DijkstraWitness(layout: Layout, source: Position, p: Position) returns (w: seq<Position>)
    requires layout.Contains(source) && layout.Contains(p)
    requires Dijkstra(layout, source).value.At(p).Fin?
    ensures IsPath(layout, w) && w[0] == source && w[|w| - 1] == p
    ensures |w| == Dijkstra(layout, source).value.At(p).n + 1
  {
    w := SoundWitness(layout, source, Search(layout, source).0, p);
  }

  /** Following the one-closer neighbours back from a finite cell traces a walk from the
      source of exactly its distance. */
  lemma {:induction false} SoundWitness(layout: Layout, source: Position, d: Distances, p: Position)
    returns (w: seq<Position>)
    requires Sound(layout, source, d) && layout.Contains(p) && d.At(p).Fin?
    ensures IsPath(layout, w) && w[0] == source && w[|w| - 1] == p
    ensures |w| == d.At(p).n + 1
    decreases d.At(p).n
  {
    if d.At(p).n == 0 {
      w := [source];
    } else {
      var q := StepBack(layout, source, d, p);
      var w' := SoundWitness(layout, source, d, q);
      NeighboursAdjacent(q, p);
      w := w' + [p];
      forall i | 0 < i < |w| ensures Passable(layout, w[i]) && Adjacent(w[i - 1], w[i]) {
        if i < |w'| {
          assert w[i] == w'[i] && w[i - 1] == w'[i - 1];
        } else {
          assert w[i] == p && w[i - 1] == q;
        }
      }
    }
  }

  /** A finite cell other than the source is passable and has a neighbour one closer. */
  lemma StepBack(layout: Layout, source: Position, d: Distances, p: Position) returns (q: Position)
    requires Sound(layout, source, d) && layout.Contains(p) && d.At(p).Fin? && d.At(p).n > 0
    ensures Passable(layout, p) && q in Neighbours(p) && layout.Contains(q) && d.At(q) == Fin(d.At(p).n - 1)
  {
    q :| q in Neighbours(p) && layout.Contains(q) && d.At(q) == Fin(d.At(p).n - 1);
  }

  /** The computed distance of a cell is the length of a shortest walk to it, and it is
      infinite exactly when no walk reaches it. */
  lemma DijkstraShortestPaths(layout: Layout, source: Position, p: Position)
    requires layout.Contains(source) && layout.Contains(p)
    ensures var d := Dijkstra(layout, source).value;
      (d.At(p).Inf? <==> forall w | IsPath(layout, w) && w[0] == source :: w[|w| - 1] != p)
      && (d.At(p).Fin? ==> exists w | IsPath(layout, w) && w[0] == source && w[|w| - 1] == p :: |w| == d.At(p).n + 1)
      && (forall w | IsPath(layout, w) && w[0] == source && w[|w| - 1] == p :: DistLe(d.At(p), Fin(|w| - 1)))
  {
    var d := Dijkstra(layout, source).value;
    forall w | IsPath(layout, w) && w[0] == source && w[|w| - 1] == p ensures DistLe(d.At(p), Fin(|w| - 1)) {
      DijkstraOptimal(layout, source, w);
    }
    if d.At(p).Fin? {
      var w := DijkstraWitness(layout, source, p);
      assert IsPath(layout, w) && w[0] == source && w[|w| - 1] == p;
    }
  }

  /** From a wrapped source that enters the layout by `e`, a cell other than the wrapped
      cell `home` is reached exactly when a walk from `e` reaches it without passing
      `home`, and its distance is one more than the shortest such walk. */
  lemma WrappedShortestPaths(layout: Layout, source: Position, home: Position, e: Position, p: Position)
    requires !layout.Contains(source) && Home(layout, source) == Some(home)
    requires Entry(layout, source, home) == Some(e)
    requires layout.Contains(p) && p != home
    ensures var d := Dijkstra(layout, source).value;
      (d.At(p).Inf? <==> forall w | IsPath(Blocked(layout, home), w) && w[0] == e :: w[|w| - 1] != p)
      && (d.At(p).Fin? ==> exists w | IsPath(Blocked(layout, home), w) && w[0] == e && w[|w| - 1] == p :: |w| == d.At(p).n)
      && (forall w | IsPath(Blocked(layout, home), w) && w[0] == e && w[|w| - 1] == p :: DistLe(d.At(p), Fin(|w|)))
  {
    WrappedShifted(layout, source, p);
    ShiftedPaths(Blocked(layout, home), e, p, Dijkstra(layout, source).value.At(p));
  }

  /** A distance one further than the search from `e` is infinite exactly when no walk
      from `e` reaches the cell, and otherwise the length of a shortest such walk. */
  lemma ShiftedPaths(layout: Layout, e: Position, p: Position, v: Dist)
    requires layout.Contains(e) && layout.Contains(p)
    requires v == Succ(Dijkstra(layout, e).value.At(p))
    ensures v.Inf? <==> forall w | IsPath(layout, w) && w[0] == e :: w[|w| - 1] != p
    ensures v.Fin? ==> exists w | IsPath(layout, w) && w[0] == e && w[|w| - 1] == p :: |w| == v.n
    ensures forall w | IsPath(layout, w) && w[0] == e && w[|w| - 1] == p :: DistLe(v, Fin(|w|))
  {
    DijkstraShortestPaths(layout, e, p);
  }

  /** From a wrapped source, a cell other than the wrapped one is one further than from
      the entry cell with the wrapped cell walled off, and unreached with no entry. */
  lemma WrappedShifted(layout: Layout, source: Position, p: Position)
    requires Home(layout, source).Some? && !layout.Contains(source)
    requires layout.Contains(p) && p != Home(layout, source).value
    ensures var home := Home(layout, source).value;
      var entry := Entry(layout, source, home);
      Dijkstra(layout, source).value.At(p)
        == if entry.None? then Inf else Succ(Dijkstra(Blocked(layout, home), entry.value).value.At(p))
  {
    var home := Home(layout, source).value;
    var entry := Entry(layout, source, home);
    if entry.Some? {
      var base := Search(Blocked(layout, home), entry.value).0;
      assert Dijkstra(layout, source).value == Shifted(base, home);
    }
  }
}

=== FILE: space_builders.dfy ===
/** Builders that collect a grid shape, object classes and colours, and build a state or
    observation space once all three are set. */
module SpaceBuilders {
  import opened Wrappers
  import opened Geometry
  import opened GridObjects
  import opened Spaces

  /** The settings of either builder; each stays unset until its setter is called. */
  datatype Builder = Builder(gridShape: Option<Shape>, objectTypes: Option<seq<Kind>>, colors: Option<seq<Color>>)

  const NewBuilder := Builder(None, None, None)

  function SetGridShape(b: Builder, shape: Shape): Builder {
    b.(gridShape := Some(shape))
  }

  function SetObjectTypes(b: Builder, kinds: seq<Kind>): Builder {
    b.(objectTypes := Some(kinds))
  }

  function SetColors(b: Builder, colors: seq<Color>): Builder {
    b.(colors := Some(colors))
  }

  /** The three settings; building before all three are set raises RuntimeError, checking
      the grid shape, then the object classes, then the colours. */
  function Settings(b: Builder): (r: Result<(Shape, seq<Kind>, seq<Color>)>)
    ensures r.Success? <==> b.gridShape.Some? && b.objectTypes.Some? && b.colors.Some?
    ensures r.Failure? ==> r.error == RuntimeError
    ensures r.Success? ==> r.value == (b.gridShape.value, b.objectTypes.value, b.colors.value)
  {
    if b.gridShape.None? then Failure(RuntimeError)
    else if b.objectTypes.None? then Failure(RuntimeError)
    else if b.colors.None? then Failure(RuntimeError)
    else Success((b.gridShape.value, b.objectTypes.value, b.colors.value))
  }

  /** `StateSpaceBuilder.build`. */
  function BuildStateSpace(b: Builder): (r: Result<StateSpace>)
    ensures r.Success? <==> b.gridShape.Some? && b.objectTypes.Some? && b.colors.Some?
    ensures r.Failure? ==> r.error == RuntimeError
    ensures r.Success? ==> r.value == StateSpace(b.gridShape.value, b.objectTypes.value, b.colors.value)
  {
    var (shape, kinds, colors) :- Settings(b);
    Success(StateSpace(shape, kinds, colors))
  }

  /** `ObservationSpaceBuilder.build`. */
  function BuildObservationSpace(b: Builder): (r: Result<ObservationSpace>)
    ensures r.Success? <==> b.gridShape.Some? && b.objectTypes.Some? && b.colors.Some?
    ensures r.Failure? ==> r.error == RuntimeError
    ensures r.Success? ==> r.value == ObservationSpace(b.gridShape.value, b.objectTypes.value, b.colors.value)
  {
    var (shape, kinds, colors) :- Settings(b);
    Success(ObservationSpace(shape, kinds, colors))
  }

  /** Setting all three values, in any order, builds the space holding exactly them; a
      later setter call replaces an earlier one. */
  lemma BuildRoundTrip(shape: Shape, kinds: seq<Kind>, colors: seq<Color>, b: Builder)
    ensures BuildStateSpace(SetColors(SetObjectTypes(SetGridShape(b, shape), kinds), colors)) ==
      Success(StateSpace(shape, kinds, colors))
    ensures BuildStateSpace(SetGridShape(SetColors(SetObjectTypes(b, kinds), colors), shape)) ==
      Success(StateSpace(shape, kinds, colors))
    ensures BuildObservationSpace(SetObjectTypes(SetGridShape(SetColors(b, colors), shape), kinds)) ==
      Success(ObservationSpace(shape, kinds, colors))
  {
  }

  /** A fresh builder with any one setting missing does not build. */
  lemma MissingSetting(shape: Shape, kinds: seq<Kind>, colors: seq<Color>)
    ensures BuildStateSpace(SetObjectTypes(SetColors(NewBuilder, colors), kinds)) == Failure(RuntimeError)
    ensures BuildStateSpace(SetGridShape(SetColors(NewBuilder, colors), shape)) == Failure(RuntimeError)
    ensures BuildObservationSpace(SetGridShape(SetObjectTypes(NewBuilder, kinds), shape)) == Failure(RuntimeError)
  {
  }
}

=== FILE: spaces.dfy ===
/** The state, action and observation spaces of an environment and their membership
    checks. Object classes are given by their kinds. */
module Spaces {
  import opened Wrappers
  import opened Geometry
  import opened Actions
  import opened GridObjects
  import opened Grids
  import opened Agents
  import opened Seqs

  /** Python's `max` over the keys of a list: the greatest key; an empty list raises
      ValueError. */
  function MaxKey<T>(xs: seq<T>, key: T -> int): (r: Result<int>)
    ensures r.Failure? <==> |xs| == 0
    ensures r.Failure? ==> r.error == ValueError
    ensures r.Success? ==> (exists i | 0 <= i < |xs| :: key(xs[i]) == r.value)
    ensures r.Success? ==> forall i | 0 <= i < |xs| :: key(xs[i]) <= r.value
  {
    if |xs| == 0 then Failure(ValueError)
    else if |xs| == 1 then Success(key(xs[0]))
    else
      var rest := MaxKey(xs[1..], key).value;
      assert forall i | 1 <= i < |xs| :: xs[i] == xs[1..][i - 1];
      if key(xs[0]) >= rest then Success(key(xs[0])) else Success(rest)
  }

  /** `_max_object_type`, `_max_object_status` and `_max_color_index`. */
  function MaxObjectType(kinds: seq<Kind>): Result<int> {
    MaxKey(kinds, k => TypeIndex(k) as int)
  }

  function MaxObjectStatus(kinds: seq<Kind>): Result<int> {
    MaxKey(kinds, k => NumStates(k) as int)
  }

  function MaxColorIndex(colors: seq<Color>): Result<int> {
    MaxKey(colors, c => ColorValue(c) as int)
  }

  /** The maxima of the documented examples: the exit takes the slot of the retired goal
      class, and a door has as many states as door statuses. */
  lemma MaximaExamples()
    ensures MaxObjectType([FloorKind, ExitKind]) == Success(TypeIndex(ExitKind) as int)
    ensures MaxObjectType([DoorKind, ExitKind]) == Success(TypeIndex(DoorKind) as int)
    ensures MaxObjectStatus([FloorKind, ExitKind]) == Success(0)
    ensures MaxObjectStatus([DoorKind, ExitKind]) == Success(3)
    ensures MaxColorIndex([Red, Blue]) == Success(ColorValue(Blue) as int)
    ensures MaxColorIndex([]) == Failure(ValueError)
  {
    assert [FloorKind, ExitKind][1..] == [ExitKind];
    assert [DoorKind, ExitKind][1..] == [ExitKind];
    assert [Red, Blue][1..] == [Blue];
  }

  // ---------------------------------------------------------------------------------
  // State space
  // ---------------------------------------------------------------------------------

  datatype StateSpace = StateSpace(gridShape: Shape, objectTypes: seq<Kind>, colors: seq<Color>)

  /** The agent may hold an object of a declared class or nothing. */
  predicate HoldsDeclared(objectTypes: seq<Kind>, obj: GridObject) {
    KindOf(obj) in objectTypes || KindOf(obj) == NoneGridObjectKind
  }

  /** `StateSpace.contains`. */
  predicate StateContains(space: StateSpace, s: State) {
    s.grid.Shape() == space.gridShape &&
    ObjectKinds(s.grid) <= (set k | k in space.objectTypes) &&
    s.grid.Contains(s.agent.position) &&
    HoldsDeclared(space.objectTypes, s.agent.obj)
  }

  /** A state is in the space iff its grid has the declared shape, every cell holds an
      object of a declared class, the agent stands in the grid and holds an object of a
      declared class or nothing. */
  lemma StateContainsCells(space: StateSpace, s: State)
    ensures StateContains(space, s) <==>
      s.grid.Shape() == space.gridShape &&
      (forall p | s.grid.Contains(p) :: KindOf(s.grid.At(p)) in space.objectTypes) &&
      s.grid.Contains(s.agent.position) &&
      HoldsDeclared(space.objectTypes, s.agent.obj)
  {
  }

  /** Writing an object of a declared class into a grid cell keeps a state in the
      space. */
  lemma SetKeepsState(space: StateSpace, s: State, p: Position, o: GridObject)
    requires StateContains(space, s) && Set(s.grid, p, o).Success? && KindOf(o) in space.objectTypes
    ensures StateContains(space, State(Set(s.grid, p, o).value, s.agent))
  {
    var g' := Set(s.grid, p, o).value;
    StateContainsCells(space, s);
    forall q | g'.Contains(q) ensures KindOf(g'.At(q)) in space.objectTypes {
      if q != p {
        assert g'.At(q) == s.grid.At(q);
      }
    }
    StateContainsCells(space, State(g', s.agent));
  }

  /** The agent's largest type index counts the NoneGridObject it holds when empty-handed,
      so it exists even for a space with no declared class. */
  function MaxAgentObjectType(space: StateSpace): (r: int)
    ensures r >= TypeIndex(NoneGridObjectKind)
    ensures forall k | k in space.objectTypes :: TypeIndex(k) <= r
  {
    var kinds := space.objectTypes + [NoneGridObjectKind];
    assert kinds[|kinds| - 1] == NoneGridObjectKind;
    assert forall i | 0 <= i < |space.objectTypes| :: kinds[i] == space.objectTypes[i];
    MaxObjectType(kinds).value
  }

  function MaxAgentObjectStatus(space: StateSpace): (r: int)
    ensures r >= 0
    ensures forall k | k in space.objectTypes :: NumStates(k) <= r
  {
    var kinds := space.objectTypes + [NoneGridObjectKind];
    assert kinds[|kinds| - 1] == NoneGridObjectKind;
    assert forall i | 0 <= i < |space.objectTypes| :: kinds[i] == space.objectTypes[i];
    MaxObjectStatus(kinds).value
  }

  /** `agent_state_size`: grid height and width, the agent's largest type and status
      index and the largest colour value. A space without colours raises ValueError. */
  function AgentStateSize(space: StateSpace): (r: Result<(int, int, int, int, int)>)
    ensures r.Failure? <==> |space.colors| == 0
    ensures r.Success? ==> r.value.0 == space.gridShape.height && r.value.1 == space.gridShape.width
    ensures r.Success? ==> r.value.2 == MaxAgentObjectType(space) && r.value.3 == MaxAgentObjectStatus(space)
    ensures r.Success? ==> forall c | c in space.colors :: ColorValue(c) <= r.value.4
  {
    var color :- MaxColorIndex(space.colors);
    Success((space.gridShape.height, space.gridShape.width, MaxAgentObjectType(space),
             MaxAgentObjectStatus(space), color))
  }

  // ---------------------------------------------------------------------------------
  // Action space
  // ---------------------------------------------------------------------------------

  datatype ActionSpace = ActionSpace(actions: seq<Action>)

  predicate ActionContains(space: ActionSpace, a: Action) {
    a in space.actions
  }

  function NumActions(space: ActionSpace): nat {
    |space.actions|
  }

  /** `int_to_action`: list indexing, where a negative index counts from the end and an
      index outside `[-n, n)` raises IndexError. */
  function IntToAction(space: ActionSpace, i: int): (r: Result<Action>)
    ensures r.Success? <==> -(NumActions(space) as int) <= i < NumActions(space)
    ensures r.Failure? ==> r.error == IndexError
    ensures r.Success? && i >= 0 ==> r.value == space.actions[i]
    ensures r.Success? && i < 0 ==> r.value == space.actions[i + NumActions(space)]
  {
    match AxisIndex(i, |space.actions|)
    case None => Failure(IndexError)
    case Some(k) => Success(space.actions[k])
  }

  /** `action_to_int`: the first index holding the action; an absent action raises
      ValueError. */
  function ActionToInt(space: ActionSpace, a: Action): (r: Result<nat>)
    ensures r.Success? <==> ActionContains(space, a)
    ensures r.Failure? ==> r.error == ValueError
    ensures r.Success? ==> r.value < NumActions(space) && space.actions[r.value] == a
    ensures r.Success? ==> forall j | 0 <= j < r.value :: space.actions[j] != a
  {
    IndexFrom(space.actions, a, 0)
  }

  function IndexFrom(xs: seq<Action>, a: Action, i: nat): (r: Result<nat>)
    requires i <= |xs|
    ensures r.Success? <==> a in xs[i..]
    ensures r.Failure? ==> r.error == ValueError
    ensures r.Success? ==> i <= r.value < |xs| && xs[r.value] == a
    ensures r.Success? ==> forall j | i <= j < r.value :: xs[j] != a
    decreases |xs| - i
  {
    if i == |xs| then Failure(ValueError)
    else if xs[i] == a then Success(i)
    else
      assert xs[i..] == [xs[i]] + xs[i + 1..];
      IndexFrom(xs, a, i + 1)
  }

  /** With distinct actions, converting an index to an action and back gives the index
      (counted from the front). */
  lemma IndexRoundTrip(space: ActionSpace, i: int)
    requires Distinct(space.actions) && -(NumActions(space) as int) <= i < NumActions(space)
    ensures ActionToInt(space, IntToAction(space, i).value) ==
      Success(if i >= 0 then i else i + NumActions(space))
  {
  }

  /** Converting an action in the space to its index and back gives the action. */
  lemma ActionRoundTrip(space: ActionSpace, a: Action)
    requires ActionContains(space, a)
    ensures IntToAction(space, ActionToInt(space, a).value) == Success(a)
  {
  }

  // ---------------------------------------------------------------------------------
  // Observation space
  // ---------------------------------------------------------------------------------

  datatype ObservationSpace = ObservationSpace(gridShape: Shape, objectTypes: seq<Kind>, colors: seq<Color>)

  /** An observation space with at least one row and one column. */
  predicate Positive(space: ObservationSpace) {
    space.gridShape.height >= 1 && space.gridShape.width >= 1
  }

  /** The area an observation covers, relative to the agent facing N: the rows above the
      agent and its own, centred on its column. */
  function ObservationArea(space: ObservationSpace): (r: Area)
    requires Positive(space)
    ensures r.Normalised()
    ensures r.Height() == space.gridShape.height && r.Width() == space.gridShape.width
    ensures r.y1 == 0
  {
    var h, w := space.gridShape.height, space.gridShape.width;
    Area(-(h - 1), -(w / 2), 0, w - 1 - w / 2)
  }

  /** Where the agent sits in its observation: the bottom row, the middle column. */
  function ObservationAgentPosition(space: ObservationSpace): Position {
    Position(space.gridShape.height - 1, space.gridShape.width / 2)
  }

  /** The agent's cell of the observation is the origin of the relative area, and it lies
      inside the observation. */
  lemma AgentAtOrigin(space: ObservationSpace)
    requires Positive(space)
    ensures Add(ObservationAgentPosition(space), ObservationArea(space).TopLeft()) == Origin
    ensures ObservationArea(space).Contains(Origin)
  {
  }

  /** For an odd width the area is centred on the agent's column, as the documented
      shapes (2, 5), (3, 5), (2, 7) and (3, 7) show. */
  lemma ObservationAreaCentred(space: ObservationSpace)
    requires Positive(space) && space.gridShape.width % 2 == 1
    ensures var h := space.gridShape.height; var w := space.gridShape.width;
      ObservationArea(space) == Area(1 - h, -(w / 2), 0, w / 2) &&
      ObservationAgentPosition(space) == Position(h - 1, w / 2)
  {
  }

  /** The classes an observed cell may hold: the declared ones and Hidden. */
  function ObservableKinds(space: ObservationSpace): set<Kind> {
    (set k | k in space.objectTypes) + {HiddenKind}
  }

  /** `ObservationSpace.contains` as written. Besides the grid and held-object checks, it
      requires the observed agent's position and orientation to be `None`. An `Agent`
      here always has a position and an orientation (the Python agent may carry `None`
      in either, but no observation function builds such an agent), so those two
      conjuncts are false for every observation this model represents. */
  predicate ObservationContainsAsWritten(space: ObservationSpace, o: Observation) {
    o.grid.Shape() == space.gridShape &&
    ObjectKinds(o.grid) <= ObservableKinds(space) &&
    false &&
    HoldsDeclared(space.objectTypes, o.agent.obj)
  }

  /** As written, the observation space contains no observation whose agent has a
      position and an orientation. */
  lemma ObservationContainsAsWrittenNothing(space: ObservationSpace, o: Observation)
    ensures !ObservationContainsAsWritten(space, o)
  {
  }

  /** The observation-space check as the state-space check is written and the
      observation-space tests expect it: the observed agent stands inside the observed
      grid and faces N, instead of having no position and no orientation. */
  predicate ObservationContains(space: ObservationSpace, o: Observation) {
    o.grid.Shape() == space.gridShape &&
    ObjectKinds(o.grid) <= ObservableKinds(space) &&
    o.grid.Contains(o.agent.position) &&
    o.agent.orientation == N &&
    HoldsDeclared(space.objectTypes, o.agent.obj)
  }

  /** The corrected check, cell by cell. */
  lemma ObservationContainsCells(space: ObservationSpace, o: Observation)
    ensures ObservationContains(space, o) <==>
      o.grid.Shape() == space.gridShape &&
      (forall p | o.grid.Contains(p) :: KindOf(o.grid.At(p)) in space.objectTypes || KindOf(o.grid.At(p)) == HiddenKind) &&
      o.grid.Contains(o.agent.position) &&
      o.agent.orientation == N &&
      HoldsDeclared(space.objectTypes, o.agent.obj)
  {
  }
}

=== FILE: terminating.dfy ===
/** Terminating functions over a transition `(state, action, next_state)`, their
    reductions, and the factory that builds them by name. Keyword arguments are bound as
    given and only checked when the built function is called, as a bound partial
    function is. */
module Terminating {
  import opened Wrappers
  import opened Actions
  import opened GridObjects
  import opened Grids
  import opened Agents
  import opened Kwargs
  import Rewards

  /** A keyword-argument value. `OtherArg` stands for a value of a type the functions do
      not expect. */
  datatype Arg =
    | FunctionsArg(functions: seq<TerminatingFunction>)
    | KindArg(kind: Kind)
    | ReductionArg(reduce: seq<bool> -> bool)
    | OtherArg

  /** The terminating functions the factory builds, with their keyword arguments bound.
      `ReduceAnyWithReduction` is `reduce_any` with a `reduction` keyword bound as well,
      a keyword it has no parameter for. */
  datatype TerminatingFunction =
    | Reduce(fns: Arg, reduction: Arg)
    | ReduceAny(fns: Arg)
    | ReduceAll(fns: Arg)
    | ReduceAnyWithReduction(fns: Arg, reduction: Arg)
    | Overlap(objectType: Arg)
    | ReachExit
    | BumpMovingObstacle
    | BumpIntoWall
    | Custom(name: string, kwargs: map<string, Arg>)

  /** What a user-supplied `module:function` terminating function returns when called with
      its bound keyword arguments; the imported code is not part of this model. */
  type CustomTerminating = (string, map<string, Arg>, State, Action, State) -> Result<bool>

  // ---------------------------------------------------------------------------------
  // The primitives
  // ---------------------------------------------------------------------------------

  /** Whether the agent's cell in `t` holds an object of class `kind`; an agent off the
      grid raises IndexError. */
  function OverlapHolds(kind: Kind, t: State): (r: Result<bool>)
    ensures r.Failure? <==> !t.grid.Contains(t.agent.position)
    ensures r.Failure? ==> r.error == IndexError
    ensures r.Success? ==> (r.value <==> KindOf(t.grid.At(t.agent.position)) == kind)
  {
    var o :- Get(t.grid, t.agent.position);
    Success(KindOf(o) == kind)
  }

  /** The any-reduction Python's `any` performs on a list of booleans. */
  function AnyOf(bs: seq<bool>): (r: bool)
    ensures r <==> exists k | 0 <= k < |bs| :: bs[k]
  {
    if |bs| == 0 then false else bs[0] || AnyOf(bs[1..])
  }

  /** The all-reduction Python's `all` performs on a list of booleans. */
  function AllOf(bs: seq<bool>): (r: bool)
    ensures r <==> forall k | 0 <= k < |bs| :: bs[k]
  {
    if |bs| == 0 then true else bs[0] && AllOf(bs[1..])
  }

  // ---------------------------------------------------------------------------------
  // Evaluation
  // ---------------------------------------------------------------------------------

  /** Evaluates a terminating function on a transition. A keyword bound to a value of the
      wrong type, or a keyword the function has no parameter for, raises TypeError; an
      overlap reads the agent's cell before it tests the class, so an agent off the grid
      raises IndexError first. */
  function Eval(f: TerminatingFunction, custom: CustomTerminating, s: State, a: Action, t: State)
    : (r: Result<bool>)
    ensures f.Overlap? ==>
      (r.Failure? <==> !t.grid.Contains(t.agent.position) || !f.objectType.KindArg?)
    ensures f.Overlap? && !t.grid.Contains(t.agent.position) ==> r == Failure(IndexError)
    ensures f.Overlap? && t.grid.Contains(t.agent.position) && !f.objectType.KindArg? ==> r == Failure(TypeError)
    ensures f.Overlap? && r.Success? ==> (r.value <==> KindOf(t.grid.At(t.agent.position)) == f.objectType.kind)
    ensures f.ReachExit? ==> r == OverlapHolds(ExitKind, t)
    ensures f.BumpMovingObstacle? ==> r == OverlapHolds(MovingObstacleKind, t)
    ensures f.ReduceAnyWithReduction? ==> r == Failure(TypeError)
    ensures (f.Reduce? || f.ReduceAny? || f.ReduceAll?) && !f.fns.FunctionsArg? ==> r == Failure(TypeError)
    ensures f.Reduce? && !f.reduction.ReductionArg? ==> r == Failure(TypeError)
    ensures f.Reduce? && f.fns.FunctionsArg? && f.reduction.ReductionArg? ==>
      (r.Failure? <==> exists k | 0 <= k < |f.fns.functions| :: Eval(f.fns.functions[k], custom, s, a, t).Failure?)
    decreases f, 1
  {
    match f
    case Reduce(fns, reduction) =>
      if !fns.FunctionsArg? || !reduction.ReductionArg? then Failure(TypeError)
      else
        var rs := Results(f, fns.functions, 0, custom, s, a, t);
        assert forall k | 0 <= k < |rs| :: rs[k] == Eval(fns.functions[k], custom, s, a, t);
        var bs :- Collect(rs, 0);
        Success(reduction.reduce(bs))
    case ReduceAny(fns) =>
      if !fns.FunctionsArg? then Failure(TypeError) else AnyFrom(Results(f, fns.functions, 0, custom, s, a, t), 0)
    case ReduceAll(fns) =>
      if !fns.FunctionsArg? then Failure(TypeError) else AllFrom(Results(f, fns.functions, 0, custom, s, a, t), 0)
    case ReduceAnyWithReduction(_, _) => Failure(TypeError)
    case Overlap(objectType) =>
      var o :- Get(t.grid, t.agent.position);
      if !objectType.KindArg? then Failure(TypeError) else Success(KindOf(o) == objectType.kind)
    case ReachExit => OverlapHolds(ExitKind, t)
    case BumpMovingObstacle => OverlapHolds(MovingObstacleKind, t)
    case BumpIntoWall => Success(Rewards.BumpsWall(s, a))
    case Custom(name, kwargs) => custom(name, kwargs, s, a, t)
  }

  /** The members a reduction binds. */
  ghost predicate Members(f: TerminatingFunction, fns: seq<TerminatingFunction>) {
    (f.Reduce? || f.ReduceAny? || f.ReduceAll?) && f.fns == FunctionsArg(fns)
  }

  /** What each member of a reduction from index `i` on gives on the transition, in order.
      Which of them a reduction looks at is up to the reduction. */
  function Results(f: TerminatingFunction, fns: seq<TerminatingFunction>, i: nat,
                   custom: CustomTerminating, s: State, a: Action, t: State): (r: seq<Result<bool>>)
    requires Members(f, fns) && i <= |fns|
    ensures |r| == |fns| - i
    ensures forall k | 0 <= k < |r| :: r[k] == Eval(fns[i + k], custom, s, a, t)
    decreases f, 0, |fns| - i
  {
    if i == |fns| then []
    else
      assert fns[i] < f.fns;
      [Eval(fns[i], custom, s, a, t)] + Results(f, fns, i + 1, custom, s, a, t)
  }

  /** Python's `any` over a generator of results from index `i` on: they are looked at in
      order, the first true one stops the scan, and an error met before it propagates. */
  function AnyFrom(rs: seq<Result<bool>>, i: nat): (r: Result<bool>)
    requires i <= |rs|
    ensures r == Success(true) <==> exists k | i <= k < |rs| ::
      rs[k] == Success(true) && forall m | i <= m < k :: rs[m] == Success(false)
    ensures r == Success(false) <==> forall k | i <= k < |rs| :: rs[k] == Success(false)
    ensures r.Failure? ==> exists k | i <= k < |rs| ::
      rs[k] == Failure(r.error) && forall m | i <= m < k :: rs[m] == Success(false)
    decreases |rs| - i
  {
    if i == |rs| then Success(false)
    else
      var b :- rs[i];
      if b then Success(true) else AnyFrom(rs, i + 1)
  }

  /** Python's `all` over a generator of results from index `i` on: the first false one
      stops the scan, and an error met before it propagates. */
  function AllFrom(rs: seq<Result<bool>>, i: nat): (r: Result<bool>)
    requires i <= |rs|
    ensures r == Success(false) <==> exists k | i <= k < |rs| ::
      rs[k] == Success(false) && forall m | i <= m < k :: rs[m] == Success(true)
    ensures r == Success(true) <==> forall k | i <= k < |rs| :: rs[k] == Success(true)
    ensures r.Failure? ==> exists k | i <= k < |rs| ::
      rs[k] == Failure(r.error) && forall m | i <= m < k :: rs[m] == Success(true)
    decreases |rs| - i
  {
    if i == |rs| then Success(true)
    else
      var b :- rs[i];
      if !b then Success(false) else AllFrom(rs, i + 1)
  }

  // ---------------------------------------------------------------------------------
  // The factory
  // ---------------------------------------------------------------------------------

  /** The keyword names the reductions and `overlap` take. */
  const FunctionsKey := "terminating_functions"
  const ReductionKey := "reduction"
  const ObjectTypeKey := "object_type"

  /** `reduce` as the factory builds it: the two required keywords are checked, then both
      are bound to `reduce_any`. */
  function BuildReduceAsWritten(kwargs: map<string, Arg>): (r: Result<TerminatingFunction>)
    ensures r.Success? <==> FunctionsKey in kwargs && ReductionKey in kwargs
    ensures r.Failure? ==> r.error == ValueError
    ensures r.Success? ==> r.value == ReduceAnyWithReduction(kwargs[FunctionsKey], kwargs[ReductionKey])
  {
    var keys := [FunctionsKey, ReductionKey];
    var _ :- CheckraiseKwargs(kwargs, keys);
    var selected := SelectKwargs(kwargs, keys);
    Success(ReduceAnyWithReduction(selected[FunctionsKey], selected[ReductionKey]))
  }

  /** `reduce` as intended: both keywords are bound to the general reduction. */
  function BuildReduce(kwargs: map<string, Arg>): (r: Result<TerminatingFunction>)
    ensures r.Success? <==> FunctionsKey in kwargs && ReductionKey in kwargs
    ensures r.Failure? ==> r.error == ValueError
    ensures r.Success? ==> r.value == Reduce(kwargs[FunctionsKey], kwargs[ReductionKey])
  {
    var keys := [FunctionsKey, ReductionKey];
    var _ :- CheckraiseKwargs(kwargs, keys);
    var selected := SelectKwargs(kwargs, keys);
    Success(Reduce(selected[FunctionsKey], selected[ReductionKey]))
  }

  /** A function whose one required keyword is `key`: ValueError when it is missing,
      otherwise the value bound to it. */
  function RequiredArg(kwargs: map<string, Arg>, key: string): (r: Result<Arg>)
    ensures r.Success? <==> key in kwargs
    ensures r.Failure? ==> r.error == ValueError
    ensures r.Success? ==> r.value == kwargs[key]
  {
    var _ :- CheckraiseKwargs(kwargs, [key]);
    Success(SelectKwargs(kwargs, [key])[key])
  }

  /** Builds a terminating function by name, with `reduce` building the general
      reduction. Built-in names bind their keywords and drop the others; a
      `module:function` name binds every keyword to the user-supplied function; any other
      name raises ValueError. */
  function Factory(name: string, kwargs: map<string, Arg>): (r: Result<TerminatingFunction>)
    ensures name == "reduce" ==> r == BuildReduce(kwargs)
    ensures name == "reduce_any" ==> r == (if FunctionsKey in kwargs then Success(ReduceAny(kwargs[FunctionsKey])) else Failure(ValueError))
    ensures name == "reduce_all" ==> r == (if FunctionsKey in kwargs then Success(ReduceAll(kwargs[FunctionsKey])) else Failure(ValueError))
    ensures name == "overlap" ==> r == (if ObjectTypeKey in kwargs then Success(Overlap(kwargs[ObjectTypeKey])) else Failure(ValueError))
    ensures name == "reach_exit" ==> r == Success(ReachExit)
    ensures name == "bump_moving_obstacle" ==> r == Success(BumpMovingObstacle)
    ensures name == "bump_into_wall" ==> r == Success(BumpIntoWall)
    ensures !(name in BuiltinNames) ==>
      r == (if IsCustomFunction(name) && CustomFunctionName(name).Success? then Success(Custom(name, kwargs))
            else Failure(ValueError))
  {
    if name == "reduce" then BuildReduce(kwargs)
    else if name == "reduce_any" then
      var fns :- RequiredArg(kwargs, FunctionsKey);
      Success(ReduceAny(fns))
    else if name == "reduce_all" then
      var fns :- RequiredArg(kwargs, FunctionsKey);
      Success(ReduceAll(fns))
    else if name == "overlap" then
      var kind :- RequiredArg(kwargs, ObjectTypeKey);
      Success(Overlap(kind))
    else if name == "reach_exit" then Success(ReachExit)
    else if name == "bump_moving_obstacle" then Success(BumpMovingObstacle)
    else if name == "bump_into_wall" then Success(BumpIntoWall)
    else if !IsCustomFunction(name) then Failure(ValueError)
    else
      var _ :- CustomFunctionName(name);
      Success(Custom(name, kwargs))
  }

  const BuiltinNames: set<string> := {
    "reduce", "reduce_any", "reduce_all", "overlap", "reach_exit", "bump_moving_obstacle", "bump_into_wall"
  }

  /** The factory as the source writes it: identical except that `reduce` binds its
      keywords to `reduce_any`. It agrees with the corrected factory on every other name
      and on which calls fail; a `reduce` it builds is never the corrected one, and
      raises TypeError whenever it is called. */
  function FactoryAsWritten(name: string, kwargs: map<string, Arg>): (r: Result<TerminatingFunction>)
    ensures name != "reduce" ==> r == Factory(name, kwargs)
    ensures r.Success? <==> Factory(name, kwargs).Success?
    ensures r.Failure? ==> r.error == ValueError
    ensures name == "reduce" && r.Success? ==> r.value != Factory(name, kwargs).value
    ensures name == "reduce" && r.Success? ==>
      forall custom, s, a, t :: Eval(r.value, custom, s, a, t) == Failure(TypeError)
  {
    if name == "reduce" then BuildReduceAsWritten(kwargs) else Factory(name, kwargs)
  }
}

=== FILE: terminating_properties.dfy ===
/** Properties of the terminating functions: the any- and all-reductions are OR and AND
    over their members and stop at the first deciding member, the general reduction
    agrees with them, `overlap` agrees with the overlap reward, and the factory's
    `reduce` as written builds a function that always raises, while the intended one
    reduces. */
module TerminatingProperties {
  import opened Wrappers
  import opened Actions
  import opened GridObjects
  import opened Grids
  import opened Agents
  import opened Kwargs
  import opened Terminating
  import Rewards

  // ---------------------------------------------------------------------------------
  // Reductions
  // ---------------------------------------------------------------------------------

  /** Entry `k` of the results from index `i` on is what member `i + k` gives. */
  lemma {:induction false} ResultsAt(f: TerminatingFunction, fns: seq<TerminatingFunction>, i: nat, k: nat,
                                     custom: CustomTerminating, s: State, a: Action, t: State)
    requires Members(f, fns) && i + k < |fns|
    ensures Results(f, fns, i, custom, s, a, t)[k] == Eval(fns[i + k], custom, s, a, t)
    decreases k
  {
    if k > 0 {
      ResultsAt(f, fns, i + 1, k - 1, custom, s, a, t);
    }
  }

  /** Every member gives the matching value of `bs` without raising. */
  ghost predicate AllSucceed(fns: seq<TerminatingFunction>, bs: seq<bool>,
                             custom: CustomTerminating, s: State, a: Action, t: State) {
    |bs| == |fns| && forall k | 0 <= k < |fns| :: Eval(fns[k], custom, s, a, t) == Success(bs[k])
  }

  /** When every member succeeds, the results are those values. */
  lemma ResultsOfSucceeding(f: TerminatingFunction, fns: seq<TerminatingFunction>, bs: seq<bool>,
                            custom: CustomTerminating, s: State, a: Action, t: State)
    requires Members(f, fns) && AllSucceed(fns, bs, custom, s, a, t)
    ensures var rs := Results(f, fns, 0, custom, s, a, t);
      forall k | 0 <= k < |rs| :: rs[k] == Success(bs[k])
  {
    forall k | 0 <= k < |fns| ensures Results(f, fns, 0, custom, s, a, t)[k] == Success(bs[k]) {
      ResultsAt(f, fns, 0, k, custom, s, a, t);
    }
  }

  /** Python's `any` over results that all succeed is the OR of their values. */
  lemma {:induction false} AnyFromOfSuccesses(rs: seq<Result<bool>>, bs: seq<bool>, i: nat)
    requires |rs| == |bs| && i <= |rs| && forall k | 0 <= k < |rs| :: rs[k] == Success(bs[k])
    ensures AnyFrom(rs, i) == Success(AnyOf(bs[i..]))
    decreases |rs| - i
  {
    if i < |rs| {
      assert bs[i..][1..] == bs[i + 1..];
      AnyFromOfSuccesses(rs, bs, i + 1);
    }
  }

  /** Python's `all` over results that all succeed is the AND of their values. */
  lemma {:induction false} AllFromOfSuccesses(rs: seq<Result<bool>>, bs: seq<bool>, i: nat)
    requires |rs| == |bs| && i <= |rs| && forall k | 0 <= k < |rs| :: rs[k] == Success(bs[k])
    ensures AllFrom(rs, i) == Success(AllOf(bs[i..]))
    decreases |rs| - i
  {
    if i < |rs| {
      assert bs[i..][1..] == bs[i + 1..];
      AllFromOfSuccesses(rs, bs, i + 1);
    }
  }

  /** `reduce_any` over members that all succeed is their OR. */
  lemma ReduceAnyIsOr(fns: seq<TerminatingFunction>, bs: seq<bool>,
                      custom: CustomTerminating, s: State, a: Action, t: State)
    requires AllSucceed(fns, bs, custom, s, a, t)
    ensures Eval(ReduceAny(FunctionsArg(fns)), custom, s, a, t) == Success(AnyOf(bs))
  {
    var f := ReduceAny(FunctionsArg(fns));
    ResultsOfSucceeding(f, fns, bs, custom, s, a, t);
    AnyFromOfSuccesses(Results(f, fns, 0, custom, s, a, t), bs, 0);
    assert bs[0..] == bs;
  }

  /** `reduce_all` over members that all succeed is their AND. */
  lemma ReduceAllIsAnd(fns: seq<TerminatingFunction>, bs: seq<bool>,
                       custom: CustomTerminating, s: State, a: Action, t: State)
    requires AllSucceed(fns, bs, custom, s, a, t)
    ensures Eval(ReduceAll(FunctionsArg(fns)), custom, s, a, t) == Success(AllOf(bs))
  {
    var f := ReduceAll(FunctionsArg(fns));
    ResultsOfSucceeding(f, fns, bs, custom, s, a, t);
    AllFromOfSuccesses(Results(f, fns, 0, custom, s, a, t), bs, 0);
    assert bs[0..] == bs;
  }

  /** `reduce_any` stops at the first member that terminates: members after it are never
      evaluated, so an error they would raise does not surface. */
  lemma ReduceAnyShortCircuits(fns: seq<TerminatingFunction>, k: nat,
                               custom: CustomTerminating, s: State, a: Action, t: State)
    requires k < |fns| && Eval(fns[k], custom, s, a, t) == Success(true)
    requires forall m | 0 <= m < k :: Eval(fns[m], custom, s, a, t) == Success(false)
    ensures Eval(ReduceAny(FunctionsArg(fns)), custom, s, a, t) == Success(true)
  {
    var f := ReduceAny(FunctionsArg(fns));
    var rs := Results(f, fns, 0, custom, s, a, t);
    forall m | 0 <= m <= k ensures rs[m] == Eval(fns[m], custom, s, a, t) {
      ResultsAt(f, fns, 0, m, custom, s, a, t);
    }
    assert rs[k] == Success(true) && forall m | 0 <= m < k :: rs[m] == Success(false);
  }

  /** `reduce_all` stops at the first member that does not terminate. */
  lemma ReduceAllShortCircuits(fns: seq<TerminatingFunction>, k: nat,
                               custom: CustomTerminating, s: State, a: Action, t: State)
    requires k < |fns| && Eval(fns[k], custom, s, a, t) == Success(false)
    requires forall m | 0 <= m < k :: Eval(fns[m], custom, s, a, t) == Success(true)
    ensures Eval(ReduceAll(FunctionsArg(fns)), custom, s, a, t) == Success(false)
  {
    var f := ReduceAll(FunctionsArg(fns));
    var rs := Results(f, fns, 0, custom, s, a, t);
    forall m | 0 <= m <= k ensures rs[m] == Eval(fns[m], custom, s, a, t) {
      ResultsAt(f, fns, 0, m, custom, s, a, t);
    }
    assert rs[k] == Success(false) && forall m | 0 <= m < k :: rs[m] == Success(true);
  }

  /** The general reduction applies its reduction to the members' values in order. */
  lemma ReduceApplies(fns: seq<TerminatingFunction>, reduction: seq<bool> -> bool, bs: seq<bool>,
                      custom: CustomTerminating, s: State, a: Action, t: State)
    requires AllSucceed(fns, bs, custom, s, a, t)
    ensures Eval(Reduce(FunctionsArg(fns), ReductionArg(reduction)), custom, s, a, t) == Success(reduction(bs))
  {
    var f := Reduce(FunctionsArg(fns), ReductionArg(reduction));
    ResultsOfSucceeding(f, fns, bs, custom, s, a, t);
    CollectSucceeds(Results(f, fns, 0, custom, s, a, t), bs);
  }

  /** The general reduction with `any` agrees with `reduce_any` on members that succeed. */
  lemma ReduceAgreesWithAny(fns: seq<TerminatingFunction>, bs: seq<bool>,
                            custom: CustomTerminating, s: State, a: Action, t: State)
    requires AllSucceed(fns, bs, custom, s, a, t)
    ensures Eval(Reduce(FunctionsArg(fns), ReductionArg(AnyOf)), custom, s, a, t)
      == Eval(ReduceAny(FunctionsArg(fns)), custom, s, a, t)
  {
    ReduceApplies(fns, AnyOf, bs, custom, s, a, t);
    ReduceAnyIsOr(fns, bs, custom, s, a, t);
  }

  // ---------------------------------------------------------------------------------
  // The primitives
  // ---------------------------------------------------------------------------------

  /** `overlap` terminates exactly where the overlap reward pays its `on` value, and
      raises where it raises. */
  lemma OverlapAgreesWithReward(kind: Kind, custom: CustomTerminating, s: State, a: Action, t: State)
    ensures var r := Rewards.OverlapReward(kind, 1.0, 0.0, t);
      Eval(Overlap(KindArg(kind)), custom, s, a, t)
        == if r.Failure? then Failure(r.error) else Success(r.value == 1.0)
  {
  }

  /** An `overlap` built with a keyword that is not a class reads the agent's cell before
      it tests the class: with the agent off the grid it raises IndexError, and on the grid
      TypeError. */
  lemma OverlapReadsCellFirst(custom: CustomTerminating, s: State, a: Action, t: State)
    ensures Factory("overlap", map[ObjectTypeKey := OtherArg]) == Success(Overlap(OtherArg))
    ensures Eval(Overlap(OtherArg), custom, s, a, t)
      == if t.grid.Contains(t.agent.position) then Failure(TypeError) else Failure(IndexError)
  {
  }

  /** `reach_exit` is `overlap` with the exit class, and `bump_moving_obstacle` is
      `overlap` with the moving-obstacle class. */
  lemma NamedOverlaps(custom: CustomTerminating, s: State, a: Action, t: State)
    ensures Eval(ReachExit, custom, s, a, t) == Eval(Overlap(KindArg(ExitKind)), custom, s, a, t)
    ensures Eval(BumpMovingObstacle, custom, s, a, t)
      == Eval(Overlap(KindArg(MovingObstacleKind)), custom, s, a, t)
  {
  }

  /** `bump_into_wall` terminates exactly when the wall reward punishes the move. */
  lemma WallAgreesWithReward(reward: real, custom: CustomTerminating, s: State, a: Action, t: State)
    requires reward != 0.0
    ensures Eval(BumpIntoWall, custom, s, a, t) == Success(Rewards.WallReward(reward, s, a) == reward)
  {
  }

  // ---------------------------------------------------------------------------------
  // The factory
  // ---------------------------------------------------------------------------------

  /** As written, `reduce` binds its two keywords to `reduce_any`, which has no `reduction`
      parameter: the function builds, and every call of it raises TypeError. */
  lemma ReduceAsWrittenAlwaysRaises(kwargs: map<string, Arg>,
                                    custom: CustomTerminating, s: State, a: Action, t: State)
    requires FunctionsKey in kwargs && ReductionKey in kwargs
    ensures FactoryAsWritten("reduce", kwargs).Success?
    ensures Eval(FactoryAsWritten("reduce", kwargs).value, custom, s, a, t) == Failure(TypeError)
  {
  }

  /** The intended `reduce` applies the bound reduction to the bound members' values. */
  lemma ReduceFactoryReduces(kwargs: map<string, Arg>, fns: seq<TerminatingFunction>,
                             reduction: seq<bool> -> bool, bs: seq<bool>,
                             custom: CustomTerminating, s: State, a: Action, t: State)
    requires FunctionsKey in kwargs && kwargs[FunctionsKey] == FunctionsArg(fns)
    requires ReductionKey in kwargs && kwargs[ReductionKey] == ReductionArg(reduction)
    requires AllSucceed(fns, bs, custom, s, a, t)
    ensures Factory("reduce", kwargs).Success?
    ensures Eval(Factory("reduce", kwargs).value, custom, s, a, t) == Success(reduction(bs))
  {
    ReduceApplies(fns, reduction, bs, custom, s, a, t);
  }

  /** The name a built-in terminating function is built under. */
  function NameOf(f: TerminatingFunction): string
    requires !f.Custom? && !f.ReduceAnyWithReduction?
  {
    match f
    case Reduce(_, _) => "reduce"
    case ReduceAny(_) => "reduce_any"
    case ReduceAll(_) => "reduce_all"
    case Overlap(_) => "overlap"
    case ReachExit => "reach_exit"
    case BumpMovingObstacle => "bump_moving_obstacle"
    case BumpIntoWall => "bump_into_wall"
  }

  /** The keyword arguments that rebuild a built-in terminating function. */
  function ArgsOf(f: TerminatingFunction): map<string, Arg>
    requires !f.Custom? && !f.ReduceAnyWithReduction?
  {
    match f
    case Reduce(fns, reduction) => map[FunctionsKey := fns, ReductionKey := reduction]
    case ReduceAny(fns) => map[FunctionsKey := fns]
    case ReduceAll(fns) => map[FunctionsKey := fns]
    case Overlap(kind) => map[ObjectTypeKey := kind]
    case _ => map[]
  }

  /** Every built-in terminating function is rebuilt by the factory from its name and its
      keyword arguments. */
  lemma FactoryRoundTrip(f: TerminatingFunction)
    requires !f.Custom? && !f.ReduceAnyWithReduction?
    ensures Factory(NameOf(f), ArgsOf(f)) == Success(f)
  {
    match f
    case Reduce(fns, reduction) =>
      assert FunctionsKey != ReductionKey by { assert |FunctionsKey| != |ReductionKey|; }
      assert ArgsOf(f)[FunctionsKey] == fns && ArgsOf(f)[ReductionKey] == reduction;
    case _ =>
  }

  /** A `module:function` name with one colon builds the user-supplied function with every
      keyword bound. */
  lemma CustomRoundTrip(name: string, kwargs: map<string, Arg>)
    requires CustomFunctionName(name).Success?
    ensures Factory(name, kwargs) == Success(Custom(name, kwargs))
  {
    assert name !in BuiltinNames by {
      assert ':' in name;
      assert forall b | b in BuiltinNames :: ':' !in b;
    }
  }
}

=== FILE: transitions.dfy ===
/** The transition kernel: the primitive dynamics a step is composed from, and the
    registry that builds them by name. Every primitive maps a state, an action and a
    generator to a new state and generator, or to the error the primitive raises. */
module Transitions {
  import opened Wrappers
  import opened Geometry
  import opened Actions
  import opened GridObjects
  import opened Grids
  import opened Agents
  import opened Rng
  import opened Seqs
  import opened EnvUtils

  /** The agent may step onto an in-grid cell whose object does not block. */
  predicate CanEnter(g: Grid, p: Position) {
    g.Contains(p) && !Blocks(g.At(p))
  }

  // ---------------------------------------------------------------------------------
  // Agent movement
  // ---------------------------------------------------------------------------------

  /** A move action displaces the agent by one cell when that cell can be entered;
      everything else leaves the agent where it is. */
  function MoveAgent(agent: Agent, grid: Grid, action: Action): (r: Agent)
    ensures r.orientation == agent.orientation && r.obj == agent.obj
    ensures r.position == agent.position
      || (IsMove(action) && Adjacent(r.position, agent.position) && CanEnter(grid, r.position))
    ensures r.position != agent.position <==> (IsMove(action)
      && CanEnter(grid, UpdatedAgentPositionIfUnobstructed(agent.position, agent.orientation, action)))
  {
    if !IsMove(action) then agent
    else
      var next := UpdatedAgentPositionIfUnobstructed(agent.position, agent.orientation, action);
      if !CanEnter(grid, next) then agent else agent.(position := next)
  }

  /** Turning changes the orientation by a quarter turn and nothing else; other actions
      leave the agent unchanged. */
  function RotateAgent(agent: Agent, action: Action): (r: Agent)
    ensures r.position == agent.position && r.obj == agent.obj
    ensures action == TurnLeft ==> RotateRight(r.orientation) == agent.orientation
    ensures action == TurnRight ==> RotateLeft(r.orientation) == agent.orientation
    ensures !IsRotation(action) ==> r == agent
  {
    RotationCycles(agent.orientation);
    if action == TurnLeft then agent.(orientation := RotateLeft(agent.orientation))
    else if action == TurnRight then agent.(orientation := RotateRight(agent.orientation))
    else agent
  }

  /** Moves or turns the agent; the grid is never touched. */
  function UpdateAgent(s: State, action: Action): (r: State)
    ensures r.grid == s.grid && r.agent.obj == s.agent.obj
    ensures IsRotation(action) ==> r.agent == RotateAgent(s.agent, action)
    ensures IsMove(action) ==> r.agent == MoveAgent(s.agent, s.grid, action)
    ensures !IsRotation(action) && !IsMove(action) ==> r == s
  {
    if IsRotation(action) then State(s.grid, RotateAgent(s.agent, action))
    else if IsMove(action) then State(s.grid, MoveAgent(s.agent, s.grid, action))
    else s
  }

  /** An agent standing on an enterable cell still does after any agent update: it never
      leaves the grid and never walks into a wall, a closed door or a box. */
  lemma UpdateAgentKeepsAgentOnFloorplan(s: State, action: Action)
    requires CanEnter(s.grid, s.agent.position)
    ensures CanEnter(UpdateAgent(s, action).grid, UpdateAgent(s, action).agent.position)
  {
  }

  // ---------------------------------------------------------------------------------
  // Picking up and dropping
  // ---------------------------------------------------------------------------------

  /** The objects owned by the state: those on the grid and the one in hand. */
  function Held(s: State): multiset<GridObject> {
    Objects(s.grid) + multiset{s.agent.obj}
  }

  /** Floor and the empty hand are not items: pick-and-drop creates and discards them. */
  predicate IsItem(o: GridObject) {
    o != Floor && o != NoneGridObject
  }

  /** Pick-and-drop on the cell in front of the agent: a key there is picked up (swapping
      with whatever is held), a held object is dropped onto floor, and anything else is
      left alone. A front cell off the grid raises IndexError. */
  function PickupMechanics(s: State, action: Action): (r: Result<State>)
    ensures action != PickNDrop ==> r == Success(s)
    ensures r.Failure? <==> action == PickNDrop && !s.grid.Contains(PositionInFront(s.agent))
    ensures r.Failure? ==> r.error == IndexError
    ensures r.Success? ==> var t := r.value;
      t.agent.position == s.agent.position && t.agent.orientation == s.agent.orientation
      && t.grid.Shape() == s.grid.Shape()
      && forall c | s.grid.Contains(c) && c != PositionInFront(s.agent) :: t.grid.At(c) == s.grid.At(c)
    ensures r.Success? && action == PickNDrop ==> var front := PositionInFront(s.agent); var t := r.value;
      (CanBePickedUp(s.grid.At(front)) ==>
        t.agent.obj == s.grid.At(front)
        && t.grid.At(front) == (if s.agent.obj == NoneGridObject then Floor else s.agent.obj))
      && (s.grid.At(front) == Floor ==>
        t.agent.obj == NoneGridObject
        && t.grid.At(front) == (if s.agent.obj == NoneGridObject then Floor else s.agent.obj))
      && (!CanBePickedUp(s.grid.At(front)) && s.grid.At(front) != Floor ==> t == s)
  {
    if action != PickNDrop then Success(s)
    else
      var front := PositionInFront(s.agent);
      if !s.grid.Contains(front) then Failure(IndexError)
      else
        var inFront := s.grid.At(front);
        var holding := s.agent.obj;
        var canPickup := CanBePickedUp(inFront);
        var canDrop := inFront == Floor || canPickup;
        if !canPickup && !canDrop then Success(s)
        else
          var placed := if canDrop && holding != NoneGridObject then holding else Floor;
          var held := if canPickup then inFront else NoneGridObject;
          Success(State(Update(s.grid, front, placed), s.agent.(obj := held)))
  }

  /** Pick-and-drop only moves objects between the grid and the hand: no key, and no
      other item, is created or destroyed. */
  lemma PickupConservesItems(s: State, action: Action)
    requires PickupMechanics(s, action).Success?
    ensures var t := PickupMechanics(s, action).value;
      forall o | IsItem(o) :: Held(t)[o] == Held(s)[o]
  {
    var t := PickupMechanics(s, action).value;
    var front := PositionInFront(s.agent);
    if action == PickNDrop && (CanBePickedUp(s.grid.At(front)) || s.grid.At(front) == Floor) {
      var inFront := s.grid.At(front);
      assert t.grid == Update(s.grid, front, t.grid.At(front));
      UpdateObjects(s.grid, front, t.grid.At(front));
      var m := Objects(s.grid);
      assert inFront in m;
      forall o | IsItem(o) ensures Held(t)[o] == Held(s)[o] {
        assert Held(t)[o] == m[o] - multiset{inFront}[o] + multiset{t.grid.At(front)}[o]
          + multiset{t.agent.obj}[o];
        SwapCounts(inFront, s.agent.obj, t.grid.At(front), t.agent.obj, o);
      }
    }
  }

  /** One pick-and-drop exchange, counted for a single item: what the front cell and the
      hand hold afterwards holds `o` as often as they held it before. */
  lemma SwapCounts(inFront: GridObject, holding: GridObject, placed: GridObject, held: GridObject,
                   o: GridObject)
    requires IsItem(o)
    requires CanBePickedUp(inFront) || inFront == Floor
    requires held == (if CanBePickedUp(inFront) then inFront else NoneGridObject)
    requires placed == (if holding == NoneGridObject then Floor else holding)
    ensures multiset{placed}[o] + multiset{held}[o] == multiset{inFront}[o] + multiset{holding}[o]
  {
  }

  /** What the hand holds after pick-and-drop: the key in front, nothing once something
      is put down on floor, and what it held when the front cell takes nothing. */
  lemma PickNDropHand(s: State)
    requires s.grid.Contains(PositionInFront(s.agent))
    ensures PickupMechanics(s, PickNDrop).Success?
    ensures var front := PositionInFront(s.agent);
      PickupMechanics(s, PickNDrop).value.agent.obj ==
        if s.grid.At(front).Key? then s.grid.At(front)
        else if s.grid.At(front) == Floor then NoneGridObject
        else s.agent.obj
  {
  }

  /** An agent that holds nothing or a key still holds nothing or a key afterwards. */
  lemma PickupHoldsOnlyKeys(s: State, action: Action)
    requires s.agent.obj == NoneGridObject || s.agent.obj.Key?
    requires PickupMechanics(s, action).Success?
    ensures var o := PickupMechanics(s, action).value.agent.obj; o == NoneGridObject || o.Key?
  {
  }

  // ---------------------------------------------------------------------------------
  // Doors and boxes
  // ---------------------------------------------------------------------------------

  /** Whether actuating a door with `held` in hand opens it: anything but a locked door
      opens, and a locked door needs a key of its own colour. */
  predicate Unlocks(door: GridObject, held: GridObject)
    requires door.Door?
  {
    !IsLocked(door) || (held.Key? && held.color == door.color)
  }

  /** Actuating the door in front opens it when it can be opened; nothing else changes and
      the key is kept. A front cell off the grid is ignored. */
  function ActuateDoor(s: State, action: Action): (r: State)
    ensures r.agent == s.agent && r.grid.Shape() == s.grid.Shape()
    ensures forall c | s.grid.Contains(c) && c != PositionInFront(s.agent) :: r.grid.At(c) == s.grid.At(c)
    ensures var front := PositionInFront(s.agent);
      s.grid.Contains(front) && s.grid.At(front).Door? && action == Actuate ==>
        r.grid.At(front).Door? && r.grid.At(front).color == s.grid.At(front).color
        && (IsOpen(r.grid.At(front)) <==> Unlocks(s.grid.At(front), s.agent.obj))
        && (!IsOpen(r.grid.At(front)) ==> r.grid.At(front) == s.grid.At(front))
    ensures (action != Actuate || !s.grid.Contains(PositionInFront(s.agent))
      || !s.grid.At(PositionInFront(s.agent)).Door?) ==> r == s
  {
    var front := PositionInFront(s.agent);
    if action != Actuate || !s.grid.Contains(front) then s
    else
      var door := s.grid.At(front);
      if !door.Door? then s
      else if IsOpen(door) then s
      else if !IsLocked(door) then State(Update(s.grid, front, door.(status := Open)), s.agent)
      else if s.agent.obj.Key? && s.agent.obj.color == door.color then
        State(Update(s.grid, front, door.(status := Open)), s.agent)
      else s
  }

  /** Actuating twice has the same effect as actuating once. */
  lemma ActuateDoorIdempotent(s: State, action: Action)
    ensures ActuateDoor(ActuateDoor(s, action), action) == ActuateDoor(s, action)
  {
    var once := ActuateDoor(s, action);
    var twice := ActuateDoor(once, action);
    var front := PositionInFront(s.agent);
    if action == Actuate && s.grid.Contains(front) && s.grid.At(front).Door? {
      forall c | once.grid.Contains(c) ensures twice.grid.At(c) == once.grid.At(c) {
      }
      Equality(twice.grid, once.grid);
    }
  }

  /** Actuating the box in front replaces it by its content. */
  function ActuateBox(s: State, action: Action): (r: State)
    ensures r.agent == s.agent && r.grid.Shape() == s.grid.Shape()
    ensures forall c | s.grid.Contains(c) && c != PositionInFront(s.agent) :: r.grid.At(c) == s.grid.At(c)
    ensures var front := PositionInFront(s.agent);
      if action == Actuate && s.grid.Contains(front) && s.grid.At(front).Box?
      then r.grid.At(front) == s.grid.At(front).content
      else r == s
  {
    var front := PositionInFront(s.agent);
    if action != Actuate || !s.grid.Contains(front) then s
    else
      var box := s.grid.At(front);
      if !box.Box? then s else State(Update(s.grid, front, box.content), s.agent)
  }

  /** Opening a box trades the box for its content: one box fewer, one content more. */
  lemma ActuateBoxObjects(s: State, action: Action)
    requires action == Actuate && s.grid.Contains(PositionInFront(s.agent))
    requires s.grid.At(PositionInFront(s.agent)).Box?
    ensures var box := s.grid.At(PositionInFront(s.agent));
      Objects(ActuateBox(s, action).grid) == Objects(s.grid) - multiset{box} + multiset{box.content}
  {
    var front := PositionInFront(s.agent);
    UpdateObjects(s.grid, front, s.grid.At(front).content);
  }

  // ---------------------------------------------------------------------------------
  // Telepods
  // ---------------------------------------------------------------------------------

  /** The other telepods of colour `c`, in row-major order. */
  function TelepodTargets(g: Grid, p: Position, c: Color): (r: seq<Position>)
    ensures forall q :: q in r <==> g.Contains(q) && q != p && g.At(q) == Telepod(c)
  {
    Filter(GridPositions(g), q => g.Contains(q) && q != p && g.At(q) == Telepod(c))
  }

  /** An agent standing on a telepod is sent to another telepod of the same colour; a
      telepod with no partner raises ValueError, and an agent off the grid IndexError. */
  function StepTelepod(s: State, rng: Rng): (r: Result<(State, Rng)>)
    ensures r.Failure? && r.error == IndexError <==> !s.grid.Contains(s.agent.position)
    ensures r.Failure? && r.error == ValueError <==> (s.grid.Contains(s.agent.position)
      && s.grid.At(s.agent.position).Telepod?
      && forall q | s.grid.Contains(q) && q != s.agent.position :: s.grid.At(q) != s.grid.At(s.agent.position))
    ensures r.Failure? ==> r.error == IndexError || r.error == ValueError
    ensures r.Success? ==> var t := r.value.0;
      t.grid == s.grid && t.agent.orientation == s.agent.orientation && t.agent.obj == s.agent.obj
    ensures r.Success? && s.grid.At(s.agent.position).Telepod? ==> var t := r.value.0;
      t.agent.position != s.agent.position && s.grid.Contains(t.agent.position)
      && s.grid.At(t.agent.position) == s.grid.At(s.agent.position)
    ensures r.Success? && !s.grid.At(s.agent.position).Telepod? ==> r.value == (s, rng)
  {
    var here := s.agent.position;
    if !s.grid.Contains(here) then Failure(IndexError)
    else
      var telepod := s.grid.At(here);
      if !telepod.Telepod? then Success((s, rng))
      else
        var targets := TelepodTargets(s.grid, here, telepod.color);
        var (target, rng') :- Choice(rng, targets);
        Success((s.(agent := s.agent.(position := target)), rng'))
  }

  // ---------------------------------------------------------------------------------
  // Moving obstacles
  // ---------------------------------------------------------------------------------

  /** One obstacle step: where the obstacle stood and where it went. */
  datatype Move = Move(source: Position, target: Position)

  function Sources(moves: seq<Move>): (r: seq<Position>)
    ensures |r| == |moves|
    ensures forall i | 0 <= i < |moves| :: r[i] == moves[i].source
  {
    if |moves| == 0 then [] else [moves[0].source] + Sources(moves[1..])
  }

  /** Every move stays put or goes to a neighbouring cell. */
  predicate ShortSteps(moves: seq<Move>) {
    forall i | 0 <= i < |moves| :: moves[i].target == moves[i].source || Adjacent(moves[i].target, moves[i].source)
  }

  lemma MovesCons(m: Move, moves: seq<Move>)
    ensures Sources([m] + moves) == [m.source] + Sources(moves)
    ensures ShortSteps([m] + moves) <==> ShortSteps([m]) && ShortSteps(moves)
  {
    assert ([m] + moves)[1..] == moves;
    if ShortSteps([m]) && ShortSteps(moves) {
      forall i | 0 <= i < |[m] + moves| ensures ([m] + moves)[i].target == ([m] + moves)[i].source
        || Adjacent(([m] + moves)[i].target, ([m] + moves)[i].source)
      {
        if i > 0 {
          assert ([m] + moves)[i] == moves[i - 1];
        }
      }
    }
    if ShortSteps([m] + moves) {
      forall i | 0 <= i < |moves| ensures moves[i].target == moves[i].source || Adjacent(moves[i].target, moves[i].source) {
        assert ([m] + moves)[i + 1] == moves[i];
      }
    }
  }

  /** The positions among `ps` that hold a moving obstacle, in the order of `ps`. */
  function ObstaclePositions(g: Grid, ps: seq<Position>): (r: seq<Position>)
    ensures forall q :: q in r <==> q in ps && g.Contains(q) && g.At(q) == MovingObstacle
  {
    Filter(ps, q => g.Contains(q) && g.At(q) == MovingObstacle)
  }

  /** The in-grid floor cells next to `p`, clockwise from the one above. */
  function FloorNeighbours(g: Grid, p: Position): (r: seq<Position>)
    ensures forall q :: q in r <==> Adjacent(q, p) && g.Contains(q) && g.At(q) == Floor
  {
    Filter(ManhattanBoundary(p, 1), q => g.Contains(q) && g.At(q) == Floor)
  }

  predicate FloorOrObstacle(o: GridObject) {
    o == Floor || o == MovingObstacle
  }

  /** Moves the obstacle at `p` to a random floor neighbour, or leaves it when it has none.
      Returns the new grid, the obstacle's new position and the generator. */
  function StepMovingObstacle(g: Grid, p: Position, rng: Rng): (res: (Grid, Position, Rng))
    requires g.Contains(p) && g.At(p) == MovingObstacle
    ensures res.0.Shape() == g.Shape() && Objects(res.0) == Objects(g)
    ensures res.1 == p <==> forall q | Adjacent(q, p) && g.Contains(q) :: g.At(q) != Floor
    ensures res.1 != p ==> Adjacent(res.1, p) && g.Contains(res.1) && g.At(res.1) == Floor
    ensures res.0.At(res.1) == MovingObstacle && res.0.At(p) == g.At(res.1)
    ensures forall c | g.Contains(c) && c != p && c != res.1 :: res.0.At(c) == g.At(c)
    ensures forall c | g.Contains(c) :: Unmoved(g, res.0, c)
    ensures ObstacleStep(g, res.0, Move(p, res.1))
  {
    var candidates := FloorNeighbours(g, p);
    match Choice(rng, candidates)
    case Failure(_) =>
      StayStep(g, p);
      (g, p, rng)
    case Success((q, rng')) =>
      SwapStep(g, p, q);
      (Swap(g, p, q).value, q, rng')
  }

  /** An obstacle with no Floor neighbour stays put. */
  lemma StayStep(g: Grid, p: Position)
    requires g.Contains(p) && g.At(p) == MovingObstacle
    requires forall q | Adjacent(q, p) && g.Contains(q) :: g.At(q) != Floor
    ensures forall c | g.Contains(c) :: Unmoved(g, g, c)
    ensures ObstacleStep(g, g, Move(p, p))
  {
  }

  /** An obstacle swapping with a Floor neighbour moves there. */
  lemma SwapStep(g: Grid, p: Position, q: Position)
    requires g.Contains(p) && g.At(p) == MovingObstacle
    requires Adjacent(q, p) && g.Contains(q) && g.At(q) == Floor
    ensures var g' := Swap(g, p, q).value;
      g'.Shape() == g.Shape() && Objects(g') == Objects(g) &&
      q != p && g'.At(q) == MovingObstacle && g'.At(p) == g.At(q) &&
      (forall c | g.Contains(c) && c != p && c != q :: g'.At(c) == g.At(c)) &&
      (forall c | g.Contains(c) :: Unmoved(g, g', c)) &&
      ObstacleStep(g, g', Move(p, q))
  {
    assert q != p by { assert Adjacent(q, p); }
    var g' := Swap(g, p, q).value;
    forall c | g.Contains(c) ensures Unmoved(g, g', c) {
    }
  }

  /** What the obstacle walk keeps true before visiting `ps`: the cells still to visit
      that hold an unstepped obstacle are exactly those that held an obstacle at the
      start. */
  ghost predicate WalkInvariant(g0: Grid, g: Grid, ps: seq<Position>, stepped: set<Position>) {
    g.Shape() == g0.Shape()
    && RowMajor(ps) && (forall p | p in ps :: g.Contains(p))
    && forall p | p in ps :: (g.At(p) == MovingObstacle && p !in stepped) <==> g0.At(p) == MovingObstacle
  }

  /** The walk over `ps` that steps every obstacle once. `stepped` holds the cells where
      an already-stepped obstacle may stand; an obstacle met there is not stepped again.
      This plays the role of the identity check on obstacle objects: an obstacle only
      ever moves into floor, so a stepped obstacle always stands on a cell of `stepped`
      and an unstepped one never does. */
  function StepObstaclesAlong(g0: Grid, g: Grid, ps: seq<Position>, stepped: set<Position>, rng: Rng)
    : (res: (Grid, seq<Move>, seq<Grid>, Rng))
    requires WalkInvariant(g0, g, ps, stepped)
    ensures res.0.Shape() == g.Shape() && Objects(res.0) == Objects(g)
    ensures ShortSteps(res.1)
    ensures Trace(res.2, res.1) && res.2[0] == g && res.2[|res.1|] == res.0
    ensures forall c | g.Contains(c) :: Unmoved(g, res.0, c)
    decreases |ps|
  {
    if |ps| == 0 then (g, [], [g], rng)
    else
      var p := ps[0];
      if g.At(p) == MovingObstacle && p !in stepped then
        var (g1, q, rng1) := StepMovingObstacle(g, p, rng);
        WalkStep(g0, g, ps, stepped, g1, q);
        var (g2, moves, grids, rng2) := StepObstaclesAlong(g0, g1, ps[1..], stepped + {q}, rng1);
        WalkCons(g, g1, g2, Move(p, q), moves, grids);
        (g2, [Move(p, q)] + moves, [g] + grids, rng2)
      else
        WalkSkip(g0, g, ps, stepped);
        StepObstaclesAlong(g0, g, ps[1..], stepped, rng)
  }

  /** An obstacle step followed by a walk is a walk. */
  lemma WalkCons(g: Grid, g1: Grid, g2: Grid, m: Move, moves: seq<Move>, grids: seq<Grid>)
    requires g1.Shape() == g.Shape() && Objects(g1) == Objects(g)
    requires g2.Shape() == g1.Shape() && Objects(g2) == Objects(g1)
    requires m.target == m.source || Adjacent(m.target, m.source)
    requires ShortSteps(moves) && ObstacleStep(g, g1, m)
    requires Trace(grids, moves) && grids[0] == g1 && grids[|moves|] == g2
    requires forall c | g.Contains(c) :: Unmoved(g, g1, c)
    requires forall c | g1.Contains(c) :: Unmoved(g1, g2, c)
    ensures g2.Shape() == g.Shape() && Objects(g2) == Objects(g)
    ensures ShortSteps([m] + moves)
    ensures Trace([g] + grids, [m] + moves) && ([g] + grids)[0] == g && ([g] + grids)[|[m] + moves|] == g2
    ensures forall c | g.Contains(c) :: Unmoved(g, g2, c)
  {
    UnmovedTransitive(g, g1, g2);
    MovesCons(m, moves);
    TraceCons(g, m, grids, moves);
  }

  /** One obstacle step as `StepMovingObstacle` makes it on the grid `before`: the
      obstacle at the source moves to a Floor neighbour in the grid, or stays when it has
      none; afterwards it stands on the target, the source holds what the target held,
      and every other cell is unchanged. */
  ghost predicate ObstacleStep(before: Grid, after: Grid, m: Move) {
    before.Contains(m.source) && before.At(m.source) == MovingObstacle && after.Shape() == before.Shape() &&
    (m.target == m.source <==> forall q | Adjacent(q, m.source) && before.Contains(q) :: before.At(q) != Floor) &&
    (m.target != m.source ==> Adjacent(m.target, m.source) && before.Contains(m.target) && before.At(m.target) == Floor) &&
    before.Contains(m.target) && after.At(m.target) == MovingObstacle && after.At(m.source) == before.At(m.target) &&
    forall c | before.Contains(c) && c != m.source && c != m.target :: after.At(c) == before.At(c)
  }

  /** The grids of a walk: each move is an obstacle step from one grid to the next. */
  ghost predicate Trace(grids: seq<Grid>, moves: seq<Move>) {
    |grids| == |moves| + 1 && forall k | 0 <= k < |moves| :: ObstacleStep(grids[k], grids[k + 1], moves[k])
  }

  lemma TraceCons(g: Grid, m: Move, grids: seq<Grid>, moves: seq<Move>)
    requires Trace(grids, moves) && ObstacleStep(g, grids[0], m)
    ensures Trace([g] + grids, [m] + moves)
    ensures ([g] + grids)[0] == g && ([g] + grids)[|[m] + moves|] == grids[|moves|]
  {
    var gs := [g] + grids;
    var ms := [m] + moves;
    forall k | 0 <= k < |ms| ensures ObstacleStep(gs[k], gs[k + 1], ms[k]) {
      if k > 0 {
        assert gs[k] == grids[k - 1] && gs[k + 1] == grids[k] && ms[k] == moves[k - 1];
      }
    }
  }

  /** The walk steps exactly the cells of `ps` that held an obstacle at the start, in
      the order of `ps`. */
  lemma {:induction false} WalkSources(g0: Grid, g: Grid, ps: seq<Position>, stepped: set<Position>, rng: Rng)
    requires WalkInvariant(g0, g, ps, stepped)
    ensures Sources(StepObstaclesAlong(g0, g, ps, stepped, rng).1) == ObstaclePositions(g0, ps)
    decreases |ps|
  {
    if |ps| > 0 {
      var p := ps[0];
      ObstaclePositionsCons(g0, ps);
      if g.At(p) == MovingObstacle && p !in stepped {
        var (g1, q, rng1) := StepMovingObstacle(g, p, rng);
        WalkStep(g0, g, ps, stepped, g1, q);
        WalkSources(g0, g1, ps[1..], stepped + {q}, rng1);
        var moves := StepObstaclesAlong(g0, g1, ps[1..], stepped + {q}, rng1).1;
        MovesCons(Move(p, q), moves);
      } else {
        WalkSkip(g0, g, ps, stepped);
        WalkSources(g0, g, ps[1..], stepped, rng);
      }
    }
  }

  /** A cell keeps its object unless both the old and the new object are floor or an
      obstacle. */
  predicate Unmoved(g: Grid, g': Grid, c: Position)
    requires g.Contains(c) && g'.Shape() == g.Shape()
  {
    (FloorOrObstacle(g'.At(c)) <==> FloorOrObstacle(g.At(c)))
    && (!FloorOrObstacle(g.At(c)) ==> g'.At(c) == g.At(c))
  }

  lemma UnmovedTransitive(g1: Grid, g2: Grid, g3: Grid)
    requires g2.Shape() == g1.Shape() && g3.Shape() == g2.Shape()
    requires forall c | g1.Contains(c) :: Unmoved(g1, g2, c)
    requires forall c | g2.Contains(c) :: Unmoved(g2, g3, c)
    ensures forall c | g1.Contains(c) :: Unmoved(g1, g3, c)
  {
    forall c | g1.Contains(c) ensures Unmoved(g1, g3, c) {
      assert Unmoved(g1, g2, c) && Unmoved(g2, g3, c);
    }
  }

  /** The obstacle positions of a non-empty list: its head, if it holds one, then those of
      its tail. */
  lemma ObstaclePositionsCons(g: Grid, ps: seq<Position>)
    requires |ps| > 0
    ensures ObstaclePositions(g, ps)
      == (if g.Contains(ps[0]) && g.At(ps[0]) == MovingObstacle then [ps[0]] else []) + ObstaclePositions(g, ps[1..])
  {
  }

  /** Stepping the obstacle at the head of the walk keeps the invariant for the tail. */
  lemma WalkStep(g0: Grid, g: Grid, ps: seq<Position>, stepped: set<Position>, g1: Grid, q: Position)
    requires WalkInvariant(g0, g, ps, stepped) && |ps| > 0
    requires g.At(ps[0]) == MovingObstacle && ps[0] !in stepped
    requires g1.Shape() == g.Shape() && g.Contains(q)
    requires q == ps[0] || g.At(q) == Floor
    requires forall c | g.Contains(c) && c != ps[0] && c != q :: g1.At(c) == g.At(c)
    ensures WalkInvariant(g0, g1, ps[1..], stepped + {q})
  {
    RowMajorTail(ps);
    assert g1.height == g.height && g1.width == g.width;
    forall p | p in ps[1..] ensures g1.Contains(p) {
      assert p in ps;
    }
    forall p | p in ps[1..]
      ensures (g1.At(p) == MovingObstacle && p !in stepped + {q}) <==> g0.At(p) == MovingObstacle
    {
      assert p in ps && p != ps[0];
    }
  }

  /** Passing over a cell without stepping keeps the invariant for the tail. */
  lemma WalkSkip(g0: Grid, g: Grid, ps: seq<Position>, stepped: set<Position>)
    requires WalkInvariant(g0, g, ps, stepped) && |ps| > 0
    ensures WalkInvariant(g0, g, ps[1..], stepped)
  {
    RowMajorTail(ps);
  }

  /** Every moving obstacle takes one random step onto a neighbouring floor cell, if it
      has one; obstacles are visited in row-major order of their starting cells. */
  function StepMovingObstacles(s: State, rng: Rng): (r: (State, Rng))
    ensures r.0.agent == s.agent && r.0.grid.Shape() == s.grid.Shape()
    ensures Objects(r.0.grid) == Objects(s.grid)
    ensures forall c | s.grid.Contains(c) :: Unmoved(s.grid, r.0.grid, c)
  {
    var (g, _, _, rng') := StepObstaclesAlong(s.grid, s.grid, GridPositions(s.grid), {}, rng);
    (State(g, s.agent), rng')
  }

  /** Each obstacle present at the start moves exactly once, in row-major order, by at
      most one cell; each move is an obstacle step on the grid the moves before it left,
      starting from the given grid and ending at the returned one. */
  lemma EachObstacleStepsOnce(s: State, rng: Rng)
    ensures var (g, moves, grids, rng') := StepObstaclesAlong(s.grid, s.grid, GridPositions(s.grid), {}, rng);
      g == StepMovingObstacles(s, rng).0.grid
      && Sources(moves) == ObstaclePositions(s.grid, GridPositions(s.grid))
      && (forall q :: q in Sources(moves) <==> s.grid.Contains(q) && s.grid.At(q) == MovingObstacle)
      && Distinct(Sources(moves))
      && ShortSteps(moves)
      && Trace(grids, moves) && grids[0] == s.grid && grids[|moves|] == g
  {
    var ps := GridPositions(s.grid);
    assert Distinct(ps) by {
      forall i, j | 0 <= i < j < |ps| ensures ps[i] != ps[j] {
        assert Before(ps[i], ps[j]);
      }
    }
    WalkSources(s.grid, s.grid, ps, {}, rng);
    FilterDistinct(ps, q => s.grid.Contains(q) && s.grid.At(q) == MovingObstacle);
  }

  // ---------------------------------------------------------------------------------
  // Composition and registry
  // ---------------------------------------------------------------------------------

  /** The transition functions the registry can build. */
  datatype TransitionFunction =
    | Chain(fns: seq<TransitionFunction>)
    | UpdateAgentFn
    | PickupMechanicsFn
    | StepMovingObstaclesFn
    | ActuateDoorFn
    | ActuateBoxFn
    | StepTelepodFn

  /** Whether a transition function never draws from the generator: neither it nor any
      function it chains steps moving obstacles or telepods. */
  predicate Deterministic(f: TransitionFunction)
    decreases f
  {
    match f
    case Chain(fns) => forall k | 0 <= k < |fns| :: Deterministic(fns[k])
    case StepMovingObstaclesFn => false
    case StepTelepodFn => false
    case _ => true
  }

  /** Runs one transition function. Only an agent facing off the grid when picking up
      (IndexError) or a telepod step (IndexError, ValueError) can fail; the grid keeps its
      shape; and a function that never draws hands the generator back untouched. */
  function Apply(f: TransitionFunction, s: State, action: Action, rng: Rng): (r: Result<(State, Rng)>)
    ensures r.Failure? ==> r.error == IndexError || r.error == ValueError
    ensures r.Success? ==> r.value.0.grid.Shape() == s.grid.Shape()
    ensures r.Success? && Deterministic(f) ==> r.value.1 == rng
    decreases f, 1, 0
  {
    if f.Chain? then ApplyFrom(f, 0, s, action, rng) else ApplyPrimitive(f, s, action, rng)
  }

  /** Runs one primitive; the primitives that ignore randomness hand the generator back
      untouched. */
  function ApplyPrimitive(f: TransitionFunction, s: State, action: Action, rng: Rng): (r: Result<(State, Rng)>)
    requires !f.Chain?
    ensures r.Failure? <==>
      (f.PickupMechanicsFn? && action == PickNDrop && !s.grid.Contains(PositionInFront(s.agent)))
      || (f.StepTelepodFn? && StepTelepod(s, rng).Failure?)
    ensures r.Failure? ==> r.error == IndexError || r.error == ValueError
    ensures r.Success? ==> r.value.0.grid.Shape() == s.grid.Shape()
    ensures r.Success? && Deterministic(f) ==> r.value.1 == rng
  {
    match f
    case UpdateAgentFn => Success((UpdateAgent(s, action), rng))
    case PickupMechanicsFn =>
      var t :- PickupMechanics(s, action);
      Success((t, rng))
    case StepMovingObstaclesFn => Success(StepMovingObstacles(s, rng))
    case ActuateDoorFn => Success((ActuateDoor(s, action), rng))
    case ActuateBoxFn => Success((ActuateBox(s, action), rng))
    case StepTelepodFn => StepTelepod(s, rng)
  }

  /** Runs the functions of a chain from index `i` on, each on the state the previous one
      left; the first error stops the chain. */
  function ApplyFrom(f: TransitionFunction, i: nat, s: State, action: Action, rng: Rng): (r: Result<(State, Rng)>)
    requires f.Chain? && i <= |f.fns|
    ensures i == |f.fns| ==> r == Success((s, rng))
    ensures r.Failure? ==> r.error == IndexError || r.error == ValueError
    ensures r.Success? ==> r.value.0.grid.Shape() == s.grid.Shape()
    ensures r.Success? && (forall k | i <= k < |f.fns| :: Deterministic(f.fns[k])) ==> r.value.1 == rng
    decreases f, 0, |f.fns| - i
  {
    if i == |f.fns| then Success((s, rng))
    else
      var (t, rng') :- Apply(f.fns[i], s, action, rng);
      ApplyFrom(f, i + 1, t, action, rng')
  }

  /** Runs `g` after a successful `f`, or propagates `f`'s error. */
  function Then(r: Result<(State, Rng)>, g: TransitionFunction, action: Action): Result<(State, Rng)> {
    match r
    case Failure(e) => Failure(e)
    case Success((t, rng')) => Apply(g, t, action, rng')
  }

  /** A chain is the sequential composition of its members: a chain of `fs + gs` runs the
      chain of `fs` and then the chain of `gs`. */
  lemma {:induction false} ChainConcatenation(fs: seq<TransitionFunction>, gs: seq<TransitionFunction>,
                                             s: State, action: Action, rng: Rng)
    ensures Apply(Chain(fs + gs), s, action, rng) == Then(Apply(Chain(fs), s, action, rng), Chain(gs), action)
  {
    ChainFrom(fs, gs, 0, s, action, rng);
  }

  lemma {:induction false} ChainFrom(fs: seq<TransitionFunction>, gs: seq<TransitionFunction>, i: nat,
                                    s: State, action: Action, rng: Rng)
    requires i <= |fs|
    ensures ApplyFrom(Chain(fs + gs), i, s, action, rng)
      == Then(ApplyFrom(Chain(fs), i, s, action, rng), Chain(gs), action)
    decreases |fs| - i, 1
  {
    var all := Chain(fs + gs);
    if i == |fs| {
      ConcatTail(fs, gs);
      TailFrom(all, Chain(gs), |fs|, 0, s, action, rng);
    } else {
      assert all.fns[i] == fs[i];
      ApplyFromStep(all, i, s, action, rng);
      ApplyFromStep(Chain(fs), i, s, action, rng);
      ChainContinue(fs, gs, i, Apply(fs[i], s, action, rng), action);
    }
  }

  lemma {:induction false} ChainContinue(fs: seq<TransitionFunction>, gs: seq<TransitionFunction>, i: nat,
                                        a: Result<(State, Rng)>, action: Action)
    requires i < |fs|
    ensures Continue(a, Chain(fs + gs), i + 1, action)
      == Then(Continue(a, Chain(fs), i + 1, action), Chain(gs), action)
    decreases |fs| - i, 0
  {
    if a.Success? {
      ChainFrom(fs, gs, i + 1, a.value.0, action, a.value.1);
    }
  }

  /** The members of `fs + gs` from `|fs|` on are those of `gs`. */
  lemma ConcatTail(fs: seq<TransitionFunction>, gs: seq<TransitionFunction>)
    ensures |Chain(fs + gs).fns| == |fs| + |Chain(gs).fns|
    ensures forall k | 0 <= k < |gs| :: Chain(fs + gs).fns[|fs| + k] == Chain(gs).fns[k]
  {
  }

  /** A chain whose members from `o` on are those of `d` runs, from `o + j`, like `d`
      from `j`. */
  lemma {:induction false} TailFrom(c: TransitionFunction, d: TransitionFunction, o: nat, j: nat,
                                   s: State, action: Action, rng: Rng)
    requires c.Chain? && d.Chain? && j <= |d.fns| && o + |d.fns| == |c.fns|
    requires forall k | 0 <= k < |d.fns| :: c.fns[o + k] == d.fns[k]
    ensures ApplyFrom(c, o + j, s, action, rng) == ApplyFrom(d, j, s, action, rng)
    decreases |d.fns| - j, 1
  {
    if j < |d.fns| {
      assert c.fns[o + j] == d.fns[j];
      ApplyFromStep(c, o + j, s, action, rng);
      ApplyFromStep(d, j, s, action, rng);
      TailContinue(c, d, o, j, Apply(d.fns[j], s, action, rng), action);
    }
  }

  lemma {:induction false} TailContinue(c: TransitionFunction, d: TransitionFunction, o: nat, j: nat,
                                       a: Result<(State, Rng)>, action: Action)
    requires c.Chain? && d.Chain? && j < |d.fns| && o + |d.fns| == |c.fns|
    requires forall k | 0 <= k < |d.fns| :: c.fns[o + k] == d.fns[k]
    ensures Continue(a, c, o + j + 1, action) == Continue(a, d, j + 1, action)
    decreases |d.fns| - j, 0
  {
    match a
    case Failure(e) =>
    case Success((t, rng')) =>
      TailFrom(c, d, o, j + 1, t, action, rng');
      assert Continue(a, c, o + j + 1, action) == ApplyFrom(c, o + j + 1, t, action, rng');
  }

  /** One step of a chain: the member at `i` runs, and the rest of the chain continues
      from what it left. */
  lemma ApplyFromStep(f: TransitionFunction, i: nat, s: State, action: Action, rng: Rng)
    requires f.Chain? && i < |f.fns|
    ensures ApplyFrom(f, i, s, action, rng) == Continue(Apply(f.fns[i], s, action, rng), f, i + 1, action)
  {
  }

  /** Runs the rest of a chain from member `i` after a successful step, or propagates the
      step's error. */
  function Continue(a: Result<(State, Rng)>, f: TransitionFunction, i: nat, action: Action): Result<(State, Rng)>
    requires f.Chain? && i <= |f.fns|
  {
    match a
    case Failure(e) => Failure(e)
    case Success((t, rng')) => ApplyFrom(f, i, t, action, rng')
  }

  /** The empty chain changes nothing, and a one-element chain is its element. */
  lemma ChainUnits(f: TransitionFunction, s: State, action: Action, rng: Rng)
    ensures Apply(Chain([]), s, action, rng) == Success((s, rng))
    ensures Apply(Chain([f]), s, action, rng) == Apply(f, s, action, rng)
  {
    var c := Chain([f]);
    assert c.fns[0] == f;
    match Apply(f, s, action, rng)
    case Failure(e) =>
    case Success((t, rng')) =>
      assert ApplyFrom(c, 1, t, action, rng') == Success((t, rng'));
  }

  const TransitionNames: set<string> := {
    "chain", "update_agent", "pickup_mechanics", "step_moving_obstacles",
    "actuate_door", "actuate_box", "step_telepod"
  }

  /** The name the factory knows each transition function by. */
  function Name(f: TransitionFunction): string {
    match f
    case Chain(_) => "chain"
    case UpdateAgentFn => "update_agent"
    case PickupMechanicsFn => "pickup_mechanics"
    case StepMovingObstaclesFn => "step_moving_obstacles"
    case ActuateDoorFn => "actuate_door"
    case ActuateBoxFn => "actuate_box"
    case StepTelepodFn => "step_telepod"
  }

  /** Builds a transition function by name; `chain` needs its member list. Unknown names,
      and `chain` given no member list, raise ValueError. */
  function Factory(name: string, fns: Option<seq<TransitionFunction>>): (r: Result<TransitionFunction>)
    ensures r.Success? <==> name in TransitionNames && (name == "chain" ==> fns.Some?)
    ensures r.Failure? ==> r.error == ValueError
    ensures r.Success? ==> Name(r.value) == name
    ensures name == "chain" && fns.Some? ==> r == Success(Chain(fns.value))
  {
    if name == "chain" then
      if fns.None? then Failure(ValueError) else Success(Chain(fns.value))
    else if name == "update_agent" then Success(UpdateAgentFn)
    else if name == "pickup_mechanics" then Success(PickupMechanicsFn)
    else if name == "step_moving_obstacles" then Success(StepMovingObstaclesFn)
    else if name == "actuate_door" then Success(ActuateDoorFn)
    else if name == "actuate_box" then Success(ActuateBoxFn)
    else if name == "step_telepod" then Success(StepTelepodFn)
    else Failure(ValueError)
  }

  /** Every transition function is rebuilt by the factory from its name, a chain from its
      member list; the primitives ignore the list. */
  lemma FactoryRoundTrip(f: TransitionFunction, fns: Option<seq<TransitionFunction>>)
    ensures f.Chain? ==> Factory(Name(f), Some(f.fns)) == Success(f)
    ensures !f.Chain? ==> Factory(Name(f), fns) == Success(f)
  {
  }
}

=== FILE: visibility.dfy ===
/** Visibility masks: which cells of a (viewer-oriented) grid the agent at a given
    position sees. The partial and minigrid variants follow gym-minigrid and only handle
    an agent on the bottom row. */
module Visibility {
  import opened Wrappers
  import opened Geometry
  import opened GridObjects
  import opened Grids

  type Mask = m: Matrix<bool> | m.Valid() witness Matrix(0, 0, [])

  /** The `height` x `width` mask whose cell `p` is `visible(p)`. */
  function MaskOf(height: nat, width: nat, visible: Position -> bool): (m: Mask)
    ensures m.Shape() == Shape(height, width)
    ensures forall p | m.Contains(p) :: m.At(p) == visible(p)
  {
    Matrix(height, width, seq(height, y => seq(width, x => visible(Position(y, x)))))
  }

  /** The cells a mask shows. */
  function Seen(m: Mask): (r: set<Position>)
    ensures forall p :: p in r <==> m.Contains(p) && m.At(p)
  {
    set p | p in GridPositions(m) && m.At(p)
  }

  /** `full_visibility`: every cell is visible. */
  function FullMask(g: Grid): (m: Mask)
    ensures m.Shape() == g.Shape()
    ensures forall p | m.Contains(p) :: m.At(p)
  {
    MaskOf(g.height, g.width, _ => true)
  }

  // ---------------------------------------------------------------------------------
  // Partial visibility
  // ---------------------------------------------------------------------------------

  /** Whether cell `p` is visible to an agent at `a` under partial visibility. The agent's
      cell is visible; a cell in the agent's column or row is visible when its neighbour
      toward the agent is visible and transparent; a cell above and beside the agent is
      visible when one of its three neighbours toward the agent (below, beside, below
      and beside) is. Cells are filled in order of their distance from the agent, so
      every neighbour toward the agent is final when it is read. */
  predicate PartialVisible(g: Grid, a: Position, p: Position)
    decreases if p.y <= a.y then a.y - p.y + Abs(p.x - a.x) else 0
  {
    if !g.Contains(p) || p.y > a.y then false
    else if p == a then true
    else if p.y == a.y then
      var q := if p.x > a.x then Position(p.y, p.x - 1) else Position(p.y, p.x + 1);
      g.Contains(q) && Transparent(g.At(q)) && PartialVisible(g, a, q)
    else if p.x == a.x then
      var q := Position(p.y + 1, p.x);
      g.Contains(q) && Transparent(g.At(q)) && PartialVisible(g, a, q)
    else
      var dx := if p.x > a.x then -1 else 1;
      var below := Position(p.y + 1, p.x);
      var beside := Position(p.y, p.x + dx);
      var diagonal := Position(p.y + 1, p.x + dx);
      (g.Contains(below) && Transparent(g.At(below)) && PartialVisible(g, a, below)) ||
      (g.Contains(beside) && Transparent(g.At(beside)) && PartialVisible(g, a, beside)) ||
      (g.Contains(diagonal) && Transparent(g.At(diagonal)) && PartialVisible(g, a, diagonal))
  }

  /** `partial_visibility`. An agent off the bottom row raises NotImplementedError; an
      agent outside the grid raises IndexError. */
  function PartialMask(g: Grid, a: Position): (r: Result<Mask>)
    ensures a.y != g.height - 1 ==> r == Failure(NotImplementedError)
    ensures a.y == g.height - 1 ==> (r.Success? <==> g.Contains(a))
    ensures a.y == g.height - 1 && r.Failure? ==> r.error == IndexError
    ensures r.Success? ==> r.value.Shape() == g.Shape() && r.value.At(a)
    ensures r.Success? ==> forall p | g.Contains(p) :: r.value.At(p) == PartialVisible(g, a, p)
  {
    if a.y != g.height - 1 then Failure(NotImplementedError)
    else if !g.Contains(a) then Failure(IndexError)
    else Success(MaskOf(g.height, g.width, p => PartialVisible(g, a, p)))
  }

  /** Whether every cell of row `y` strictly between column `x` and the agent's column,
      and the agent's column itself, is transparent. */
  ghost predicate ClearRow(g: Grid, a: Position, y: int, x: int) {
    forall x' | (x < x' <= a.x || a.x <= x' < x) :: g.Contains(Position(y, x')) && Transparent(g.At(Position(y, x')))
  }

  /** A cell in the agent's column is visible iff every cell from just below it down to
      the agent's is transparent. */
  lemma {:induction false} PartialColumn(g: Grid, a: Position, y: int)
    requires g.Contains(a) && a.y == g.height - 1 && 0 <= y <= a.y
    ensures PartialVisible(g, a, Position(y, a.x)) <==>
      forall y' | y < y' <= a.y :: Transparent(g.At(Position(y', a.x)))
    decreases a.y - y
  {
    if y < a.y {
      PartialColumn(g, a, y + 1);
    }
  }

  /** A cell in the agent's row is visible iff every cell from its neighbour toward the
      agent up to the agent's is transparent. */
  lemma {:induction false} PartialRow(g: Grid, a: Position, x: int)
    requires g.Contains(a) && a.y == g.height - 1 && 0 <= x < g.width
    ensures PartialVisible(g, a, Position(a.y, x)) <==> ClearRow(g, a, a.y, x)
    decreases Abs(x - a.x)
  {
    if x < a.x {
      PartialRow(g, a, x + 1);
      assert ClearRow(g, a, a.y, x) <==> Transparent(g.At(Position(a.y, x + 1))) && ClearRow(g, a, a.y, x + 1);
    } else if x > a.x {
      PartialRow(g, a, x - 1);
      assert ClearRow(g, a, a.y, x) <==> Transparent(g.At(Position(a.y, x - 1))) && ClearRow(g, a, a.y, x - 1);
    }
  }

  /** When nothing blocks the view, every cell is visible. */
  lemma {:induction false} PartialAllTransparent(g: Grid, a: Position, p: Position)
    requires g.Contains(a) && a.y == g.height - 1 && g.Contains(p)
    requires forall q | g.Contains(q) :: Transparent(g.At(q))
    ensures PartialVisible(g, a, p)
    decreases a.y - p.y + Abs(p.x - a.x)
  {
    if p != a {
      if p.y == a.y {
        var q := if p.x > a.x then Position(p.y, p.x - 1) else Position(p.y, p.x + 1);
        PartialAllTransparent(g, a, q);
      } else {
        PartialAllTransparent(g, a, Position(p.y + 1, p.x));
      }
    }
  }

  // ---------------------------------------------------------------------------------
  // Minigrid visibility
  // ---------------------------------------------------------------------------------

  /** Cell `q` is visible and lets light through. */
  predicate Lit(g: Grid, vis: set<Position>, q: Position) {
    q in vis && g.Contains(q) && Transparent(g.At(q))
  }

  /** Processes cell `p` of a sweep in direction `dx`: a visible transparent cell makes
      its neighbour in direction `dx` visible and, below the top row, the cell above it
      and the cell above that neighbour. */
  function Light(g: Grid, vis: set<Position>, p: Position, dx: int): (r: set<Position>)
    ensures vis <= r
    ensures forall q | q in r && q !in vis ::
      (Lit(g, vis, p) && (q == Position(p.y, p.x + dx) ||
        (p.y > 0 && (q == Position(p.y - 1, p.x) || q == Position(p.y - 1, p.x + dx)))))
  {
    if Lit(g, vis, p) then
      vis + {Position(p.y, p.x + dx)} + (if p.y > 0 then {Position(p.y - 1, p.x), Position(p.y - 1, p.x + dx)} else {})
    else vis
  }

  /** The left-to-right pass over row `y`, from column `x` to the second-to-last. */
  function SweepRight(g: Grid, vis: set<Position>, y: int, x: int): (r: set<Position>)
    requires 0 <= x
    ensures vis <= r
    ensures forall q | q in r && q !in vis :: q.y == y || q.y == y - 1
    decreases g.width - x
  {
    if x >= g.width - 1 then vis else SweepRight(g, Light(g, vis, Position(y, x), 1), y, x + 1)
  }

  /** The right-to-left pass over row `y`, from column `x` down to the second. */
  function SweepLeft(g: Grid, vis: set<Position>, y: int, x: int): (r: set<Position>)
    ensures vis <= r
    ensures forall q | q in r && q !in vis :: q.y == y || q.y == y - 1
    decreases x
  {
    if x <= 0 then vis else SweepLeft(g, Light(g, vis, Position(y, x), -1), y, x - 1)
  }

  /** Both passes over row `y`. */
  function SweepRow(g: Grid, vis: set<Position>, y: int): (r: set<Position>)
    ensures vis <= r
    ensures forall q | q in r && q !in vis :: q.y == y || q.y == y - 1
  {
    SweepLeft(g, SweepRight(g, vis, y, 0), y, g.width - 1)
  }

  /** The rows from `y` up to the top. */
  function SweepRows(g: Grid, vis: set<Position>, y: int): (r: set<Position>)
    ensures vis <= r
    ensures forall q | q in r && q !in vis :: q.y <= y
    decreases y + 1
  {
    if y < 0 then vis else SweepRows(g, SweepRow(g, vis, y), y - 1)
  }

  /** `minigrid_visibility`. An agent off the bottom row raises NotImplementedError; a
      column outside `[-width, width)` raises IndexError, and a negative one counts from
      the right edge, as array indexing does. */
  function MinigridMask(g: Grid, a: Position): (r: Result<Mask>)
    ensures a.y != g.height - 1 ==> r == Failure(NotImplementedError)
    ensures a.y == g.height - 1 ==> (r.Success? <==> 0 <= a.y && AxisIndex(a.x, g.width).Some?)
    ensures a.y == g.height - 1 && r.Failure? ==> r.error == IndexError
    ensures r.Success? ==> r.value.Shape() == g.Shape()
  {
    if a.y != g.height - 1 then Failure(NotImplementedError)
    else if a.y < 0 then Failure(IndexError)
    else match AxisIndex(a.x, g.width)
      case None => Failure(IndexError)
      case Some(x) =>
        var vis := SweepRows(g, {Position(a.y, x)}, a.y);
        Success(MaskOf(g.height, g.width, p => p in vis))
  }

  /** The cell the minigrid agent occupies once its column is wrapped. */
  function MinigridAgent(g: Grid, a: Position): Position
    requires AxisIndex(a.x, g.width).Some?
  {
    Position(a.y, AxisIndex(a.x, g.width).value)
  }

  /** Some neighbour beside `p` or below it (straight or diagonally) is lit. */
  predicate Witnessed(g: Grid, vis: set<Position>, p: Position) {
    Lit(g, vis, Position(p.y, p.x - 1)) || Lit(g, vis, Position(p.y, p.x + 1)) ||
    Lit(g, vis, Position(p.y + 1, p.x - 1)) || Lit(g, vis, Position(p.y + 1, p.x)) ||
    Lit(g, vis, Position(p.y + 1, p.x + 1))
  }

  /** Every visible cell is in the grid and is the agent's or is witnessed. */
  ghost predicate Sound(g: Grid, a: Position, vis: set<Position>) {
    forall p | p in vis :: g.Contains(p) && (p == a || Witnessed(g, vis, p))
  }

  /** `q` is visible if it is in the grid. */
  predicate Shown(g: Grid, vis: set<Position>, q: Position) {
    g.Contains(q) ==> q in vis
  }

  /** The in-grid cells a lit `p` reaches to its right: the cell beside it and the two
      above those. */
  predicate SpreadRight(g: Grid, vis: set<Position>, p: Position) {
    Shown(g, vis, Position(p.y, p.x + 1)) && Shown(g, vis, Position(p.y - 1, p.x)) &&
    Shown(g, vis, Position(p.y - 1, p.x + 1))
  }

  /** The in-grid cells a lit `p` reaches to its left. */
  predicate SpreadLeft(g: Grid, vis: set<Position>, p: Position) {
    Shown(g, vis, Position(p.y, p.x - 1)) && Shown(g, vis, Position(p.y - 1, p.x)) &&
    Shown(g, vis, Position(p.y - 1, p.x - 1))
  }

  lemma LightSound(g: Grid, a: Position, vis: set<Position>, p: Position, dx: int)
    requires Sound(g, a, vis) && (dx == 1 || dx == -1)
    requires g.Contains(p) && g.Contains(Position(p.y, p.x + dx))
    ensures Sound(g, a, Light(g, vis, p, dx))
  {
    var r := Light(g, vis, p, dx);
    forall q | q in r ensures g.Contains(q) && (q == a || Witnessed(g, r, q)) {
      if q !in vis {
        assert Lit(g, r, p);
      } else {
        assert q == a || Witnessed(g, vis, q);
      }
    }
  }

  lemma {:induction false} SweepRightSound(g: Grid, a: Position, vis: set<Position>, y: int, x: int)
    requires Sound(g, a, vis) && 0 <= y < g.height && 0 <= x
    ensures Sound(g, a, SweepRight(g, vis, y, x))
    decreases g.width - x
  {
    if x < g.width - 1 {
      LightSound(g, a, vis, Position(y, x), 1);
      SweepRightSound(g, a, Light(g, vis, Position(y, x), 1), y, x + 1);
    }
  }

  lemma {:induction false} SweepLeftSound(g: Grid, a: Position, vis: set<Position>, y: int, x: int)
    requires Sound(g, a, vis) && 0 <= y < g.height && x < g.width
    ensures Sound(g, a, SweepLeft(g, vis, y, x))
    decreases x
  {
    if x > 0 {
      LightSound(g, a, vis, Position(y, x), -1);
      SweepLeftSound(g, a, Light(g, vis, Position(y, x), -1), y, x - 1);
    }
  }

  lemma {:induction false} SweepRowsSound(g: Grid, a: Position, vis: set<Position>, y: int)
    requires Sound(g, a, vis) && y < g.height
    ensures Sound(g, a, SweepRows(g, vis, y))
    decreases y + 1
  {
    if y >= 0 {
      var right := SweepRight(g, vis, y, 0);
      var row := SweepLeft(g, right, y, g.width - 1);
      assert row == SweepRow(g, vis, y);
      SweepRightSound(g, a, vis, y, 0);
      SweepLeftSound(g, a, right, y, g.width - 1);
      SweepRowsSound(g, a, row, y - 1);
      assert SweepRows(g, vis, y) == SweepRows(g, row, y - 1);
    }
  }

  /** Every lit cell of row `y` left of column `x` has spread to its right. */
  ghost predicate SpreadRightBefore(g: Grid, vis: set<Position>, y: int, x: int) {
    forall p | Lit(g, vis, p) && p.y == y && p.x < x :: SpreadRight(g, vis, p)
  }

  /** Every lit cell of row `y` right of column `x` has spread to its left. */
  ghost predicate SpreadLeftAfter(g: Grid, vis: set<Position>, y: int, x: int) {
    forall p | Lit(g, vis, p) && p.y == y && p.x > x :: SpreadLeft(g, vis, p)
  }

  lemma {:induction false} SweepRightSpreads(g: Grid, vis: set<Position>, y: int, x: int)
    requires 0 <= y < g.height && 0 <= x && SpreadRightBefore(g, vis, y, x)
    ensures SpreadRightBefore(g, SweepRight(g, vis, y, x), y, g.width - 1)
    decreases g.width - x
  {
    if x < g.width - 1 {
      var vis' := Light(g, vis, Position(y, x), 1);
      forall p | Lit(g, vis', p) && p.y == y && p.x < x + 1 ensures SpreadRight(g, vis', p) {
        assert Lit(g, vis, p);
      }
      SweepRightSpreads(g, vis', y, x + 1);
    }
  }

  lemma {:induction false} SweepLeftSpreads(g: Grid, vis: set<Position>, y: int, x: int)
    requires 0 <= y < g.height && x < g.width
    requires SpreadLeftAfter(g, vis, y, x) && SpreadRightBefore(g, vis, y, g.width - 1)
    ensures SpreadLeftAfter(g, SweepLeft(g, vis, y, x), y, 0)
    ensures SpreadRightBefore(g, SweepLeft(g, vis, y, x), y, g.width - 1)
    decreases x
  {
    if x > 0 {
      var vis' := Light(g, vis, Position(y, x), -1);
      LightLeftSpreads(g, vis, y, x);
      LightLeftKeepsRight(g, vis, y, x);
      SweepLeftSpreads(g, vis', y, x - 1);
    }
  }

  /** One step of the right-to-left pass extends the spread-left cells by column `x`. */
  lemma LightLeftSpreads(g: Grid, vis: set<Position>, y: int, x: int)
    requires 0 <= y < g.height && 0 < x < g.width && SpreadLeftAfter(g, vis, y, x)
    ensures SpreadLeftAfter(g, Light(g, vis, Position(y, x), -1), y, x - 1)
  {
    var vis' := Light(g, vis, Position(y, x), -1);
    forall p | Lit(g, vis', p) && p.y == y && p.x > x - 1 ensures SpreadLeft(g, vis', p) {
      assert Lit(g, vis, p);
    }
  }

  /** A cell the right-to-left pass makes visible has already spread to its right, by
      way of the cell that lit it. */
  lemma LightLeftKeepsRight(g: Grid, vis: set<Position>, y: int, x: int)
    requires 0 <= y < g.height && 0 < x < g.width && SpreadRightBefore(g, vis, y, g.width - 1)
    ensures SpreadRightBefore(g, Light(g, vis, Position(y, x), -1), y, g.width - 1)
  {
    var p0 := Position(y, x);
    var vis' := Light(g, vis, p0, -1);
    forall p | Lit(g, vis', p) && p.y == y && p.x < g.width - 1 ensures SpreadRight(g, vis', p) {
      if p !in vis {
        assert Lit(g, vis, p0) && p == Position(y, x - 1);
      } else {
        assert Lit(g, vis, p);
      }
    }
  }

  /** Every lit cell below row `y` has spread both ways. */
  ghost predicate SpreadBelow(g: Grid, vis: set<Position>, y: int) {
    forall p | Lit(g, vis, p) && p.y > y :: SpreadRight(g, vis, p) && SpreadLeft(g, vis, p)
  }

  /** Once both passes over row `y` are done, every lit cell of that row has spread both
      ways, provided the row is at least two cells wide. */
  lemma SweepRowSpreads(g: Grid, vis: set<Position>, y: int)
    requires 0 <= y < g.height && g.width >= 2 && SpreadBelow(g, vis, y)
    ensures SpreadBelow(g, SweepRow(g, vis, y), y - 1)
  {
    var right := SweepRight(g, vis, y, 0);
    SweepRightSpreads(g, vis, y, 0);
    SweepLeftSpreads(g, right, y, g.width - 1);
    var r := SweepRow(g, vis, y);
    forall p | Lit(g, r, p) && p.y > y - 1 ensures SpreadRight(g, r, p) && SpreadLeft(g, r, p) {
      if p.y > y {
        assert Lit(g, vis, p);
      }
    }
  }

  lemma {:induction false} SweepRowsSpread(g: Grid, vis: set<Position>, y: int)
    requires y < g.height && g.width >= 2 && SpreadBelow(g, vis, y)
    ensures SpreadBelow(g, SweepRows(g, vis, y), -1)
    decreases y + 1
  {
    if y >= 0 {
      SweepRowSpreads(g, vis, y);
      SweepRowsSpread(g, SweepRow(g, vis, y), y - 1);
    }
  }

  // ---------------------------------------------------------------------------------
  // Properties of the minigrid mask
  // ---------------------------------------------------------------------------------

  /** The minigrid mask shows the agent's cell, and every other cell it shows has a
      visible transparent neighbour beside it or below it. */
  lemma MinigridSound(g: Grid, a: Position)
    requires MinigridMask(g, a).Success?
    ensures var m := MinigridMask(g, a).value; var b := MinigridAgent(g, a);
      m.At(b) &&
      forall p | g.Contains(p) && m.At(p) :: p == b ||
        Witnessed(g, Seen(m), p)
  {
    var b := MinigridAgent(g, a);
    var vis := SweepRows(g, {b}, a.y);
    SweepRowsSound(g, b, {b}, a.y);
    var m := MinigridMask(g, a).value;
    assert Seen(m) == vis;
  }

  /** On a grid at least two cells wide, the minigrid mask is closed: every in-grid cell
      beside a visible transparent cell, or above it straight or diagonally, is visible. */
  lemma MinigridClosed(g: Grid, a: Position)
    requires MinigridMask(g, a).Success? && g.width >= 2
    ensures var vis := Seen(MinigridMask(g, a).value);
      forall p | Lit(g, vis, p) :: SpreadRight(g, vis, p) && SpreadLeft(g, vis, p)
  {
    var b := MinigridAgent(g, a);
    var vis := SweepRows(g, {b}, a.y);
    SweepRowsSpread(g, {b}, a.y);
    var m := MinigridMask(g, a).value;
    SweepRowsSound(g, b, {b}, a.y);
    assert Seen(m) == vis;
  }

  /** On a grid one cell wide neither pass runs, so the agent sees only its own cell. */
  lemma MinigridNarrow(g: Grid, a: Position)
    requires MinigridMask(g, a).Success? && g.width == 1
    ensures forall p | g.Contains(p) :: MinigridMask(g, a).value.At(p) <==> p == MinigridAgent(g, a)
  {
    var b := MinigridAgent(g, a);
    NarrowRows(g, {b}, a.y);
  }

  lemma {:induction false} NarrowRows(g: Grid, vis: set<Position>, y: int)
    requires g.width == 1
    ensures SweepRows(g, vis, y) == vis
    decreases y + 1
  {
    if y >= 0 {
      NarrowRows(g, SweepRow(g, vis, y), y - 1);
    }
  }

  // ---------------------------------------------------------------------------------
  // The factory
  // ---------------------------------------------------------------------------------

  datatype VisibilityFunction = Full | Partial | Minigrid | Raytracing | StochasticRaytracing

  /** The raytracing variants, whose rays come from floating-point trigonometry and whose
      stochastic variant draws random numbers; they are not part of this model. */
  type Raytraced = (VisibilityFunction, Grid, Position) -> Result<Mask>

  function Apply(f: VisibilityFunction, g: Grid, a: Position, raytraced: Raytraced): (r: Result<Mask>)
    ensures f.Full? ==> r == Success(FullMask(g))
    ensures f.Partial? ==> r == PartialMask(g, a)
    ensures f.Minigrid? ==> r == MinigridMask(g, a)
    ensures (f.Raytracing? || f.StochasticRaytracing?) ==> r == raytraced(f, g, a)
  {
    match f
    case Full => Success(FullMask(g))
    case Partial => PartialMask(g, a)
    case Minigrid => MinigridMask(g, a)
    case _ => raytraced(f, g, a)
  }

  function Name(f: VisibilityFunction): string {
    match f
    case Full => "full_visibility"
    case Partial => "partial_visibility"
    case Minigrid => "minigrid_visibility"
    case Raytracing => "raytracing_visibility"
    case StochasticRaytracing => "stochastic_raytracing_visibility"
  }

  /** `factory`: the visibility function with that name; any other name raises
      ValueError. */
  function Factory(name: string): (r: Result<VisibilityFunction>)
    ensures r.Success? ==> Name(r.value) == name
    ensures r.Failure? ==> r.error == ValueError
  {
    if name == "full_visibility" then Success(Full)
    else if name == "partial_visibility" then Success(Partial)
    else if name == "minigrid_visibility" then Success(Minigrid)
    else if name == "raytracing_visibility" then Success(Raytracing)
    else if name == "stochastic_raytracing_visibility" then Success(StochasticRaytracing)
    else Failure(ValueError)
  }

  /** Every visibility function is built back from its name, so the factory fails only
      on names that are no function's. */
  lemma FactoryRoundTrip(f: VisibilityFunction)
    ensures Factory(Name(f)) == Success(f)
  {
  }

  lemma FactoryRejects(name: string)
    requires forall f: VisibilityFunction :: Name(f) != name
    ensures Factory(name) == Failure(ValueError)
  {
    assert Name(Full) != name && Name(Partial) != name && Name(Minigrid) != name;
    assert Name(Raytracing) != name && Name(StochasticRaytracing) != name;
  }
}

=== FILE: wrappers.dfy ===
/** Failure-compatible result types. Every Python exception the simulator can raise is
    modelled as a `Failure` carrying the exception's class. */
module Wrappers {

  /** The Python exception classes the modelled code raises. */
  datatype ErrorKind =
    | ValueError
    | IndexError
    | TypeError
    | RuntimeError
    | NotImplementedError
    | StopIteration

  datatype Option<+T> = None | Some(value: T) {
    predicate IsFailure() { None? }

    function PropagateFailure<U>(): Option<U>
      requires None?
    {
      None
    }

    function Extract(): T
      requires Some?
    {
      value
    }

    function GetOr(default: T): T {
      match this
      case Some(v) => v
      case None => default
    }
  }

  /** Either a value or the exception the Python code would raise. */
  datatype Result<+T> = Success(value: T) | Failure(error: ErrorKind) {
    predicate IsFailure() { Failure? }

    function PropagateFailure<U>(): Result<U>
      requires Failure?
    {
      Failure(error)
    }

    function Extract(): T
      requires Success?
    {
      value
    }
  }

  /** The values of a sequence of results from index `i` on, as Python builds a list from
      a generator whose items may raise: the items are taken in order and the first error
      met propagates. */
  function Collect<T>(rs: seq<Result<T>>, i: nat): (r: Result<seq<T>>)
    requires i <= |rs|
    ensures r.Success? <==> forall k | i <= k < |rs| :: rs[k].Success?
    ensures r.Success? ==>
      |r.value| == |rs| - i && forall k | 0 <= k < |r.value| :: rs[i + k] == Success(r.value[k])
    decreases |rs| - i
  {
    if i == |rs| then Success([])
    else if rs[i].Failure? then Failure(rs[i].error)
    else
      var rest := Collect(rs, i + 1);
      if rest.Failure? then rest
      else
        var xs := [rs[i].value] + rest.value;
        assert forall k | 1 <= k < |xs| :: xs[k] == rest.value[k - 1];
        Success(xs)
  }

  /** The first error of a sequence of results is the one collecting them raises. */
  lemma {:induction false} CollectFails<T>(rs: seq<Result<T>>, i: nat, k: nat)
    requires i <= k < |rs| && rs[k].Failure?
    requires forall m | i <= m < k :: rs[m].Success?
    ensures Collect(rs, i) == Failure(rs[k].error)
    decreases k - i
  {
    if i < k {
      CollectFails(rs, i + 1, k);
    }
  }

  /** A failed collection raises the error of the first failing result. */
  lemma {:induction false} CollectFailure<T>(rs: seq<Result<T>>, i: nat)
    requires i <= |rs| && Collect(rs, i).Failure?
    ensures exists k | i <= k < |rs| ::
      rs[k] == Failure(Collect(rs, i).error) && forall m | i <= m < k :: rs[m].Success?
    decreases |rs| - i
  {
    if rs[i].Success? {
      CollectFailure(rs, i + 1);
    } else {
      assert rs[i] == Failure(Collect(rs, i).error);
    }
  }

  /** Results that all succeed are collected in order. */
  lemma CollectSucceeds<T>(rs: seq<Result<T>>, xs: seq<T>)
    requires |xs| == |rs| && forall k | 0 <= k < |rs| :: rs[k] == Success(xs[k])
    ensures Collect(rs, 0) == Success(xs)
  {
    var r := Collect(rs, 0);
    assert r.Success?;
    forall k | 0 <= k < |xs| ensures r.value[k] == xs[k] {
      assert rs[0 + k] == Success(r.value[k]);
    }
    assert r.value == xs;
  }

  /** Collecting two sequences of results one after the other: the first error of the
      first wins, then the first error of the second, and otherwise the values are
      concatenated. */
  lemma CollectAppend<T>(rs: seq<Result<T>>, ss: seq<Result<T>>)
    ensures var x, y := Collect(rs, 0), Collect(ss, 0);
      Collect(rs + ss, 0) == if x.Failure? then x else if y.Failure? then y else Success(x.value + y.value)
  {
    var x, y := Collect(rs, 0), Collect(ss, 0);
    var both := rs + ss;
    if x.Failure? {
      CollectFailure(rs, 0);
      var k :| 0 <= k < |rs| && rs[k] == Failure(x.error) && forall m | 0 <= m < k :: rs[m].Success?;
      assert both[k] == rs[k];
      CollectFails(both, 0, k);
    } else if y.Failure? {
      CollectFailure(ss, 0);
      var k :| 0 <= k < |ss| && ss[k] == Failure(y.error) && forall m | 0 <= m < k :: ss[m].Success?;
      assert both[|rs| + k] == ss[k];
      forall m | 0 <= m < |rs| + k ensures both[m].Success? {
        if m >= |rs| {
          assert both[m] == ss[m - |rs|];
        }
      }
      CollectFails(both, 0, |rs| + k);
    } else {
      var zs := x.value + y.value;
      forall k | 0 <= k < |both| ensures both[k] == Success(zs[k]) {
        if k < |rs| {
          assert rs[0 + k] == Success(x.value[k]);
        } else {
          assert ss[0 + (k - |rs|)] == Success(y.value[k - |rs|]);
        }
      }
      CollectSucceeds(both, zs);
    }
  }
}
